=== FILE: README.md ===
# blok — a Dafny model of the blog client and its Spring services

blok is a small blogging platform: a Next.js client (feed, trends, profile,
comment threads, admin tables, registration and profile forms) over a Spring
backend (posts, comments, likes, saved posts, views, users, categories,
authentication). This project models the logic of both halves that changes
state or decides something, and proves what that logic promises.

The client side is modelled hook by hook and page by page. Each hook or page
whose state the code updates step by step is a `class` whose fields are that
state (`posts`, `likedPosts`, `comments`, `page`, `query`, `errors`, the view
tracker's pending set and timer, the error reporter's buffer). Its handlers are
methods whose `ensures` give the whole new state. Pure mappers, validators and
filters are functions with lemmas about them. An answer of the HTTP client is a
value `Api.Response` (data, error text, status; status 0 for a network
failure), passed in as a parameter. Timers, storage and the DOM become explicit
events and parameters.

The server side is modelled service by service over one store (`Store.Db`):
- the users, posts, comments and categories as maps from ids;
- likes, comment likes, saves and views as sets of (user, target) rows;
- the tag table as a map from names to slugs.

Each service is a class holding the store. Its methods return a `Result`:
- the value, or the exception the Java code throws, with the Java message;
- a failure leaves the store as it was. The transactional methods are rolled back. The others write only after every check that can fail, or fail on their single write: `createPost`, `createComment`, `toggleLikeComment`, `updateProfile`, `createCategory`, `deleteCategory` and the uploads;
- every method keeps the store's foreign keys satisfied (`Db.Consistent`).

The token reader, password encoder, authentication manager, token generator,
UUIDs, the clock and the image host are parameters of the calls. So are the
answers of repository queries the model does not define: ranking, batch counts
and liked-ids.

Likes on the client. The profile page applies a like at once and then
reconciles with whatever post the server returns; it never rolls back.
`usePosts` updates only after a 200 answer.

## Model

| member | source | states |
|---|---|---|
| AdminPaging.BuildParams | frontend/hooks/useAdminUsers.ts:27-36 | explicit options override the stored page, size and query; `q` is sent exactly when the chosen query is not blank, and then trimmed |
| AdminPaging.PaginationOf | frontend/hooks/useAdminUsers.ts:97-106 | without a page the pagination is the local page and size with zero totals and isFirst = isLast = true; with a page it is that page's number, size, total pages, total elements, first and last flags (the same code is frontend/hooks/useAdminPosts.ts:72-81) |
| AdminPaging.PagedHook.constructor | frontend/hooks/useAdminUsers.ts:13-19 | the query defaults to "", the page starts at 0, the size defaults to 20, and there is no data yet |
| AdminPaging.PagedHook.Fetch | frontend/hooks/useAdminUsers.ts:22-51 | the request carries `BuildParams` of the options and the stored state; a response with data replaces the page and clears the error; one without data keeps the old page and records the API error; loading ends false (the same code is frontend/hooks/useAdminPosts.ts:22-51) |
| AdminPaging.PagedHook.SetPageSafe | frontend/hooks/useAdminUsers.ts:53-55 | the stored page is `max(0, next)`, so it is never negative (the same code is frontend/hooks/useAdminPosts.ts:53-55) |
| AdminPaging.PagedHook.Search | frontend/hooks/useAdminUsers.ts:57-61 | stores the query, resets the page to 0, and fetches page 0 with the stored size and the trimmed query when it is not blank (the same code is frontend/hooks/useAdminPosts.ts:57-61) |
| AdminPaging.PagedHook.Refresh | frontend/hooks/useAdminUsers.ts:63-65 | fetches again with the stored page, size and query |
| AdminPaging.PagedHook.SetSize | frontend/hooks/useAdminUsers.ts:17 | the page size becomes the given size |
| AdminPaging.PagedHook.Rows | frontend/hooks/useAdminUsers.ts:108-109 | the listed rows are the page's content, or none before a page arrives |
| AdminPaging.PagedHook.CurrentPagination | frontend/hooks/useAdminUsers.ts:97-106 | before any page arrives the pagination shows a non-negative page, zero pages and isFirst = isLast = true |
| AdminUsers.WithoutUser | frontend/hooks/useAdminUsers.ts:72-80 | the content is the old content with exactly the users of that id deleted, the others kept in order with every copy; totalElements drops by one but not below 0, and every other page field is unchanged |
| AdminUsers.Remove | frontend/hooks/useAdminUsers.ts:76 | `filter`: a subsequence of the list holding every copy of each user with another id and no user with that id |
| AdminUsers.DeleteUser | frontend/hooks/useAdminUsers.ts:67-89 | a 200 or 204 answer succeeds and applies `WithoutUser` to the stored page, if any; any other status fails with the answer's error or "Kullanıcı silinemedi" and leaves the page unchanged |
| AuthContext.TokenRole | frontend/contexts/AuthContext.tsx:48-62 | the stored token yields ADMIN exactly when its readable `roles` array holds ADMIN, USER exactly when it holds USER but not ADMIN, and nothing otherwise (no token, unreadable payload, neither role) |
| AuthContext.DerivedRole | frontend/contexts/AuthContext.tsx:64 | the token's role wins; otherwise the previous user's role; otherwise USER |
| AuthContext.RefetchKeepsRole | frontend/contexts/AuthContext.tsx:64 | fetching again with the same token, after the first fetch's user became the previous user, keeps the role the first fetch derived |
| AuthContext.Auth.constructor | frontend/contexts/AuthContext.tsx:22-25 | a new provider has no user and no token and is loading |
| AuthContext.Auth.Logout | frontend/contexts/AuthContext.tsx:163-167 | clears user, token and the stored token, so the session is neither authenticated nor admin |
| AuthContext.Auth.FetchUserProfile | frontend/contexts/AuthContext.tsx:42-73 | with data the user becomes the fetched profile with the derived role, and is admin exactly when the token claims ADMIN or, with no token role, the previous user was admin; without data the session is logged out; the session token stays in step with storage |
| AuthContext.Auth.InitAuth | frontend/contexts/AuthContext.tsx:27-40 | a saved token is adopted and its profile fetched, giving an authenticated session or a logout; without one nothing changes; loading ends false |
| AuthContext.Auth.Login | frontend/contexts/AuthContext.tsx:75-104 | a successful answer stores its token in the session and in storage and sets the profile fetched afterwards, with the derived role; a failed answer returns its error or "Giriş başarısız" and changes nothing |
| AuthContext.Auth.AdminLogin | frontend/contexts/AuthContext.tsx:106-140 | an answer without a token fails and changes nothing; a token whose payload does not claim ADMIN is dropped after the profile fetch with "Sadece admin giriş yapabilir."; success holds exactly when the payload claims ADMIN |
| AuthContext.Auth.Register | frontend/contexts/AuthContext.tsx:142-161 | a successful registration logs in with the same username and password and returns that login's result: when the login and the profile fetch answer, the session token and the stored token are the login's token and the user is the fetched profile with its derived role; a failed profile fetch logs out; a failed login returns its error or "Giriş başarısız" and changes nothing; a failed registration returns its error or "Kayıt başarısız" and changes nothing |
| AuthContext.Auth.RefreshProfile | frontend/contexts/AuthContext.tsx:169-173 | without a session token nothing changes; with one the profile is fetched again |
| CommentSection.Bucket | frontend/components/CommentSection.tsx:86-89 | under 1 minute is "just now", whole minutes under 60, whole hours (1 to 23, rounded down) under 1440 minutes, and whole days (rounded down) otherwise |
| CommentSection.BucketMonotone | frontend/components/CommentSection.tsx:86-89 | more elapsed time never shows a smaller unit, nor a smaller count in the same unit |
| CommentSection.FormatDate | frontend/components/CommentSection.tsx:81-90 | the label of the minutes elapsed, rounded down; "Az önce" exactly under one minute; an unparsable date (NaN) falls through to "NaNg önce" |
| CommentSection.AlertFor | frontend/components/CommentSection.tsx:66-68 | an alert is shown exactly for a failure with a non-empty message, and shows that message |
| CommentSection.HandleDeleteComment | frontend/components/CommentSection.tsx:61-70 | the hook is called exactly when there is a token and the user confirms, and then a failure's message is alerted |
| CommentSection.HandleLikeComment | frontend/components/CommentSection.tsx:72-79 | the hook is called exactly when there is a token, and then a failure's message is alerted |
| CommentSection.DeleteShownAsWrittenOnlyForAdmins | frontend/components/CommentSection.tsx:117 | as written, a user whose profile has loaded (its id a number) sees a comment's delete button exactly when an admin, whoever the comment's author is |
| CommentSection.AuthorGetsNoDeleteAsWritten | frontend/components/CommentSection.tsx:117 | as written, a user who is not an admin gets no delete button on a comment whose author id is their own |
| CommentSection.DeleteShownForAuthor | frontend/components/CommentSection.tsx:117 | with the ids compared as text, a user whose profile has loaded sees the delete button exactly when an admin or when the comment's author has the user's id |
| CommentSection.NoReplyBelowTopLevel | frontend/components/CommentSection.tsx:143-190 | no comment rendered as a reply offers a reply button, at any depth |
| CommentSection.TopLevelReplyTargets | frontend/components/CommentSection.tsx:143-150 | a top-level comment offers exactly its own reply button, and only to a signed-in user |
| CommentSection.CommentForm.constructor | frontend/components/CommentSection.tsx:18-21 | the form starts empty, with no reply open and nothing submitting |
| CommentSection.CommentForm.SubmitComment | frontend/components/CommentSection.tsx:23-39 | no request without a token, with blank text or while submitting, and then nothing changes; otherwise the trimmed text is sent with no parent, cleared only on success, a failure alerts its message or "Yorum gönderilemedi", and submitting ends false |
| CommentSection.CommentForm.SettleComment | frontend/components/CommentSection.tsx:33-38 | success clears the text; failure keeps it and alerts; submitting ends false |
| CommentSection.CommentForm.SubmitReply | frontend/components/CommentSection.tsx:41-59 | the same guard on the reply text; the request carries the parent id; success clears the reply text and closes the reply form; failure keeps both and alerts "Yanıt gönderilemedi" or its message |
| CommentSection.CommentForm.SettleReply | frontend/components/CommentSection.tsx:52-58 | success clears the reply text and `replyTo`; failure keeps them and alerts; submitting ends false |
| CommentSection.CommentForm.ToggleReplyTo | frontend/components/CommentSection.tsx:145 | the reply button closes the form if it is open under this comment and opens it there otherwise |
| CommentSection.CommentForm.CancelReply | frontend/components/CommentSection.tsx:168-171 | cancel closes the reply form and empties its text |
| ErrorHandler.StateOf | frontend/hooks/useErrorHandler.ts:28-34 | the stored record keeps the error, is an error exactly when the message is present and non-empty, and has type "error" unless a type is given |
| ErrorHandler.ContainsCharOf | frontend/hooks/useErrorHandler.ts:69 | every character of an occurring piece occurs in the whole string (used to rule out "timeout" in the connection message) |
| ErrorHandler.ConnectionMessageHasNoTimeout | frontend/hooks/useErrorHandler.ts:65-69 | the fixed connection message does not contain "timeout" |
| ErrorHandler.HandleErrorOutcome | frontend/hooks/useErrorHandler.ts:44-77 | a message with a network keyword becomes the connection message with type "network"; otherwise one containing "timeout" becomes the timeout message with type "network"; otherwise the message stays, with type "error"; an Error gives its message, a string itself, anything else the default |
| ErrorHandler.NetworkKeywordWinsOverTimeout | frontend/hooks/useErrorHandler.ts:58-72 | a message with a network keyword ends as the connection message even when it also contains "timeout" |
| ErrorHandler.ApiErrorOutcome | frontend/hooks/useErrorHandler.ts:79-123 | 400/401/403/404 give their fixed message with type "error", 429 the rate-limit message with "warning", 500/502/503/504 their fixed message with "network"; any other status keeps the answer's error or the default, with "network" exactly when the status is at least 500 |
| ErrorHandler.TransportFailureIsNotNetwork | frontend/hooks/useErrorHandler.ts:81-85 | status 0 skips the switch: type "error" with the answer's error or the default message |
| ErrorHandler.ErrorHandlerHook.constructor | frontend/hooks/useErrorHandler.ts:22-26 | the hook starts cleared |
| ErrorHandler.ErrorHandlerHook.SetError | frontend/hooks/useErrorHandler.ts:28-34 | the state becomes `StateOf` the arguments |
| ErrorHandler.ErrorHandlerHook.ClearError | frontend/hooks/useErrorHandler.ts:36-42 | the state becomes (null, false, "error") |
| ErrorHandler.ErrorHandlerHook.HandleError | frontend/hooks/useErrorHandler.ts:44-77 | the state becomes the classification of the thrown value |
| ErrorHandler.ErrorHandlerHook.HandleApiError | frontend/hooks/useErrorHandler.ts:79-123 | the state becomes the classification of the answer's error and status |
| ErrorReporting.MakeReport | frontend/lib/errorReporting.ts:59-68 | the report keeps the input's message, stack, context and user id; its time is the environment's clock reading; its url is the page address, or "" outside a browser; its user agent is the browser's, or "" without one; its severity is "medium" unless one is given |
| ErrorReporting.Pushed | frontend/lib/errorReporting.ts:71-74 | the new report is first, the old entries follow in order, and the list is cut to the cap |
| ErrorReporting.PushedManyKeepsNewest | frontend/lib/errorReporting.ts:71-74 | after a run of reports the buffer starts with the newest ones, newest first, up to the cap |
| ErrorReporting.PushAll | frontend/lib/errorReporting.ts:71-74 | reporting several entries never takes a buffer within the cap past the cap, and the length is the old length plus the new entries, capped |
| ErrorReporting.ErrorReporter.constructor | frontend/lib/errorReporting.ts:14-26 | the single reporter starts with an empty buffer, and the persisted list is what storage held |
| ErrorReporting.ErrorReporter.ReportError | frontend/lib/errorReporting.ts:52-83 | the buffer becomes the new report pushed onto the old one, capped at 50; with storage the persisted list gets the same push, capped at 20; without storage it is unchanged |
| ErrorReporting.ErrorReporter.SendToMonitoringService | frontend/lib/errorReporting.ts:85-103 | with storage the persisted list becomes the report pushed onto it and cut to its 20 newest entries; otherwise it is unchanged |
| ErrorReporting.ErrorReporter.GetReports | frontend/lib/errorReporting.ts:105-107 | returns the buffer's entries |
| ErrorReporting.ErrorReporter.ClearReports | frontend/lib/errorReporting.ts:109-114 | empties the buffer, and the persisted list too when there is storage |
| ErrorReporting.SnapshotIsIndependent | frontend/lib/errorReporting.ts:105-107 | a copy taken before a report still holds the old entries after the report is added |
| ErrorReporting.ApiErrorInput | frontend/lib/errorReporting.ts:124-141 | severity "high" exactly for an Error whose message contains "fetch", else "medium"; an Error gives its message and stack; anything else gives "API request failed" |
| ErrorReporting.UserErrorInput | frontend/lib/errorReporting.ts:143-149 | severity "low", and the context defaults to "User Action" |
| ErrorReporting.CriticalErrorInput | frontend/lib/errorReporting.ts:151-158 | severity "critical"; the message is an Error's message or the value's string form |
| ErrorReporting.HandleApiError | frontend/lib/errorReporting.ts:124-141 | the report built from `ApiErrorInput` goes first in the buffer, capped at 50, and, with storage, first in the persisted list, capped at 20; without storage the persisted list is unchanged |
| ErrorReporting.HandleUserError | frontend/lib/errorReporting.ts:143-149 | the report built from `UserErrorInput` goes first in the buffer, capped at 50, and, with storage, first in the persisted list, capped at 20; without storage the persisted list is unchanged |
| ErrorReporting.HandleCriticalError | frontend/lib/errorReporting.ts:151-158 | the report built from `CriticalErrorInput` goes first in the buffer, capped at 50, and, with storage, first in the persisted list, capped at 20; without storage the persisted list is unchanged |
| FormRules.MatchNeedsAtAndDot | frontend/app/register/page.tsx:45 | a string that matches `\S+@\S+\.\S+` contains an "@" and a "." |
| FormRules.AddressMatches | frontend/app/register/page.tsx:45 | any non-empty local part, domain and suffix without white space, joined as local@domain.suffix, match the pattern |
| FormRules.UsernameError | frontend/app/register/page.tsx:37-41 | no error exactly when the trimmed name is non-empty and the untrimmed name has at least 3 characters; "required" when blank, "too short" otherwise |
| FormRules.EmailError | frontend/app/register/page.tsx:43-47 | no error exactly when the address is not blank and matches the pattern; "required" when blank, "invalid" otherwise |
| FormRules.Record | frontend/app/register/page.tsx:35-57 | records a rule's error under its key, if there is one, and leaves every other key as it was |
| FormRules.BlankError | frontend/app/register/page.tsx:29-31 | a shown error for the edited field is blanked; every other entry is unchanged; an absent or empty one changes nothing |
| RegisterPage.PasswordError | frontend/app/register/page.tsx:49-53 | no error exactly when the password has at least 6 characters; "required" for the empty password, "too short" otherwise |
| RegisterPage.RegisterErrorsPerRule | frontend/app/register/page.tsx:34-57 | the form records one error per failing rule, under that field's key with that rule's message, and nothing else; the confirmation is compared independently of the other rules |
| RegisterPage.NoErrorsIffRulesHold | frontend/app/register/page.tsx:59-60 | the form records no error exactly when every rule holds |
| RegisterPage.RegisterForm.constructor | frontend/app/register/page.tsx:12-22 | the form starts with empty fields, no errors and not loading |
| RegisterPage.RegisterForm.HandleInputChange | frontend/app/register/page.tsx:27-32 | sets one field, blanks only that field's shown error, and leaves the other fields unchanged |
| RegisterPage.RegisterForm.ValidateForm | frontend/app/register/page.tsx:34-61 | the errors become exactly the rule errors, and the result is true exactly when there are none, that is, when every rule holds |
| RegisterPage.RegisterForm.HandleSubmit | frontend/app/register/page.tsx:63-84 | nothing is sent unless every rule holds, and then the errors shown are the rule errors; otherwise the form's values are sent with an empty bio as absent, success navigates home with no error shown, failure shows only a general error, and loading ends false |
| RegisterPage.RegisterForm.Settle | frontend/app/register/page.tsx:77-83 | navigation exactly on success; a failure replaces the errors with the general one, its message or "Kayıt başarısız"; loading ends false |
| ProfileEdit.BioError | frontend/app/profile/edit/page.tsx:116-118 | an error exactly when the bio is longer than 160 characters |
| ProfileEdit.WebsiteError | frontend/app/profile/edit/page.tsx:120-122 | an error exactly when a present, non-empty website does not start with "http" |
| ProfileEdit.CurrentError | frontend/app/profile/edit/page.tsx:125-128 | an error exactly when a password field is filled in and the current password is empty |
| ProfileEdit.NewError | frontend/app/profile/edit/page.tsx:129-133 | an error exactly when a password field is filled in and the new password is shorter than 6 characters: "required" if empty, "too short" otherwise |
| ProfileEdit.ConfirmError | frontend/app/profile/edit/page.tsx:134-136 | an error exactly when a password field is filled in and the confirmation differs from the new password |
| ProfileEdit.ProfileErrors | frontend/app/profile/edit/page.tsx:104-122 | the username, e-mail, bio and website each have an error exactly when their rule fails, with that rule's message, and there are no other keys |
| ProfileEdit.WithPasswordErrors | frontend/app/profile/edit/page.tsx:124-137 | while the password is being changed, adds the current, new and confirm errors exactly when their rules fail, each with its rule's message; otherwise adds nothing; the profile errors are unchanged |
| ProfileEdit.NoErrorsIffRulesHold | frontend/app/profile/edit/page.tsx:139-140 | the form has no error exactly when every rule holds |
| ProfileEdit.WithField | frontend/app/profile/edit/page.tsx:88 | sets one profile field and keeps every other one |
| ProfileEdit.WithPassword | frontend/app/profile/edit/page.tsx:95 | sets one password field and keeps the other two |
| ProfileEdit.ProfileEditForm.constructor | frontend/app/profile/edit/page.tsx:32-56 | the page starts with an empty profile and passwords, no errors and nothing saving |
| ProfileEdit.ProfileEditForm.HandleInputChange | frontend/app/profile/edit/page.tsx:87-92 | sets one profile field and blanks only that field's error |
| ProfileEdit.ProfileEditForm.HandlePasswordChange | frontend/app/profile/edit/page.tsx:94-99 | sets one password field and blanks only that field's error |
| ProfileEdit.ProfileEditForm.ValidateForm | frontend/app/profile/edit/page.tsx:101-141 | the errors become exactly the form's rule errors; the result is true exactly when every rule holds |
| ProfileEdit.ProfileEditForm.HandleSave | frontend/app/profile/edit/page.tsx:143-165 | sends the whole profile without validating it, with credentials exactly when the current and new passwords are both filled in; an answer with a profile shows it and clears the passwords; otherwise nothing but the saving flag changes |
| HomePage.FilteredPosts | frontend/app/page.tsx:56-68 | the corrected filter, which reads a missing tag list as no tags and a missing username as empty: keeps exactly the posts the active filter accepts (a non-empty query matched against content, title or author name ignoring case; otherwise a non-empty tag matched against some tag name; otherwise every post), in feed order as a subsequence, and the whole feed with no filter |
| HomePage.TestAsWritten | frontend/app/page.tsx:56-68 | the test of one post as written throws exactly when a search misses content and title and the author has no username, or a tag filter meets a post without tags; when it does not throw it agrees with the corrected filter's test |
| HomePage.RendersIffNoneThrows | frontend/app/page.tsx:56-68 | the filter as written renders exactly when no post's test throws |
| HomePage.AsWrittenAgreesWhenRendered | frontend/app/page.tsx:56-68 | wherever the filter as written renders, it renders what the corrected filter keeps |
| HomePage.CreatedEntryThrowsUnderTag | frontend/app/page.tsx:64-66 | with the just-created entry (no tags) in front of the feed, any tag filter throws during render |
| HomePage.AuthorlessEntryThrowsUnderSearch | frontend/app/page.tsx:57-63 | a just-created entry without an author throws under any search that misses its title and content |
| HomePage.CreatedEntryHiddenUnderTag | frontend/app/page.tsx:64-66 | the corrected filter hides the just-created entry under a tag filter and shows the rest of the feed as before |
| HomePage.SearchIgnoresTag | frontend/app/page.tsx:57-63 | with a non-empty search query, the result does not depend on the active tag |
| HomePage.HomeFilters.constructor | frontend/app/page.tsx:19-20 | the page starts with neither filter set |
| HomePage.HomeFilters.HandleSearch | frontend/app/page.tsx:40-43 | sets the query and clears the tag, so at most one filter is set |
| HomePage.HomeFilters.HandleTagFilter | frontend/app/page.tsx:45-48 | sets the tag and clears the query, so at most one filter is set |
| HomePage.HomeFilters.HandleClearFilters | frontend/app/page.tsx:50-53 | clears both filters |
| HomePage.HomeFilters.Visible | frontend/app/page.tsx:56-68 | the corrected filter on the page's state: a subsequence of the feed, the whole feed when no filter is set, and whenever the page as written renders, exactly what it renders |
| ImageUploader.TokenUserId | frontend/components/ProfileImageUploader.tsx:26-33 | a claim is found exactly when a token is stored, decodes, and carries a truthy `userId` claim |
| ImageUploader.ResolveUserId | frontend/components/ProfileImageUploader.tsx:18-35 | a usable prop wins, then a non-empty session user id, then the token's truthy claim; null exactly when none of the three is there |
| ImageUploader.ZeroPropWins | frontend/components/ProfileImageUploader.tsx:19-20 | a numeric prop of 0 is used, whatever the session and the token hold |
| ImageUploader.StringPropRoundTrip | frontend/components/ProfileImageUploader.tsx:19-20 | a natural number rendered as a string prop resolves back to that number |
| ImageUploader.Uploader.constructor | frontend/components/ProfileImageUploader.tsx:15 | not uploading at first |
| ImageUploader.Uploader.HandleFileChange | frontend/components/ProfileImageUploader.tsx:37-60 | nothing without a file; the "no user id" alert for a missing or NaN id; otherwise the upload goes to the resolved id; an answer with a truthy image URL is handed on and refreshes the profile: with a session token the user becomes the fetched profile with its derived role and the tokens stay, or the session is logged out when the fetch fails; any other answer alerts its error if it has one and leaves the session; uploading ends false |
| ImageUrl.ApiBaseUrl | frontend/lib/utils.ts:54-79 | the configured base URL when set; otherwise the Render backend for Vercel and Render hosts, localhost:8080 for local hosts and server-side rendering, and the page's own origin for any other host |
| ImageUrl.Rooted | frontend/lib/utils.ts:83 | the result starts with exactly one added slash when the path lacks one, the path itself otherwise, and ends like the path |
| ImageUrl.WithoutTrailingSlash | frontend/lib/utils.ts:86 | the base with its trailing slash removed if it has one, unchanged otherwise |
| ImageUrl.CloudinaryUrl | frontend/lib/utils.ts:39-51 | an absolute URL is kept; one naming the delivery host gets "https://"; any other is rooted under https://res.cloudinary.com |
| ImageUrl.GetImageUrl | frontend/lib/utils.ts:14-21 | the placeholder for an absent or blank URL; otherwise the normalisation of the trimmed URL, with the host's scheme and the API base URL |
| ImageUrl.NormalizeCases | frontend/lib/utils.ts:23-89 | the branches in order: an absolute URL is kept; a protocol-relative one gets "https:" in production and "http:" elsewhere; one mentioning cloudinary.com follows the Cloudinary rule; any other is rooted under the API base without its trailing slash |
| ImageUrl.SchemeIsHttp | frontend/lib/utils.ts:31-34 | the scheme given to protocol-relative URLs is "http:" or "https:" |
| ImageUrl.CloudinaryProtocolCheckIsDead | frontend/lib/utils.ts:39-51 | the protocol re-check in the Cloudinary branch never decides anything: every input that reaches it is not absolute, gets "https://" in front when it names the delivery host and is rooted under https://res.cloudinary.com otherwise, so it always comes out under https |
| ImageUrl.AbsoluteIsFixedPoint | frontend/lib/utils.ts:14-26 | an absolute URL with no surrounding white space comes back unchanged |
| ImageUrl.PrefixedIsAbsolute | frontend/lib/utils.ts:34 | prefixing "http:" or "https:" to a protocol-relative URL makes it absolute and keeps its last character |
| ImageUrl.CloudinaryUrlIsAbsolute | frontend/lib/utils.ts:39-51 | the Cloudinary rule always yields an absolute URL ending like its input |
| ImageUrl.ProtocolRelativeIsAbsolute | frontend/lib/utils.ts:29-35 | a protocol-relative URL comes out absolute, ending like the input |
| ImageUrl.CloudinaryBranchIsAbsolute | frontend/lib/utils.ts:39-51 | a URL reaching the Cloudinary branch comes out absolute, ending like the input |
| ImageUrl.NormalizedIsAbsolute | frontend/lib/utils.ts:23-51 | absolute, protocol-relative and Cloudinary inputs without trailing white space all come out absolute and already trimmed |
| ImageUrl.AbsoluteResult | frontend/lib/utils.ts:14-51 | for absolute, protocol-relative and Cloudinary inputs the result is absolute and already trimmed |
| ImageUrl.AbsoluteResultIsFixedPoint | frontend/lib/utils.ts:14-51 | normalising such a result again returns it unchanged (idempotence) |
| PostCard.Bucket | frontend/components/PostCard.tsx:71-74 | "just now" exactly under an hour, whole hours under a day, whole days (1 to 6, the floor of hours / 24) under a week, the calendar date from a week on |
| PostCard.FormatDate | frontend/components/PostCard.tsx:66-75 | the bucket of the floored elapsed hours; an unparsable date fails every comparison and is shown as a calendar date, which happens exactly for NaN or a week or more |
| PostCard.HandleDelete | frontend/components/PostCard.tsx:32-39 | `onDelete` is called exactly with a token, admin rights or ownership (ids compared as strings), a callback, and the user's confirmation |
| PostCard.DeleteOnlyFromShownItem | frontend/components/PostCard.tsx:32-146 | a delete happens only from a menu that shows the delete item, and a shown item with a token, a callback and a confirmation always deletes |
| PostCard.PostCardState.constructor | frontend/components/PostCard.tsx:19-20 | no like in flight and the menu closed |
| PostCard.PostCardState.StartLike | frontend/components/PostCard.tsx:24-28 | `onLike` is called exactly with a token, a callback and no like already in flight, and then one is in flight; otherwise nothing changes |
| PostCard.PostCardState.FinishLike | frontend/components/PostCard.tsx:29 | the like is no longer in flight |
| PostCard.PostCardState.ToggleMenu | frontend/components/PostCard.tsx:115 | the menu flips between open and closed |
| PostCard.PostCardState.ClickDeleteItem | frontend/components/PostCard.tsx:143-152 | a click on the shown delete item runs `handleDelete`, which then deletes exactly with a token, a callback and a confirmation, and closes the menu |
| PostForm.Without | frontend/components/PostForm.tsx:85 | `filter`: a subsequence of the list holding every copy of each other id and none of the given id; the list itself when the id is absent; never creates a duplicate |
| PostForm.NoDuplicatesCons | frontend/components/PostForm.tsx:85 | a list with one id in front has no duplicates exactly when the rest has none and lacks that id |
| PostForm.TagToggle | frontend/components/PostForm.tsx:84-86 | the tag is selected afterwards exactly when it was not before, every other tag keeps its state, and a duplicate-free selection stays duplicate-free |
| PostForm.ToggleTwice | frontend/components/PostForm.tsx:84-86 | toggling a tag twice gives back the same set of tags, and the same list when the tag was not selected |
| PostForm.WithoutAppended | frontend/components/PostForm.tsx:85 | removing an id just appended to a list that lacked it gives the list back |
| PostForm.PostFormState.constructor | frontend/components/PostForm.tsx:21-27 | empty fields, no category or tags, not submitting, picker closed, no error |
| PostForm.PostFormState.HandleTagToggle | frontend/components/PostForm.tsx:84-86 | the selection is toggled and stays duplicate-free |
| PostForm.PostFormState.AddEmoji | frontend/components/PostForm.tsx:88-91 | the emoji is appended to the content and the picker closes |
| PostForm.PostFormState.HandleSubmit | frontend/components/PostForm.tsx:50-82 | a request is made exactly when the guard holds (token, non-blank title and content, a category, not submitting), with the trimmed title and content; a success resets the form, a failure keeps it and shows the error or the default; nothing changes when the guard fails; submitting ends false |
| PostForm.PostFormState.Settle | frontend/components/PostForm.tsx:65-81 | a success clears every field and closes the picker; a failure keeps the fields and shows the error or "Gönderi oluşturulamadı"; submitting ends false |
| ProfilePage.ReplaceWhere | frontend/app/profile/page.tsx:160-161 | same length; the fetched copy replaces every entry with the post's id, and every other entry is kept |
| ProfilePage.ReconciledLikedMembership | frontend/app/profile/page.tsx:162-168 | after reconciliation the liked list holds the post exactly when the server says it is liked, holds the fetched copy then, and keeps every other post |
| ProfilePage.ProfileView.constructor | frontend/app/profile/page.tsx:53-57 | four empty lists and the posts tab |
| ProfilePage.ProfileView.CurrentPosts | frontend/app/profile/page.tsx:195-201 | the list of the active tab |
| ProfilePage.ProfileView.FetchUserData | frontend/app/profile/page.tsx:93-122 | the own, liked and commented lists become the mapped answers, empty for an answer without data |
| ProfilePage.ProfileView.HandlePostDeleted | frontend/app/profile/page.tsx:134-139 | the post is dropped from all four lists, and no list holds it afterwards |
| ProfilePage.ProfileView.HandlePostLiked | frontend/app/profile/page.tsx:142-173 | the post is toggled in all four lists; when the fetch answers, its copy replaces the post in the lists, and the liked list gains or loses it by the server's flag; without an answer the toggle stays |
| ProfilePage.ProfileView.FetchSavedPostsAsWritten | frontend/app/profile/page.tsx:61-103 | the call always throws, because the hook it comes from has no such function |
| ProfilePage.ProfileView.FetchSavedPosts | frontend/app/profile/page.tsx:98-103 | a successful answer with posts replaces the saved list; any other answer keeps it |
| ProfilePage.ProfileView.HandleDeletePost | frontend/app/profile/page.tsx:175-183 | a successful delete drops the post from all four lists with the "deleted" toast; a failure keeps the lists and shows the error or "Gönderi silinemedi." |
| ProfilePage.MapAll | frontend/app/profile/page.tsx:110-115 | maps every entry, in order, with the page's mapper |
| ProfilePage.NotHasIdAfterRemove | frontend/app/profile/page.tsx:135-138 | after the filter no entry has the id |
| ProfilePage.OtherPostsUntouched | frontend/app/profile/page.tsx:143-161 | entries of other posts keep their value through the toggle and the replacement |
| ProfilePage.SavedTabAsWritten | frontend/app/profile/page.tsx:61-127 | on a fresh page the saved tab shows an empty list, even when the user has saved posts |
| ProfilePage.SavedTabCorrected | frontend/app/profile/page.tsx:98-127 | with a hook that answers, the saved tab shows exactly the saved posts |
| TrendPage.TrendView.constructor | frontend/app/trendler/page.tsx:36 | the list starts empty |
| TrendPage.TrendView.FetchTrends | frontend/app/trendler/page.tsx:41-67 | the list becomes the mapped top-liked posts, one per entry in order, or empty for an answer without data |
| TrendPage.TrendView.OnLike | frontend/app/trendler/page.tsx:105-112 | after the like request settles, whatever it answered, the post is toggled in the list and every other entry is kept |
| TrendPage.DoubleLikeRestores | frontend/app/trendler/page.tsx:105-112 | two clicks on the same card leave the list as it was |
| UseComments.MapDtoToComment | frontend/hooks/useComments.ts:11-27 | the content, createdAt and author fields are the DTO's (author id as text, name or "", camel-case avatar unless missing); the replies are the mapped DTO replies, none when missing; every comment at any depth carries the hook's post id; the id reads back as the DTO's number; a missing or zero parent id becomes none; likes default to 0 and false |
| UseComments.MapAll | frontend/hooks/useComments.ts:25-40 | the i-th comment is the mapping of the i-th DTO, so the count and the total size are kept and every comment carries the post id |
| UseComments.ToggledComment | frontend/hooks/useComments.ts:76-80 | flips the like flag, moves the count by one in that direction, and changes nothing else |
| UseComments.UpdateCommentLike | frontend/hooks/useComments.ts:73-90 | same length; each top-level comment is updated on its own |
| UseComments.UpdateOneChangesOnlyMatches | frontend/hooks/useComments.ts:73-90 | the update keeps the ids, contents and tree shape everywhere, and changes like fields only of comments with the id |
| UseComments.ChangedOnlyAtReflexive | frontend/hooks/useComments.ts:73-90 | a tree left as it was counts as changed only at the id |
| UseComments.UpdateOneTwice | frontend/hooks/useComments.ts:73-90 | toggling the same comment twice gives back the comment tree |
| UseComments.UpdateTwice | frontend/hooks/useComments.ts:92 | toggling the same comment twice gives back the list |
| UseComments.MatchToggledAtAnyDepth | frontend/hooks/useComments.ts:82-86 | a comment with the id, at any depth, is toggled when none of its ancestors has the id |
| UseComments.CommentsHook.constructor | frontend/hooks/useComments.ts:7-9 | no comments, loading, no error |
| UseComments.CommentsHook.FetchComments | frontend/hooks/useComments.ts:29-50 | nothing for an empty post id; otherwise loading ends false, and an answer with data replaces the list and clears the error, while one without keeps the list and sets its error or the default |
| UseComments.CommentsHook.CreateComment | frontend/hooks/useComments.ts:52-65 | success exactly when the answer has data, followed by the refetch: with no post id nothing changes; otherwise loading ends, and the list becomes the re-fetched tree with no error, or on a failed refetch stays with the refetch's error or the default; a failure reports the error or the default and changes nothing |
| UseComments.CommentsHook.ToggleCommentLike | frontend/hooks/useComments.ts:67-100 | on status 200 the comment is toggled wherever it sits in the tree; otherwise the failure with the error or the default, and the list kept |
| UseComments.CommentsHook.DeleteComment | frontend/hooks/useComments.ts:102-116 | success exactly on 200 or 204, followed by the refetch: with no post id nothing changes; otherwise loading ends, and the list becomes the re-fetched tree with no error, or on a failed refetch stays with the refetch's error or the default; otherwise the failure and nothing changes |
| UsePosts.MapPostResponseDtoToPost | frontend/hooks/usePosts.ts:8-18 | keeps the id, title, content and like fields, gives the category id 0 and indexed tags, and uses the placeholder author when none is sent |
| UsePosts.RawEntry | frontend/hooks/usePosts.ts:51 | the created post enters the list as the server returned it, without category, tags or like flag |
| UsePosts.Toggled | frontend/hooks/usePosts.ts:73-79 | the flag becomes the negation of its truthiness, the count moves by one in that direction, and nothing else changes |
| UsePosts.ToggledTwice | frontend/hooks/usePosts.ts:73-79 | toggling twice restores a post whose like flag the server sent |
| UsePosts.ToggledTwiceRawEntry | frontend/hooks/usePosts.ts:51-79 | a created entry without the flag does not come back after two toggles: its flag ends false |
| UsePosts.ToggleMatching | frontend/hooks/usePosts.ts:71-81 | same length; exactly the entries whose id equals the given id are toggled |
| UsePosts.RemoveMatching | frontend/hooks/usePosts.ts:100 | `filter`: a subsequence of the list holding every copy of each entry whose id differs from the given id and none whose id matches |
| UsePosts.StringIdChangesNothing | frontend/hooks/usePosts.ts:73-100 | a string id never equals a feed post's numeric id under strict equality, so neither the toggle nor the removal changes the list |
| UsePosts.PostsHook.constructor | frontend/hooks/usePosts.ts:21-23 | no posts, loading, and a cleared error |
| UsePosts.PostsHook.FetchPosts | frontend/hooks/usePosts.ts:25-43 | an answer with data replaces the list with the mapped posts and leaves the error cleared; one without keeps the list and records the API error; loading ends false |
| UsePosts.PostsHook.CreatePost | frontend/hooks/usePosts.ts:45-62 | on data the raw entry is put in front; otherwise the failure with the error or the default, the list kept, and the API error recorded |
| UsePosts.PostsHook.ToggleLike | frontend/hooks/usePosts.ts:64-92 | on status 200 the matching posts are toggled; otherwise the failure, the list kept, and the API error recorded |
| UsePosts.PostsHook.DeletePost | frontend/hooks/usePosts.ts:94-111 | on status 200 the matching posts are removed; otherwise the failure, the list kept, and the API error recorded |
| ViewModel.IndexTags | frontend/app/profile/page.tsx:84 | the i-th name becomes the tag with id i |
| ViewModel.MapDtoToPost | frontend/app/profile/page.tsx:73-91 | the id reads back as the DTO's number; title, content, createdAt and updatedAt are the DTO's; the author id is the DTO author's id as text, or "" without one; the cover and the avatar fall back from the camel-case field to the upper-case one and then to none; the category has id 0; counters default to 0 and the like flag to false |
| ViewModel.ToggledLike | frontend/app/profile/page.tsx:143-147 | flips the flag, moves the count by one in that direction, and changes nothing else |
| ViewModel.ToggleWhere | frontend/app/profile/page.tsx:143-152 | same length; exactly the entries with the id are toggled |
| ViewModel.ToggleWhereTwice | frontend/app/profile/page.tsx:143-152 | toggling the same id twice gives back the list |
| ViewModel.RemoveId | frontend/app/profile/page.tsx:135-138 | `filter`: a subsequence of the list holding every copy of each post with another id and no post with that id |
| ViewTracking.PostViewTracker.constructor | frontend/hooks/usePostViewTracking.ts:20-26 | not viewed, nothing pending, no timer, no observer, nothing sent |
| ViewTracking.PostViewTracker.SendPendingViews | frontend/hooks/usePostViewTracking.ts:29-42 | with pending ids and a token, one request carries them as numbers and the set is emptied; otherwise nothing happens |
| ViewTracking.PostViewTracker.HandleIntersection | frontend/hooks/usePostViewTracking.ts:45-64 | the first visible entry of a not-yet-viewed card queues its id once and arms one new timer; a viewed card or a notification without a visible entry changes nothing |
| ViewTracking.PostViewTracker.TimerFires | frontend/hooks/usePostViewTracking.ts:57-59 | the timer is spent, and the pending ids are sent as in the flush |
| ViewTracking.PostViewTracker.SetRef | frontend/hooks/usePostViewTracking.ts:67-90 | the old element is no longer watched; the new one is watched exactly when it is there and there is a token |
| ViewTracking.PostViewTracker.Teardown | frontend/hooks/usePostViewTracking.ts:93-106 | nothing is watched, no timer is left, and what is pending is flushed |
| ViewTracking.AtMostOneRequest | frontend/hooks/usePostViewTracking.ts:18-51 | whatever the events, an instance sends at most one request, and it carries the instance's own id |
| ViewTracking.SentIdIsNumeric | frontend/hooks/usePostViewTracking.ts:34 | a numeric post id is sent as its number |
| SlugUtil.AsciiOnly | backend/src/main/java/com/blog/blok_api/util/SlugUtil.java:22 | only ASCII characters are left |
| SlugUtil.AlnumOfAppend | backend/src/main/java/com/blog/blok_api/util/SlugUtil.java:24 | the letters and digits of a concatenation are those of each part, in order |
| SlugUtil.Collapse | backend/src/main/java/com/blog/blok_api/util/SlugUtil.java:24 | every run of characters outside a-z and 0-9 becomes one dash: only slug characters remain, no two dashes are adjacent, and the letters and digits are kept in order |
| SlugUtil.DropLeadingDash | backend/src/main/java/com/blog/blok_api/util/SlugUtil.java:25 | dropping a leading dash keeps the slug characters, the single dashes, and the letters and digits, and leaves no leading dash |
| SlugUtil.DropTrailingDash | backend/src/main/java/com/blog/blok_api/util/SlugUtil.java:25 | once no leading dash is left, dropping a trailing dash gives the slug shape and keeps the letters and digits |
| SlugUtil.StripDashesShape | backend/src/main/java/com/blog/blok_api/util/SlugUtil.java:25 | after the edge dashes go, a collapsed string has the slug shape and the same letters and digits |
| SlugUtil.ToSlug | backend/src/main/java/com/blog/blok_api/util/SlugUtil.java:19-26 | null stays null, and any other input gets a slug |
| SlugUtil.SlugifyShape | backend/src/main/java/com/blog/blok_api/util/SlugUtil.java:21-25 | every slug is lower-case letters and digits with single inner dashes, and it keeps the letters and digits of the lower-cased ASCII input, in order |
| SlugUtil.AsciiOnlyOfAscii | backend/src/main/java/com/blog/blok_api/util/SlugUtil.java:22 | an ASCII string passes the filter unchanged |
| SlugUtil.CollapseOfSlugChars | backend/src/main/java/com/blog/blok_api/util/SlugUtil.java:24 | a string of slug characters without double dashes is left unchanged by the collapse |
| SlugUtil.SlugIsLowerAscii | backend/src/main/java/com/blog/blok_api/util/SlugUtil.java:22-23 | a slug is ASCII and lower-casing leaves it unchanged |
| SlugUtil.StripDashesOfSlug | backend/src/main/java/com/blog/blok_api/util/SlugUtil.java:25 | a slug has no edge dash, so the dash removal leaves it unchanged |
| SlugUtil.SlugifyOfSlug | backend/src/main/java/com/blog/blok_api/util/SlugUtil.java:19-26 | a string that already has the slug shape is its own slug |
| SlugUtil.ToSlugIdempotent | backend/src/main/java/com/blog/blok_api/util/SlugUtil.java:19-26 | making a slug of a slug changes nothing |
| SlugUtil.CandidateInjective | backend/src/main/java/com/blog/blok_api/util/SlugUtil.java:41-44 | different rounds of the loop try different slugs, so the loop never retries one |
| SlugUtil.GenerateUniqueSlug | backend/src/main/java/com/blog/blok_api/util/SlugUtil.java:28-47 | null for a null title; the base slug when there is no repository; otherwise a slug not in use, the first of base, base-1, base-2, ... that is free |
| Store.Toggle | backend/src/main/java/com/blog/blok_api/service/LikeServiceImpl.java:57-69 | afterwards the row is there exactly when it was not, and every other row keeps its state |
| Store.ToggleTwice | backend/src/main/java/com/blog/blok_api/service/LikeServiceImpl.java:57-69 | toggling the same row twice restores the table |
| Store.LinksTo | backend/src/main/java/com/blog/blok_api/repository/LikeRepository.java:24-25 | exactly the rows pointing at the target |
| Store.ToggleCount | backend/src/main/java/com/blog/blok_api/service/LikeServiceImpl.java:57-69 | a toggle moves its target's count by exactly one, down when the row was there and up otherwise |
| Store.Sweep | backend/src/main/java/com/blog/blok_api/model/Comment.java:39-40 | a comment remains exactly when the cascade does not reach it (it is not a root and its parent does not go), with its value unchanged |
| Store.SweepKeepsParents | backend/src/main/java/com/blog/blok_api/model/Comment.java:39-40 | a reply whose parent goes goes too, so no remaining reply loses its parent |
| Store.SweepConsistent | backend/src/main/java/com/blog/blok_api/model/Comment.java:26-44 | after the cascade every foreign key holds again, when the surviving rows keep their posts, authors and link targets |
| Store.Surviving | backend/src/main/java/com/blog/blok_api/model/Comment.java:43-44 | exactly the rows whose target remains; on post ids it is also the like rows a profile's like total counts (backend/src/main/java/com/blog/blok_api/service/UserServiceImpl.java:71-73) |
| Store.Db.constructor | backend/src/main/java/com/blog/blok_api/model/User.java:14 | an empty, valid and consistent database with the given roles |
| Store.Db.Slugs | backend/src/main/java/com/blog/blok_api/repository/PostRepository.java:30 | exactly the slugs some post carries |
| Store.Db.ActiveComments | backend/src/main/java/com/blog/blok_api/repository/CommentRepository.java:13 | exactly the post's comments not marked deleted |
| Store.Db.FindByUsername | backend/src/main/java/com/blog/blok_api/repository/UserRepository.java:13 | a user with that name when there is one, and nothing exactly when the name is free |
| Store.Db.FindByEmail | backend/src/main/java/com/blog/blok_api/repository/UserRepository.java:20 | a user with that address when there is one, and nothing exactly when the address is free |
| Store.Db.SaveUser | backend/src/main/java/com/blog/blok_api/service/AuthServiceImpl.java:67 | a new user is stored under a generated id no user has yet, the counter moves past it, and nothing else changes; the id invariant and consistency are kept |
| Store.Db.SavePost | backend/src/main/java/com/blog/blok_api/service/PostServiceImpl.java:110 | a new post is stored under a generated id no post has yet; the id invariant is kept, consistency is kept when its author exists, and unique slugs stay unique when its slug is not in use |
| Store.Db.SaveComment | backend/src/main/java/com/blog/blok_api/service/CommentServiceImpl.java:75 | a new comment whose parent, if any, exists is stored under a generated id no comment has yet, so the parent's id is smaller; consistency is kept when its post and author exist |
| Store.Db.SaveCategory | backend/src/main/java/com/blog/blok_api/service/CategoryServiceImpl.java:33 | a new category is stored under a generated id no category has yet; the id invariant and consistency are kept |
| Tokens.ExtractUserId | backend/src/main/java/com/blog/blok_api/service/SavedPostServiceImpl.java:55 | fails exactly on a missing or rejected token, and otherwise carries the token's id claim |
| Tokens.ExtractUsername | backend/src/main/java/com/blog/blok_api/service/LikeServiceImpl.java:110 | fails exactly on a missing or rejected token, and otherwise gives the token's subject |
| Tokens.TokenUser | backend/src/main/java/com/blog/blok_api/service/SavedPostServiceImpl.java:55-57 | succeeds exactly when the token parses, carries an id and that user exists, giving that id; a missing user gives the caller's own not-found failure |
| Tokens.OptionalReader | backend/src/main/java/com/blog/blok_api/service/PostServiceImpl.java:157-163 | a reader exactly when the token parses and carries an id, and the reader is that id claim; any failure means an anonymous reader |
| PostListing.ToDto | backend/src/main/java/com/blog/blok_api/mapper/PostMapper.java:26 | the post's own fields, with no likes, no comments, and not liked |
| PostListing.IntValue | backend/src/main/java/com/blog/blok_api/service/PostServiceImpl.java:409 | a signed 32-bit value congruent to the count modulo 2^32, equal to it when it fits |
| PostListing.MapOfKeys | backend/src/main/java/com/blog/blok_api/service/PostServiceImpl.java:404-412 | the map's keys are exactly the ids of the rows |
| PostListing.MapOfLastRow | backend/src/main/java/com/blog/blok_api/service/PostServiceImpl.java:406-410 | the last row with an id decides the count under that id |
| PostListing.CountMap | backend/src/main/java/com/blog/blok_api/service/PostServiceImpl.java:398-412 | the loop builds the map of the rows, each row putting its count under its id |
| PostListing.GetOrDefault | backend/src/main/java/com/blog/blok_api/service/PostServiceImpl.java:177-178 | the stored count, or 0 for a post without one |
| PostListing.LastRowWith | backend/src/main/java/com/blog/blok_api/service/PostServiceImpl.java:406-410 | every row has a last row with the same id, which no later row repeats |
| PostListing.FaithfulCounts | backend/src/main/java/com/blog/blok_api/service/PostServiceImpl.java:398-412 | when the query answers truthfully, every post's looked-up count is its true count cut to an int |
| PostListing.Assemble | backend/src/main/java/com/blog/blok_api/service/PostServiceImpl.java:174-182 | one response per post, in order, describing that post; counts from the maps or 0; liked exactly when the id is in the liked set |
| PostListing.List | backend/src/main/java/com/blog/blok_api/service/PostServiceImpl.java:166-182 | the listing is the assembly over the maps both count loops build |
| PostListing.ListedCountsAreTrue | backend/src/main/java/com/blog/blok_api/service/PostServiceImpl.java:166-182 | when both count queries answer truthfully, every listed post carries its true like and comment counts |
| PostListing.Ids | backend/src/main/java/com/blog/blok_api/service/PostServiceImpl.java:154 | the ids of the posts, in order |
| LikeService.LikeServiceImpl.constructor | backend/src/main/java/com/blog/blok_api/service/LikeServiceImpl.java:34-47 | the service works on the given tables and token reader |
| LikeService.LikeServiceImpl.ToggleLikePost | backend/src/main/java/com/blog/blok_api/service/LikeServiceImpl.java:50-71 | the token's user and the post must exist, each with its own failure; then the like row is toggled and the result says whether the post is now liked; a failure changes nothing, and the tables stay consistent |
| LikeService.LikeServiceImpl.LikePost | backend/src/main/java/com/blog/blok_api/service/LikeServiceImpl.java:74-91 | the same checks, then "already liked" when the row exists; success exactly when all checks pass, adding exactly that row |
| LikeService.LikeServiceImpl.HasUserLikedPost | backend/src/main/java/com/blog/blok_api/service/LikeServiceImpl.java:96-98 | true exactly when the like row exists |
| LikeService.LikeServiceImpl.CountByPost | backend/src/main/java/com/blog/blok_api/service/LikeServiceImpl.java:101-153 | the number of like rows of the post |
| LikeService.LikeServiceImpl.ToggleLikeComment | backend/src/main/java/com/blog/blok_api/service/LikeServiceImpl.java:108-131 | the user is found by the token's name ("Kullanıcı bulunamadı: " and the name otherwise) and then the comment must exist; success exactly then, toggling that user's like on the comment and reporting whether it is now liked; a failure changes nothing |
| LikeService.LikeServiceImpl.CountByCommentId | backend/src/main/java/com/blog/blok_api/service/LikeServiceImpl.java:134-138 | "Yorum bulunamadı" for an unknown comment, otherwise its number of like rows |
| LikeService.LikeServiceImpl.HasUserLikedComment | backend/src/main/java/com/blog/blok_api/service/LikeServiceImpl.java:142-144 | true exactly when the comment like row exists |
| LikeService.LikeServiceImpl.GetPostsLikedByUser | backend/src/main/java/com/blog/blok_api/service/LikeServiceImpl.java:155-196 | empty for no liked posts; otherwise one response per liked post in query order, each marked liked, with the counts the two loops build |
| SavedPostService.SavedPostServiceImpl.constructor | backend/src/main/java/com/blog/blok_api/service/SavedPostServiceImpl.java:36-50 | the service works on the given tables and token reader |
| SavedPostService.SavedPostServiceImpl.ToggleSavePost | backend/src/main/java/com/blog/blok_api/service/SavedPostServiceImpl.java:52-74 | the token's user and the post must exist; then the save row is toggled and the result says whether the post is now saved; a failure changes nothing; consistency is kept |
| SavedPostService.SavedPostServiceImpl.IsPostSavedByUser | backend/src/main/java/com/blog/blok_api/service/SavedPostServiceImpl.java:76-85 | the same checks, then whether the save row exists |
| SavedPostService.SavedPostServiceImpl.GetSavedPostsByUser | backend/src/main/java/com/blog/blok_api/service/SavedPostServiceImpl.java:87-134 | the token's user must exist; empty for no saved posts; otherwise one response per saved post in query order, with the looped counts and liked exactly for the reader's liked ids; when the query answer holds the user's saved posts, the responses describe exactly the posts the user saved, each once, with their stored fields |
| CommentService.DeleteCommentConsistent | backend/src/main/java/com/blog/blok_api/service/CommentServiceImpl.java:138-142 | deleting a comment's likes, then the comment, whose replies and their likes go with it by cascade, keeps every foreign key satisfied |
| CommentService.CommentServiceImpl.constructor | backend/src/main/java/com/blog/blok_api/service/CommentServiceImpl.java:39-51 | the service works on the given tables and token reader |
| CommentService.CommentServiceImpl.Reader | backend/src/main/java/com/blog/blok_api/service/CommentServiceImpl.java:85-92 | the reader is the token's user when the id claim parses and that user exists; any failure on the way gives an anonymous reader |
| CommentService.CommentServiceImpl.ToView | backend/src/main/java/com/blog/blok_api/service/CommentServiceImpl.java:104-130 | the view keeps the comment's id, content and deleted flag; its like count is the number of like rows of the comment, wrapped to 32 bits; it is liked exactly when there is a reader who liked it; its replies, at every depth, are none deleted, none liked for an anonymous reader, and are exactly the comment's non-deleted replies |
| CommentService.CommentServiceImpl.RepliesFrom | backend/src/main/java/com/blog/blok_api/service/CommentServiceImpl.java:121-126 | the listed replies are exactly the non-deleted replies of the comment (from the given id on), none deleted at any depth, in increasing id order |
| CommentService.CommentServiceImpl.TopLevelFrom | backend/src/main/java/com/blog/blok_api/service/CommentServiceImpl.java:94-96 | the listed comments are exactly the post's non-deleted comments without a parent (from the given id on), none deleted at any depth, in increasing id order |
| CommentService.CommentServiceImpl.CommentsByPostId | backend/src/main/java/com/blog/blok_api/service/CommentServiceImpl.java:81-101 | an unknown post fails with "Post bulunamadı"; otherwise the tree has no deleted comment at any depth, nothing is liked for an anonymous reader, and its roots are exactly the post's non-deleted top-level comments |
| CommentService.CommentServiceImpl.RepliesAreShownReplies | backend/src/main/java/com/blog/blok_api/service/CommentServiceImpl.java:121-126 | because a reply's id is larger than its parent's, the replies under a comment are exactly all of its non-deleted replies |
| CommentService.CommentServiceImpl.CreateComment | backend/src/main/java/com/blog/blok_api/service/CommentServiceImpl.java:53-77 | the token's user, then the post, then the parent when given must exist, each with its own failure; success exactly when they all do, storing one new non-deleted comment under a fresh id and changing nothing else; the view returned has no replies, no likes and is not liked; a failure changes nothing; the tables stay consistent |
| CommentService.CommentServiceImpl.DeleteCommentByIdAndUser | backend/src/main/java/com/blog/blok_api/service/CommentServiceImpl.java:132-143 | success exactly when the comment exists and the user wrote it, otherwise a security failure "Yorum size ait değil veya bulunamadı." that changes nothing; on success the comment, every reply below it and all their likes are gone and the tables stay consistent |
| CommentService.CommentServiceImpl.RemoveComment | backend/src/main/java/com/blog/blok_api/service/CommentServiceImpl.java:138-142 | the comment's likes go, then the comment with every reply below it and their likes; the id invariant and consistency are kept |
| CommentService.CommentServiceImpl.GetPostsUserCommentedOn | backend/src/main/java/com/blog/blok_api/service/CommentServiceImpl.java:145-191 | no commented posts gives an empty list; otherwise each post gets its like count, comment count (0 when a count query has no row) and liked flag from the queries' answers; when the user does not exist nothing is liked |
| PostService.IdText | backend/src/main/java/com/blog/blok_api/service/PostServiceImpl.java:320-351 | a user id in a message is its decimal digits, or "null" when the token carried none |
| PostService.CleanTag | backend/src/main/java/com/blog/blok_api/service/PostServiceImpl.java:82-83 | a cleaned tag name has no surrounding white space and no upper-case letter |
| PostService.LowerKeepsShape | backend/src/main/java/com/blog/blok_api/service/PostServiceImpl.java:83 | lower-casing a trimmed name keeps it trimmed and leaves no upper-case letter |
| PostService.ToLowerOfLower | backend/src/main/java/com/blog/blok_api/service/PostServiceImpl.java:83 | lower-casing a name with no upper-case letter leaves it as it is |
| PostService.CleanTagStable | backend/src/main/java/com/blog/blok_api/service/PostServiceImpl.java:82-83 | cleaning is idempotent on names that do not start with '@' after cleaning |
| PostService.CleanTagDropsOneAt | backend/src/main/java/com/blog/blok_api/service/PostServiceImpl.java:82 | only one leading '@' is removed: "@@go" is stored as "@go" |
| PostService.TagSet | backend/src/main/java/com/blog/blok_api/service/PostServiceImpl.java:77-98 | a null or empty list gives no tags; the tags are exactly the non-empty cleaned names of the request: each comes from a name, and each name that cleans to something non-empty contributes |
| PostService.AddTags | backend/src/main/java/com/blog/blok_api/service/PostServiceImpl.java:86-94 | the tag table gains exactly the missing names; existing tags keep their slugs and each new tag gets the slug of its name |
| PostService.FeedReader | backend/src/main/java/com/blog/blok_api/service/PostServiceImpl.java:157-164 | a missing or blank token gives no reader; otherwise the reader is the token's parsed id claim, without a user lookup |
| PostService.IdSet | backend/src/main/java/com/blog/blok_api/service/PostServiceImpl.java:465-472 | the set of the liked-ids query's answer has exactly its elements |
| PostService.FeedLiked | backend/src/main/java/com/blog/blok_api/service/PostServiceImpl.java:169-171 | with no reader nothing is liked; with a reader the liked ids are the query's answer |
| PostService.FirstById | backend/src/main/java/com/blog/blok_api/service/PostServiceImpl.java:278-279 | the map has exactly the loaded ids, and on a repeated id keeps the first post |
| PostService.Picked | backend/src/main/java/com/blog/blok_api/service/PostServiceImpl.java:300-302 | the ranked ids are looked up in order, ids without a loaded post are skipped, and when every id is loaded the list follows the ranking one for one |
| PostService.PickedFromIncreasing | backend/src/main/java/com/blog/blok_api/service/PostServiceImpl.java:299-302 | the ranking positions that hold a loaded post are listed in increasing order |
| PostService.PickedAtPositions | backend/src/main/java/com/blog/blok_api/service/PostServiceImpl.java:300-302 | the i-th listed post is the loaded post of the i-th ranking position that has one, and there are exactly as many listed posts as such positions |
| PostService.PickedKeepsRank | backend/src/main/java/com/blog/blok_api/service/PostServiceImpl.java:299-302 | every listed post sits at a ranking position holding its id, and those positions strictly increase: the list keeps the ranking's order |
| PostService.FreshViews | backend/src/main/java/com/blog/blok_api/service/PostServiceImpl.java:506-512 | the counted ids are exactly the requested ids the user has not viewed, each once |
| PostService.ViewedBy | backend/src/main/java/com/blog/blok_api/service/PostServiceImpl.java:506 | the posts a user has viewed are exactly those with a view row by that user |
| PostService.ViewRows | backend/src/main/java/com/blog/blok_api/service/PostServiceImpl.java:519-535 | the inserted rows are exactly one row by the user for each listed post |
| PostService.Bumped | backend/src/main/java/com/blog/blok_api/service/PostServiceImpl.java:537-538 | each listed post gets one more view and every other post is unchanged |
| PostService.SecondBatchCountsNothing | backend/src/main/java/com/blog/blok_api/service/PostServiceImpl.java:505-517 | after a batch is recorded, sending the same batch again counts nothing: a user's view of a post is counted once |
| PostService.FreshViewsOfSeen | backend/src/main/java/com/blog/blok_api/service/PostServiceImpl.java:514-517 | a batch of already viewed posts counts nothing |
| PostService.MediaRoute | backend/src/main/java/com/blog/blok_api/service/PostServiceImpl.java:358-370 | "image/" types go to "post_images" as images, other "video/" types to "post_videos" as videos, and nothing else is routed |
| PostService.PostPublicId | backend/src/main/java/com/blog/blok_api/service/PostServiceImpl.java:331-376 | the public id of an upload starts with "post_" |
| PostService.Detail | backend/src/main/java/com/blog/blok_api/service/PostServiceImpl.java:133-137 | the single post view describes the post, with its like count, liked flag and count of non-deleted comments, each count wrapped to an int |
| PostService.DetailAgreesWithFeed | backend/src/main/java/com/blog/blok_api/service/PostServiceImpl.java:133-182 | the single post view and the feed's entry for the same post are equal when the feed's queries answer with the true counts and likes |
| PostService.PostCommentLikesGo | backend/src/main/java/com/blog/blok_api/service/PostServiceImpl.java:233-242 | deleting the likes of the post's comments beforehand removes nothing beyond what the comment cascade removes |
| PostService.DeletePostConsistent | backend/src/main/java/com/blog/blok_api/service/PostServiceImpl.java:225-255 | deleting a post with its comments, their replies and likes, its likes, views and saves keeps every foreign key satisfied |
| PostService.PostServiceImpl.constructor | backend/src/main/java/com/blog/blok_api/service/PostServiceImpl.java:44-68 | the service works on the given tables and token reader |
| PostService.PostServiceImpl.CreatePost | backend/src/main/java/com/blog/blok_api/service/PostServiceImpl.java:70-115 | fails with "Kullanıcı bulunamadı." unless the token's user exists, changing nothing; otherwise stores one published post under a fresh id with no views and no category, the request's fields, the cleaned tags (adding the missing ones) and, for a title, the first candidate slug of it that no post had; for no title no slug; slugs stay unique and the tables consistent |
| PostService.PostServiceImpl.PostById | backend/src/main/java/com/blog/blok_api/service/PostServiceImpl.java:117-138 | an unknown post fails with "Post bulunamadı."; otherwise the view describes the post with its like count, its non-deleted comment count, and liked exactly when a non-blank token names an existing user who liked it |
| PostService.PostServiceImpl.GetAllPosts | backend/src/main/java/com/blog/blok_api/service/PostServiceImpl.java:144-183 | no posts gives an empty list; otherwise each post gets its counts from the queries and is liked only when a reader is known and the liked-ids query lists it; with no reader nothing is liked |
| PostService.PostServiceImpl.GetMyPosts | backend/src/main/java/com/blog/blok_api/service/PostServiceImpl.java:189-220 | the token's user must exist, failing with "Kullanıcı bulunamadı"; otherwise the author's posts with their counts and the user's likes |
| PostService.PostServiceImpl.Top5MostLikedPosts | backend/src/main/java/com/blog/blok_api/service/PostServiceImpl.java:263-313 | no ranked ids gives an empty list; otherwise the loaded posts in ranking order with their counts and the reader's likes, never more than the ranked ids and only ranked ids |
| PostService.PostServiceImpl.DeletePostByIdAndUser | backend/src/main/java/com/blog/blok_api/service/PostServiceImpl.java:223-255 | an unknown post fails with "Post bulunamadı.", another user's post with "Bu postu silme yetkiniz yok."; both change nothing; otherwise the post, its comments with their replies and likes, and its likes, views and saves are removed, and the tables stay consistent |
| PostService.PostServiceImpl.RemovePost | backend/src/main/java/com/blog/blok_api/service/PostServiceImpl.java:233-254 | the deletions, in the service's order, leave exactly the tables minus the post and everything that refers to it |
| PostService.PostServiceImpl.RemovePostRows | backend/src/main/java/com/blog/blok_api/service/PostServiceImpl.java:233-251 | the deletions before the post's own remove exactly the likes of the post's comments and the post's likes, views and saves |
| PostService.PostServiceImpl.TrackMultiplePostViews | backend/src/main/java/com/blog/blok_api/service/PostServiceImpl.java:487-539 | a null or empty list does nothing; an unreadable token or unknown user fails; otherwise each requested post not yet viewed by the user gets one view row and one more view, and a missing post makes the whole batch fail with nothing changed |
| PostService.PostServiceImpl.RecordViews | backend/src/main/java/com/blog/blok_api/service/PostServiceImpl.java:535-538 | the batch's writes add exactly one view row per listed post and one more view to exactly those posts; the id invariant is kept, and consistency too when the user and every listed post exist |
| PostService.RecordViewsConsistent | backend/src/main/java/com/blog/blok_api/service/PostServiceImpl.java:520-538 | view rows of an existing user on existing posts, and more views on those posts, keep every foreign key satisfied |
| PostService.PostServiceImpl.UploadPostImage | backend/src/main/java/com/blog/blok_api/service/PostServiceImpl.java:315-344 | the token's user must exist; a missing content type fails, and a non-image type fails with "Sadece resim dosyaları yüklenebilir!"; an image goes to "post_images" and the host's secure URL, or its error wrapped as an upload failure, is returned |
| PostService.PostServiceImpl.UploadPostMedia | backend/src/main/java/com/blog/blok_api/service/PostServiceImpl.java:346-389 | the token's user must exist; a missing type fails with "Dosya tipi belirlenemedi!" and an unsupported type names the type in its failure; images and videos go to their folders and the host's answer is returned as for images |
| PostService.ImageRoutesAgree | backend/src/main/java/com/blog/blok_api/service/PostServiceImpl.java:323-379 | an image upload sends the same request to the host through either upload route |
| UserService.LikesOnAdd | backend/src/main/java/com/blog/blok_api/service/UserServiceImpl.java:71-73 | counting one more post adds exactly that post's like rows to the total |
| UserService.IntValueAdd | backend/src/main/java/com/blog/blok_api/service/UserServiceImpl.java:67-72 | adding to an already wrapped int total gives the same int as adding first and wrapping once, so the running total can wrap at every step |
| UserService.Applied | backend/src/main/java/com/blog/blok_api/service/UserServiceImpl.java:109-132 | username, e-mail, bio and image are replaced exactly when given and not empty, the password hash is the one chosen, the update time is now, and online state and role are kept |
| UserService.ApplyTwice | backend/src/main/java/com/blog/blok_api/service/UserServiceImpl.java:109-132 | sending the same update again without a new password leaves the profile as it was, apart from the update time |
| UserService.ProfileOf | backend/src/main/java/com/blog/blok_api/service/UserServiceImpl.java:76-150 | the profile carries the user's id, name, e-mail, image, bio, online state and update time with the given counts |
| UserService.UserServiceImpl.constructor | backend/src/main/java/com/blog/blok_api/service/UserServiceImpl.java:38-46 | the service works on the given tables and token reader |
| UserService.UserServiceImpl.FindProfileUser | backend/src/main/java/com/blog/blok_api/service/UserServiceImpl.java:51-106 | a missing or empty token fails with "token bulunamadı.", an unparsable one with an invalid-token failure; otherwise success exactly when the user named by the id claim, or by the username claim without one, exists, and "Kullanıcı bulunamadı." otherwise |
| UserService.UserServiceImpl.LikesReceived | backend/src/main/java/com/blog/blok_api/service/UserServiceImpl.java:66-74 | the loop's total is the number of likes on the user's posts, wrapped to an int |
| UserService.UserServiceImpl.GetProfile | backend/src/main/java/com/blog/blok_api/service/UserServiceImpl.java:48-88 | the same token checks; on success the profile of the user the token names, with the number of their posts and the wrapped number of likes on them |
| UserService.UserServiceImpl.UpdateProfile | backend/src/main/java/com/blog/blok_api/service/UserServiceImpl.java:91-151 | the same token checks; once the token names a user (unique names assumed), the result is `ProfileUpdate`'s verdict: its failure is thrown with nothing changed, its updated row is stored and that user's profile returned; a success always comes from a named user passing the password rule; user names and e-mails stay unique and the tables consistent |
| UserService.ProfileUpdate | backend/src/main/java/com/blog/blok_api/service/UserServiceImpl.java:109-133 | a new password without the current one fails with "Eski şifre girilmelidir."; a wrong current one with "Eski şifre yanlış."; past that rule the update succeeds exactly when no other user holds the new username or e-mail, and fails on the unique columns otherwise; a success is the request applied with the new or the old hash |
| UserService.UserServiceImpl.UploadProfileImage | backend/src/main/java/com/blog/blok_api/service/UserServiceImpl.java:155-185 | an unknown user fails with "Kullanıcı bulunamadı: " and the id; a missing content type fails, and a non-image with "Sadece resim dosyaları yüklenebilir!"; an image goes to "profile_images" and on success the host's URL becomes the user's image and is returned; a failure changes nothing |
| AuthService.NewUser | backend/src/main/java/com/blog/blok_api/service/AuthServiceImpl.java:55-65 | the registered user has the request's name, e-mail, image and bio, the encoded password, is offline and has the USER role |
| AuthService.TemporaryPassword | backend/src/main/java/com/blog/blok_api/service/AuthServiceImpl.java:125 | the new password is the first eight characters of the UUID's text |
| AuthService.RegisteredKeysAreTaken | backend/src/main/java/com/blog/blok_api/service/AuthServiceImpl.java:44-67 | after a registration its username and e-mail are both taken, so repeating it is refused |
| AuthService.AuthServiceImpl.constructor | backend/src/main/java/com/blog/blok_api/service/AuthServiceImpl.java:29-39 | the service works on the given tables |
| AuthService.AuthServiceImpl.Register | backend/src/main/java/com/blog/blok_api/service/AuthServiceImpl.java:41-80 | a taken username fails first, then a taken e-mail, then a missing USER role, each with its own message; otherwise exactly one new user is stored under a fresh id and the response echoes it offline with the USER role; a failure changes nothing; user names and e-mails stay unique |
| AuthService.AuthServiceImpl.Login | backend/src/main/java/com/blog/blok_api/service/AuthServiceImpl.java:82-112 | rejected credentials fail as bad credentials, a missing user with "Kullanıcı bulunamadı."; otherwise only that user changes, to online, and the response carries its data and the token generated from its name, id and role |
| AuthService.AuthServiceImpl.ForgotPassword | backend/src/main/java/com/blog/blok_api/service/AuthServiceImpl.java:114-131 | a missing or blank e-mail fails with "Email zorunludur.", an unknown one with "Bu email ile kayıtlı kullanıcı bulunamadı."; otherwise the owner's password hash becomes the encoding of the returned eight-character password and nothing else changes |
| AdminService.UsersMatching | backend/src/main/java/com/blog/blok_api/service/AdminServiceImpl.java:41-47 | a missing or blank query lists every user; otherwise exactly the users whose username or e-mail contains it ignoring case |
| AdminService.PostsMatching | backend/src/main/java/com/blog/blok_api/service/AdminServiceImpl.java:49-57 | a missing or blank query lists every post; otherwise exactly the posts whose title or slug contains it ignoring case |
| AdminService.MatchesItself | backend/src/main/java/com/blog/blok_api/repository/UserRepository.java:15 | a text contains itself ignoring case |
| AdminService.LowerTwice | backend/src/main/java/com/blog/blok_api/repository/UserRepository.java:15 | lower-casing twice equals lower-casing once |
| AdminService.LowerKeepsBlank | backend/src/main/java/com/blog/blok_api/service/AdminServiceImpl.java:42-52 | a query is blank exactly when its lower-cased form is |
| AdminService.UserSearchIgnoresCase | backend/src/main/java/com/blog/blok_api/service/AdminServiceImpl.java:42-44 | the user search gives the same users for a query and its lower-cased form |
| AdminService.PostSearchIgnoresCase | backend/src/main/java/com/blog/blok_api/service/AdminServiceImpl.java:52-54 | the post search gives the same posts for a query and its lower-cased form |
| AdminService.SearchFindsUserByName | backend/src/main/java/com/blog/blok_api/service/AdminServiceImpl.java:42-44 | searching for a user's non-blank username finds that user |
| AdminService.SearchFindsPostBySlug | backend/src/main/java/com/blog/blok_api/service/AdminServiceImpl.java:52-54 | searching for a post's non-blank slug finds that post |
| Store.Authored | backend/src/main/java/com/blog/blok_api/service/AdminServiceImpl.java:69 | the user's posts are exactly the posts they wrote (the same query gives a profile's own posts: backend/src/main/java/com/blog/blok_api/service/UserServiceImpl.java:69-70) |
| AdminService.Touching | backend/src/main/java/com/blog/blok_api/service/AdminServiceImpl.java:65-71 | the rows removed from a link table are exactly those by the user or on one of the user's posts |
| AdminService.ByUser | backend/src/main/java/com/blog/blok_api/service/AdminServiceImpl.java:65-66 | the rows removed are exactly those by the user |
| AdminService.DeleteUserConsistent | backend/src/main/java/com/blog/blok_api/service/AdminServiceImpl.java:61-81 | removing the user, their posts, the comments this reaches, their likes and the likes, views and saves by them or on their posts keeps every foreign key satisfied |
| AdminService.ViewerBlocksDelete | backend/src/main/java/com/blog/blok_api/service/AdminServiceImpl.java:61-81 | a consistent database where the user to delete has only viewed another user's post still has a row the deletion leaves pointing at the user |
| AdminService.AdminServiceImpl.constructor | backend/src/main/java/com/blog/blok_api/service/AdminServiceImpl.java:30-37 | the service works on the given tables |
| AdminService.AdminServiceImpl.DeleteUserByIdAsWritten | backend/src/main/java/com/blog/blok_api/service/AdminServiceImpl.java:59-81 | an unknown user fails with "Kullanıcı bulunamadı: " and the id; a user with a view or save row, or whose post has one, fails on a foreign key with nothing changed; otherwise the user and their posts go, the comments the cascade reaches from the user and their posts go, the likes by the user or on their posts go, the comment likes by the user or on a removed comment go, and views and saves are left alone |
| AdminService.AdminServiceImpl.DeleteUserById | backend/src/main/java/com/blog/blok_api/service/AdminServiceImpl.java:59-81 | an unknown user fails with the same message and nothing changed; any existing user is deleted with the same rows as above, plus the views and saves by the user or of their posts; no post of theirs remains, and the tables stay consistent |
| AdminService.AdminServiceImpl.RemoveUser | backend/src/main/java/com/blog/blok_api/service/AdminServiceImpl.java:65-80 | the deletions leave exactly the tables minus the user, their posts, the comments this reaches and every row by them or on their posts |
| CategoryService.StoredNameIsTaken | backend/src/main/java/com/blog/blok_api/service/CategoryServiceImpl.java:24-33 | once a category is stored, its name in any case is taken |
| CategoryService.CategoryServiceImpl.constructor | backend/src/main/java/com/blog/blok_api/service/CategoryServiceImpl.java:16-19 | the service works on the given tables |
| CategoryService.CategoryServiceImpl.CreateCategory | backend/src/main/java/com/blog/blok_api/service/CategoryServiceImpl.java:21-41 | a name equal ignoring case to a stored one fails with "Bu isimde bir kategori zaten mevcut." and changes nothing; otherwise exactly one category is added under a fresh id with the name, description and the slug of the name, which is then taken; names stay unique ignoring case |
| CategoryService.CategoryServiceImpl.DeleteCategory | backend/src/main/java/com/blog/blok_api/service/CategoryServiceImpl.java:43-49 | an unknown id fails with "Kategori bulunamadı: " and the id; a category a post refers to fails on its foreign key; otherwise exactly that category is removed; a failure changes nothing |
| JwtFilter.BearerToken | backend/src/main/java/com/blog/blok_api/security/JwtAuthenticationFilter.java:40-47 | a token is found exactly when the header is present and starts with "Bearer ", and the header is that prefix followed by the token |
| JwtFilter.BearerRoundTrip | backend/src/main/java/com/blog/blok_api/security/JwtAuthenticationFilter.java:42-47 | the token of a header "Bearer " plus a token is that token |
| JwtFilter.Authorities | backend/src/main/java/com/blog/blok_api/security/JwtAuthenticationFilter.java:65-69 | one authority per role in order, each "ROLE_" followed by the role |
| JwtFilter.AuthoritiesInjective | backend/src/main/java/com/blog/blok_api/security/JwtAuthenticationFilter.java:65-69 | two role lists that grant the same authorities are equal |
| JwtFilter.SecurityContext.constructor | backend/src/main/java/com/blog/blok_api/security/JwtAuthenticationFilter.java:57 | a request starts with no authentication |
| JwtFilter.JwtAuthenticationFilter.constructor | backend/src/main/java/com/blog/blok_api/security/JwtAuthenticationFilter.java:29-32 | the filter works on the given users and token functions |
| JwtFilter.JwtAuthenticationFilter.DoFilterInternal | backend/src/main/java/com/blog/blok_api/security/JwtAuthenticationFilter.java:34-79 | without a bearer token or with an invalid one the request passes on unchanged; with a valid token naming an existing user, on a request not yet authenticated, it is authenticated as that user with the authorities of the token's roles; a missing roles claim fails; an existing authentication is never changed |
| Text.ToLower | frontend/app/page.tsx:59-61 | lower-casing keeps the length and lower-cases each letter in place |
| Text.Trim | frontend/components/CommentSection.tsx:25-30 | the trimmed text is the piece of the input left after dropping white space only, before and after it, and it neither starts nor ends with white space |
| Text.TrimIdempotent | frontend/components/CommentSection.tsx:25-30 | trimming twice gives the same text as trimming once |
| Text.BlankIffTrimsToEmpty | frontend/components/CommentSection.tsx:25-30 | a text is blank, all white space, exactly when trimming leaves nothing |
| Text.OrElse | frontend/app/profile/edit/page.tsx:357 | the JavaScript "or" of two optional strings is the first when it is a non-empty string and the second otherwise; a profile update keeps a stored field unless the request's is given and not empty by the same rule (backend/src/main/java/com/blog/blok_api/service/UserServiceImpl.java:109-117) |
| Text.OrDefault | frontend/components/CommentSection.tsx:36 | the error shown is the given message when it is a non-empty string, and the fallback otherwise |
| Text.NatToString | backend/src/main/java/com/blog/blok_api/util/SlugUtil.java:42 | a number renders as a non-empty string of decimal digits, one digit exactly for numbers below ten |
| Text.NatToStringInjective | backend/src/main/java/com/blog/blok_api/util/SlugUtil.java:42 | different numbers render as different strings |
| Text.ToNumber | frontend/components/ProfileImageUploader.tsx:20-23 | `Number(s)` is NaN exactly when the trimmed text is not all decimal digits, and otherwise the decimal value of those digits |
| Text.ToNumberOfNatToString | frontend/components/ProfileImageUploader.tsx:19-23 | converting a rendered id back with `Number` gives the id |
| JavaText.JavaTrim | backend/src/main/java/com/blog/blok_api/service/PostServiceImpl.java:83 | Java's trim gives the piece of the input left after dropping only characters at or below the space, before and after it, with no such character at either end |
| JavaText.JavaTrimEmptyIff | backend/src/main/java/com/blog/blok_api/service/PostServiceImpl.java:83-84 | a name trims to nothing exactly when every character is at or below the space |
| JavaText.JavaTrimIdempotent | backend/src/main/java/com/blog/blok_api/service/PostServiceImpl.java:83 | Java's trim applied twice gives the same as once |
| JavaText.BlankTrimsToEmpty | backend/src/main/java/com/blog/blok_api/service/PostServiceImpl.java:83-84 | a blank name trims to nothing, so it never becomes a tag |

## Left out

- Unicode and locale: letters are lower-cased by ASCII rules. The model's white space (`Text.IsSpace`) is only space, tab, line feed and carriage return, while JavaScript's `trim` also removes vertical tab, form feed, no-break space, U+FEFF and the Unicode space separators: a username of three form feeds is blank to the client but not to the model. Lengths are counted in Unicode characters, while JavaScript's `length` counts UTF-16 code units, so `FormRules.UsernameError`, `ProfileEdit.BioError`, `ProfileEdit.NewError` and `RegisterPage.PasswordError` differ from the client on characters outside the Basic Multilingual Plane: a username of two emoji has length 4 in the client and passes the three-character rule, but has length 2 in the model and fails it. Java `trim`/`isBlank` are modelled on characters below U+0080.
- `SlugUtil.toSlug`: the NFD normalisation step is not modelled. The input is taken as given, and every non-ASCII character is dropped, as the next step of the chain does.
- `Text.ToNumber` models `Number(s)` only for the strings the client produces: an empty string or a run of decimal digits, with surrounding white space. Signs, decimals, exponents and hexadecimal are not modelled.
- Tokens: signature checking, expiry and claim parsing of the server's token utility are a `Decoder` parameter. `JwtUtil.java` is not part of this model. When a token has no id claim, the code passes a null id to `findById`; the model reports this with the same failure as a rejected token and does not name Spring's exception class.
- Password hashing and matching, the authentication manager, token generation, UUIDs and the clock are parameters. So is the image host (Cloudinary): its answer is an `Upload` value.
- Repository queries whose answers the model does not define are parameters of the calls:
  - the trending ranking and the loading of the ranked posts;
  - the published-posts, by-author and commented-posts listings;
  - the batch like and comment counts and the liked-ids lookup.
  The model proves what the services do with any such answer. The trend score formula appears only in comments and is not modelled.
- `PostService.PostServiceImpl.Top5MostLikedPosts`: the bound of five comes from the ranking query's page request. The model bounds the result by the ranking it is given, not by five.
- Order of lists read from the database: comments are read in increasing id order, which is the order of creation. Paging and sorting (`Pageable`) in the admin listings are not modelled: `AdminService.UsersMatching` and `AdminService.PostsMatching` give the selected sets. The admin DTO mappers are not modelled.
- Integer widths: the conversions the code writes out (`Long.intValue` of counts, the `int` like total of a profile) wrap to 32 bits. Some values are kept unbounded and never wrap: `viewsCount` increments, the slug counter of `generateUniqueSlug` (an `int`), and database ids.
- Tag names are looked up by exact name after cleaning. This matches the case-insensitive lookup only because a cleaned name has no upper-case letter and every stored tag name is a cleaned name: `AddTags` is the only writer of the tag table. No invariant of the store states this.
- JPA cascades: `Post.comments`, `Comment.replies` and `Comment.likes` are modelled as the deletions they cause (`Store.Sweep`, `Store.Surviving`).
- `Category.java` is not part of this model. A category's fields are taken from the service that reads and writes them.
- DTO bean validation annotations and the controllers that trigger them are not modelled. Neither is the message text of Spring's "Bad credentials" exception.
- GetSavedPostsByUser: the saved-posts query answer is a parameter. Save rows carry no time in the model, so the order of the listing (newest save first) is not stated; the contract ties the answer to the user's save rows only when the answer holds exactly those posts.
- `getSavedCountsByPostIds` in the post service is never called and is not modelled. `countByComment(Comment)` is modelled by the comment-like count of the comment's id.
- Client: dates enter as the elapsed milliseconds. For older posts the card shows the locale date (`toLocaleDateString`), which the model renders as a marker value.
- Client: the boolean profile fields of the edit page, `fetchProfile`, the avatar and cover upload wiring, the emoji picker's outside-click handler, `handlePostCreated`, and share and bookmark buttons that only change presentation are not modelled.
- Client: `useAdminPosts` follows the same code as `useAdminUsers`; both are modelled by one hook class, `AdminPaging.PagedHook`.
- Client: the `catch` branches that show "Bağlantı hatası", and the one in the profile edit page's `handleSave` that shows "Profil veya şifre güncellenemedi.", cannot run, because the HTTP client returns an error envelope instead of throwing. The model has no such branches.
- The session user's `id` is modelled as text, its declared type; at run time it is the number of the profile answer. Only the comment section's delete button depends on the difference, and `CommentSection.UserIdValue` models it there.
- Async interleaving: every handler runs as one sequence of atomic steps; races between concurrent toggles and late answers are not modelled.

## Findings

| source | as written | input that shows it | evidently intended | confidence | as-written member | corrected member |
|---|---|---|---|---|---|---|
| backend/src/main/java/com/blog/blok_api/service/AdminServiceImpl.java:61-81 | the user's post views and saved posts, and those of the user's posts, are never deleted, and no cascade reaches them, so deleting such a user fails a foreign key and the transaction is rolled back | a user who has viewed one post of another user | delete those view and save rows too, so that any existing user can be deleted | not executed | AdminService.AdminServiceImpl.DeleteUserByIdAsWritten | AdminService.AdminServiceImpl.DeleteUserById |
| frontend/app/profile/page.tsx:61-103 | the page takes `getSavedPosts` from `usePosts()`, which returns no such function, so `fetchSavedPosts` throws a TypeError and the saved tab stays empty | a user with one saved post who opens the saved tab | load the saved posts into the saved tab | not executed | ProfilePage.ProfileView.FetchSavedPostsAsWritten | ProfilePage.ProfileView.FetchSavedPosts |
| frontend/components/CommentSection.tsx:117 | the delete button shows when `isAdmin` holds or `user?.id === comment.author.id`; the user's id is the number the profile answer carries, the author id is the string the comment mapper makes, and strict equality between a number and a string is always false, so only admins see the button | a signed-in user who is not an admin, looking at a comment they wrote | compare the ids as text, as the post card does, so that authors can delete their own comments | not executed | CommentSection.AuthorGetsNoDeleteAsWritten | CommentSection.DeleteShownForAuthor |
| frontend/app/page.tsx:56-68 | the filter calls `post.tags.some` under a tag filter and `post.author.username.toLowerCase()` when a search misses content and title; the entry `createPost` puts in front of the feed is the server's answer without `tags`, and an author can be missing, so either call throws a TypeError during render | create a post, then choose any tag on the home page | read a missing tag list as no tags and a missing username as empty, so the page keeps rendering | not executed | HomePage.CreatedEntryThrowsUnderTag | HomePage.FilteredPosts |

=== FILE: admin_paging.dfy ===
/**
 * The admin list hooks (users and posts are the same hook over different
 * rows): a query, a page and a page size in local state, the last page the
 * server returned, query-parameter building, page clamping, and search.
 */
module AdminPaging {
  import opened Wrappers
  import opened Text
  import opened ErrorHandler
  import Api

  datatype PageResult<T> = PageResult(
    content: seq<T>,
    totalElements: int,
    totalPages: int,
    number: int,
    size: int,
    first: bool,
    last: bool,
    empty: bool)

  /** Per-call overrides of the stored page, size and query. */
  datatype FetchOptions = FetchOptions(page: Option<int>, size: Option<int>, q: Option<string>)

  /** The query string sent: `page`, `size`, and `q` only when present. */
  datatype QueryParams = QueryParams(page: int, size: int, q: Option<string>)

  datatype Pagination = Pagination(page: int, size: int, totalPages: int, totalElements: int, isFirst: bool, isLast: bool)

  const DefaultPageSize := 20

  function BuildParams(opts: FetchOptions, page: int, size: int, query: string): (r: QueryParams)
    ensures r.page == (if opts.page.Some? then opts.page.value else page)
    ensures r.size == (if opts.size.Some? then opts.size.value else size)
    ensures var q := opts.q.GetOr(query);
      && (r.q.Some? <==> !IsBlank(q))
      && (r.q.Some? ==> r.q.value == Trim(q) && r.q.value != [] && !IsSpace(r.q.value[0]) && !IsSpace(r.q.value[|r.q.value| - 1]))
  {
    var q := opts.q.GetOr(query);
    BlankIffTrimsToEmpty(q);
    QueryParams(opts.page.GetOr(page), opts.size.GetOr(size), if q != "" && |Trim(q)| > 0 then Some(Trim(q)) else None)
  }

  /** The pagination view: the page's own fields, or local defaults without a page. */
  function PaginationOf<T>(data: Option<PageResult<T>>, page: int, size: int): (r: Pagination)
    ensures data.None? ==> r == Pagination(page, size, 0, 0, true, true)
    ensures data.Some? ==>
      && r.page == data.value.number && r.size == data.value.size
      && r.totalPages == data.value.totalPages && r.totalElements == data.value.totalElements
      && r.isFirst == data.value.first && r.isLast == data.value.last
  {
    if data.None? then Pagination(page, size, 0, 0, true, true)
    else Pagination(data.value.number, data.value.size, data.value.totalPages, data.value.totalElements,
                    data.value.first, data.value.last)
  }

  class PagedHook<T> {
    var query: string
    var page: int
    var size: int
    var data: Option<PageResult<T>>
    var loading: bool
    const errors: ErrorHandlerHook

    /** The page index is never negative: every way of setting it clamps at 0. */
    ghost predicate Valid()
      reads this
    {
      page >= 0
    }

    constructor (initialQuery: Option<string>, pageSize: Option<int>)
      ensures query == initialQuery.GetOr("") && page == 0 && size == pageSize.GetOr(DefaultPageSize)
      ensures data.None? && !loading && fresh(errors)
      ensures Valid()
    {
      query := initialQuery.GetOr("");
      page := 0;
      size := pageSize.GetOr(DefaultPageSize);
      data := None;
      loading := false;
      errors := new ErrorHandlerHook();
    }

    /** Sends one list request and stores the page it returns; a failed request keeps the old page. */
    method Fetch(opts: FetchOptions, response: Api.Response<PageResult<T>>) returns (params: QueryParams)
      modifies this`data, this`loading, errors
      ensures params == BuildParams(opts, page, size, query)
      ensures !loading
      ensures response.data.Some? ==> data == response.data && errors.state == Cleared
      ensures response.data.None? ==>
        data == old(data) && errors.state == ApiErrorOutcome(response.error, response.status)
    {
      loading := true;
      errors.ClearError();
      var actualPage := if opts.page.Some? then opts.page.value else page;
      var actualSize := if opts.size.Some? then opts.size.value else size;
      var actualQuery := if opts.q.Some? then opts.q.value else query;
      var q := None;
      if actualQuery != "" && |Trim(actualQuery)| > 0 {
        q := Some(Trim(actualQuery));
      }
      params := QueryParams(actualPage, actualSize, q);
      if response.data.Some? {
        data := response.data;
      } else {
        errors.HandleApiError(response);
      }
      loading := false;
    }

    method SetPageSafe(next: int)
      modifies this`page
      ensures Valid()
      ensures page == if next < 0 then 0 else next
    {
      page := if next < 0 then 0 else next;
    }

    /** Stores the query, goes back to page 0 and fetches page 0 with that query. */
    method Search(q: string, response: Api.Response<PageResult<T>>) returns (params: QueryParams)
      modifies this`query, this`page, this`data, this`loading, errors
      ensures Valid()
      ensures query == q && page == 0
      ensures params.page == 0 && params.size == size
      ensures params.q.Some? <==> !IsBlank(q)
      ensures params.q.Some? ==> params.q.value == Trim(q)
      ensures response.data.Some? ==> data == response.data
      ensures response.data.None? ==> data == old(data)
    {
      query := q;
      page := 0;
      params := Fetch(FetchOptions(Some(0), None, Some(q)), response);
    }

    /** Re-fetches with the stored page, size and query. */
    method Refresh(response: Api.Response<PageResult<T>>) returns (params: QueryParams)
      modifies this`data, this`loading, errors
      ensures params == BuildParams(FetchOptions(None, None, None), page, size, query)
      ensures params.page == page && params.size == size
      ensures response.data.Some? ==> data == response.data
      ensures response.data.None? ==> data == old(data)
    {
      params := Fetch(FetchOptions(None, None, None), response);
    }

    method SetSize(n: int)
      modifies this`size
      ensures size == n
    {
      size := n;
    }

    /** The rows shown: the stored page's content, none before the first page arrives. */
    function Rows(): (r: seq<T>)
      reads this
      ensures data.None? ==> r == []
      ensures data.Some? ==> r == data.value.content
    {
      if data.Some? then data.value.content else []
    }

    /** Before any page has arrived the pagination shows the local page, which is never negative. */
    function CurrentPagination(): (r: Pagination)
      reads this
      requires Valid()
      ensures data.None? ==> r.page >= 0 && r.totalPages == 0 && r.isFirst && r.isLast
    {
      PaginationOf(data, page, size)
    }
  }
}

=== FILE: admin_service.dfy ===
/**
 * The administration service: searching users and posts by a free-text
 * query, and deleting a user with everything that belongs to them.
 */
module AdminService {
  import opened Wrappers
  import opened Text
  import opened JavaText
  import opened Store

  const UserNotFoundNamed := "Kullanıcı bulunamadı: "

  /** A query selects rows only when it is present and not blank; otherwise every row is listed. */
  predicate Selects(q: Option<string>)
  {
    q.Some? && !IsJavaBlank(q.value)
  }

  /** `ContainingIgnoreCase` on a non-null column. */
  predicate MatchesIgnoreCase(s: string, q: string)
  {
    Contains(ToLower(s), ToLower(q))
  }

  /** `ContainingIgnoreCase` on a nullable column: a null column matches nothing. */
  predicate MatchesColumn(s: Option<string>, q: string)
  {
    s.Some? && MatchesIgnoreCase(s.value, q)
  }

  /** `getAllUsers`: every user, or those whose username or e-mail contains the query. */
  function UsersMatching(users: map<Id, User>, q: Option<string>): (r: set<Id>)
    ensures r <= users.Keys
  {
    if !Selects(q) then users.Keys
    else set id | id in users && (MatchesIgnoreCase(users[id].username, q.value) || MatchesIgnoreCase(users[id].email, q.value))
  }

  /** `getAllPosts`: every post, or those whose title or slug contains the query. */
  function PostsMatching(posts: map<Id, Post>, q: Option<string>): (r: set<Id>)
    ensures r <= posts.Keys
  {
    if !Selects(q) then posts.Keys
    else set id | id in posts && (MatchesColumn(posts[id].title, q.value) || MatchesColumn(posts[id].slug, q.value))
  }

  /** Every string contains itself, whatever the case of either. */
  lemma MatchesItself(s: string)
    ensures MatchesIgnoreCase(s, s)
  {
    assert OccursAt(ToLower(s), ToLower(s), 0);
  }

  /** Lower-casing twice is lower-casing once. */
  lemma LowerTwice(s: string)
    ensures ToLower(ToLower(s)) == ToLower(s)
  {
    forall i | 0 <= i < |s|
      ensures ToLower(ToLower(s))[i] == ToLower(s)[i]
    {
    }
  }

  /** Lower-casing keeps the white space, so it keeps a query blank or not blank. */
  lemma LowerKeepsBlank(q: string)
    ensures IsJavaBlank(ToLower(q)) <==> IsJavaBlank(q)
  {
    forall i | 0 <= i < |q|
      ensures IsJavaWhitespace(ToLower(q)[i]) <==> IsJavaWhitespace(q[i])
    {
      assert ToLower(q)[i] == LowerChar(q[i]);
    }
  }

  /** The user search ignores the case of the query. */
  lemma UserSearchIgnoresCase(users: map<Id, User>, q: string)
    ensures UsersMatching(users, Some(ToLower(q))) == UsersMatching(users, Some(q))
  {
    LowerTwice(q);
    LowerKeepsBlank(q);
  }

  /** The post search ignores the case of the query. */
  lemma PostSearchIgnoresCase(posts: map<Id, Post>, q: string)
    ensures PostsMatching(posts, Some(ToLower(q))) == PostsMatching(posts, Some(q))
  {
    LowerTwice(q);
    LowerKeepsBlank(q);
  }

  /** Searching for a user's own name, when it is not blank, finds that user. */
  lemma SearchFindsUserByName(users: map<Id, User>, id: Id)
    requires id in users && !IsJavaBlank(users[id].username)
    ensures id in UsersMatching(users, Some(users[id].username))
  {
    MatchesItself(users[id].username);
  }

  /** Searching for a post's slug finds that post. */
  lemma SearchFindsPostBySlug(posts: map<Id, Post>, id: Id)
    requires id in posts && posts[id].slug.Some? && !IsJavaBlank(posts[id].slug.value)
    ensures id in PostsMatching(posts, posts[id].slug)
  {
    MatchesItself(posts[id].slug.value);
  }

  /** The rows of a link table made by `user` or pointing at one of `own`. */
  function Touching(s: set<Link>, user: Id, own: set<Id>): (r: set<Link>)
    ensures forall l :: l in r <==> l in s && (l.0 == user || l.1 in own)
  {
    set l | l in s && (l.0 == user || l.1 in own)
  }

  /** The rows of a link table made by `user`. */
  function ByUser(s: set<Link>, user: Id): (r: set<Link>)
    ensures forall l :: l in r <==> l in s && l.0 == user
  {
    set l | l in s && l.0 == user
  }

  /**
   * The rows `deleteUserById` leaves behind that still refer to the user or
   * to the user's posts: views and saves, which it never deletes.
   */
  predicate Blocked(posts: map<Id, Post>, saves: set<Link>, views: set<Link>, user: Id)
  {
    Touching(views, user, Authored(posts, user)) != {} || Touching(saves, user, Authored(posts, user)) != {}
  }

  /**
   * Deleting a user with their posts, the comments the cascade reaches, the
   * likes by them or on their posts, and the views and saves by them or on
   * their posts keeps the tables consistent.
   */
  lemma DeleteUserConsistent(users: map<Id, User>, posts: map<Id, Post>, comments: map<Id, Comment>,
                             postLikes: set<Link>, commentLikes: set<Link>, saves: set<Link>, views: set<Link>,
                             user: Id, users': map<Id, User>, posts': map<Id, Post>, comments': map<Id, Comment>,
                             postLikes': set<Link>, commentLikes': set<Link>, saves': set<Link>, views': set<Link>)
    requires ParentsBefore(comments)
    requires TablesConsistent(users, posts, comments, postLikes, commentLikes, saves, views)
    requires var own := Authored(posts, user);
      && users' == users - {user} && posts' == posts - own
      && comments' == Sweep(comments, UserRoot(user, posts))
      && postLikes' == postLikes - Touching(postLikes, user, own)
      && commentLikes' == Surviving(commentLikes - ByUser(commentLikes, user), comments'.Keys)
      && saves' == saves - Touching(saves, user, own) && views' == views - Touching(views, user, own)
    ensures TablesConsistent(users', posts', comments', postLikes', commentLikes', saves', views')
  {
    var own := Authored(posts, user);
    var root := UserRoot(user, posts);
    forall c | c in comments && !root(c, comments[c])
      ensures comments[c].postId in posts' && comments[c].authorId in users'
    {
      assert comments[c].postId in posts && posts[comments[c].postId].authorId != user;
    }
    SweepConsistent(users', posts', comments, root, postLikes', commentLikes', saves', views');
  }

  /**
   * A consistent database in which user 0 has done nothing but view user 1's
   * post: deleting user 0 as written is blocked by that single view row.
   */
  lemma ViewerBlocksDelete()
    ensures var author := User("yazar", "yazar@example.com", "h", None, None, false, "USER", 0);
      var reader := User("okur", "okur@example.com", "h", None, None, false, "USER", 0);
      var users := map[0 := reader, 1 := author];
      var posts := map[2 := Post(Some("Merhaba"), Some("merhaba"), None, None, None, 1, true, 1, {}, None, 0)];
      && TablesConsistent(users, posts, map[], {}, {}, {}, {(0, 2)})
      && Blocked(posts, {}, {(0, 2)}, 0)
  {
    var posts := map[2 := Post(Some("Merhaba"), Some("merhaba"), None, None, None, 1, true, 1, {}, None, 0)];
    assert (0, 2) in Touching({(0, 2)}, 0, Authored(posts, 0));
  }

  class AdminServiceImpl {
    const db: Db

    constructor (db: Db)
      ensures this.db == db
    {
      this.db := db;
    }

    /**
     * `deleteUserById` as the service issues it: the user must exist; their
     * likes, the likes on their posts, their comments, their posts and the
     * user are deleted, but their post views and saved posts, and the views
     * and saves of their posts, are not, so any such row fails a foreign key
     * and the transaction is rolled back.
     */
    method DeleteUserByIdAsWritten(userId: Id) returns (r: Result<()>)
      requires db.Valid()
      modifies db`users, db`posts, db`comments, db`postLikes, db`commentLikes, db`saves, db`views
      ensures db.Valid()
      ensures userId !in old(db.users) ==> r == Thrown(Failure(ResourceNotFound, UserNotFoundNamed + NatToString(userId)))
      ensures userId in old(db.users) && Blocked(old(db.posts), old(db.saves), old(db.views), userId) ==>
        r.Thrown? && r.failure.kind == Constraint
      ensures r.Ok? <==> userId in old(db.users) && !Blocked(old(db.posts), old(db.saves), old(db.views), userId)
      ensures r.Thrown? ==> unchanged(db)
      ensures r.Ok? ==> var own := Authored(old(db.posts), userId);
        && db.users == old(db.users) - {userId}
        && db.posts == old(db.posts) - own
        && db.comments == Sweep(old(db.comments), UserRoot(userId, old(db.posts)))
        && db.postLikes == old(db.postLikes) - Touching(old(db.postLikes), userId, own)
        && db.commentLikes == Surviving(old(db.commentLikes) - ByUser(old(db.commentLikes), userId), db.comments.Keys)
        && db.saves == old(db.saves) && db.views == old(db.views)
      ensures old(db.Consistent()) ==> db.Consistent()
    {
      if userId !in db.users {
        return Thrown(Failure(ResourceNotFound, UserNotFoundNamed + NatToString(userId)));
      }
      if Blocked(db.posts, db.saves, db.views, userId) {
        return Thrown(Failure(Constraint, "post_views/saved_posts"));
      }
      RemoveUser(userId);
      r := Ok(());
    }

    /**
     * `deleteUserById` with the missing deletions added: the user's views and
     * saves and those of their posts go too, so an existing user is always
     * deleted and the tables stay consistent.
     */
    method DeleteUserById(userId: Id) returns (r: Result<()>)
      requires db.Valid()
      modifies db`users, db`posts, db`comments, db`postLikes, db`commentLikes, db`saves, db`views
      ensures db.Valid()
      ensures userId !in old(db.users) ==> r == Thrown(Failure(ResourceNotFound, UserNotFoundNamed + NatToString(userId)))
      ensures r.Ok? <==> userId in old(db.users)
      ensures r.Thrown? ==> unchanged(db)
      ensures r.Ok? ==> var own := Authored(old(db.posts), userId);
        && db.users == old(db.users) - {userId}
        && db.posts == old(db.posts) - own
        && db.comments == Sweep(old(db.comments), UserRoot(userId, old(db.posts)))
        && db.postLikes == old(db.postLikes) - Touching(old(db.postLikes), userId, own)
        && db.commentLikes == Surviving(old(db.commentLikes) - ByUser(old(db.commentLikes), userId), db.comments.Keys)
        && db.saves == old(db.saves) - Touching(old(db.saves), userId, own)
        && db.views == old(db.views) - Touching(old(db.views), userId, own)
      ensures r.Ok? ==> userId !in db.users && Authored(db.posts, userId) == {}
      ensures old(db.Consistent()) ==> db.Consistent()
    {
      if userId !in db.users {
        return Thrown(Failure(ResourceNotFound, UserNotFoundNamed + NatToString(userId)));
      }
      RemoveUser(userId);
      r := Ok(());
    }

    /**
     * The deletions of a user: likes by the user (of posts and of comments),
     * likes of the user's posts, the user's comments and, by cascade, their
     * replies and likes, the user's posts and, by cascade, their comments,
     * the views and saves by the user or of the user's posts, and the user.
     */
    method RemoveUser(userId: Id)
      requires db.Valid() && userId in db.users
      modifies db`users, db`posts, db`comments, db`postLikes, db`commentLikes, db`saves, db`views
      ensures db.Valid()
      ensures var own := Authored(old(db.posts), userId);
        && db.users == old(db.users) - {userId}
        && db.posts == old(db.posts) - own
        && db.comments == Sweep(old(db.comments), UserRoot(userId, old(db.posts)))
        && db.postLikes == old(db.postLikes) - Touching(old(db.postLikes), userId, own)
        && db.commentLikes == Surviving(old(db.commentLikes) - ByUser(old(db.commentLikes), userId), db.comments.Keys)
        && db.saves == old(db.saves) - Touching(old(db.saves), userId, own)
        && db.views == old(db.views) - Touching(old(db.views), userId, own)
      ensures old(db.Consistent()) ==> db.Consistent()
    {
      var own := Authored(db.posts, userId);
      var postLikes := db.postLikes - Touching(db.postLikes, userId, own);
      var commentLikes := db.commentLikes - ByUser(db.commentLikes, userId);
      var saves := db.saves - Touching(db.saves, userId, own);
      var views := db.views - Touching(db.views, userId, own);
      var comments := Sweep(db.comments, UserRoot(userId, db.posts));
      commentLikes := Surviving(commentLikes, comments.Keys);
      var posts := db.posts - own;
      var users := db.users - {userId};
      db.postLikes, db.commentLikes, db.saves, db.views := postLikes, commentLikes, saves, views;
      db.comments, db.posts, db.users := comments, posts, users;
      if old(db.Consistent()) {
        DeleteUserConsistent(old(db.users), old(db.posts), old(db.comments), old(db.postLikes), old(db.commentLikes),
                             old(db.saves), old(db.views), userId,
                             db.users, db.posts, db.comments, db.postLikes, db.commentLikes, db.saves, db.views);
      }
    }
  }
}

=== FILE: admin_users.dfy ===
/** The admin users list: the paging hook over user rows plus a local delete. */
module AdminUsers {
  import opened Wrappers
  import opened Text
  import opened Lists
  import opened AdminPaging
  import Api

  datatype AdminUser = AdminUser(id: nat, username: string, email: string, roleName: string, isOnline: bool, createdAt: string)

  const DeleteFailedMessage := "Kullanıcı silinemedi"

  /** The page after a user was deleted on the server. */
  function WithoutUser(p: PageResult<AdminUser>, userId: nat): (r: PageResult<AdminUser>)
    ensures IsFilterOf(r.content, p.content, (u: AdminUser) => u.id != userId)
    ensures r.totalElements == if p.totalElements - 1 < 0 then 0 else p.totalElements - 1
    ensures r.totalElements >= 0
    ensures r.(content := p.content, totalElements := p.totalElements) == p
  {
    p.(content := Remove(p.content, userId),
       totalElements := if p.totalElements - 1 < 0 then 0 else p.totalElements - 1)
  }

  /** `users.filter(u => u.id !== userId)`. */
  function Remove(us: seq<AdminUser>, userId: nat): (r: seq<AdminUser>)
    ensures IsFilterOf(r, us, (u: AdminUser) => u.id != userId)
  {
    if us == [] then []
    else
      var rest := Remove(us[1..], userId);
      FilterCons(us, rest, (u: AdminUser) => u.id != userId);
      if us[0].id == userId then rest else [us[0]] + rest
  }

  method DeleteUser<R>(hook: PagedHook<AdminUser>, userId: nat, response: Api.Response<R>)
    returns (result: Api.ActionResult)
    modifies hook`data
    ensures response.status in {200, 204} ==> result == Api.Succeeded
    ensures response.status in {200, 204} && old(hook.data).Some? ==>
      hook.data == Some(WithoutUser(old(hook.data).value, userId))
    ensures response.status in {200, 204} && old(hook.data).None? ==> hook.data.None?
    ensures response.status !in {200, 204} ==>
      result == Api.Failed(OrDefault(response.error, DeleteFailedMessage)) && hook.data == old(hook.data)
  {
    if response.status == 204 || response.status == 200 {
      if hook.data.Some? {
        var prev := hook.data.value;
        hook.data := Some(prev.(content := Remove(prev.content, userId),
                                totalElements := if prev.totalElements - 1 < 0 then 0 else prev.totalElements - 1));
      }
      result := Api.Succeeded;
    } else {
      result := Api.Failed(OrDefault(response.error, DeleteFailedMessage));
    }
  }
}

=== FILE: api.dfy ===
/**
 * The client's response envelope. The HTTP client never throws: a failed
 * `fetch` comes back as an envelope with status 0 and the error
 * "Network error", and a 204 answer carries neither data nor error.
 */
module Api {
  import opened Wrappers

  datatype Response<T> = Response(data: Option<T>, error: Option<string>, status: int)

  /** The `{ success, error? }` record the hooks hand back to components. */
  datatype ActionResult = Succeeded | Failed(error: string)
}

=== FILE: auth_context.dfy ===
/**
 * The authentication context: the session's user and token, the token kept in
 * local storage, and the role merged into the fetched profile. Server answers
 * are parameters; decoding a token's payload is the function `decode`, given
 * when the context is created (it stands for base64 and JSON parsing).
 */
module AuthContext {
  import opened Wrappers
  import opened Text
  import Api

  const AdminRole := "ADMIN"
  const UserRole := "USER"
  const LoginFailed := "Giriş başarısız"
  const RegisterFailed := "Kayıt başarısız"
  const AdminOnly := "Sadece admin giriş yapabilir."

  datatype User = User(id: string, username: string, email: string, bio: Option<string>,
                       profileImgUrl: Option<string>, roleName: string)

  /** A JSON number or string claim. */
  datatype Claim = NumClaim(n: int) | StrClaim(s: string)

  /**
   * A token's payload: unreadable (the parse throws), or its `roles` claim
   * (absent when it is not an array) and its `userId` claim.
   */
  datatype Payload = Unreadable | Decoded(roles: Option<seq<string>>, userId: Option<Claim>)

  datatype LoginRequest = LoginRequest(username: string, password: string)
  datatype LoginResponse = LoginResponse(token: string, username: string, roleName: string)
  /** The admin login answer, whose `token` may be missing. */
  datatype TokenBody = TokenBody(token: Option<string>)
  datatype RegisterRequest = RegisterRequest(username: string, email: string, password: string, bio: Option<string>)

  /** The role the stored token claims: ADMIN before USER, none when the token is absent, unreadable or claims neither. */
  function TokenRole(stored: Option<string>, decode: string -> Payload): (r: Option<string>)
    ensures r == Some(AdminRole) <==>
      Truthy(stored) && decode(stored.value).Decoded? && decode(stored.value).roles.Some?
      && AdminRole in decode(stored.value).roles.value
    ensures r == Some(UserRole) <==>
      Truthy(stored) && decode(stored.value).Decoded? && decode(stored.value).roles.Some?
      && AdminRole !in decode(stored.value).roles.value && UserRole in decode(stored.value).roles.value
    ensures r.None? || r == Some(AdminRole) || r == Some(UserRole)
  {
    if !Truthy(stored) then None
    else match decode(stored.value)
      case Unreadable => None
      case Decoded(roles, _) =>
        if roles.None? then None
        else if AdminRole in roles.value then Some(AdminRole)
        else if UserRole in roles.value then Some(UserRole)
        else None
  }

  /** `roleName || (user?.roleName ?? "USER")`: the token's role, else the previous user's, else USER. */
  function DerivedRole(tokenRole: Option<string>, previous: Option<User>): (r: string)
    requires tokenRole.None? || tokenRole == Some(AdminRole) || tokenRole == Some(UserRole)
    ensures tokenRole.Some? ==> r == tokenRole.value
    ensures tokenRole.None? && previous.Some? ==> r == previous.value.roleName
    ensures tokenRole.None? && previous.None? ==> r == UserRole
  {
    OrDefault(tokenRole, if previous.Some? then previous.value.roleName else UserRole)
  }

  /** A later fetch with the same token and the fetched user as the previous one keeps the role. */
  lemma RefetchKeepsRole(tokenRole: Option<string>, previous: Option<User>, fetched: User)
    requires tokenRole.None? || tokenRole == Some(AdminRole) || tokenRole == Some(UserRole)
    ensures var u := fetched.(roleName := DerivedRole(tokenRole, previous));
      DerivedRole(tokenRole, Some(u)) == u.roleName
  {
  }

  /** Does a token's payload claim ADMIN? (the check `adminLogin` makes) */
  predicate ClaimsAdmin(token: string, decode: string -> Payload)
  {
    decode(token).Decoded? && decode(token).roles.Some? && AdminRole in decode(token).roles.value
  }

  class Auth {
    var user: Option<User>
    var token: Option<string>
    /** The token in local storage. */
    var stored: Option<string>
    var loading: bool
    const decode: string -> Payload

    /** A fresh provider; `saved` is what local storage already holds. */
    constructor (saved: Option<string>, decoder: string -> Payload)
      ensures user.None? && token.None? && stored == saved && loading && decode == decoder
    {
      user := None;
      token := None;
      stored := saved;
      loading := true;
      decode := decoder;
    }

    predicate IsAuthenticated()
      reads this
    {
      user.Some? && Truthy(token)
    }

    predicate IsAdmin()
      reads this
    {
      user.Some? && user.value.roleName == AdminRole
    }

    /** The session token agrees with local storage. */
    ghost predicate Synced()
      reads this
    {
      token == stored || (!Truthy(token) && !Truthy(stored))
    }

    method Logout()
      modifies this`user, this`token, this`stored
      ensures user.None? && token.None? && stored.None?
      ensures !IsAuthenticated() && !IsAdmin() && Synced()
    {
      user := None;
      token := None;
      stored := None;
    }

    /**
     * `fetchUserProfile`; `response` answers the profile request and `previous`
     * is the user as the calling render saw it. With data, the user becomes the
     * fetched profile with the derived role; without, the session is logged out.
     */
    method FetchUserProfile(response: Api.Response<User>, previous: Option<User>)
      modifies this`user, this`token, this`stored
      ensures response.data.Some? ==>
        && user == Some(response.data.value.(roleName := DerivedRole(TokenRole(stored, decode), previous)))
        && token == old(token) && stored == old(stored)
      ensures response.data.Some? ==> (IsAdmin() <==>
        TokenRole(stored, decode) == Some(AdminRole)
        || (TokenRole(stored, decode).None? && previous.Some? && previous.value.roleName == AdminRole))
      ensures response.data.None? ==> user.None? && token.None? && stored.None?
      ensures old(Synced()) ==> Synced()
    {
      if response.data.Some? {
        var role := DerivedRole(TokenRole(stored, decode), previous);
        user := Some(response.data.value.(roleName := role));
      } else {
        Logout();
      }
    }

    /** The mount effect: a saved token is adopted and its profile fetched; loading ends either way. */
    method InitAuth(profile: Api.Response<User>)
      requires user.None? && token.None?
      modifies this`user, this`token, this`stored, this`loading
      ensures !loading && Synced()
      ensures !Truthy(old(stored)) ==> user.None? && token.None? && stored == old(stored)
      ensures Truthy(old(stored)) && profile.data.Some? ==> token == old(stored) && IsAuthenticated()
      ensures Truthy(old(stored)) && profile.data.None? ==> user.None? && token.None? && stored.None?
    {
      if Truthy(stored) {
        token := stored;
        FetchUserProfile(profile, None);
      }
      loading := false;
    }

    /**
     * `login`; `response` answers the login request and `profile` the profile
     * fetch that follows. A success stores the token in the session and in
     * local storage; a failure leaves user and token as they were.
     */
    method Login(response: Api.Response<LoginResponse>, profile: Api.Response<User>)
      returns (result: Api.ActionResult)
      modifies this`user, this`token, this`stored
      ensures response.data.Some? ==> result == Api.Succeeded
      ensures response.data.Some? && profile.data.Some? ==>
        && token == Some(response.data.value.token) && stored == token
        && user == Some(profile.data.value.(roleName := DerivedRole(TokenRole(stored, decode), old(user))))
      ensures response.data.Some? && profile.data.None? ==> user.None? && token.None? && stored.None?
      ensures response.data.None? ==>
        && result == Api.Failed(OrDefault(response.error, LoginFailed))
        && user == old(user) && token == old(token) && stored == old(stored)
      ensures old(Synced()) ==> Synced()
    {
      if response.data.None? {
        return Api.Failed(OrDefault(response.error, LoginFailed));
      }
      var previous := user;
      var answer := response.data.value;
      token := Some(answer.token);
      stored := Some(answer.token);
      user := Some(User("", answer.username, "", None, None, answer.roleName));
      FetchUserProfile(profile, previous);
      result := Api.Succeeded;
    }

    /**
     * `adminLogin`: a token whose payload does not claim ADMIN is dropped again,
     * with the session logged out, after the profile fetch.
     */
    method AdminLogin(response: Api.Response<TokenBody>, profile: Api.Response<User>)
      returns (result: Api.ActionResult)
      modifies this`user, this`token, this`stored
      ensures !(response.data.Some? && Truthy(response.data.value.token)) ==>
        && result == Api.Failed(OrDefault(response.error, LoginFailed))
        && user == old(user) && token == old(token) && stored == old(stored)
      ensures response.data.Some? && Truthy(response.data.value.token) ==>
        var t := response.data.value.token.value;
        && (result.Succeeded? <==> ClaimsAdmin(t, decode))
        && (!ClaimsAdmin(t, decode) ==>
              result == Api.Failed(AdminOnly) && user.None? && token.None? && stored.None?)
        && (ClaimsAdmin(t, decode) && profile.data.Some? ==> token == Some(t) && IsAdmin())
      ensures result.Succeeded? && profile.data.Some? ==> Truthy(stored) && ClaimsAdmin(stored.value, decode)
      ensures result.Succeeded? && profile.data.None? ==> !IsAuthenticated()
      ensures old(Synced()) ==> Synced()
    {
      if !(response.data.Some? && Truthy(response.data.value.token)) {
        return Api.Failed(OrDefault(response.error, LoginFailed));
      }
      var previous := user;
      var newToken := response.data.value.token.value;
      token := Some(newToken);
      stored := Some(newToken);
      var isAdmin := ClaimsAdmin(newToken, decode);
      FetchUserProfile(profile, previous);
      if !isAdmin {
        Logout();
        return Api.Failed(AdminOnly);
      }
      result := Api.Succeeded;
    }

    /**
     * `register`; on success it logs in with the same username and password
     * and returns what that login returns.
     */
    method Register(request: RegisterRequest, response: Api.Response<User>,
                    loginResponse: Api.Response<LoginResponse>, profile: Api.Response<User>)
      returns (loginRequest: Option<LoginRequest>, result: Api.ActionResult)
      modifies this`user, this`token, this`stored
      ensures response.data.Some? <==> loginRequest.Some?
      ensures loginRequest.Some? ==> loginRequest.value == LoginRequest(request.username, request.password)
      ensures response.data.Some? && loginResponse.data.Some? ==> result == Api.Succeeded
      ensures response.data.Some? && loginResponse.data.Some? && profile.data.Some? ==>
        && token == Some(loginResponse.data.value.token) && stored == token
        && user == Some(profile.data.value.(roleName := DerivedRole(TokenRole(stored, decode), old(user))))
      ensures response.data.Some? && loginResponse.data.Some? && profile.data.None? ==>
        user.None? && token.None? && stored.None?
      ensures response.data.Some? && loginResponse.data.None? ==>
        && result == Api.Failed(OrDefault(loginResponse.error, LoginFailed))
        && user == old(user) && token == old(token) && stored == old(stored)
      ensures response.data.None? ==>
        && result == Api.Failed(OrDefault(response.error, RegisterFailed))
        && user == old(user) && token == old(token) && stored == old(stored)
      ensures old(Synced()) ==> Synced()
    {
      if response.data.None? {
        return None, Api.Failed(OrDefault(response.error, RegisterFailed));
      }
      loginRequest := Some(LoginRequest(request.username, request.password));
      result := Login(loginResponse, profile);
    }

    /** `refreshProfile`: a no-op without a session token. */
    method RefreshProfile(profile: Api.Response<User>)
      modifies this`user, this`token, this`stored
      ensures !Truthy(old(token)) ==> user == old(user) && token == old(token) && stored == old(stored)
      ensures Truthy(old(token)) && profile.data.Some? ==>
        && user == Some(profile.data.value.(roleName := DerivedRole(TokenRole(stored, decode), old(user))))
        && token == old(token) && stored == old(stored)
      ensures Truthy(old(token)) && profile.data.None? ==> user.None? && token.None? && stored.None?
      ensures old(Synced()) ==> Synced()
    {
      if Truthy(token) {
        FetchUserProfile(profile, user);
      }
    }
  }
}

=== FILE: auth_service.dfy ===
/**
 * The authentication service: registering a user with the USER role,
 * logging in (which marks the user online and issues a token), and
 * replacing a forgotten password with a fresh one.
 */
module AuthService {
  import opened Wrappers
  import opened JavaText
  import opened Store

  const UsernameInUse := "Bu Kullanıcı Adı Zaten Kullanılıyor"
  const EmailInUse := "Bu Email Adresi Zaten Kayıtlı"
  const NoUserRole := "USER rolü bulunamadı."
  const UserNotFoundDot := "Kullanıcı bulunamadı."
  const EmailRequired := "Email zorunludur."
  const NoUserWithEmail := "Bu email ile kayıtlı kullanıcı bulunamadı."
  const UserRole := "USER"

  /** `RegisterRequestDto`. */
  datatype RegisterRequest = RegisterRequest(username: string, email: string, password: string,
                                             profileImgUrl: Option<string>, bio: Option<string>)

  /** `RegisterResponseDto`. */
  datatype Registered = Registered(id: Id, username: string, email: string, profileImgUrl: Option<string>,
                                   bio: Option<string>, isOnline: bool, roleName: string)

  /** `LoginResponseDto`. */
  datatype LoggedIn = LoggedIn(id: Id, username: string, email: string, roleName: string, isOnline: bool, token: string)

  /** The user a registration stores: offline, with the USER role and the encoded password. */
  function NewUser(req: RegisterRequest, hashed: string, now: int): (u: User)
    ensures u.username == req.username && u.email == req.email && u.hashedPassword == hashed
    ensures u.profileImgUrl == req.profileImgUrl && u.bio == req.bio
    ensures !u.isOnline && u.role == UserRole && u.updatedAt == now
  {
    User(req.username, req.email, hashed, req.profileImgUrl, req.bio, false, UserRole, now)
  }

  /** The first eight characters of a UUID's text form. */
  function TemporaryPassword(uuid: string): (r: string)
    requires |uuid| == 36
    ensures |r| == 8 && r == uuid[..8]
  {
    uuid[..8]
  }

  class AuthServiceImpl {
    const db: Db

    constructor (db: Db)
      ensures this.db == db
    {
      this.db := db;
    }

    /**
     * `register`: the username and then the e-mail must be free and the USER
     * role must exist; the new user is stored offline with that role.
     */
    method Register(req: RegisterRequest, encode: string -> string, now: int) returns (r: Result<Registered>)
      requires db.Valid()
      modifies db`users, db`nextId
      ensures db.Valid()
      ensures UsernameTaken(old(db.users), req.username) ==> r == Thrown(Failure(Runtime, UsernameInUse))
      ensures !UsernameTaken(old(db.users), req.username) && EmailTaken(old(db.users), req.email) ==>
        r == Thrown(Failure(Runtime, EmailInUse))
      ensures !UsernameTaken(old(db.users), req.username) && !EmailTaken(old(db.users), req.email) && UserRole !in db.roles
        ==> r == Thrown(Failure(Runtime, NoUserRole))
      ensures r.Ok? <==>
        !UsernameTaken(old(db.users), req.username) && !EmailTaken(old(db.users), req.email) && UserRole in db.roles
      ensures r.Ok? ==>
        && r.value.id == old(db.nextId) && r.value.id !in old(db.users)
        && db.users == old(db.users)[r.value.id := NewUser(req, encode(req.password), now)]
        && r.value == Registered(r.value.id, req.username, req.email, req.profileImgUrl, req.bio, false, UserRole)
      ensures r.Thrown? ==> db.users == old(db.users) && db.nextId == old(db.nextId)
      ensures old(db.UniqueUserKeys()) ==> db.UniqueUserKeys()
      ensures old(db.Consistent()) ==> db.Consistent()
    {
      if UsernameTaken(db.users, req.username) {
        return Thrown(Failure(Runtime, UsernameInUse));
      }
      if EmailTaken(db.users, req.email) {
        return Thrown(Failure(Runtime, EmailInUse));
      }
      if UserRole !in db.roles {
        return Thrown(Failure(Runtime, NoUserRole));
      }
      var user := NewUser(req, encode(req.password), now);
      var id := db.SaveUser(user);
      r := Ok(Registered(id, user.username, user.email, user.profileImgUrl, user.bio, user.isOnline, user.role));
    }

    /**
     * `login`: the authentication manager must accept the credentials and a
     * user with the name must exist; that user is marked online and gets a
     * token carrying its name, id and role.
     */
    method Login(username: string, password: string, authenticate: (string, string) -> bool,
                 generateToken: (string, Id, seq<string>) -> string)
      returns (r: Result<LoggedIn>)
      modifies db`users
      ensures !authenticate(username, password) ==> r.Thrown? && r.failure.kind == BadCredentials
      ensures authenticate(username, password) && !UsernameTaken(old(db.users), username) ==>
        r == Thrown(Failure(Runtime, UserNotFoundDot))
      ensures r.Ok? <==> authenticate(username, password) && UsernameTaken(old(db.users), username)
      ensures r.Ok? ==>
        var id := r.value.id;
        && id in old(db.users) && old(db.users)[id].username == username
        && db.users == old(db.users)[id := old(db.users)[id].(isOnline := true)]
        && r.value == LoggedIn(id, username, old(db.users)[id].email, old(db.users)[id].role, true,
                               generateToken(username, id, [old(db.users)[id].role]))
      ensures r.Thrown? ==> db.users == old(db.users)
      ensures old(db.UniqueUserKeys()) ==> db.UniqueUserKeys()
      ensures old(db.Consistent()) ==> db.Consistent()
    {
      if !authenticate(username, password) {
        return Thrown(Failure(BadCredentials, "Bad credentials"));
      }
      var found := db.FindByUsername(username);
      if found.None? {
        return Thrown(Failure(Runtime, UserNotFoundDot));
      }
      var id := found.value;
      var user := db.users[id];
      db.users := db.users[id := user.(isOnline := true)];
      var token := generateToken(user.username, id, [user.role]);
      r := Ok(LoggedIn(id, user.username, user.email, user.role, true, token));
    }

    /**
     * `forgotPassword`: the e-mail must be given and not blank and must belong
     * to a user; that user's password becomes the first eight characters of
     * a random UUID, which are returned.
     */
    method ForgotPassword(email: Option<string>, uuid: string, encode: string -> string) returns (r: Result<string>)
      requires |uuid| == 36
      modifies db`users
      ensures email.None? || IsJavaBlank(email.value) ==> r == Thrown(Failure(IllegalArgument, EmailRequired))
      ensures email.Some? && !IsJavaBlank(email.value) && !EmailTaken(old(db.users), email.value) ==>
        r == Thrown(Failure(Checked, NoUserWithEmail))
      ensures r.Ok? <==> email.Some? && !IsJavaBlank(email.value) && EmailTaken(old(db.users), email.value)
      ensures r.Ok? ==>
        && r.value == TemporaryPassword(uuid)
        && exists id :: id in old(db.users) && old(db.users)[id].email == email.value
             && db.users == old(db.users)[id := old(db.users)[id].(hashedPassword := encode(r.value))]
      ensures r.Thrown? ==> db.users == old(db.users)
      ensures old(db.UniqueUserKeys()) ==> db.UniqueUserKeys()
      ensures old(db.Consistent()) ==> db.Consistent()
    {
      if email.None? || IsJavaBlank(email.value) {
        return Thrown(Failure(IllegalArgument, EmailRequired));
      }
      var found := db.FindByEmail(email.value);
      if found.None? {
        return Thrown(Failure(Checked, NoUserWithEmail));
      }
      var id := found.value;
      var newPassword := TemporaryPassword(uuid);
      db.users := db.users[id := db.users[id].(hashedPassword := encode(newPassword))];
      r := Ok(newPassword);
    }
  }

  /** After a registration both the name and the e-mail are taken, so the same request is refused next time. */
  lemma RegisteredKeysAreTaken(users: map<Id, User>, id: Id, req: RegisterRequest, hashed: string, now: int)
    ensures var after := users[id := NewUser(req, hashed, now)];
      UsernameTaken(after, req.username) && EmailTaken(after, req.email)
  {
    var after := users[id := NewUser(req, hashed, now)];
    assert after[id].username == req.username && after[id].email == req.email;
  }
}

=== FILE: category_service.dfy ===
/**
 * The category service: creating a category whose name is new ignoring
 * case, with a slug made from the name, and deleting a category by id.
 */
module CategoryService {
  import opened Wrappers
  import opened Text
  import opened Store
  import SlugUtil

  const NameInUse := "Bu isimde bir kategori zaten mevcut."
  const CategoryNotFound := "Kategori bulunamadı: "

  /** `CategoryCreateDto`. */
  datatype CategoryCreate = CategoryCreate(name: string, description: Option<string>)

  /** `CategoryDto`. */
  datatype CategoryView = CategoryView(id: Id, name: string, slug: Option<string>, description: Option<string>)

  /** `existsByNameIgnoreCase`. */
  predicate NameTaken(categories: map<Id, Category>, name: string)
  {
    exists id :: id in categories && ToLower(categories[id].name) == ToLower(name)
  }

  /** No two categories have names that differ only in case. */
  ghost predicate UniqueNames(categories: map<Id, Category>)
  {
    forall a, b :: a in categories && b in categories && ToLower(categories[a].name) == ToLower(categories[b].name) ==> a == b
  }

  /** Some post still refers to the category. */
  predicate InUse(posts: map<Id, Post>, id: Id)
  {
    exists p :: p in posts && posts[p].categoryId == Some(id)
  }

  /** Once a category is stored, its name in any case is taken. */
  lemma StoredNameIsTaken(categories: map<Id, Category>, id: Id, c: Category, name: string)
    requires ToLower(name) == ToLower(c.name)
    ensures NameTaken(categories[id := c], name)
  {
    assert categories[id := c][id] == c;
  }

  class CategoryServiceImpl {
    const db: Db

    constructor (db: Db)
      ensures this.db == db
    {
      this.db := db;
    }

    /**
     * `createCategory`: a name equal ignoring case to an existing one is
     * refused; otherwise the category is stored with the slug of its name.
     */
    method CreateCategory(dto: CategoryCreate) returns (r: Result<CategoryView>)
      requires db.Valid()
      modifies db`categories, db`nextId
      ensures db.Valid()
      ensures NameTaken(old(db.categories), dto.name) ==> r == Thrown(Failure(IllegalArgument, NameInUse))
      ensures r.Ok? <==> !NameTaken(old(db.categories), dto.name)
      ensures r.Ok? ==>
        && r.value.id == old(db.nextId) && r.value.id !in old(db.categories)
        && r.value.slug == Some(SlugUtil.Slugify(dto.name)) && SlugUtil.IsSlug(r.value.slug.value)
        && r.value.name == dto.name && r.value.description == dto.description
        && db.categories == old(db.categories)[r.value.id := Category(dto.name, dto.description, r.value.slug)]
        && NameTaken(db.categories, dto.name)
      ensures r.Thrown? ==> db.categories == old(db.categories) && db.nextId == old(db.nextId)
      ensures UniqueNames(old(db.categories)) ==> UniqueNames(db.categories)
      ensures old(db.Consistent()) ==> db.Consistent()
    {
      if exists id :: id in db.categories && ToLower(db.categories[id].name) == ToLower(dto.name) {
        return Thrown(Failure(IllegalArgument, NameInUse));
      }
      var slug := SlugUtil.ToSlug(Some(dto.name));
      SlugUtil.SlugifyShape(dto.name);
      var category := Category(dto.name, dto.description, slug);
      var id := db.SaveCategory(category);
      StoredNameIsTaken(old(db.categories), id, category, dto.name);
      r := Ok(CategoryView(id, category.name, category.slug, category.description));
    }

    /**
     * `deleteCategory`: an unknown id is refused; a category a post still
     * refers to fails the post's foreign key; otherwise it is removed.
     */
    method DeleteCategory(id: Id) returns (r: Result<()>)
      modifies db`categories
      ensures id !in old(db.categories) ==> r == Thrown(Failure(IllegalArgument, CategoryNotFound + NatToString(id)))
      ensures id in old(db.categories) && InUse(db.posts, id) ==> r.Thrown? && r.failure.kind == Constraint
      ensures r.Ok? <==> id in old(db.categories) && !InUse(db.posts, id)
      ensures r.Ok? ==> db.categories == old(db.categories) - {id}
      ensures r.Thrown? ==> db.categories == old(db.categories)
      ensures UniqueNames(old(db.categories)) ==> UniqueNames(db.categories)
      ensures old(db.Valid()) ==> db.Valid()
      ensures old(db.Consistent()) ==> db.Consistent()
    {
      if id !in db.categories {
        return Thrown(Failure(IllegalArgument, CategoryNotFound + NatToString(id)));
      }
      if exists p :: p in db.posts && db.posts[p].categoryId == Some(id) {
        return Thrown(Failure(Constraint, "posts.category_id"));
      }
      db.categories := db.categories - {id};
      r := Ok(());
    }
  }
}

=== FILE: comment_section.dfy ===
/**
 * The comment section of one post: relative comment dates, the comment and
 * reply forms, the like and delete handlers, and which actions each rendered
 * comment offers. The hook's answers (`createComment`, `toggleCommentLike`,
 * `deleteComment`) and the user's confirmation are parameters.
 */
module CommentSection {
  import opened Wrappers
  import opened Text
  import Api
  import UseComments
  import ViewModel

  /** What `createComment` is called with. */
  datatype CreateCommentRequest = CreateCommentRequest(postId: string, content: string, parentCommentId: Option<string>)

  /** A relative date, before it is rendered as text. */
  datatype Ago = JustNow | MinutesAgo(n: nat) | HoursAgo(n: nat) | DaysAgo(n: nat)

  const MinutesPerHour := 60
  const MinutesPerDay := 1440
  const MsPerMinute := 60000
  const CommentFailed := "Yorum gönderilemedi"
  const ReplyFailed := "Yanıt gönderilemedi"

  /**
   * The bucket of an elapsed whole number of minutes: under a minute, whole
   * minutes under an hour, whole hours under a day, whole days otherwise.
   * Each count is rounded down and lies inside its unit's range.
   */
  function Bucket(minutes: int): (r: Ago)
    ensures r == JustNow <==> minutes < 1
    ensures r.MinutesAgo? <==> 1 <= minutes < MinutesPerHour
    ensures r.HoursAgo? <==> MinutesPerHour <= minutes < MinutesPerDay
    ensures r.DaysAgo? <==> MinutesPerDay <= minutes
    ensures r.MinutesAgo? ==> r.n == minutes
    ensures r.HoursAgo? ==> 1 <= r.n < 24 && MinutesPerHour * r.n <= minutes < MinutesPerHour * (r.n + 1)
    ensures r.DaysAgo? ==> 1 <= r.n && MinutesPerDay * r.n <= minutes < MinutesPerDay * (r.n + 1)
  {
    if minutes < 1 then JustNow
    else if minutes < MinutesPerHour then MinutesAgo(minutes)
    else if minutes < MinutesPerDay then HoursAgo(minutes / MinutesPerHour)
    else DaysAgo(minutes / MinutesPerDay)
  }

  /** The order of the units, for comparing buckets. */
  function Rank(a: Ago): nat
  {
    match a
    case JustNow => 0
    case MinutesAgo(_) => 1
    case HoursAgo(_) => 2
    case DaysAgo(_) => 3
  }

  /** More elapsed time never shows a smaller unit, nor a smaller count in the same unit. */
  lemma BucketMonotone(m1: int, m2: int)
    requires m1 <= m2
    ensures Rank(Bucket(m1)) <= Rank(Bucket(m2))
    ensures Rank(Bucket(m1)) == Rank(Bucket(m2)) && !Bucket(m1).JustNow? ==> Bucket(m1).n <= Bucket(m2).n
  {
  }

  function Label(a: Ago): string
  {
    match a
    case JustNow => "Az önce"
    case MinutesAgo(n) => NatToString(n) + "dk önce"
    case HoursAgo(n) => NatToString(n) + "sa önce"
    case DaysAgo(n) => NatToString(n) + "g önce"
  }

  /**
   * `formatDate`: `elapsedMs` is now minus the comment's time in milliseconds,
   * NaN for an unparsable date. Minutes are rounded down as `Math.floor` does
   * (Dafny's division agrees with it for a positive divisor). A NaN fails every
   * comparison and falls through to the day label.
   */
  function FormatDate(elapsedMs: JsNumber): (r: string)
    ensures elapsedMs.NaN? ==> r == "NaNg önce"
    ensures elapsedMs.Num? ==> r == Label(Bucket(elapsedMs.value / MsPerMinute))
    ensures elapsedMs.Num? ==> (r == "Az önce" <==> elapsedMs.value < MsPerMinute)
  {
    match elapsedMs
    case NaN => "NaNg önce"
    case Num(ms) =>
      var b := Bucket(ms / MsPerMinute);
      assert b != JustNow ==> Label(b)[0] != 'A' by {
        if b != JustNow {
          assert Label(b)[0] == NatToString(b.n)[0];
        }
      }
      Label(b)
  }

  /** `!result.success && result.error`: only a failure with a non-empty message is shown. */
  function AlertFor(result: Api.ActionResult): (r: Option<string>)
    ensures r.Some? <==> result.Failed? && result.error != ""
    ensures r.Some? ==> r.value == result.error
  {
    if result.Failed? && result.error != "" then Some(result.error) else None
  }

  /** What a like or delete handler did: nothing, or called the hook and maybe alerted. */
  datatype Effect = Skipped | Called(alert: Option<string>)

  /** `handleDeleteComment`: needs a token, then the user's confirmation. */
  function HandleDeleteComment(token: Option<string>, confirmed: bool, result: Api.ActionResult): (r: Effect)
    ensures r.Called? <==> Truthy(token) && confirmed
    ensures r.Called? ==> r.alert == AlertFor(result)
  {
    if !Truthy(token) then Skipped
    else if confirmed then Called(AlertFor(result))
    else Skipped
  }

  /** `handleLikeComment`: needs a token, nothing else. */
  function HandleLikeComment(token: Option<string>, result: Api.ActionResult): (r: Effect)
    ensures r.Called? <==> Truthy(token)
    ensures r.Called? ==> r.alert == AlertFor(result)
  {
    if !Truthy(token) then Skipped else Called(AlertFor(result))
  }

  /**
   * `user.id` as it is at run time: the number the profile answer carries
   * (the backend's `Long` id), or the empty text the interim user set from a
   * login response carries until that answer arrives.
   */
  datatype UserIdValue = NumberId(n: nat) | TextId(s: string)

  /** `String(user.id)`. */
  function IdText(v: UserIdValue): string
  {
    match v
    case NumberId(n) => NatToString(n)
    case TextId(s) => s
  }

  /**
   * `user?.id === comment.author.id`: strict equality, with the author id
   * always a string (the comment mapper makes it one), so a number never equals it.
   */
  predicate StrictlyEqual(userId: Option<UserIdValue>, authorId: string)
  {
    userId.Some? && userId.value.TextId? && userId.value.s == authorId
  }

  /** The delete button as written: `isAdmin || user?.id === comment.author.id`. */
  predicate DeleteShownAsWritten(isAdmin: bool, userId: Option<UserIdValue>, authorId: string)
  {
    isAdmin || StrictlyEqual(userId, authorId)
  }

  /** The delete button as intended: the ids compared as text, as the post card compares them. */
  predicate DeleteShown(isAdmin: bool, userId: Option<UserIdValue>, authorId: string)
  {
    isAdmin || (userId.Some? && IdText(userId.value) == authorId)
  }

  /** As written, a user whose profile has loaded sees the button exactly when an admin, whoever wrote the comment. */
  lemma DeleteShownAsWrittenOnlyForAdmins(isAdmin: bool, n: nat, author: Option<ViewModel.AuthorDto>)
    ensures DeleteShownAsWritten(isAdmin, Some(NumberId(n)), ViewModel.AuthorIdText(author)) <==> isAdmin
  {
  }

  /** The input that shows it: a signed-in user who is not an admin gets no button on a comment they wrote. */
  lemma AuthorGetsNoDeleteAsWritten(n: nat)
    ensures var author := Some(ViewModel.AuthorDto(Some(n), None, None, None));
      && ViewModel.AuthorIdText(author) == NatToString(n)
      && !DeleteShownAsWritten(false, Some(NumberId(n)), ViewModel.AuthorIdText(author))
  {
  }

  /**
   * As intended, a user whose profile has loaded sees the button exactly when
   * an admin or when the comment's author has the user's id.
   */
  lemma {:induction false} DeleteShownForAuthor(isAdmin: bool, n: nat, author: Option<ViewModel.AuthorDto>)
    ensures DeleteShown(isAdmin, Some(NumberId(n)), ViewModel.AuthorIdText(author)) <==>
      isAdmin || (author.Some? && author.value.id == Some(n))
  {
    if author.Some? && author.value.id.Some? && NatToString(n) == NatToString(author.value.id.value) {
      NatToStringInjective(n, author.value.id.value);
    }
  }

  /**
   * The ids of the comments that offer a reply button, in rendering order:
   * a comment offers one when it is rendered as a top-level item and a user is
   * signed in; its replies are rendered as replies, at any depth.
   */
  function ReplyTargets(c: UseComments.Comment, isReply: bool, signedIn: bool): seq<string>
    decreases c, 1
  {
    (if !isReply && signedIn then [c.id] else []) + RepliesTargets(c.replies, signedIn)
  }

  function RepliesTargets(cs: seq<UseComments.Comment>, signedIn: bool): seq<string>
    decreases cs, 0
  {
    if cs == [] then [] else ReplyTargets(cs[0], true, signedIn) + RepliesTargets(cs[1..], signedIn)
  }

  /** No comment below the top level offers a reply, however deep the tree. */
  lemma {:induction false} NoReplyBelowTopLevel(cs: seq<UseComments.Comment>, signedIn: bool)
    ensures RepliesTargets(cs, signedIn) == []
    decreases cs
  {
    if cs != [] {
      NoReplyBelowTopLevel(cs[0].replies, signedIn);
      NoReplyBelowTopLevel(cs[1..], signedIn);
    }
  }

  /** A rendered top-level comment offers exactly its own reply button, and only to a signed-in user. */
  lemma TopLevelReplyTargets(c: UseComments.Comment, signedIn: bool)
    ensures ReplyTargets(c, false, signedIn) == (if signedIn then [c.id] else [])
    ensures ReplyTargets(c, true, signedIn) == []
  {
    NoReplyBelowTopLevel(c.replies, signedIn);
  }

  class CommentForm {
    const postId: string
    var newComment: string
    var replyTo: Option<string>
    var replyContent: string
    var isSubmitting: bool

    constructor (id: string)
      ensures postId == id && newComment == "" && replyTo.None? && replyContent == "" && !isSubmitting
    {
      postId := id;
      newComment := "";
      replyTo := None;
      replyContent := "";
      isSubmitting := false;
    }

    /**
     * `handleSubmitComment`; `result` is what `createComment` answers. The text
     * is cleared only on success; a failure alerts and keeps the text.
     */
    method SubmitComment(token: Option<string>, result: Api.ActionResult)
      returns (request: Option<CreateCommentRequest>, alert: Option<string>)
      modifies this`newComment, this`isSubmitting
      ensures request.None? <==> !Truthy(token) || IsBlank(old(newComment)) || old(isSubmitting)
      ensures request.None? ==>
        alert.None? && newComment == old(newComment) && isSubmitting == old(isSubmitting)
      ensures request.Some? ==>
        && request.value == CreateCommentRequest(postId, Trim(old(newComment)), None)
        && !isSubmitting
        && (result.Succeeded? ==> newComment == "" && alert.None?)
        && (result.Failed? ==> newComment == old(newComment) && alert == Some(OrDefault(Some(result.error), CommentFailed)))
    {
      if !Truthy(token) || IsBlank(newComment) || isSubmitting {
        return None, None;
      }
      request := Some(CreateCommentRequest(postId, Trim(newComment), None));
      isSubmitting := true;
      alert := SettleComment(result);
    }

    method SettleComment(result: Api.ActionResult) returns (alert: Option<string>)
      modifies this`newComment, this`isSubmitting
      ensures !isSubmitting
      ensures result.Succeeded? ==> newComment == "" && alert.None?
      ensures result.Failed? ==> newComment == old(newComment) && alert == Some(OrDefault(Some(result.error), CommentFailed))
    {
      alert := None;
      match result {
        case Succeeded => newComment := "";
        case Failed(e) => alert := Some(OrDefault(Some(e), CommentFailed));
      }
      isSubmitting := false;
    }

    /**
     * `handleSubmitReply` under comment `parentId`; a success clears the reply
     * text and closes the reply form.
     */
    method SubmitReply(token: Option<string>, parentId: string, result: Api.ActionResult)
      returns (request: Option<CreateCommentRequest>, alert: Option<string>)
      modifies this`replyContent, this`replyTo, this`isSubmitting
      ensures request.None? <==> !Truthy(token) || IsBlank(old(replyContent)) || old(isSubmitting)
      ensures request.None? ==>
        && alert.None? && replyContent == old(replyContent) && replyTo == old(replyTo)
        && isSubmitting == old(isSubmitting)
      ensures request.Some? ==>
        && request.value == CreateCommentRequest(postId, Trim(old(replyContent)), Some(parentId))
        && !isSubmitting
        && (result.Succeeded? ==> replyContent == "" && replyTo.None? && alert.None?)
        && (result.Failed? ==>
              replyContent == old(replyContent) && replyTo == old(replyTo)
              && alert == Some(OrDefault(Some(result.error), ReplyFailed)))
    {
      if !Truthy(token) || IsBlank(replyContent) || isSubmitting {
        return None, None;
      }
      request := Some(CreateCommentRequest(postId, Trim(replyContent), Some(parentId)));
      isSubmitting := true;
      alert := SettleReply(result);
    }

    method SettleReply(result: Api.ActionResult) returns (alert: Option<string>)
      modifies this`replyContent, this`replyTo, this`isSubmitting
      ensures !isSubmitting
      ensures result.Succeeded? ==> replyContent == "" && replyTo.None? && alert.None?
      ensures result.Failed? ==>
        replyContent == old(replyContent) && replyTo == old(replyTo)
        && alert == Some(OrDefault(Some(result.error), ReplyFailed))
    {
      alert := None;
      match result {
        case Succeeded =>
          replyContent := "";
          replyTo := None;
        case Failed(e) =>
          alert := Some(OrDefault(Some(e), ReplyFailed));
      }
      isSubmitting := false;
    }

    /** The reply button opens the form under this comment, or closes it if it is already open there. */
    method ToggleReplyTo(commentId: string)
      modifies this`replyTo
      ensures replyTo == if old(replyTo) == Some(commentId) then None else Some(commentId)
    {
      replyTo := if replyTo == Some(commentId) then None else Some(commentId);
    }

    /** The cancel button closes the reply form and drops its text. */
    method CancelReply()
      modifies this`replyTo, this`replyContent
      ensures replyTo.None? && replyContent == ""
    {
      replyTo := None;
      replyContent := "";
    }
  }
}

=== FILE: comment_service.dfy ===
/**
 * The comment service: creating a comment or a reply, reading a post's
 * comment tree, deleting a comment with its replies, and listing the posts a
 * user commented on. Comments are read in id order.
 */
module CommentService {
  import opened Wrappers
  import opened Store
  import opened Tokens
  import PostListing

  const UserNotFound := "Kullanıcı bulunamadı"
  const PostNotFound := "Post bulunamadı"
  const ParentNotFound := "Üst yorum bulunamadı"
  const NotYours := "Yorum size ait değil veya bulunamadı."

  /** `CommentResponseDto`, with its author's id, name and image. */
  datatype CommentView = CommentView(id: Id, content: Option<string>, deleted: bool, createdAt: int,
                                     authorId: Id, authorName: string, authorImg: Option<string>,
                                     likeCount: int, liked: bool, replies: seq<CommentView>)

  /** No comment of the forest, at any depth, is marked deleted. */
  predicate AllActive(vs: seq<CommentView>)
    decreases vs
  {
    vs == [] || (!vs[0].deleted && AllActive(vs[0].replies) && AllActive(vs[1..]))
  }

  /** No comment of the forest, at any depth, is liked by the reader. */
  predicate NoneLiked(vs: seq<CommentView>)
    decreases vs
  {
    vs == [] || (!vs[0].liked && NoneLiked(vs[0].replies) && NoneLiked(vs[1..]))
  }

  /** The ids of a forest's roots. */
  function RootIds(vs: seq<CommentView>): (r: set<Id>)
    ensures forall i :: 0 <= i < |vs| ==> vs[i].id in r
    ensures forall x :: x in r ==> exists i :: 0 <= i < |vs| && vs[i].id == x
  {
    if vs == [] then {} else {vs[0].id} + RootIds(vs[1..])
  }

  /** The roots of the forest are in strictly increasing id order. */
  predicate Increasing(vs: seq<CommentView>)
  {
    |vs| <= 1 || (vs[0].id < vs[1].id && Increasing(vs[1..]))
  }

  /** In an increasing forest a later root has a larger id than an earlier one. */
  lemma {:induction false} IncreasingOrdered(vs: seq<CommentView>)
    requires Increasing(vs)
    ensures forall i, j :: 0 <= i < j < |vs| ==> vs[i].id < vs[j].id
  {
    if |vs| > 1 {
      IncreasingOrdered(vs[1..]);
      forall i, j | 0 <= i < j < |vs|
        ensures vs[i].id < vs[j].id
      {
        if 0 < i {
          assert vs[i] == vs[1..][i - 1] && vs[j] == vs[1..][j - 1];
        } else if 1 < j {
          assert vs[1] == vs[1..][0] && vs[j] == vs[1..][j - 1];
        }
      }
    }
  }

  /** A reply is shown when it exists, answers `c` and is not deleted. */
  predicate IsShownReply(comments: map<Id, Comment>, c: Id, x: Id)
  {
    x in comments && comments[x].parentId == Some(c) && !comments[x].deleted
  }

  /** A top-level comment of post `p` is shown when it has no parent and is not deleted. */
  predicate IsShownTopLevel(comments: map<Id, Comment>, p: Id, x: Id)
  {
    x in comments && comments[x].postId == p && comments[x].parentId.None? && !comments[x].deleted
  }

  /** Putting a view in front of a forest: the forest facts of the result follow from its two parts. */
  lemma Cons(v: CommentView, rest: seq<CommentView>)
    ensures AllActive([v] + rest) <==> !v.deleted && AllActive(v.replies) && AllActive(rest)
    ensures NoneLiked([v] + rest) <==> !v.liked && NoneLiked(v.replies) && NoneLiked(rest)
    ensures RootIds([v] + rest) == {v.id} + RootIds(rest)
    ensures Increasing([v] + rest) <==> (rest == [] || v.id < rest[0].id) && Increasing(rest)
  {
    assert ([v] + rest)[1..] == rest;
  }

  /**
   * Deleting a comment with its likes, and by cascade its replies and their
   * likes, keeps the tables consistent; the primed tables are those left.
   */
  lemma DeleteCommentConsistent(users: map<Id, User>, posts: map<Id, Post>, comments: map<Id, Comment>,
                                postLikes: set<Link>, commentLikes: set<Link>, saves: set<Link>, views: set<Link>,
                                target: Id, comments': map<Id, Comment>, commentLikes': set<Link>)
    requires ParentsBefore(comments)
    requires TablesConsistent(users, posts, comments, postLikes, commentLikes, saves, views)
    requires comments' == Sweep(comments, CommentRoot(target))
    requires commentLikes' == Surviving((set l | l in commentLikes && l.1 != target), comments'.Keys)
    ensures TablesConsistent(users, posts, comments', postLikes, commentLikes', saves, views)
  {
    SweepConsistent(users, posts, comments, CommentRoot(target), postLikes, commentLikes', saves, views);
  }

  class CommentServiceImpl {
    const db: Db
    const decode: Decoder

    constructor (db: Db, decode: Decoder)
      ensures this.db == db && this.decode == decode
    {
      this.db := db;
      this.decode := decode;
    }

    /** The reader of a comment tree: the token's user when the token parses and the user exists. */
    function Reader(token: Option<string>): (r: Option<Id>)
      reads db
      ensures r.Some? ==> r.value in db.users && OptionalReader(decode, token) == r
      ensures r.None? ==> OptionalReader(decode, token).None? || OptionalReader(decode, token).value !in db.users
    {
      var id := OptionalReader(decode, token);
      if id.Some? && id.value in db.users then id else None
    }

    /**
     * `toDto`: the comment's fields, its author, its likes, whether the reader
     * likes it, and its shown replies mapped the same way.
     */
    function ToView(c: Id, reader: Option<Id>): (r: CommentView)
      requires c in db.comments
      reads db
      ensures r.id == c && r.deleted == db.comments[c].deleted && r.content == db.comments[c].content
      ensures r.likeCount == PostListing.IntValue(|LinksTo(db.commentLikes, c)|)
      ensures r.liked <==> reader.Some? && (reader.value, c) in db.commentLikes
      ensures AllActive(r.replies)
      ensures reader.None? ==> NoneLiked(r.replies)
      ensures Increasing(r.replies)
      ensures forall x :: x in RootIds(r.replies) <==> c < x < db.nextId && IsShownReply(db.comments, c, x)
      decreases db.nextId - c, db.nextId + 1
    {
      var cm := db.comments[c];
      var author := if cm.authorId in db.users then Some(db.users[cm.authorId]) else None;
      CommentView(c, cm.content, cm.deleted, cm.createdAt, cm.authorId,
                  if author.Some? then author.value.username else "",
                  if author.Some? then author.value.profileImgUrl else None,
                  PostListing.IntValue(db.CommentLikeCount(c)),
                  reader.Some? && (reader.value, c) in db.commentLikes,
                  RepliesFrom(c, c + 1, reader))
    }

    /** The shown replies of `c` with ids from `k` on, in id order. */
    function RepliesFrom(c: Id, k: Id, reader: Option<Id>): (r: seq<CommentView>)
      requires c < k
      reads db
      ensures AllActive(r)
      ensures reader.None? ==> NoneLiked(r)
      ensures Increasing(r)
      ensures forall x :: x in RootIds(r) <==> k <= x < db.nextId && IsShownReply(db.comments, c, x)
      decreases db.nextId - c, db.nextId - k
    {
      if k >= db.nextId then []
      else
        var rest := RepliesFrom(c, k + 1, reader);
        if IsShownReply(db.comments, c, k) then
          var v := ToView(k, reader);
          Cons(v, rest);
          [v] + rest
        else rest
    }

    /** The shown top-level comments of post `p` with ids from `k` on, in id order. */
    function TopLevelFrom(p: Id, k: Id, reader: Option<Id>): (r: seq<CommentView>)
      reads db
      ensures AllActive(r)
      ensures reader.None? ==> NoneLiked(r)
      ensures Increasing(r)
      ensures forall x :: x in RootIds(r) <==> k <= x < db.nextId && IsShownTopLevel(db.comments, p, x)
      decreases db.nextId - k
    {
      if k >= db.nextId then []
      else
        var rest := TopLevelFrom(p, k + 1, reader);
        if IsShownTopLevel(db.comments, p, k) then
          var v := ToView(k, reader);
          Cons(v, rest);
          [v] + rest
        else rest
    }

    /**
     * `getCommentsByPostId`: the post must exist; an unreadable token or a
     * missing user gives an anonymous reader.
     */
    function CommentsByPostId(postId: Id, token: Option<string>): (r: Result<seq<CommentView>>)
      reads db
      ensures postId !in db.posts ==> r == Thrown(Failure(Checked, PostNotFound))
      ensures postId in db.posts ==> r.Ok? && AllActive(r.value)
      ensures r.Ok? && Reader(token).None? ==> NoneLiked(r.value)
      ensures r.Ok? && db.Valid() ==>
        forall x :: x in RootIds(r.value) <==> IsShownTopLevel(db.comments, postId, x)
    {
      if postId !in db.posts then Thrown(Failure(Checked, PostNotFound))
      else Ok(TopLevelFrom(postId, 0, Reader(token)))
    }

    /** Under the id invariant the replies shown under a comment are exactly its shown replies. */
    lemma RepliesAreShownReplies(c: Id, reader: Option<Id>)
      requires db.Valid() && c in db.comments
      ensures forall x :: x in RootIds(ToView(c, reader).replies) <==> IsShownReply(db.comments, c, x)
    {
      forall x: Id | IsShownReply(db.comments, c, x)
        ensures c < x < db.nextId
      {
        assert db.comments[x].parentId.value < x;
      }
    }

    /**
     * `createComment`: the token's user, the post and, when given, the parent
     * must exist; the parent may belong to another post. The new comment is not
     * deleted and is returned as its author sees it.
     */
    method CreateComment(token: Option<string>, postId: Id, content: Option<string>, parentId: Option<Id>, now: int)
      returns (r: Result<CommentView>)
      requires db.Valid()
      modifies db`comments, db`nextId
      ensures db.Valid()
      ensures var u := TokenUser(decode, token, old(db.users), Failure(Checked, UserNotFound));
        && (u.Thrown? ==> r == Thrown(u.failure))
        && (u.Ok? && postId !in db.posts ==> r == Thrown(Failure(Checked, PostNotFound)))
        && (u.Ok? && postId in db.posts && parentId.Some? && parentId.value !in old(db.comments) ==>
              r == Thrown(Failure(Checked, ParentNotFound)))
        && (r.Ok? <==> u.Ok? && postId in db.posts && (parentId.None? || parentId.value in old(db.comments)))
        && (r.Ok? ==>
              && r.value.id == old(db.nextId) && r.value.id !in old(db.comments)
              && db.comments == old(db.comments)[r.value.id := Comment(content, postId, u.value, parentId, false, now)]
              && !r.value.deleted && r.value.replies == []
              && (old(db.Consistent()) ==> r.value.likeCount == 0 && !r.value.liked))
      ensures r.Thrown? ==> db.comments == old(db.comments) && db.nextId == old(db.nextId)
      ensures old(db.Consistent()) ==> db.Consistent()
    {
      var u := TokenUser(decode, token, db.users, Failure(Checked, UserNotFound));
      if u.Thrown? {
        return Thrown(u.failure);
      }
      if postId !in db.posts {
        return Thrown(Failure(Checked, PostNotFound));
      }
      if parentId.Some? && parentId.value !in db.comments {
        return Thrown(Failure(Checked, ParentNotFound));
      }
      var id := db.SaveComment(Comment(content, postId, u.value, parentId, false, now));
      var view := ToView(id, Some(u.value));
      assert view.replies == RepliesFrom(id, id + 1, Some(u.value)) == [];
      if old(db.Consistent()) {
        assert LinksTo(db.commentLikes, id) == {};
      }
      r := Ok(view);
    }

    /**
     * `deleteCommentByIdAndUser`: only the author may delete; the comment's
     * likes go, then the comment, and with it every reply below it and their likes.
     */
    method DeleteCommentByIdAndUser(commentId: Id, userId: Id) returns (r: Result<()>)
      requires db.Valid()
      modifies db`comments, db`commentLikes
      ensures db.Valid()
      ensures r.Ok? <==> commentId in old(db.comments) && old(db.comments)[commentId].authorId == userId
      ensures r.Thrown? ==>
        r.failure == Failure(Security, NotYours) && db.comments == old(db.comments) && db.commentLikes == old(db.commentLikes)
      ensures r.Ok? ==>
        && db.comments == Sweep(old(db.comments), CommentRoot(commentId))
        && commentId !in db.comments
        && db.commentLikes == Surviving(old(db.commentLikes), db.comments.Keys)
      ensures old(db.Consistent()) ==> db.Consistent()
    {
      if commentId !in db.comments || db.comments[commentId].authorId != userId {
        return Thrown(Failure(Security, NotYours));
      }
      RemoveComment(commentId);
      r := Ok(());
    }

    /** The deletions of an authorised comment delete: its likes, then the comment with its replies by cascade. */
    method RemoveComment(commentId: Id)
      requires db.Valid() && commentId in db.comments
      modifies db`comments, db`commentLikes
      ensures db.Valid()
      ensures db.comments == Sweep(old(db.comments), CommentRoot(commentId)) && commentId !in db.comments
      ensures db.commentLikes == Surviving(old(db.commentLikes), db.comments.Keys)
      ensures old(db.Consistent()) ==> db.Consistent()
    {
      ghost var cs0 := db.comments;
      var likes := set l | l in db.commentLikes && l.1 != commentId;
      var comments := Sweep(db.comments, CommentRoot(commentId));
      db.comments, db.commentLikes := comments, Surviving(likes, comments.Keys);
      assert Swept(cs0, commentId, CommentRoot(commentId));
      if old(db.Consistent()) {
        DeleteCommentConsistent(db.users, db.posts, cs0, db.postLikes, old(db.commentLikes), db.saves, db.views,
                                commentId, db.comments, db.commentLikes);
      }
    }

    /**
     * `getPostsUserCommentedOn`; `posts` is what the commented-posts query
     * returned, `likedIds` what the liked-ids query returned, and the rows
     * answer the two count queries. Liked is false everywhere when the user
     * does not exist.
     */
    method GetPostsUserCommentedOn(userId: Id, posts: seq<(Id, Post)>, likedIds: seq<Id>,
                                   likeRows: seq<PostListing.CountRow>, commentRows: seq<PostListing.CountRow>)
      returns (r: seq<PostListing.PostResponse>)
      ensures posts == [] ==> r == []
      ensures r == PostListing.Assemble(posts, PostListing.MapOf(likeRows), PostListing.MapOf(commentRows),
                                        if userId in db.users then set i | 0 <= i < |likedIds| :: likedIds[i] else {})
      ensures userId !in db.users ==> forall i :: 0 <= i < |r| ==> !r[i].liked
    {
      if posts == [] {
        return [];
      }
      var liked: set<Id> := if userId in db.users then set i | 0 <= i < |likedIds| :: likedIds[i] else {};
      r := PostListing.List(posts, likeRows, commentRows, liked);
    }
  }
}

=== FILE: error_handler.dfy ===
/**
 * The error-state hook: one record (message, flag, kind) that is overwritten
 * by `setError`/`clearError`, and two classifiers that turn a thrown value or
 * an API response into such a record.
 */
module ErrorHandler {
  import opened Wrappers
  import opened Text
  import Api

  datatype ErrorType = Error | Warning | Network

  datatype ErrorState = ErrorState(error: Option<string>, isError: bool, errorType: ErrorType)

  /** A value caught by a `catch`: an `Error` object, a string, or anything else. */
  datatype Thrown = ErrorObject(message: string) | ThrownString(text: string) | OtherValue

  const UnknownMessage := "Bilinmeyen bir hata oluştu"
  // Written in pieces so that its letters can be inspected piece by piece.
  const ConnectionMessage := "Bağlantı hatası." + " Lütfen internet" + " bağlantınızı" + " kontrol edin."
  const TimeoutMessage := "İstek zaman aşımına uğradı. Lütfen tekrar deneyin."
  const ApiDefaultMessage := "API hatası oluştu"
  const BadRequestMessage := "Geçersiz istek. Lütfen bilgilerinizi kontrol edin."
  const SessionMessage := "Oturum süreniz dolmuş. Lütfen tekrar giriş yapın."
  const ForbiddenMessage := "Bu işlem için yetkiniz bulunmuyor."
  const NotFoundMessage := "Aradığınız kaynak bulunamadı."
  const RateLimitMessage := "Çok fazla istek gönderdiniz. Lütfen biraz bekleyin."
  const ServerMessage := "Sunucu hatası. Lütfen daha sonra tekrar deneyin."
  const UnavailableMessage := "Sunucu geçici olarak kullanılamıyor. Lütfen daha sonra tekrar deneyin."

  /** The state `clearError` installs, which is also the initial state. */
  const Cleared := ErrorState(None, false, Error)

  /** The record `setError(error, type)` stores; the kind defaults to "error". */
  function StateOf(error: Option<string>, kind: Option<ErrorType>): (r: ErrorState)
    ensures r.error == error && r.errorType == kind.GetOr(Error)
    ensures r.isError <==> Truthy(error)
  {
    ErrorState(error, Truthy(error), kind.GetOr(Error))
  }

  /** The message `handleError` starts from. */
  function ThrownMessage(e: Thrown): string
  {
    match e
    case ErrorObject(m) => m
    case ThrownString(s) => s
    case OtherValue => UnknownMessage
  }

  predicate HasNetworkKeyword(m: string)
  {
    Contains(m, "fetch") || Contains(m, "network") || Contains(m, "NetworkError") || Contains(m, "Failed to fetch")
  }

  /** Every character of an occurring piece occurs in the whole. */
  lemma ContainsCharOf(s: string, sub: string, j: nat)
    requires j < |sub|
    ensures Contains(s, sub) ==> sub[j] in s
  {
    if Contains(s, sub) {
      var i :| 0 <= i <= |s| - |sub| && OccursAt(s, sub, i);
      assert s[i + j] == sub[j];
    }
  }

  /** The connection message does not mention a timeout (it has no letter 'm'). */
  lemma ConnectionMessageHasNoTimeout()
    ensures !Contains(ConnectionMessage, "timeout")
  {
    ContainsCharOf(ConnectionMessage, "timeout", 2);
    assert "timeout"[2] == 'm';
    assert 'm' !in "Bağlantı hatası." && 'm' !in " Lütfen internet";
    assert 'm' !in " bağlantınızı" && 'm' !in " kontrol edin.";
  }

  /** The state `handleError(e)` ends in. */
  function HandleErrorOutcome(e: Thrown): (r: ErrorState)
    ensures HasNetworkKeyword(ThrownMessage(e)) ==> r == ErrorState(Some(ConnectionMessage), true, Network)
    ensures !HasNetworkKeyword(ThrownMessage(e)) && Contains(ThrownMessage(e), "timeout")
      ==> r == ErrorState(Some(TimeoutMessage), true, Network)
    ensures !HasNetworkKeyword(ThrownMessage(e)) && !Contains(ThrownMessage(e), "timeout")
      ==> r == StateOf(Some(ThrownMessage(e)), Some(Error))
  {
    var m := ThrownMessage(e);
    if HasNetworkKeyword(m) then
      ConnectionMessageHasNoTimeout();
      StateOf(Some(ConnectionMessage), Some(Network))
    else if Contains(m, "timeout") then
      StateOf(Some(TimeoutMessage), Some(Network))
    else
      StateOf(Some(m), Some(Error))
  }

  /** The timeout rewrite never applies to a message that had a network keyword. */
  lemma NetworkKeywordWinsOverTimeout(m: string)
    requires HasNetworkKeyword(m) && Contains(m, "timeout")
    ensures HandleErrorOutcome(ThrownString(m)).error == Some(ConnectionMessage)
  {
  }

  /** The fixed message of the statuses the switch names. */
  function StatusMessage(status: int): Option<string>
  {
    match status
    case 400 => Some(BadRequestMessage)
    case 401 => Some(SessionMessage)
    case 403 => Some(ForbiddenMessage)
    case 404 => Some(NotFoundMessage)
    case 429 => Some(RateLimitMessage)
    case 500 => Some(ServerMessage)
    case 502 => Some(UnavailableMessage)
    case 503 => Some(UnavailableMessage)
    case 504 => Some(UnavailableMessage)
    case _ => None
  }

  /** The state `handleApiError({error, status})` ends in. */
  function ApiErrorOutcome(error: Option<string>, status: int): (r: ErrorState)
    ensures r.isError && r.error.Some?
    ensures status in {400, 401, 403, 404} ==> r.errorType == Error && r.error == StatusMessage(status)
    ensures status == 429 ==> r == ErrorState(Some(RateLimitMessage), true, Warning)
    ensures status in {500, 502, 503, 504} ==> r.errorType == Network && r.error == StatusMessage(status)
    ensures StatusMessage(status).None? ==> r.error == Some(OrDefault(error, ApiDefaultMessage))
    ensures StatusMessage(status).None? ==> (r.errorType == Network <==> status >= 500)
  {
    var kind :=
      if status == 429 then Warning
      else if status >= 500 then Network
      else Error;
    StateOf(Some(StatusMessage(status).GetOr(OrDefault(error, ApiDefaultMessage))), Some(kind))
  }

  /** A transport failure (status 0) is classed as a plain error, not as "network". */
  lemma TransportFailureIsNotNetwork(error: Option<string>)
    ensures ApiErrorOutcome(error, 0).errorType == Error
    ensures ApiErrorOutcome(error, 0).error == Some(OrDefault(error, ApiDefaultMessage))
  {
  }

  /** The hook instance: a single error record that its handlers overwrite. */
  class ErrorHandlerHook {
    var state: ErrorState

    constructor ()
      ensures state == Cleared
    {
      state := Cleared;
    }

    method SetError(error: Option<string>, kind: Option<ErrorType>)
      modifies this
      ensures state == StateOf(error, kind)
      ensures state.isError <==> Truthy(error)
    {
      state := ErrorState(error, Truthy(error), kind.GetOr(Error));
    }

    method ClearError()
      modifies this
      ensures state == Cleared
    {
      state := ErrorState(None, false, Error);
    }

    method HandleError(e: Thrown)
      modifies this
      ensures state == HandleErrorOutcome(e)
    {
      var message := UnknownMessage;
      var kind := Error;
      match e {
        case ErrorObject(m) => message := m;
        case ThrownString(s) => message := s;
        case OtherValue =>
      }
      if HasNetworkKeyword(message) {
        kind := Network;
        message := ConnectionMessage;
        ConnectionMessageHasNoTimeout();
      }
      if Contains(message, "timeout") {
        kind := Network;
        message := TimeoutMessage;
      }
      SetError(Some(message), Some(kind));
    }

    method HandleApiError<T>(response: Api.Response<T>)
      modifies this
      ensures state == ApiErrorOutcome(response.error, response.status)
    {
      var message := OrDefault(response.error, ApiDefaultMessage);
      var kind := Error;
      if response.status != 0 {
        match response.status {
          case 400 => message := BadRequestMessage;
          case 401 => message := SessionMessage;
          case 403 => message := ForbiddenMessage;
          case 404 => message := NotFoundMessage;
          case 429 => message := RateLimitMessage; kind := Warning;
          case 500 => message := ServerMessage; kind := Network;
          case 502 => message := UnavailableMessage; kind := Network;
          case 503 => message := UnavailableMessage; kind := Network;
          case 504 => message := UnavailableMessage; kind := Network;
          case _ =>
            if response.status >= 500 {
              kind := Network;
            }
        }
      }
      SetError(Some(message), Some(kind));
    }
  }
}

=== FILE: error_reporting.dfy ===
/**
 * The client-side error reporter: a singleton that keeps the newest reports
 * first in a bounded in-memory buffer and mirrors each report into a second,
 * smaller list persisted in browser storage.
 */
module ErrorReporting {
  import opened Wrappers
  import opened Text

  datatype Severity = Low | Medium | High | Critical

  datatype Report = Report(
    message: string,
    stack: Option<string>,
    timestamp: string,
    url: string,
    userAgent: string,
    userId: Option<string>,
    context: Option<string>,
    severity: Severity)

  /** What a caller passes to `reportError`. */
  datatype ReportInput = ReportInput(
    message: string,
    stack: Option<string>,
    context: Option<string>,
    severity: Option<Severity>,
    userId: Option<string>)

  /**
   * The browser facts a report records: the clock reading, the page address
   * (absent outside a browser), the user agent (absent without `navigator`)
   * and whether persistent storage exists.
   */
  datatype Environment = Environment(now: string, href: Option<string>, userAgent: Option<string>, hasStorage: bool)

  /** A caught value: an `Error` (message and optional stack) or anything else, with its `String(...)` form. */
  datatype Caught = ErrorValue(message: string, stack: Option<string>) | NonError(text: string)

  const MaxReports := 50
  const MaxPersisted := 20

  /** The report built from an input in an environment; severity defaults to medium. */
  function MakeReport(input: ReportInput, env: Environment): (r: Report)
    ensures r.message == input.message && r.stack == input.stack && r.context == input.context
    ensures r.userId == input.userId && r.timestamp == env.now
    ensures input.severity.None? ==> r.severity == Medium
    ensures input.severity.Some? ==> r.severity == input.severity.value
    ensures env.href.None? ==> r.url == ""
    ensures env.href.Some? ==> r.url == env.href.value
    ensures env.userAgent.None? ==> r.userAgent == ""
    ensures env.userAgent.Some? ==> r.userAgent == env.userAgent.value
  {
    Report(input.message, input.stack, env.now, env.href.GetOr(""), env.userAgent.GetOr(""),
           input.userId, input.context, input.severity.GetOr(Medium))
  }

  /** `list.unshift(r)` followed by keeping only the first `cap` entries. */
  function Pushed(list: seq<Report>, r: Report, cap: nat): (res: seq<Report>)
    requires cap >= 1
    ensures |res| == if |list| + 1 <= cap then |list| + 1 else cap
    ensures res[0] == r
    ensures forall i :: 1 <= i < |res| ==> res[i] == list[i - 1]
  {
    var grown := [r] + list;
    if |grown| > cap then grown[..cap] else grown
  }

  /** After enough reports the buffer holds exactly the newest ones, newest first. */
  lemma {:induction false} PushedManyKeepsNewest(list: seq<Report>, rs: seq<Report>, cap: nat)
    requires cap >= 1
    ensures forall i :: 0 <= i < |rs| && i < cap ==> PushAll(list, rs, cap)[i] == rs[|rs| - 1 - i]
    decreases |rs|
  {
    if rs != [] {
      var init := rs[..|rs| - 1];
      PushedManyKeepsNewest(list, init, cap);
      var before := PushAll(list, init, cap);
      assert PushAll(list, rs, cap) == Pushed(before, rs[|rs| - 1], cap);
      forall i | 0 <= i < |rs| && i < cap
        ensures PushAll(list, rs, cap)[i] == rs[|rs| - 1 - i]
      {
        if i > 0 {
          assert rs[|rs| - 1 - i] == init[|init| - 1 - (i - 1)];
        }
      }
    }
  }

  /** Reporting `rs` in order, oldest first. */
  function PushAll(list: seq<Report>, rs: seq<Report>, cap: nat): (res: seq<Report>)
    requires cap >= 1
    ensures |list| <= cap ==> |res| <= cap
    ensures rs != [] ==> |res| == if |list| + |rs| <= cap then |list| + |rs| else cap
    decreases |rs|
  {
    if rs == [] then list else Pushed(PushAll(list, rs[..|rs| - 1], cap), rs[|rs| - 1], cap)
  }

  /** The single reporter instance. */
  class ErrorReporter {
    /** The in-memory buffer, newest first. */
    var reports: seq<Report>
    /** The list kept in browser storage under "errorReports", newest first. */
    var persisted: seq<Report>

    ghost predicate Valid()
      reads this
    {
      |reports| <= MaxReports
    }

    constructor (stored: seq<Report>)
      ensures Valid() && reports == [] && persisted == stored
    {
      reports := [];
      persisted := stored;
    }

    method ReportError(input: ReportInput, env: Environment)
      requires Valid()
      modifies this
      ensures Valid() && |reports| >= 1
      ensures reports == Pushed(old(reports), MakeReport(input, env), MaxReports)
      ensures env.hasStorage ==> persisted == Pushed(old(persisted), MakeReport(input, env), MaxPersisted)
      ensures !env.hasStorage ==> persisted == old(persisted)
    {
      var report := MakeReport(input, env);
      reports := [report] + reports;
      if |reports| > MaxReports {
        reports := reports[..MaxReports];
      }
      SendToMonitoringService(report, env);
    }

    /** Writes the report into the persisted list, which keeps its 20 newest entries. */
    method SendToMonitoringService(report: Report, env: Environment)
      modifies this`persisted
      ensures env.hasStorage ==> persisted == Pushed(old(persisted), report, MaxPersisted)
      ensures !env.hasStorage ==> persisted == old(persisted)
    {
      if env.hasStorage {
        var existing := [report] + persisted;
        persisted := if |existing| > MaxPersisted then existing[..MaxPersisted] else existing;
      }
    }

    /** A copy of the buffer: later reports do not change the returned value. */
    method GetReports() returns (copy: seq<Report>)
      ensures copy == reports
    {
      copy := reports;
    }

    method ClearReports(env: Environment)
      modifies this
      ensures Valid() && reports == []
      ensures env.hasStorage ==> persisted == []
      ensures !env.hasStorage ==> persisted == old(persisted)
    {
      reports := [];
      if env.hasStorage {
        persisted := [];
      }
    }
  }

  /** A copy taken before a report is unaffected by it. */
  method SnapshotIsIndependent(reporter: ErrorReporter, input: ReportInput, env: Environment)
    returns (before: seq<Report>)
    requires reporter.Valid()
    modifies reporter
    ensures before == old(reporter.reports)
    ensures |reporter.reports| >= 1 && reporter.reports[0] == MakeReport(input, env)
  {
    before := reporter.GetReports();
    reporter.ReportError(input, env);
  }

  /** The input `handleApiError(error, context)` reports. */
  function ApiErrorInput(error: Caught, context: string): (r: ReportInput)
    ensures r.severity == Some(if error.ErrorValue? && Contains(error.message, "fetch") then High else Medium)
    ensures r.message == (if error.ErrorValue? then error.message else "API request failed")
    ensures r.stack == (if error.ErrorValue? then error.stack else None)
    ensures r.context == Some(context) && r.userId.None?
  {
    match error
    case ErrorValue(m, stack) =>
      ReportInput(m, stack, Some(context), Some(if Contains(m, "fetch") then High else Medium), None)
    case NonError(_) =>
      ReportInput("API request failed", None, Some(context), Some(Medium), None)
  }

  /** The input `handleUserError(message, context)` reports. */
  function UserErrorInput(message: string, context: Option<string>): (r: ReportInput)
    ensures r.severity == Some(Low) && r.message == message
    ensures r.context == Some(OrDefault(context, "User Action"))
  {
    ReportInput(message, None, Some(OrDefault(context, "User Action")), Some(Low), None)
  }

  /** The input `handleCriticalError(error, context)` reports. */
  function CriticalErrorInput(error: Caught, context: string): (r: ReportInput)
    ensures r.severity == Some(Critical)
    ensures r.message == (if error.ErrorValue? then error.message else error.text)
    ensures r.context == Some(context)
  {
    ReportInput(if error.ErrorValue? then error.message else error.text,
                if error.ErrorValue? then error.stack else None, Some(context), Some(Critical), None)
  }

  method HandleApiError(reporter: ErrorReporter, error: Caught, context: string, env: Environment)
    requires reporter.Valid()
    modifies reporter
    ensures reporter.Valid()
    ensures reporter.reports == Pushed(old(reporter.reports), MakeReport(ApiErrorInput(error, context), env), MaxReports)
    ensures env.hasStorage ==>
      reporter.persisted == Pushed(old(reporter.persisted), MakeReport(ApiErrorInput(error, context), env), MaxPersisted)
    ensures !env.hasStorage ==> reporter.persisted == old(reporter.persisted)
  {
    reporter.ReportError(ApiErrorInput(error, context), env);
  }

  method HandleUserError(reporter: ErrorReporter, message: string, context: Option<string>, env: Environment)
    requires reporter.Valid()
    modifies reporter
    ensures reporter.Valid()
    ensures reporter.reports == Pushed(old(reporter.reports), MakeReport(UserErrorInput(message, context), env), MaxReports)
    ensures env.hasStorage ==>
      reporter.persisted == Pushed(old(reporter.persisted), MakeReport(UserErrorInput(message, context), env), MaxPersisted)
    ensures !env.hasStorage ==> reporter.persisted == old(reporter.persisted)
  {
    reporter.ReportError(UserErrorInput(message, context), env);
  }

  method HandleCriticalError(reporter: ErrorReporter, error: Caught, context: string, env: Environment)
    requires reporter.Valid()
    modifies reporter
    ensures reporter.Valid()
    ensures reporter.reports == Pushed(old(reporter.reports), MakeReport(CriticalErrorInput(error, context), env), MaxReports)
    ensures env.hasStorage ==>
      reporter.persisted == Pushed(old(reporter.persisted), MakeReport(CriticalErrorInput(error, context), env), MaxPersisted)
    ensures !env.hasStorage ==> reporter.persisted == old(reporter.persisted)
  {
    reporter.ReportError(CriticalErrorInput(error, context), env);
  }
}

=== FILE: form_rules.dfy ===
/**
 * Field rules shared by the registration form and the profile-edit form:
 * the username and e-mail checks and the e-mail pattern `\S+@\S+\.\S+`.
 */
module FormRules {
  import opened Wrappers
  import opened Text

  const UsernameRequired := "Kullanıcı adı gerekli"
  const UsernameTooShort := "Kullanıcı adı en az 3 karakter olmalı"
  const EmailRequired := "E-posta adresi gerekli"
  const EmailInvalid := "Geçerli bir e-posta adresi girin"
  const PasswordsDiffer := "Şifreler eşleşmiyor"

  /** No whitespace in `s[i..j]`. */
  predicate NonSpaceRun(s: string, i: int, j: int)
    requires 0 <= i <= j <= |s|
  {
    forall k | i <= k < j :: !IsSpace(s[k])
  }

  /**
   * The pattern matches with its "@" at `at` and its "." at `dot`: one
   * non-space before the "@", a non-empty non-space run up to the ".", one
   * non-space after it. (An unanchored `\S+` needs only one character.)
   */
  predicate EmailShapeAt(s: string, at: int, dot: int)
  {
    && 1 <= at && at + 1 < dot && dot + 1 < |s|
    && s[at] == '@' && s[dot] == '.'
    && !IsSpace(s[at - 1]) && NonSpaceRun(s, at + 1, dot) && !IsSpace(s[dot + 1])
  }

  /** Some "." completes a match whose "@" is at `at`. */
  predicate MatchesWithAt(s: string, at: int)
  {
    exists dot | 0 <= dot < |s| :: EmailShapeAt(s, at, dot)
  }

  /** `/\S+@\S+\.\S+/.test(s)`. */
  predicate MatchesEmailPattern(s: string)
  {
    exists at | 0 <= at < |s| :: MatchesWithAt(s, at)
  }

  /** A match needs an "@" and a later "." in the string. */
  lemma MatchNeedsAtAndDot(s: string)
    ensures MatchesEmailPattern(s) ==> '@' in s && '.' in s
  {
    if MatchesEmailPattern(s) {
      var at :| 0 <= at < |s| && MatchesWithAt(s, at);
      var dot :| 0 <= dot < |s| && EmailShapeAt(s, at, dot);
      assert s[at] == '@' && s[dot] == '.';
    }
  }

  /** Any local part, domain and suffix without whitespace form a matching address. */
  lemma {:induction false} AddressMatches(local: string, domain: string, suffix: string)
    requires local != [] && domain != [] && suffix != []
    requires forall k | 0 <= k < |local| :: !IsSpace(local[k])
    requires forall k | 0 <= k < |domain| :: !IsSpace(domain[k])
    requires forall k | 0 <= k < |suffix| :: !IsSpace(suffix[k])
    ensures MatchesEmailPattern(local + "@" + domain + "." + suffix)
  {
    var s := local + "@" + domain + "." + suffix;
    var at := |local|;
    var dot := |local| + 1 + |domain|;
    assert s[at - 1] == local[|local| - 1];
    forall k | at + 1 <= k < dot
      ensures !IsSpace(s[k])
    {
      assert s[k] == domain[k - at - 1];
    }
    assert s[dot + 1] == suffix[0];
    assert EmailShapeAt(s, at, dot);
    assert MatchesWithAt(s, at);
  }

  /** The username rule: required after trimming, then at least 3 characters untrimmed. */
  function UsernameError(username: string): (r: Option<string>)
    ensures r.None? <==> !IsBlank(username) && |username| >= 3
    ensures IsBlank(username) ==> r == Some(UsernameRequired)
    ensures !IsBlank(username) && |username| < 3 ==> r == Some(UsernameTooShort)
  {
    if IsBlank(username) then Some(UsernameRequired)
    else if |username| < 3 then Some(UsernameTooShort)
    else None
  }

  /** The e-mail rule: required after trimming, then it must match the pattern. */
  function EmailError(email: string): (r: Option<string>)
    ensures r.None? <==> !IsBlank(email) && MatchesEmailPattern(email)
    ensures IsBlank(email) ==> r == Some(EmailRequired)
    ensures !IsBlank(email) && !MatchesEmailPattern(email) ==> r == Some(EmailInvalid)
  {
    if IsBlank(email) then Some(EmailRequired)
    else if !MatchesEmailPattern(email) then Some(EmailInvalid)
    else None
  }

  /** Records the error a rule produced under `key`, if it produced one. */
  function Record<K(!new)>(errors: map<K, string>, key: K, e: Option<string>): (r: map<K, string>)
    ensures r.Keys == if e.Some? then errors.Keys + {key} else errors.Keys
    ensures key in r <==> e.Some? || key in errors
    ensures forall k :: k != key ==> (k in r <==> k in errors)
    ensures e.Some? ==> r[key] == e.value
    ensures forall k :: k in errors && k != key ==> r[k] == errors[k]
  {
    if e.Some? then errors[key := e.value] else errors
  }

  /** The error map after editing `field`: a recorded non-empty error for it is blanked. */
  function BlankError<K>(errors: map<K, string>, field: K): (r: map<K, string>)
    ensures r.Keys == errors.Keys
    ensures field in errors && errors[field] != "" ==> r[field] == ""
    ensures forall k :: k in errors && k != field ==> r[k] == errors[k]
    ensures field !in errors || errors[field] == "" ==> r == errors
  {
    if field in errors && errors[field] != "" then errors[field := ""] else errors
  }
}

=== FILE: home_page.dfy ===
/**
 * The home feed page: a client-side filter over the feed by search text or by
 * tag, and the three handlers that keep at most one of the two filters set.
 * The filter as written throws on entries without tags or without a username;
 * the page's state renders the corrected filter.
 */
module HomePage {
  import opened Wrappers
  import opened Text
  import opened ViewModel
  import opened UsePosts
  import opened Lists

  /** The author name the filter reads. */
  function AuthorName(a: FeedAuthor): string
  {
    match a
    case ServerAuthor(dto) => dto.username.GetOr("")
    case Placeholder => PlaceholderName
    case NoAuthor => ""
  }

  /** Case-insensitive substring test, as `a.toLowerCase().includes(b.toLowerCase())`. */
  predicate ContainsIgnoringCase(s: string, query: string)
  {
    Contains(ToLower(s), ToLower(query))
  }

  predicate MatchesSearch(p: FeedPost, query: string)
  {
    MatchesText(p, query) || ContainsIgnoringCase(AuthorName(p.author), query)
  }

  predicate MatchesTag(p: FeedPost, tag: string)
  {
    p.tags.Some? && exists i :: 0 <= i < |p.tags.value| && ContainsIgnoringCase(p.tags.value[i].name, tag)
  }

  /** A non-empty query wins; the tag applies only without a query; with neither, everything is kept. */
  predicate Keep(p: FeedPost, query: string, tag: string)
  {
    if query != "" then MatchesSearch(p, query)
    else if tag != "" then MatchesTag(p, tag)
    else true
  }

  /**
   * The posts the page evidently means to render: a post without tags matches
   * no tag and an author without a username has the empty name.
   * `FilteredPostsAsWritten` is the filter as the page writes it.
   */
  function FilteredPosts(posts: seq<FeedPost>, query: string, tag: string): (r: seq<FeedPost>)
    ensures forall p :: p in r <==> p in posts && Keep(p, query, tag)
    ensures IsSubsequence(r, posts)
    ensures query == "" && tag == "" ==> r == posts
  {
    if posts == [] then []
    else
      var rest := FilteredPosts(posts[1..], query, tag);
      assert posts == [posts[0]] + posts[1..];
      if Keep(posts[0], query, tag) then
        var r := [posts[0]] + rest;
        assert r[1..] == rest;
        r
      else
        SubsequenceOfTail(rest, posts);
        rest
  }

  /** The query occurs in the content or in the title. */
  predicate MatchesText(p: FeedPost, query: string)
  {
    ContainsIgnoringCase(p.content, query) || ContainsIgnoringCase(p.title, query)
  }

  /** `post.author.username` is `undefined` or reading it throws. */
  predicate NoUsername(a: FeedAuthor)
  {
    a.NoAuthor? || (a.ServerAuthor? && a.dto.username.None?)
  }

  /**
   * The page's test of `p` reads a property of `undefined`: the author's
   * username once content and title missed the query, or the tags under a tag filter.
   */
  predicate Throws(p: FeedPost, query: string, tag: string)
  {
    if query != "" then !MatchesText(p, query) && NoUsername(p.author)
    else tag != "" && p.tags.None?
  }

  /** What rendering the page's filter gives: the kept posts, or a thrown TypeError. */
  datatype Render = Rendered(posts: seq<FeedPost>) | Thrown

  /** The test page.tsx runs on one post, as written: `None` where it throws. */
  function TestAsWritten(p: FeedPost, query: string, tag: string): (r: Option<bool>)
    ensures r.Some? ==> r.value == Keep(p, query, tag)
    ensures r.None? <==> Throws(p, query, tag)
  {
    if query != "" then
      if MatchesText(p, query) then Some(true)
      else
        match p.author
        case ServerAuthor(dto) => if dto.username.Some? then Some(ContainsIgnoringCase(dto.username.value, query)) else None
        case Placeholder => Some(ContainsIgnoringCase(PlaceholderName, query))
        case NoAuthor => None
    else if tag != "" then
      if p.tags.None? then None else Some(MatchesTag(p, tag))
    else Some(true)
  }

  /**
   * page.tsx's `posts.filter(...)` as written: it throws as soon as one post's
   * test throws, and otherwise keeps the posts whose test is true.
   */
  function FilteredPostsAsWritten(posts: seq<FeedPost>, query: string, tag: string): Render
  {
    if posts == [] then Rendered([])
    else
      var rest := FilteredPostsAsWritten(posts[1..], query, tag);
      var test := TestAsWritten(posts[0], query, tag);
      if test.None? || rest.Thrown? then Thrown
      else Rendered(if test.value then [posts[0]] + rest.posts else rest.posts)
  }

  /** The page as written renders exactly when no post's test throws. */
  lemma {:induction false} RendersIffNoneThrows(posts: seq<FeedPost>, query: string, tag: string)
    ensures FilteredPostsAsWritten(posts, query, tag).Rendered? <==> forall i :: 0 <= i < |posts| ==> !Throws(posts[i], query, tag)
  {
    if posts != [] {
      RendersIffNoneThrows(posts[1..], query, tag);
      assert forall i :: 1 <= i < |posts| ==> posts[i] == posts[1..][i - 1];
    }
  }

  /** Wherever the page as written renders, it renders what `FilteredPosts` keeps. */
  lemma {:induction false} AsWrittenAgreesWhenRendered(posts: seq<FeedPost>, query: string, tag: string)
    ensures FilteredPostsAsWritten(posts, query, tag).Rendered? ==>
      FilteredPostsAsWritten(posts, query, tag).posts == FilteredPosts(posts, query, tag)
  {
    if posts != [] {
      AsWrittenAgreesWhenRendered(posts[1..], query, tag);
    }
  }

  /**
   * The entry `usePosts.createPost` puts in front of the feed has no `tags`,
   * so choosing any tag afterwards throws during render.
   */
  lemma CreatedEntryThrowsUnderTag(created: PostDto, feed: seq<FeedPost>, tag: string)
    requires tag != ""
    ensures FilteredPostsAsWritten([RawEntry(created)] + feed, "", tag) == Thrown
  {
    assert TestAsWritten(([RawEntry(created)] + feed)[0], "", tag).None?;
  }

  /**
   * A created post without an author throws under any search that misses its
   * title and content.
   */
  lemma AuthorlessEntryThrowsUnderSearch(created: PostDto, feed: seq<FeedPost>, query: string)
    requires query != "" && created.author.None?
    requires !MatchesText(RawEntry(created), query)
    ensures FilteredPostsAsWritten([RawEntry(created)] + feed, query, "") == Thrown
  {
    assert TestAsWritten(([RawEntry(created)] + feed)[0], query, "").None?;
  }

  /**
   * The filter the page evidently means (`FilteredPosts`) reads a missing tag
   * list as no tags: the created entry is simply not shown under a tag.
   */
  lemma CreatedEntryHiddenUnderTag(created: PostDto, feed: seq<FeedPost>, tag: string)
    requires tag != ""
    ensures FilteredPosts([RawEntry(created)] + feed, "", tag) == FilteredPosts(feed, "", tag)
  {
    var posts := [RawEntry(created)] + feed;
    assert posts[1..] == feed;
    assert !Keep(posts[0], "", tag);
  }

  /** The search ignores the tag entirely. */
  lemma {:induction false} SearchIgnoresTag(posts: seq<FeedPost>, query: string, tag1: string, tag2: string)
    requires query != ""
    ensures FilteredPosts(posts, query, tag1) == FilteredPosts(posts, query, tag2)
  {
    if posts != [] {
      SearchIgnoresTag(posts[1..], query, tag1, tag2);
    }
  }

  /** The page's filter state. */
  class HomeFilters {
    var searchQuery: string
    var activeTag: string

    /** At most one filter is set. */
    ghost predicate Valid()
      reads this
    {
      searchQuery == "" || activeTag == ""
    }

    constructor ()
      ensures Valid() && searchQuery == "" && activeTag == ""
    {
      searchQuery := "";
      activeTag := "";
    }

    method HandleSearch(query: string)
      modifies this
      ensures Valid() && searchQuery == query && activeTag == ""
    {
      searchQuery := query;
      activeTag := "";
    }

    method HandleTagFilter(tag: string)
      modifies this
      ensures Valid() && activeTag == tag && searchQuery == ""
    {
      activeTag := tag;
      searchQuery := "";
    }

    method HandleClearFilters()
      modifies this
      ensures Valid() && searchQuery == "" && activeTag == ""
    {
      searchQuery := "";
      activeTag := "";
    }

    function Visible(posts: seq<FeedPost>): (r: seq<FeedPost>)
      reads this
      ensures IsSubsequence(r, posts)
      ensures searchQuery == "" && activeTag == "" ==> r == posts
      ensures FilteredPostsAsWritten(posts, searchQuery, activeTag).Rendered? ==> r == FilteredPostsAsWritten(posts, searchQuery, activeTag).posts
    {
      AsWrittenAgreesWhenRendered(posts, searchQuery, activeTag);
      FilteredPosts(posts, searchQuery, activeTag)
    }
  }
}

=== FILE: image_uploader.dfy ===
/**
 * The profile image uploader: which user id the upload goes to, and what
 * happens after the upload answers. The upload's answer and the profile
 * fetch of the following refresh are parameters.
 */
module ImageUploader {
  import opened Wrappers
  import opened Text
  import Api
  import AuthContext

  /** The `userId` prop: a number or a string. */
  datatype PropId = NumberProp(n: int) | StringProp(s: string)

  /** The upload's answer body. */
  datatype ImageResponse = ImageResponse(imageUrl: Option<string>)

  const NoUserIdMessage := "Kullanıcı kimliği bulunamadı. Lütfen tekrar giriş yapın."

  /** `String(userId).length > 0`: every number renders non-empty, a string must be non-empty. */
  predicate PropUsable(p: PropId)
  {
    p.NumberProp? || p.s != ""
  }

  /** `Number(x)` of the prop. */
  function PropNumber(p: PropId): JsNumber
  {
    match p
    case NumberProp(n) => Num(n)
    case StringProp(s) => ToNumber(s)
  }

  /** JavaScript truthiness of a claim: 0 and "" are falsy. */
  predicate ClaimTruthy(c: AuthContext.Claim)
  {
    match c
    case NumClaim(n) => n != 0
    case StrClaim(s) => s != ""
  }

  function ClaimNumber(c: AuthContext.Claim): JsNumber
  {
    match c
    case NumClaim(n) => Num(n)
    case StrClaim(s) => ToNumber(s)
  }

  /** The truthy `userId` claim of the stored token, if there is one. */
  function TokenUserId(stored: Option<string>, decode: string -> AuthContext.Payload): (r: Option<AuthContext.Claim>)
    ensures r.Some? ==> ClaimTruthy(r.value)
    ensures r.Some? <==>
      Truthy(stored) && decode(stored.value).Decoded? && decode(stored.value).userId.Some?
      && ClaimTruthy(decode(stored.value).userId.value)
  {
    if !Truthy(stored) then None
    else match decode(stored.value)
      case Unreadable => None
      case Decoded(_, uid) => if uid.Some? && ClaimTruthy(uid.value) then uid else None
  }

  /**
   * `resolveUserId`: a usable prop wins, then a non-empty id of the signed-in
   * user, then a truthy `userId` claim of the stored token; otherwise null.
   */
  function ResolveUserId(prop: Option<PropId>, userId: Option<string>, stored: Option<string>,
                         decode: string -> AuthContext.Payload): (r: Option<JsNumber>)
    ensures prop.Some? && PropUsable(prop.value) ==> r == Some(PropNumber(prop.value))
    ensures !(prop.Some? && PropUsable(prop.value)) && Truthy(userId) ==> r == Some(ToNumber(userId.value))
    ensures !(prop.Some? && PropUsable(prop.value)) && !Truthy(userId) ==>
      r == (if TokenUserId(stored, decode).Some? then Some(ClaimNumber(TokenUserId(stored, decode).value)) else None)
    ensures r.None? <==>
      !(prop.Some? && PropUsable(prop.value)) && !Truthy(userId) && TokenUserId(stored, decode).None?
  {
    if prop.Some? && PropUsable(prop.value) then Some(PropNumber(prop.value))
    else if Truthy(userId) then Some(ToNumber(userId.value))
    else
      var claim := TokenUserId(stored, decode);
      if claim.Some? then Some(ClaimNumber(claim.value)) else None
  }

  /** A numeric prop is used even when it is 0, whatever the user and the token say. */
  lemma ZeroPropWins(userId: Option<string>, stored: Option<string>, decode: string -> AuthContext.Payload)
    ensures ResolveUserId(Some(NumberProp(0)), userId, stored, decode) == Some(Num(0))
  {
  }

  /** A rendered natural number passed as a string prop resolves to that number. */
  lemma StringPropRoundTrip(n: nat, userId: Option<string>, stored: Option<string>, decode: string -> AuthContext.Payload)
    ensures ResolveUserId(Some(StringProp(NatToString(n))), userId, stored, decode) == Some(Num(n))
  {
    ToNumberOfNatToString(n);
  }

  /** `user?.id` of the session. */
  function SessionUserId(user: Option<AuthContext.User>): Option<string>
  {
    if user.Some? then Some(user.value.id) else None
  }

  /** What `handleFileChange` did. */
  datatype Outcome =
    | NoFile
    | NoUserId(message: string)
    | Uploaded(uid: int, imageUrl: string)
    | Rejected(uid: int, alert: Option<string>)

  class Uploader {
    var uploading: bool

    constructor ()
      ensures !uploading
    {
      uploading := false;
    }

    /**
     * `handleFileChange`: no upload without a file or without a numeric id,
     * resolved from the prop, the session's user and the stored token. An
     * answer carrying a non-empty `imageUrl` refreshes the session's profile
     * (with the answer `profile`) and is handed to `onUploaded`; any other
     * answer alerts its error, if it has one. `uploading` is set only while the
     * upload is awaited, so it is false again on return.
     */
    method HandleFileChange(hasFile: bool, prop: Option<PropId>, response: Api.Response<ImageResponse>,
                            auth: AuthContext.Auth, profile: Api.Response<AuthContext.User>)
      returns (outcome: Outcome)
      modifies this`uploading, auth`user, auth`token, auth`stored
      ensures var uid := ResolveUserId(prop, SessionUserId(old(auth.user)), old(auth.stored), auth.decode);
        && (!hasFile ==> outcome == NoFile)
        && (hasFile && (uid.None? || uid.value.NaN?) ==> outcome == NoUserId(NoUserIdMessage))
        && (outcome.Uploaded? || outcome.Rejected? <==> hasFile && uid.Some? && uid.value.Num?)
        && (outcome.Uploaded? || outcome.Rejected? ==> outcome.uid == uid.value.value)
        && (outcome.Uploaded? <==>
              hasFile && uid.Some? && uid.value.Num? && response.data.Some? && Truthy(response.data.value.imageUrl))
      ensures outcome.Uploaded? || outcome.Rejected? ==> !uploading
      ensures outcome.NoFile? || outcome.NoUserId? ==> uploading == old(uploading)
      ensures outcome.Uploaded? ==> outcome.imageUrl == response.data.value.imageUrl.value
      ensures outcome.Rejected? ==> outcome.alert == (if Truthy(response.error) then response.error else None)
      ensures !outcome.Uploaded? || !Truthy(old(auth.token)) ==>
        auth.user == old(auth.user) && auth.token == old(auth.token) && auth.stored == old(auth.stored)
      ensures outcome.Uploaded? && Truthy(old(auth.token)) && profile.data.Some? ==>
        && auth.user == Some(profile.data.value.(roleName := AuthContext.DerivedRole(
             AuthContext.TokenRole(old(auth.stored), auth.decode), old(auth.user))))
        && auth.token == old(auth.token) && auth.stored == old(auth.stored)
      ensures outcome.Uploaded? && Truthy(old(auth.token)) && profile.data.None? ==>
        auth.user.None? && auth.token.None? && auth.stored.None?
    {
      if !hasFile {
        return NoFile;
      }
      var uid := ResolveUserId(prop, SessionUserId(auth.user), auth.stored, auth.decode);
      if uid.None? || uid.value.NaN? {
        return NoUserId(NoUserIdMessage);
      }
      var id := uid.value.value;
      uploading := true;
      // the upload to /api/user/{id}/profile-image is awaited here and answers `response`
      uploading := false;
      if response.data.Some? && Truthy(response.data.value.imageUrl) {
        auth.RefreshProfile(profile);
        outcome := Uploaded(id, response.data.value.imageUrl.value);
      } else {
        outcome := Rejected(id, if Truthy(response.error) then response.error else None);
      }
    }
  }
}

=== FILE: image_url.dfy ===
/**
 * Image URL normalisation for avatars and covers. The browser location and
 * the configured API base URL are parameters: there is no `window` or
 * process environment here.
 */
module ImageUrl {
  import opened Wrappers
  import opened Text

  /** Where the code runs: a browser page at some location, or server-side rendering. */
  datatype Host =
    | Browser(hostname: string, protocol: string, port: string)
    | ServerSide

  const Placeholder := "/placeholder-user.jpg"
  const CloudinaryHost := "res.cloudinary.com"
  const RenderBackend := "https://blok.onrender.com"
  const LocalBackend := "http://localhost:8080"

  predicate IsAbsolute(u: string) { StartsWith(u, "http://") || StartsWith(u, "https://") }

  predicate IsLocalHostname(hostname: string)
  {
    Contains(hostname, "localhost") || Contains(hostname, "127.0.0.1")
  }

  /** Production means a browser whose hostname is neither localhost nor 127.0.0.1. */
  predicate IsProduction(host: Host)
  {
    host.Browser? && !IsLocalHostname(host.hostname)
  }

  /** The backend base URL: the configured one when set, otherwise a default chosen by host. */
  function ApiBaseUrl(host: Host, configured: Option<string>): (r: string)
    ensures Truthy(configured) ==> r == configured.value
    ensures !Truthy(configured) && host.ServerSide? ==> r == LocalBackend
    ensures !Truthy(configured) && host.Browser? ==>
      r == (if Contains(host.hostname, "vercel.app") || Contains(host.hostname, "onrender.com")
              || host.hostname == "blok-maiq.vercel.app" then RenderBackend
            else if IsLocalHostname(host.hostname) then LocalBackend
            else host.protocol + "//" + host.hostname + (if host.port != "" then ":" + host.port else ""))
  {
    match host
    case ServerSide => OrDefault(configured, LocalBackend)
    case Browser(hostname, protocol, port) =>
      if Contains(hostname, "vercel.app") || Contains(hostname, "onrender.com") || hostname == "blok-maiq.vercel.app" then
        OrDefault(configured, RenderBackend)
      else if IsLocalHostname(hostname) then
        OrDefault(configured, LocalBackend)
      else
        OrDefault(configured, protocol + "//" + hostname + (if port != "" then ":" + port else ""))
  }

  /** A path with exactly the one leading slash it may lack added. */
  function Rooted(path: string): (r: string)
    ensures |r| >= 1 && r[0] == '/'
    ensures path != [] && path[0] == '/' ==> r == path
    ensures (path == [] || path[0] != '/') ==> r == "/" + path
    ensures path != [] ==> r[|r| - 1] == path[|path| - 1]
  {
    if StartsWith(path, "/") then path else "/" + path
  }

  /** A base URL with one trailing slash removed, if it has one. */
  function WithoutTrailingSlash(base: string): (r: string)
    ensures r == base || r + "/" == base
    ensures (base == [] || base[|base| - 1] != '/') ==> r == base
  {
    if |base| >= 1 && base[|base| - 1] == '/' then base[..|base| - 1] else base
  }

  /**
   * The Cloudinary branch as written: it re-checks the protocol, then adds
   * "https://" to a URL already naming the delivery host, or roots any other
   * path under that host.
   */
  function CloudinaryUrl(u: string): (r: string)
    ensures IsAbsolute(u) ==> r == u
    ensures !IsAbsolute(u) && Contains(u, CloudinaryHost) ==> r == "https://" + u
    ensures !IsAbsolute(u) && !Contains(u, CloudinaryHost) ==> r == "https://" + (CloudinaryHost + Rooted(u))
  {
    if StartsWith(u, "https://") || StartsWith(u, "http://") then u
    else if Contains(u, CloudinaryHost) then "https://" + u
    else "https://" + (CloudinaryHost + Rooted(u))
  }

  /** "https:" in production and "http:" elsewhere, for protocol-relative URLs. */
  function Scheme(host: Host): string
  {
    if IsProduction(host) then "https:" else "http:"
  }

  /**
   * The steps after trimming, applied to the trimmed URL `u`, given the
   * scheme for protocol-relative URLs and the API base URL.
   */
  function Normalize(u: string, scheme: string, apiBase: string): string
  {
    if StartsWith(u, "http://") || StartsWith(u, "https://") then u
    else if StartsWith(u, "//") then scheme + u
    else if Contains(u, "cloudinary.com") then CloudinaryUrl(u)
    else WithoutTrailingSlash(apiBase) + Rooted(u)
  }

  /**
   * `getImageUrl`: the placeholder for an absent or blank URL; otherwise the
   * trimmed URL, normalised.
   */
  function GetImageUrl(url: Option<string>, host: Host, configured: Option<string>): (r: string)
    ensures !Truthy(url) || IsBlank(url.value) ==> r == Placeholder
    ensures Truthy(url) && !IsBlank(url.value) ==> r == Normalize(Trim(url.value), Scheme(host), ApiBaseUrl(host, configured))
  {
    if !Truthy(url) then Placeholder
    else
      BlankIffTrimsToEmpty(url.value);
      if Trim(url.value) == "" then Placeholder
      else Normalize(Trim(url.value), Scheme(host), ApiBaseUrl(host, configured))
  }

  /**
   * The branches of the normalisation, in order: an absolute URL is kept; a
   * protocol-relative one gets the host's scheme; one mentioning
   * cloudinary.com follows the Cloudinary rule; any other is rooted under the
   * API base without its trailing slash.
   */
  lemma NormalizeCases(u: string, host: Host, configured: Option<string>)
    ensures var r := Normalize(u, Scheme(host), ApiBaseUrl(host, configured));
      && (IsAbsolute(u) ==> r == u)
      && (!IsAbsolute(u) && StartsWith(u, "//") ==>
            r == (if IsProduction(host) then "https:" else "http:") + u)
      && (!IsAbsolute(u) && !StartsWith(u, "//") && Contains(u, "cloudinary.com") ==>
            r == CloudinaryUrl(u))
      && (!IsAbsolute(u) && !StartsWith(u, "//") && !Contains(u, "cloudinary.com") ==>
            r == WithoutTrailingSlash(ApiBaseUrl(host, configured)) + Rooted(u))
  {
  }

  /** A trimmed non-empty URL neither starts nor ends with white space. */
  lemma TrimmedEnds(url: string)
    requires !IsBlank(url)
    ensures var u := Trim(url); u != [] && !IsSpace(u[0]) && !IsSpace(u[|u| - 1])
  {
    BlankIffTrimsToEmpty(url);
  }

  /**
   * The protocol re-check inside the Cloudinary branch never fires: an
   * absolute URL has already been returned, so Cloudinary URLs always get
   * "https://" prepended, and always end up under https.
   */
  lemma CloudinaryProtocolCheckIsDead(u: string, scheme: string, apiBase: string)
    requires !IsAbsolute(u) && !StartsWith(u, "//") && Contains(u, "cloudinary.com")
    ensures Contains(u, CloudinaryHost) ==> Normalize(u, scheme, apiBase) == "https://" + u
    ensures !Contains(u, CloudinaryHost) ==> Normalize(u, scheme, apiBase) == "https://" + (CloudinaryHost + Rooted(u))
    ensures StartsWith(Normalize(u, scheme, apiBase), "https://")
  {
    var rest := if Contains(u, CloudinaryHost) then u else CloudinaryHost + Rooted(u);
    assert Normalize(u, scheme, apiBase) == CloudinaryUrl(u) == "https://" + rest;
    PrefixStarts("https://", rest);
  }

  /** A string starts with any prefix prepended to it. */
  lemma PrefixStarts(p: string, rest: string)
    ensures StartsWith(p + rest, p)
  {
    assert (p + rest)[..|p|] == p;
  }

  /** An absolute URL starts with the "h" of its protocol. */
  lemma AbsoluteStartsWithH(r: string)
    requires IsAbsolute(r)
    ensures r != [] && r[0] == 'h'
  {
    if StartsWith(r, "http://") {
      assert r[0] == r[..7][0];
    } else {
      assert r[0] == r[..8][0];
    }
  }

  /** An absolute URL with no surrounding whitespace is returned unchanged. */
  lemma AbsoluteIsFixedPoint(r: string, host: Host, configured: Option<string>)
    requires IsAbsolute(r) && Trim(r) == r
    ensures GetImageUrl(Some(r), host, configured) == r
  {
    AbsoluteStartsWithH(r);
    assert !IsSpace(r[0]);
    assert !IsBlank(r);
  }

  /** Prefixing a protocol makes a URL absolute and keeps its last character. */
  lemma PrefixedIsAbsolute(p: string, u: string)
    requires p == "http:" || p == "https:"
    requires |u| >= 2 && u[..2] == "//"
    ensures IsAbsolute(p + u) && (p + u)[|p + u| - 1] == u[|u| - 1]
  {
    assert (p + u)[..|p| + 2] == p + "//";
  }

  /** The Cloudinary branch always yields an absolute URL ending like its input. */
  lemma CloudinaryUrlIsAbsolute(u: string)
    requires u != []
    ensures var r := CloudinaryUrl(u); IsAbsolute(r) && r[|r| - 1] == u[|u| - 1]
  {
    if !IsAbsolute(u) {
      var rest := if Contains(u, CloudinaryHost) then u else CloudinaryHost + Rooted(u);
      assert CloudinaryUrl(u) == "https://" + rest;
      HttpsPrefixIsAbsolute(rest);
    }
  }

  /** Prefixing "https://" makes any non-empty text an absolute URL ending like the text. */
  lemma HttpsPrefixIsAbsolute(rest: string)
    requires rest != []
    ensures IsAbsolute("https://" + rest) && ("https://" + rest)[|"https://" + rest| - 1] == rest[|rest| - 1]
  {
    PrefixStarts("https://", rest);
  }

  /** The scheme for protocol-relative URLs is "http:" or "https:". */
  lemma SchemeIsHttp(host: Host)
    ensures Scheme(host) == "http:" || Scheme(host) == "https:"
  {
  }

  /** A protocol-relative URL gets the scheme and comes out absolute, ending like the input. */
  lemma ProtocolRelativeIsAbsolute(u: string, scheme: string, apiBase: string)
    requires scheme == "http:" || scheme == "https:"
    requires !IsAbsolute(u) && StartsWith(u, "//")
    ensures var r := Normalize(u, scheme, apiBase); IsAbsolute(r) && r[|r| - 1] == u[|u| - 1]
  {
    assert Normalize(u, scheme, apiBase) == scheme + u;
    PrefixedIsAbsolute(scheme, u);
  }

  /** A URL that reaches the Cloudinary branch comes out absolute, ending like the input. */
  lemma CloudinaryBranchIsAbsolute(u: string, scheme: string, apiBase: string)
    requires !IsAbsolute(u) && !StartsWith(u, "//") && Contains(u, "cloudinary.com")
    ensures var r := Normalize(u, scheme, apiBase); IsAbsolute(r) && r[|r| - 1] == u[|u| - 1]
  {
    assert Normalize(u, scheme, apiBase) == CloudinaryUrl(u);
    CloudinaryUrlIsAbsolute(u);
  }

  /** Absolute, protocol-relative and Cloudinary inputs all come out absolute, with no surrounding white space. */
  lemma NormalizedIsAbsolute(u: string, scheme: string, apiBase: string)
    requires scheme == "http:" || scheme == "https:"
    requires u != [] && !IsSpace(u[|u| - 1])
    requires IsAbsolute(u) || StartsWith(u, "//") || Contains(u, "cloudinary.com")
    ensures var r := Normalize(u, scheme, apiBase); IsAbsolute(r) && Trim(r) == r
  {
    var r := Normalize(u, scheme, apiBase);
    if IsAbsolute(u) {
      assert r == u;
    } else if StartsWith(u, "//") {
      ProtocolRelativeIsAbsolute(u, scheme, apiBase);
    } else {
      CloudinaryBranchIsAbsolute(u, scheme, apiBase);
    }
    AbsoluteStartsWithH(r);
    TrimOfTrimmed(r);
  }

  /** Absolute, protocol-relative and Cloudinary inputs all come out absolute, with no surrounding white space. */
  lemma AbsoluteResult(url: Option<string>, host: Host, configured: Option<string>)
    requires Truthy(url) && !IsBlank(url.value)
    requires var u := Trim(url.value); IsAbsolute(u) || StartsWith(u, "//") || Contains(u, "cloudinary.com")
    ensures var r := GetImageUrl(url, host, configured); IsAbsolute(r) && Trim(r) == r
  {
    TrimmedEnds(url.value);
    SchemeIsHttp(host);
    NormalizedIsAbsolute(Trim(url.value), Scheme(host), ApiBaseUrl(host, configured));
  }

  /**
   * Every result that came out absolute is a fixed point: normalising it again
   * returns it unchanged.
   */
  lemma AbsoluteResultIsFixedPoint(url: Option<string>, host: Host, configured: Option<string>)
    requires Truthy(url) && !IsBlank(url.value)
    requires var u := Trim(url.value); IsAbsolute(u) || StartsWith(u, "//") || Contains(u, "cloudinary.com")
    ensures GetImageUrl(Some(GetImageUrl(url, host, configured)), host, configured) == GetImageUrl(url, host, configured)
  {
    AbsoluteResult(url, host, configured);
    AbsoluteIsFixedPoint(GetImageUrl(url, host, configured), host, configured);
  }
}

=== FILE: java_text.dfy ===
/**
 * The Java string tests the server uses: `trim` drops the characters up to
 * and including the space from both ends, and `isBlank` holds when every
 * character is white space.
 */
module JavaText {
  import opened Text

  /** The characters `Character.isWhitespace` accepts below U+0080. */
  predicate IsJavaWhitespace(c: char)
  {
    c == ' ' || 9 <= c as int <= 13 || 28 <= c as int <= 31
  }

  /** `isBlank`: empty or white space only. */
  predicate IsJavaBlank(s: string)
  {
    forall i :: 0 <= i < |s| ==> IsJavaWhitespace(s[i])
  }

  /**
   * `r` sits at index `k` of `s`, and every character before and after it is
   * at or below the space: what `trim` may have dropped.
   */
  predicate LowAround(s: string, r: string, k: int)
  {
    && OccursAt(s, r, k)
    && (forall i :: 0 <= i < k ==> s[i] <= ' ')
    && (forall i :: k + |r| <= i < |s| ==> s[i] <= ' ')
  }

  lemma LowAroundInTail(s: string, r: string)
    requires s != [] && s[0] <= ' ' && exists k :: LowAround(s[1..], r, k)
    ensures exists k :: LowAround(s, r, k)
  {
    var k :| LowAround(s[1..], r, k);
    assert s[k + 1..k + 1 + |r|] == s[1..][k..k + |r|];
    forall i | 0 <= i < k + 1 ensures s[i] <= ' ' {
      if i > 0 { assert s[i] == s[1..][i - 1]; }
    }
    forall i | k + 1 + |r| <= i < |s| ensures s[i] <= ' ' {
      assert s[i] == s[1..][i - 1];
    }
    assert LowAround(s, r, k + 1);
  }

  lemma LowAroundInInit(s: string, t: string, r: string)
    requires s != [] && s[|s| - 1] <= ' ' && t == s[..|s| - 1]
    requires exists k :: LowAround(t, r, k)
    ensures exists k :: LowAround(s, r, k)
  {
    var k :| LowAround(t, r, k);
    assert s[k..k + |r|] == t[k..k + |r|];
    forall i | 0 <= i < k ensures s[i] <= ' ' {
      assert s[i] == t[i];
    }
    forall i | k + |r| <= i < |s| ensures s[i] <= ' ' {
      if i < |t| { assert s[i] == t[i]; }
    }
    assert LowAround(s, r, k);
  }

  /**
   * `trim`: the leading characters at or below the space are dropped, then
   * the trailing ones. The result is the piece of the input left between
   * them.
   */
  function JavaTrim(s: string): (r: string)
    ensures r == [] || (r[0] > ' ' && r[|r| - 1] > ' ')
    ensures exists k :: LowAround(s, r, k)
    decreases |s|
  {
    if s != [] && s[0] <= ' ' then
      var r := JavaTrim(s[1..]);
      LowAroundInTail(s, r);
      r
    else if s != [] && s[|s| - 1] <= ' ' then
      var r := JavaTrim(s[..|s| - 1]);
      LowAroundInInit(s, s[..|s| - 1], r);
      r
    else
      assert LowAround(s, s, 0);
      s
  }

  /** What `trim` drops is exactly the outer characters at or below the space, so it empties a string iff they are all it has. */
  lemma {:induction false} JavaTrimEmptyIff(s: string)
    ensures JavaTrim(s) == [] <==> forall i :: 0 <= i < |s| ==> s[i] <= ' '
    decreases |s|
  {
    if s == [] {
    } else if s[0] <= ' ' {
      JavaTrimEmptyIff(s[1..]);
      if forall i :: 0 <= i < |s| - 1 ==> s[1..][i] <= ' ' {
        forall i | 0 <= i < |s| ensures s[i] <= ' ' {
          if i > 0 { assert s[i] == s[1..][i - 1]; }
        }
      }
    } else if s[|s| - 1] <= ' ' {
      var init := s[..|s| - 1];
      JavaTrimEmptyIff(init);
      assert init[0] == s[0];
    }
  }

  /** A string with no outer characters at or below the space is its own trim. */
  lemma JavaTrimOfTrimmed(s: string)
    requires s == [] || (s[0] > ' ' && s[|s| - 1] > ' ')
    ensures JavaTrim(s) == s
  {
  }

  lemma JavaTrimIdempotent(s: string)
    ensures JavaTrim(JavaTrim(s)) == JavaTrim(s)
  {
    JavaTrimOfTrimmed(JavaTrim(s));
  }

  /** Every blank string trims to nothing. */
  lemma BlankTrimsToEmpty(s: string)
    requires IsJavaBlank(s)
    ensures JavaTrim(s) == []
  {
    JavaTrimEmptyIff(s);
  }
}

=== FILE: jwt_filter.dfy ===
/**
 * The request filter that turns a bearer token into an authentication:
 * a valid token naming an existing user, on a request not yet
 * authenticated, authenticates that user with one authority per role
 * claim, each prefixed with "ROLE_". Every request that does not fail goes
 * on down the filter chain exactly once.
 */
module JwtFilter {
  import opened Wrappers
  import opened Text
  import opened Store

  const BearerPrefix := "Bearer "
  const RolePrefix := "ROLE_"

  /** The authentication placed in the security context: the user and the granted authorities. */
  datatype Authentication = Authentication(userId: Id, authorities: seq<string>)

  /** The token of an `Authorization` header that starts with "Bearer ", without that prefix. */
  function BearerToken(header: Option<string>): (r: Option<string>)
    ensures r.Some? <==> header.Some? && StartsWith(header.value, BearerPrefix)
    ensures r.Some? ==> BearerPrefix + r.value == header.value
  {
    if header.Some? && StartsWith(header.value, BearerPrefix) then Some(header.value[|BearerPrefix|..]) else None
  }

  /** A header built from a token gives that token back. */
  lemma BearerRoundTrip(token: string)
    ensures BearerToken(Some(BearerPrefix + token)) == Some(token)
  {
    assert (BearerPrefix + token)[..|BearerPrefix|] == BearerPrefix;
    assert (BearerPrefix + token)[|BearerPrefix|..] == token;
  }

  /** One authority per role, in order, each the role prefixed with "ROLE_". */
  function Authorities(roles: seq<string>): (r: seq<string>)
    ensures |r| == |roles|
    ensures forall i :: 0 <= i < |roles| ==> StartsWith(r[i], RolePrefix) && r[i][|RolePrefix|..] == roles[i]
  {
    if roles == [] then []
    else
      var head := RolePrefix + roles[0];
      assert head[..|RolePrefix|] == RolePrefix && head[|RolePrefix|..] == roles[0];
      [head] + Authorities(roles[1..])
  }

  /** Different role lists grant different authorities. */
  lemma AuthoritiesInjective(a: seq<string>, b: seq<string>)
    requires Authorities(a) == Authorities(b)
    ensures a == b
  {
    assert |a| == |b|;
    forall i | 0 <= i < |a|
      ensures a[i] == b[i]
    {
      assert Authorities(a)[i][|RolePrefix|..] == a[i];
      assert Authorities(b)[i][|RolePrefix|..] == b[i];
    }
  }

  /** The security context of the current request. */
  class SecurityContext {
    var authentication: Option<Authentication>

    constructor ()
      ensures authentication.None?
    {
      authentication := None;
    }
  }

  class JwtAuthenticationFilter {
    const db: Db
    /** `validateToken`: the token parses, is signed with the key and has not expired. */
    const validate: string -> bool
    /** `extractUsername`: the subject of a valid token. */
    const subject: string -> string
    /** The `roles` claim of a valid token; `None` when the claim is missing. */
    const rolesClaim: string -> Option<seq<string>>

    constructor (db: Db, validate: string -> bool, subject: string -> string, rolesClaim: string -> Option<seq<string>>)
      ensures this.db == db && this.validate == validate && this.subject == subject && this.rolesClaim == rolesClaim
    {
      this.db := db;
      this.validate := validate;
      this.subject := subject;
      this.rolesClaim := rolesClaim;
    }

    /**
     * `doFilterInternal`. `Ok` means the request was passed on down the
     * chain, once; a missing roles claim makes the role mapping throw a
     * null pointer exception, and the chain is not called.
     */
    method DoFilterInternal(header: Option<string>, context: SecurityContext) returns (r: Result<()>)
      modifies context
      ensures var token := BearerToken(header);
        && (token.None? || !validate(token.value) ==> r == Ok(()) && unchanged(context))
        && (token.Some? && validate(token.value) ==>
              var name := subject(token.value);
              && (!UsernameTaken(db.users, name) || old(context.authentication).Some? ==> r == Ok(()) && unchanged(context))
              && (UsernameTaken(db.users, name) && old(context.authentication).None? ==>
                    && (rolesClaim(token.value).None? ==> r == Thrown(Failure(NullPointer, "")) && unchanged(context))
                    && (rolesClaim(token.value).Some? ==>
                          && r == Ok(())
                          && context.authentication.Some?
                          && var auth := context.authentication.value;
                          && auth.userId in db.users && db.users[auth.userId].username == name
                          && auth.authorities == Authorities(rolesClaim(token.value).value))))
      ensures old(context.authentication).Some? ==> unchanged(context)
    {
      var token := BearerToken(header);
      if token.None? || !validate(token.value) {
        return Ok(());
      }
      var name := subject(token.value);
      var user := db.FindByUsername(name);
      if user.Some? && context.authentication.None? {
        var roles := rolesClaim(token.value);
        if roles.None? {
          return Thrown(Failure(NullPointer, ""));
        }
        context.authentication := Some(Authentication(user.value, Authorities(roles.value)));
      }
      r := Ok(());
    }
  }
}

=== FILE: like_service.dfy ===
/**
 * The like service: toggling and adding likes on posts and comments, the
 * like counts and checks, and the list of posts a user liked.
 */
module LikeService {
  import opened Wrappers
  import opened Store
  import opened Tokens
  import PostListing

  const UserNotFound := "Kullanıcı bulunamadı"
  const PostNotFound := "Post bulunamadı"
  const AlreadyLiked := "Zaten beğenmişsin"
  const CommentNotFound := "Yorum bulunamadı"
  const UserNotFoundNamed := "Kullanıcı bulunamadı: "

  class LikeServiceImpl {
    const db: Db
    const decode: Decoder

    constructor (db: Db, decode: Decoder)
      ensures this.db == db && this.decode == decode
    {
      this.db := db;
      this.decode := decode;
    }

    /**
     * `toggleLikePost`: the token's user and the post must exist; an existing
     * like is deleted and false returned, otherwise one is added and true returned.
     */
    method ToggleLikePost(postId: Id, token: Option<string>) returns (r: Result<bool>)
      modifies db`postLikes
      ensures var u := TokenUser(decode, token, db.users, Failure(Checked, UserNotFound));
        && (u.Thrown? ==> r == Thrown(u.failure))
        && (u.Ok? && postId !in db.posts ==> r == Thrown(Failure(Checked, PostNotFound)))
        && (u.Ok? && postId in db.posts ==>
              && db.postLikes == Toggle(old(db.postLikes), (u.value, postId))
              && r == Ok((u.value, postId) !in old(db.postLikes))
              && r == Ok((u.value, postId) in db.postLikes))
      ensures r.Thrown? ==> db.postLikes == old(db.postLikes)
      ensures old(db.Consistent()) ==> db.Consistent()
    {
      var u := TokenUser(decode, token, db.users, Failure(Checked, UserNotFound));
      if u.Thrown? {
        return Thrown(u.failure);
      }
      if postId !in db.posts {
        return Thrown(Failure(Checked, PostNotFound));
      }
      var existed := (u.value, postId) in db.postLikes;
      db.postLikes := Toggle(db.postLikes, (u.value, postId));
      r := Ok(!existed);
    }

    /** `likePost`: adds the like, or throws when the user already likes the post. */
    method LikePost(postId: Id, token: Option<string>) returns (r: Result<()>)
      modifies db`postLikes
      ensures var u := TokenUser(decode, token, db.users, Failure(Checked, UserNotFound));
        && (u.Thrown? ==> r == Thrown(u.failure))
        && (u.Ok? && postId !in db.posts ==> r == Thrown(Failure(Checked, PostNotFound)))
        && (u.Ok? && postId in db.posts && (u.value, postId) in old(db.postLikes) ==>
              r == Thrown(Failure(Checked, AlreadyLiked)))
        && (r.Ok? <==> u.Ok? && postId in db.posts && (u.value, postId) !in old(db.postLikes))
        && (r.Ok? ==> db.postLikes == old(db.postLikes) + {(u.value, postId)})
      ensures r.Thrown? ==> db.postLikes == old(db.postLikes)
      ensures old(db.Consistent()) ==> db.Consistent()
    {
      var u := TokenUser(decode, token, db.users, Failure(Checked, UserNotFound));
      if u.Thrown? {
        return Thrown(u.failure);
      }
      if postId !in db.posts {
        return Thrown(Failure(Checked, PostNotFound));
      }
      if (u.value, postId) in db.postLikes {
        return Thrown(Failure(Checked, AlreadyLiked));
      }
      db.postLikes := db.postLikes + {(u.value, postId)};
      r := Ok(());
    }

    /** `hasUserLikedPost`. */
    method HasUserLikedPost(user: Id, post: Id) returns (r: bool)
      ensures r <==> (user, post) in db.postLikes
    {
      r := (user, post) in db.postLikes;
    }

    /** `countByPost` and `countLikesForPost`: the number of like rows of the post. */
    method CountByPost(post: Id) returns (r: nat)
      ensures r == |LinksTo(db.postLikes, post)|
    {
      r := db.LikeCount(post);
    }

    /**
     * `toggleLikeComment`: the user is found by the token's username and the
     * comment by its id; then the like on the comment is toggled.
     */
    method ToggleLikeComment(commentId: Id, token: Option<string>) returns (r: Result<bool>)
      modifies db`commentLikes
      ensures var name := ExtractUsername(decode, token);
        && (name.None? ==> r.Thrown? && r.failure.kind == InvalidToken)
        && (name.Some? && !UsernameTaken(db.users, name.value) ==>
              r == Thrown(Failure(Runtime, UserNotFoundNamed + name.value)))
        && (name.Some? && UsernameTaken(db.users, name.value) && commentId !in db.comments ==>
              r == Thrown(Failure(Runtime, CommentNotFound)))
        && (r.Ok? <==> name.Some? && UsernameTaken(db.users, name.value) && commentId in db.comments)
        && (r.Ok? ==> exists u :: u in db.users && db.users[u].username == name.value
                        && db.commentLikes == Toggle(old(db.commentLikes), (u, commentId))
                        && r.value == ((u, commentId) in db.commentLikes))
      ensures r.Thrown? ==> db.commentLikes == old(db.commentLikes)
      ensures old(db.Consistent()) ==> db.Consistent()
    {
      var name := ExtractUsername(decode, token);
      if name.None? {
        return Thrown(Failure(InvalidToken, ""));
      }
      var u := db.FindByUsername(name.value);
      if u.None? {
        return Thrown(Failure(Runtime, UserNotFoundNamed + name.value));
      }
      if commentId !in db.comments {
        return Thrown(Failure(Runtime, CommentNotFound));
      }
      db.commentLikes := Toggle(db.commentLikes, (u.value, commentId));
      r := Ok((u.value, commentId) in db.commentLikes);
    }

    /** `countByCommentId`: the comment must exist. */
    method CountByCommentId(commentId: Id) returns (r: Result<nat>)
      ensures commentId !in db.comments ==> r == Thrown(Failure(Runtime, CommentNotFound))
      ensures commentId in db.comments ==> r == Ok(|LinksTo(db.commentLikes, commentId)|)
    {
      if commentId !in db.comments {
        return Thrown(Failure(Runtime, CommentNotFound));
      }
      r := Ok(db.CommentLikeCount(commentId));
    }

    /** `hasUserLikedComment`. */
    method HasUserLikedComment(user: Id, comment: Id) returns (r: bool)
      ensures r <==> (user, comment) in db.commentLikes
    {
      r := (user, comment) in db.commentLikes;
    }

    /**
     * `getPostsLikedByUser`; `likedPosts` is what the liked-posts query
     * returned and the rows answer the two count queries. Every entry is
     * liked, and the list keeps the query's order.
     */
    method GetPostsLikedByUser(userId: Id, likedPosts: seq<(Id, Post)>,
                               likeRows: seq<PostListing.CountRow>, commentRows: seq<PostListing.CountRow>)
      returns (r: seq<PostListing.PostResponse>)
      ensures likedPosts == [] ==> r == []
      ensures r == PostListing.Assemble(likedPosts, PostListing.MapOf(likeRows), PostListing.MapOf(commentRows),
                                        set i | 0 <= i < |likedPosts| :: likedPosts[i].0)
      ensures |r| == |likedPosts| && forall i :: 0 <= i < |r| ==> r[i].liked && r[i].id == likedPosts[i].0
    {
      if likedPosts == [] {
        return [];
      }
      var ids := set i | 0 <= i < |likedPosts| :: likedPosts[i].0;
      r := PostListing.List(likedPosts, likeRows, commentRows, ids);
    }
  }
}

=== FILE: lists.dfy ===
/**
 * Order-preserving deletion from a list, as JavaScript's `filter` performs it:
 * the pages and hooks that drop entries state their results with these.
 */
module Lists {
  /** `a` is obtained from `b` by deleting entries. */
  predicate IsSubsequence<T(==)>(a: seq<T>, b: seq<T>)
    decreases |b|
  {
    if a == [] then true
    else if b == [] then false
    else (a[0] == b[0] && IsSubsequence(a[1..], b[1..])) || IsSubsequence(a, b[1..])
  }

  /** Deleting the head of `b` as well keeps `a` a subsequence. */
  lemma SubsequenceOfTail<T>(a: seq<T>, b: seq<T>)
    requires b != [] && IsSubsequence(a, b[1..])
    ensures IsSubsequence(a, b)
  {
  }

  /** Keeping the head of `b` keeps `[b[0]] + a` a subsequence. */
  lemma SubsequenceOfCons<T>(a: seq<T>, b: seq<T>)
    requires b != [] && IsSubsequence(a, b[1..])
    ensures IsSubsequence([b[0]] + a, b)
  {
    assert ([b[0]] + a)[1..] == a;
  }

  /**
   * `r` is `s.filter(keep)`: the entries `keep` accepts, in their order and
   * with every copy, and nothing else.
   */
  ghost predicate IsFilterOf<T(!new)>(r: seq<T>, s: seq<T>, keep: T -> bool)
  {
    && |r| <= |s|
    && (forall x :: x in r <==> x in s && keep(x))
    && IsSubsequence(r, s)
    && (forall x :: multiset(r)[x] == if keep(x) then multiset(s)[x] else 0)
  }

  /** One step of the filter: the head is kept exactly when `keep` accepts it. */
  lemma FilterCons<T(!new)>(s: seq<T>, rest: seq<T>, keep: T -> bool)
    requires s != [] && IsFilterOf(rest, s[1..], keep)
    ensures keep(s[0]) ==> IsFilterOf([s[0]] + rest, s, keep)
    ensures !keep(s[0]) ==> IsFilterOf(rest, s, keep)
  {
    assert s == [s[0]] + s[1..];
    assert multiset(s) == multiset{s[0]} + multiset(s[1..]);
    if keep(s[0]) {
      SubsequenceOfCons(rest, s);
      assert multiset([s[0]] + rest) == multiset{s[0]} + multiset(rest);
    } else {
      SubsequenceOfTail(rest, s);
    }
  }
}

=== FILE: post_card.dfy ===
/**
 * One post in a feed: the like handler's in-flight guard, the delete
 * authorisation, the menu's delete item and the relative date. The parent's
 * `onLike`/`onDelete` callbacks and the user's confirmation are parameters.
 */
module PostCard {
  import opened Wrappers
  import opened Text

  /** A relative date; dates a week or more old are shown in the locale's date format. */
  datatype Ago = JustNow | HoursAgo(n: nat) | DaysAgo(n: nat) | LocaleDate

  const HoursPerDay := 24
  const HoursPerWeek := 168
  const MsPerHour := 3600000

  /**
   * The bucket of an elapsed whole number of hours: under an hour, whole hours
   * under a day, whole days under a week, and the calendar date after that.
   */
  function Bucket(hours: int): (r: Ago)
    ensures r == JustNow <==> hours < 1
    ensures r.HoursAgo? <==> 1 <= hours < HoursPerDay
    ensures r.DaysAgo? <==> HoursPerDay <= hours < HoursPerWeek
    ensures r == LocaleDate <==> HoursPerWeek <= hours
    ensures r.HoursAgo? ==> r.n == hours
    ensures r.DaysAgo? ==> 1 <= r.n < 7 && HoursPerDay * r.n <= hours < HoursPerDay * (r.n + 1)
  {
    if hours < 1 then JustNow
    else if hours < HoursPerDay then HoursAgo(hours)
    else if hours < HoursPerWeek then DaysAgo(hours / HoursPerDay)
    else LocaleDate
  }

  /** The rendered label; the locale date itself is not modelled. */
  datatype Shown = Text(s: string) | DateOfPost

  function Label(a: Ago): Shown
  {
    match a
    case JustNow => Text("Az önce")
    case HoursAgo(n) => Text(NatToString(n) + " saat önce")
    case DaysAgo(n) => Text(NatToString(n) + " gün önce")
    case LocaleDate => DateOfPost
  }

  /**
   * `formatDate`: `elapsedMs` is now minus the post's time in milliseconds,
   * NaN for an unparsable date, which fails every comparison and is shown
   * with the locale date format.
   */
  function FormatDate(elapsedMs: JsNumber): (r: Shown)
    ensures elapsedMs.NaN? ==> r == DateOfPost
    ensures elapsedMs.Num? ==> r == Label(Bucket(elapsedMs.value / MsPerHour))
    ensures r == DateOfPost <==> elapsedMs.NaN? || elapsedMs.value >= HoursPerWeek * MsPerHour
  {
    match elapsedMs
    case NaN => DateOfPost
    case Num(ms) => Label(Bucket(ms / MsPerHour))
  }

  /** `String(user?.id)`: a missing user renders as "undefined". */
  function IdString(userId: Option<string>): string
  {
    if userId.Some? then userId.value else "undefined"
  }

  /** Ownership compares the ids as strings. */
  predicate IsOwner(userId: Option<string>, authorId: string)
  {
    IdString(userId) == authorId
  }

  /** The menu's delete item is shown to admins and to the owner. */
  predicate DeleteItemShown(isAdmin: bool, userId: Option<string>, authorId: string)
  {
    isAdmin || IsOwner(userId, authorId)
  }

  /**
   * `handleDelete`: true when `onDelete` is called. It needs a token, admin
   * rights or ownership, an `onDelete` callback, and then the user's confirmation.
   */
  function HandleDelete(token: Option<string>, isAdmin: bool, userId: Option<string>, authorId: string,
                        hasOnDelete: bool, confirmed: bool): (deletes: bool)
    ensures deletes <==> Truthy(token) && (isAdmin || IsOwner(userId, authorId)) && hasOnDelete && confirmed
  {
    if !Truthy(token) || (!isAdmin && !IsOwner(userId, authorId)) || !hasOnDelete then false
    else confirmed
  }

  /** Deleting is possible exactly from a menu that shows the delete item. */
  lemma DeleteOnlyFromShownItem(token: Option<string>, isAdmin: bool, userId: Option<string>, authorId: string,
                                hasOnDelete: bool, confirmed: bool)
    ensures HandleDelete(token, isAdmin, userId, authorId, hasOnDelete, confirmed) ==>
      DeleteItemShown(isAdmin, userId, authorId)
    ensures DeleteItemShown(isAdmin, userId, authorId) && Truthy(token) && hasOnDelete && confirmed ==>
      HandleDelete(token, isAdmin, userId, authorId, hasOnDelete, confirmed)
  {
  }

  class PostCardState {
    var isLiking: bool
    var showMenu: bool

    constructor ()
      ensures !isLiking && !showMenu
    {
      isLiking := false;
      showMenu := false;
    }

    /**
     * The first half of `handleLike`, up to the awaited `onLike`: it starts only
     * with a token, an `onLike` callback and no like in flight, and then marks
     * one in flight. A second click while the first is awaited does nothing.
     */
    method StartLike(token: Option<string>, hasOnLike: bool) returns (calls: bool)
      modifies this`isLiking
      ensures calls <==> Truthy(token) && !old(isLiking) && hasOnLike
      ensures calls ==> isLiking
      ensures !calls ==> isLiking == old(isLiking)
    {
      if !Truthy(token) || isLiking || !hasOnLike {
        return false;
      }
      isLiking := true;
      calls := true;
    }

    /** The second half of `handleLike`, once `onLike` has settled: the like is no longer in flight. */
    method FinishLike()
      modifies this`isLiking
      ensures !isLiking
    {
      isLiking := false;
    }

    /** The menu button toggles the menu. */
    method ToggleMenu()
      modifies this`showMenu
      ensures showMenu == !old(showMenu)
    {
      showMenu := !showMenu;
    }

    /**
     * A click on the menu's delete item, which is rendered only in an open menu
     * that shows it: `handleDelete` runs and the menu closes. From a shown item
     * the delete happens exactly with a token, a callback and a confirmation.
     */
    method ClickDeleteItem(token: Option<string>, isAdmin: bool, userId: Option<string>, authorId: string,
                           hasOnDelete: bool, confirmed: bool) returns (deletes: bool)
      requires showMenu && DeleteItemShown(isAdmin, userId, authorId)
      modifies this`showMenu
      ensures deletes == HandleDelete(token, isAdmin, userId, authorId, hasOnDelete, confirmed)
      ensures deletes <==> Truthy(token) && hasOnDelete && confirmed
      ensures !showMenu
    {
      deletes := HandleDelete(token, isAdmin, userId, authorId, hasOnDelete, confirmed);
      showMenu := false;
    }
  }
}

=== FILE: post_form.dfy ===
/** The post composer: the submit guard and reset, the tag toggle and emoji insertion. */
module PostForm {
  import opened Wrappers
  import opened Text
  import opened Lists
  import Api

  /** What `createPost` is called with. */
  datatype CreatePostRequest = CreatePostRequest(title: string, content: string, categoryId: int, tagIds: seq<int>)

  const CreateFailed := "Gönderi oluşturulamadı"

  predicate NoDuplicates(s: seq<int>)
  {
    forall i, j :: 0 <= i < j < |s| ==> s[i] != s[j]
  }

  /** `s.filter(x => x !== id)`. */
  function Without(s: seq<int>, id: int): (r: seq<int>)
    ensures IsFilterOf(r, s, (x: int) => x != id)
    ensures id !in s ==> r == s
    ensures NoDuplicates(s) ==> NoDuplicates(r)
  {
    if s == [] then []
    else
      var rest := Without(s[1..], id);
      FilterCons(s, rest, (x: int) => x != id);
      assert s == [s[0]] + s[1..];
      if s[0] == id then rest
      else
        NoDuplicatesCons(s[0], s[1..]);
        NoDuplicatesCons(s[0], rest);
        [s[0]] + rest
  }

  lemma NoDuplicatesCons(x: int, t: seq<int>)
    ensures NoDuplicates([x] + t) <==> x !in t && NoDuplicates(t)
  {
    var s := [x] + t;
    if x !in t && NoDuplicates(t) {
      forall i, j | 0 <= i < j < |s|
        ensures s[i] != s[j]
      {
        if i > 0 {
          assert s[i] == t[i - 1] && s[j] == t[j - 1];
        } else {
          assert s[j] == t[j - 1];
        }
      }
    }
    if NoDuplicates(s) {
      forall i, j | 0 <= i < j < |t|
        ensures t[i] != t[j]
      {
        assert t[i] == s[i + 1] && t[j] == s[j + 1];
      }
      forall k | 0 <= k < |t|
        ensures t[k] != x
      {
        assert t[k] == s[k + 1] && s[0] == x;
      }
    }
  }

  /** Removes the id if it is selected, appends it otherwise. */
  function TagToggle(selected: seq<int>, id: int): (r: seq<int>)
    ensures id in r <==> id !in selected
    ensures forall x :: x != id ==> (x in r <==> x in selected)
    ensures NoDuplicates(selected) ==> NoDuplicates(r)
  {
    if id in selected then Without(selected, id) else selected + [id]
  }

  /** Toggling the same tag twice restores the selection, exactly when the tag was not selected. */
  lemma ToggleTwice(selected: seq<int>, id: int)
    ensures forall x :: x in TagToggle(TagToggle(selected, id), id) <==> x in selected
    ensures id !in selected ==> TagToggle(TagToggle(selected, id), id) == selected
  {
    if id !in selected {
      WithoutAppended(selected, id);
    }
  }

  lemma {:induction false} WithoutAppended(s: seq<int>, id: int)
    requires id !in s
    ensures Without(s + [id], id) == s
  {
    if s == [] {
      assert [id][1..] == [];
    } else {
      assert (s + [id])[1..] == s[1..] + [id];
      WithoutAppended(s[1..], id);
    }
  }

  /** The guard in front of submission: a token, a non-blank title and content, a truthy category, not already submitting. */
  predicate CanSubmit(token: Option<string>, title: string, content: string, categoryId: Option<int>, submitting: bool)
  {
    Truthy(token) && !IsBlank(title) && !IsBlank(content) && categoryId.Some? && categoryId.value != 0 && !submitting
  }

  class PostFormState {
    var title: string
    var content: string
    var selectedCategoryId: Option<int>
    var selectedTagIds: seq<int>
    var isSubmitting: bool
    var showEmojiPicker: bool
    var error: string

    constructor ()
      ensures title == "" && content == "" && selectedCategoryId.None? && selectedTagIds == []
      ensures !isSubmitting && !showEmojiPicker && error == ""
    {
      title, content := "", "";
      selectedCategoryId := None;
      selectedTagIds := [];
      isSubmitting, showEmojiPicker := false, false;
      error := "";
    }

    /** The selected tags never hold an id twice. */
    ghost predicate Valid()
      reads this
    {
      NoDuplicates(selectedTagIds)
    }

    method HandleTagToggle(id: int)
      requires Valid()
      modifies this`selectedTagIds
      ensures Valid()
      ensures selectedTagIds == TagToggle(old(selectedTagIds), id)
    {
      selectedTagIds := TagToggle(selectedTagIds, id);
    }

    method AddEmoji(emoji: string)
      modifies this`content, this`showEmojiPicker
      ensures content == old(content) + emoji && !showEmojiPicker
    {
      content := content + emoji;
      showEmojiPicker := false;
    }

    /**
     * Submits when the guard allows it; `outcome` is what `createPost` answers.
     * A success resets the form, a failure keeps the fields and shows an error.
     */
    method HandleSubmit(token: Option<string>, outcome: Api.ActionResult) returns (request: Option<CreatePostRequest>)
      requires Valid()
      modifies this
      ensures Valid()
      ensures request.None? <==>
        !CanSubmit(token, old(title), old(content), old(selectedCategoryId), old(isSubmitting))
      ensures request.None? ==>
        && title == old(title) && content == old(content) && selectedCategoryId == old(selectedCategoryId)
        && selectedTagIds == old(selectedTagIds) && isSubmitting == old(isSubmitting)
        && showEmojiPicker == old(showEmojiPicker) && error == old(error)
      ensures request.Some? ==>
        && request.value == CreatePostRequest(Trim(old(title)), Trim(old(content)),
                                              old(selectedCategoryId).value, old(selectedTagIds))
        && !isSubmitting
      ensures request.Some? && outcome.Succeeded? ==>
        && title == "" && content == "" && selectedCategoryId.None? && selectedTagIds == []
        && !showEmojiPicker && error == ""
      ensures request.Some? && outcome.Failed? ==>
        && title == old(title) && content == old(content) && selectedCategoryId == old(selectedCategoryId)
        && selectedTagIds == old(selectedTagIds) && showEmojiPicker == old(showEmojiPicker)
        && error == OrDefault(Some(outcome.error), CreateFailed)
    {
      if !CanSubmit(token, title, content, selectedCategoryId, isSubmitting) {
        return None;
      }
      request := Some(CreatePostRequest(Trim(title), Trim(content), selectedCategoryId.value, selectedTagIds));
      isSubmitting := true;
      error := "";
      Settle(outcome);
    }

    /** What follows the answer of `createPost`: a reset on success, the error otherwise, and never submitting. */
    method Settle(outcome: Api.ActionResult)
      requires Valid()
      modifies this
      ensures Valid() && !isSubmitting
      ensures outcome.Succeeded? ==>
        && title == "" && content == "" && selectedCategoryId.None? && selectedTagIds == []
        && !showEmojiPicker && error == old(error)
      ensures outcome.Failed? ==>
        && title == old(title) && content == old(content) && selectedCategoryId == old(selectedCategoryId)
        && selectedTagIds == old(selectedTagIds) && showEmojiPicker == old(showEmojiPicker)
        && error == OrDefault(Some(outcome.error), CreateFailed)
    {
      match outcome {
        case Succeeded =>
          title := "";
          content := "";
          selectedCategoryId := None;
          selectedTagIds := [];
          showEmojiPicker := false;
        case Failed(e) =>
          error := OrDefault(Some(e), CreateFailed);
      }
      isSubmitting := false;
    }
  }
}

=== FILE: post_listing.dfy ===
/**
 * How the services assemble post lists: the entities a query returned are
 * mapped to responses whose like and comment counts come from maps filled by
 * for-loops over the rows of grouped count queries (`[postId, count]`), with
 * 0 for a post that has no row, and whose liked flag is membership in the
 * reader's liked post ids.
 */
module PostListing {
  import opened Wrappers
  import opened Store

  datatype PostResponse = PostResponse(id: Id, title: Option<string>, slug: Option<string>,
                                       summary: Option<string>, content: Option<string>,
                                       coverImageUrl: Option<string>, authorId: Id, published: bool,
                                       viewsCount: int, tagNames: set<string>,
                                       likeCount: int, commentCount: int, liked: bool)

  /** A row of a grouped count query: a post id and its count. */
  type CountRow = (Id, int)

  /** The response carries the post's own fields. */
  predicate Describes(r: PostResponse, id: Id, p: Post)
  {
    && r.id == id && r.title == p.title && r.slug == p.slug && r.summary == p.summary
    && r.content == p.content && r.coverImageUrl == p.coverImageUrl && r.authorId == p.authorId
    && r.published == p.published && r.viewsCount == p.viewsCount && r.tagNames == p.tags
  }

  /** `postMapper.toDto`: the post's fields, no likes, no comments, not liked. */
  function ToDto(id: Id, p: Post): (r: PostResponse)
    ensures Describes(r, id, p)
    ensures r.likeCount == 0 && r.commentCount == 0 && !r.liked
  {
    PostResponse(id, p.title, p.slug, p.summary, p.content, p.coverImageUrl, p.authorId,
                 p.published, p.viewsCount, p.tags, 0, 0, false)
  }

  /** `Long.intValue`: the low 32 bits, read as a signed number. */
  function IntValue(n: int): (r: int)
    ensures -0x8000_0000 <= r < 0x8000_0000
    ensures (r - n) % 0x1_0000_0000 == 0
    ensures 0 <= n < 0x8000_0000 ==> r == n
  {
    (n + 0x8000_0000) % 0x1_0000_0000 - 0x8000_0000
  }

  /** The map the loop builds: each row puts its count under its id, overwriting an earlier row's. */
  function MapOf(rows: seq<CountRow>): map<Id, int>
  {
    if rows == [] then map[]
    else
      var last := rows[|rows| - 1];
      MapOf(rows[..|rows| - 1])[last.0 := IntValue(last.1)]
  }

  /** The map's keys are the ids of the rows. */
  lemma {:induction false} MapOfKeys(rows: seq<CountRow>)
    ensures forall k :: k in MapOf(rows) <==> exists i :: 0 <= i < |rows| && rows[i].0 == k
  {
    if rows != [] {
      var front := rows[..|rows| - 1];
      MapOfKeys(front);
      forall k | exists i :: 0 <= i < |rows| && rows[i].0 == k
        ensures k in MapOf(rows)
      {
        var i :| 0 <= i < |rows| && rows[i].0 == k;
        if i < |front| {
          assert front[i].0 == k;
        }
      }
      forall k | k in MapOf(rows)
        ensures exists i :: 0 <= i < |rows| && rows[i].0 == k
      {
        if k != rows[|rows| - 1].0 {
          assert MapOf(rows) == MapOf(front)[rows[|rows| - 1].0 := IntValue(rows[|rows| - 1].1)];
          assert k in MapOf(front);
          var i :| 0 <= i < |front| && front[i].0 == k;
          assert rows[i].0 == k;
        }
      }
    }
  }

  /** The row with an id that no later row repeats decides the count under that id. */
  lemma {:induction false} MapOfLastRow(rows: seq<CountRow>)
    ensures forall i :: 0 <= i < |rows| && (forall j :: i < j < |rows| ==> rows[j].0 != rows[i].0) ==>
      rows[i].0 in MapOf(rows) && MapOf(rows)[rows[i].0] == IntValue(rows[i].1)
  {
    if rows != [] {
      var front := rows[..|rows| - 1];
      MapOfLastRow(front);
      forall i | 0 <= i < |rows| - 1 && (forall j :: i < j < |rows| ==> rows[j].0 != rows[i].0)
        ensures rows[i].0 in MapOf(rows) && MapOf(rows)[rows[i].0] == IntValue(rows[i].1)
      {
        assert front[i] == rows[i];
        assert forall j :: i < j < |front| ==> front[j].0 != front[i].0;
      }
    }
  }

  /** The for-loop over the rows of a count query. */
  method CountMap(rows: seq<CountRow>) returns (m: map<Id, int>)
    ensures m == MapOf(rows)
  {
    m := map[];
    for i := 0 to |rows|
      invariant m == MapOf(rows[..i])
    {
      assert rows[..i + 1][..i] == rows[..i];
      m := m[rows[i].0 := IntValue(rows[i].1)];
    }
    assert rows[..|rows|] == rows;
  }

  /** `getOrDefault(id, 0)`. */
  function GetOrDefault(m: map<Id, int>, k: Id): (r: int)
    ensures k !in m ==> r == 0
    ensures k in m ==> r == m[k]
  {
    if k in m then m[k] else 0
  }

  /**
   * The rows a grouped count query returns when `truth` holds the true
   * counts: every row carries the true count of a listed post, and every
   * listed post with a non-zero count has a row.
   */
  predicate Answers(rows: seq<CountRow>, truth: map<Id, int>)
  {
    && (forall i :: 0 <= i < |rows| ==> rows[i].0 in truth && rows[i].1 == truth[rows[i].0])
    && (forall k :: k in truth && truth[k] != 0 ==> exists i :: 0 <= i < |rows| && rows[i].0 == k)
  }

  /** The last row that carries the same id as row `i`. */
  lemma {:induction false} LastRowWith(rows: seq<CountRow>, i: nat) returns (l: nat)
    requires i < |rows|
    ensures i <= l < |rows| && rows[l].0 == rows[i].0
    ensures forall j :: l < j < |rows| ==> rows[j].0 != rows[i].0
    decreases |rows| - i
  {
    if j :| i < j < |rows| && rows[j].0 == rows[i].0 {
      l := LastRowWith(rows, j);
    } else {
      l := i;
    }
  }

  /** When the query answers truthfully, the listed count of every post is its true count (cut to an int). */
  lemma FaithfulCounts(rows: seq<CountRow>, truth: map<Id, int>)
    requires Answers(rows, truth)
    ensures forall k :: k in truth ==> GetOrDefault(MapOf(rows), k) == IntValue(truth[k])
  {
    MapOfKeys(rows);
    MapOfLastRow(rows);
    forall k | k in truth
      ensures GetOrDefault(MapOf(rows), k) == IntValue(truth[k])
    {
      if k in MapOf(rows) {
        var i :| 0 <= i < |rows| && rows[i].0 == k;
        var l := LastRowWith(rows, i);
        assert MapOf(rows)[k] == IntValue(rows[l].1);
      }
    }
  }

  /** The response for one listed post. */
  function Entry(post: (Id, Post), likeCounts: map<Id, int>, commentCounts: map<Id, int>, liked: set<Id>): PostResponse
  {
    ToDto(post.0, post.1).(likeCount := GetOrDefault(likeCounts, post.0),
                           commentCount := GetOrDefault(commentCounts, post.0),
                           liked := post.0 in liked)
  }

  /**
   * The stream that maps the listed posts to responses: the list's order is
   * kept, a post without a count has 0, and liked is membership.
   */
  function Assemble(posts: seq<(Id, Post)>, likeCounts: map<Id, int>, commentCounts: map<Id, int>,
                    liked: set<Id>): (r: seq<PostResponse>)
    ensures |r| == |posts|
    ensures forall i :: 0 <= i < |posts| ==>
      && Describes(r[i], posts[i].0, posts[i].1)
      && (posts[i].0 !in likeCounts ==> r[i].likeCount == 0)
      && (posts[i].0 in likeCounts ==> r[i].likeCount == likeCounts[posts[i].0])
      && (posts[i].0 !in commentCounts ==> r[i].commentCount == 0)
      && (posts[i].0 in commentCounts ==> r[i].commentCount == commentCounts[posts[i].0])
      && (r[i].liked <==> posts[i].0 in liked)
  {
    if posts == [] then []
    else [Entry(posts[0], likeCounts, commentCounts, liked)] + Assemble(posts[1..], likeCounts, commentCounts, liked)
  }

  /**
   * A whole listing: both count loops, then the stream. With truthful count
   * queries every response carries the true counts of its post.
   */
  method List(posts: seq<(Id, Post)>, likeRows: seq<CountRow>, commentRows: seq<CountRow>, liked: set<Id>)
    returns (r: seq<PostResponse>)
    ensures r == Assemble(posts, MapOf(likeRows), MapOf(commentRows), liked)
  {
    var likeCounts := CountMap(likeRows);
    var commentCounts := CountMap(commentRows);
    r := Assemble(posts, likeCounts, commentCounts, liked);
  }

  /** Listed counts are the true counts when both count queries answer truthfully. */
  lemma ListedCountsAreTrue(posts: seq<(Id, Post)>, likeRows: seq<CountRow>, likeTruth: map<Id, int>,
                            commentRows: seq<CountRow>, commentTruth: map<Id, int>, liked: set<Id>)
    requires Answers(likeRows, likeTruth) && Answers(commentRows, commentTruth)
    ensures var r := Assemble(posts, MapOf(likeRows), MapOf(commentRows), liked);
      forall i :: 0 <= i < |posts| ==>
        && (posts[i].0 in likeTruth ==> r[i].likeCount == IntValue(likeTruth[posts[i].0]))
        && (posts[i].0 in commentTruth ==> r[i].commentCount == IntValue(commentTruth[posts[i].0]))
  {
    FaithfulCounts(likeRows, likeTruth);
    FaithfulCounts(commentRows, commentTruth);
  }

  /** The ids of the listed posts, in order. */
  function Ids(posts: seq<(Id, Post)>): (r: seq<Id>)
    ensures |r| == |posts| && forall i :: 0 <= i < |posts| ==> r[i] == posts[i].0
  {
    if posts == [] then [] else [posts[0].0] + Ids(posts[1..])
  }
}

=== FILE: post_service.dfy ===
/**
 * The post service: creating a post with its tags and a unique slug, the
 * single post view, the feed, a user's own posts, the trending list,
 * deleting a post with everything that points at it, counting first views,
 * and the two upload routes for post media.
 */
module PostService {
  import opened Wrappers
  import opened Text
  import opened JavaText
  import opened Store
  import opened Tokens
  import SlugUtil
  import PostListing

  const UserNotFoundDot := "Kullanıcı bulunamadı."
  const UserNotFound := "Kullanıcı bulunamadı"
  const UserNotFoundNamed := "Kullanıcı bulunamadı: "
  const PostNotFoundDot := "Post bulunamadı."
  const NotYourPost := "Bu postu silme yetkiniz yok."
  const ImagesOnly := "Sadece resim dosyaları yüklenebilir!"
  const ImageUploadFailed := "Görsel yükleme hatası: "
  const NoContentType := "Dosya tipi belirlenemedi!"
  const MediaOnly := "Sadece resim ve video dosyaları yüklenebilir! Desteklenen format: "
  const MediaUploadFailed := "Medya yükleme hatası: "

  /** `PostRequestDto`. */
  datatype PostRequest = PostRequest(title: Option<string>, content: Option<string>, summary: Option<string>,
                                     coverImageUrl: Option<string>, tagNames: Option<seq<string>>)

  /** A `Long` in string concatenation: its digits, or "null". */
  function IdText(id: Option<Id>): (r: string)
    ensures id.Some? ==> r == NatToString(id.value)
    ensures id.None? ==> r == "null"
  {
    if id.Some? then NatToString(id.value) else "null"
  }

  /** A tag name as written: one leading '@' dropped, then trimmed and lower-cased. */
  function CleanTag(name: string): (r: string)
    ensures r == [] || (r[0] > ' ' && r[|r| - 1] > ' ')
    ensures forall i :: 0 <= i < |r| ==> !('A' <= r[i] <= 'Z')
  {
    var bare := if StartsWith(name, "@") then name[1..] else name;
    var t := JavaTrim(bare);
    LowerKeepsShape(t);
    ToLower(t)
  }

  /** Lower-casing keeps a trimmed string trimmed and leaves no upper-case letter. */
  lemma LowerKeepsShape(t: string)
    requires t == [] || (t[0] > ' ' && t[|t| - 1] > ' ')
    ensures var r := ToLower(t);
      && (r == [] || (r[0] > ' ' && r[|r| - 1] > ' '))
      && forall i :: 0 <= i < |r| ==> !('A' <= r[i] <= 'Z')
  {
    var r := ToLower(t);
    forall i | 0 <= i < |r|
      ensures !('A' <= r[i] <= 'Z') && (t[i] > ' ' ==> r[i] > ' ')
    {
      assert r[i] == LowerChar(t[i]);
    }
  }

  /** Lower-casing leaves a string with no upper-case letter as it is. */
  lemma {:induction false} ToLowerOfLower(s: string)
    requires forall i :: 0 <= i < |s| ==> !('A' <= s[i] <= 'Z')
    ensures ToLower(s) == s
  {
    if s != [] {
      ToLowerOfLower(s[1..]);
    }
  }

  /** A cleaned name that does not start with '@' cleans to itself. */
  lemma CleanTagStable(name: string)
    requires !StartsWith(CleanTag(name), "@")
    ensures CleanTag(CleanTag(name)) == CleanTag(name)
  {
    var t := CleanTag(name);
    assert !StartsWith(t, "@");
    JavaTrimOfTrimmed(t);
    assert JavaTrim(t) == t;
    ToLowerOfLower(t);
    assert ToLower(JavaTrim(t)) == t;
  }

  /** Only one '@' is dropped, so "@@go" is stored as "@go". */
  lemma CleanTagDropsOneAt()
    ensures CleanTag("@@go") == "@go"
  {
    assert StartsWith("@@go", "@");
    assert "@@go"[1..] == "@go";
    JavaTrimOfTrimmed("@go");
    ToLowerOfLower("@go");
  }

  /** The tags of a request: the non-empty cleaned names; none when the list is null or empty. */
  function TagSet(names: Option<seq<string>>): (r: set<string>)
    ensures forall t :: t in r ==> t != []
    ensures names.None? || names.value == [] ==> r == {}
    ensures names.Some? ==> forall i :: 0 <= i < |names.value| && CleanTag(names.value[i]) != [] ==>
      CleanTag(names.value[i]) in r
    ensures names.Some? ==> forall t :: t in r ==>
      exists i :: 0 <= i < |names.value| && t == CleanTag(names.value[i])
  {
    if names.None? then {}
    else set i | 0 <= i < |names.value| && CleanTag(names.value[i]) != [] :: CleanTag(names.value[i])
  }

  /** The tag table after the request's tags are found or created; a new tag's slug is its name's slug. */
  function AddTags(tags: map<string, string>, names: set<string>): (r: map<string, string>)
    ensures r.Keys == tags.Keys + names
    ensures forall n :: n in tags ==> r[n] == tags[n]
    ensures forall n :: n in names && n !in tags ==> r[n] == SlugUtil.Slugify(n)
  {
    map n | n in tags.Keys + names :: if n in tags then tags[n] else SlugUtil.Slugify(n)
  }

  /** The reader of a feed: a non-blank token whose id claim parses; the user is not looked up. */
  function FeedReader(decode: Decoder, token: Option<string>): (r: Option<Id>)
    ensures token.None? || IsJavaBlank(token.value) ==> r.None?
    ensures r.Some? ==> r == OptionalReader(decode, token)
  {
    if token.None? || IsJavaBlank(token.value) then None else OptionalReader(decode, token)
  }

  /** The ids of a query's answer, as a set. */
  function IdSet(ids: seq<Id>): (r: set<Id>)
    ensures forall x :: x in r <==> x in ids
  {
    set i | 0 <= i < |ids| :: ids[i]
  }

  /** The liked post ids of a feed: the query's answer when there is a reader, none otherwise. */
  function FeedLiked(reader: Option<Id>, likedIds: seq<Id>): (r: set<Id>)
    ensures reader.None? ==> r == {}
    ensures reader.Some? ==> r == IdSet(likedIds)
  {
    if reader.Some? then IdSet(likedIds) else {}
  }

  /** The id-to-post map of the trending query: on a repeated id the first post wins. */
  function FirstById(found: seq<(Id, Post)>): (m: map<Id, Post>)
    ensures forall k :: k in m <==> exists i :: 0 <= i < |found| && found[i].0 == k
    ensures forall i :: 0 <= i < |found| && (forall j :: 0 <= j < i ==> found[j].0 != found[i].0) ==>
      m[found[i].0] == found[i].1
  {
    if found == [] then map[]
    else
      var rest := FirstById(found[1..]);
      assert forall i :: 1 <= i < |found| ==> found[i] == found[1..][i - 1];
      rest[found[0].0 := found[0].1]
  }

  /** The ranked ids looked up in the map, in rank order, skipping the ids the map lacks. */
  function Picked(ids: seq<Id>, m: map<Id, Post>): (r: seq<(Id, Post)>)
    ensures |r| <= |ids|
    ensures forall i :: 0 <= i < |r| ==> r[i].0 in m && r[i].1 == m[r[i].0] && r[i].0 in ids
    ensures (forall i :: 0 <= i < |ids| ==> ids[i] in m) ==> |r| == |ids| && forall i :: 0 <= i < |r| ==> r[i].0 == ids[i]
  {
    if ids == [] then []
    else
      var rest := Picked(ids[1..], m);
      if ids[0] in m then [(ids[0], m[ids[0]])] + rest else rest
  }

  /** The positions, from `k` on, of the ranked ids the map holds: where `Picked` finds its posts. */
  ghost function PickedFrom(ids: seq<Id>, m: map<Id, Post>, k: nat): (at: seq<nat>)
    requires k <= |ids|
    ensures forall i :: 0 <= i < |at| ==> k <= at[i] < |ids| && ids[at[i]] in m
    decreases |ids| - k
  {
    if k == |ids| then []
    else if ids[k] in m then [k] + PickedFrom(ids, m, k + 1)
    else PickedFrom(ids, m, k + 1)
  }

  /** The positions `PickedFrom` lists strictly increase. */
  lemma {:induction false} PickedFromIncreasing(ids: seq<Id>, m: map<Id, Post>, k: nat)
    requires k <= |ids|
    ensures forall i, j :: 0 <= i < j < |PickedFrom(ids, m, k)| ==> PickedFrom(ids, m, k)[i] < PickedFrom(ids, m, k)[j]
    decreases |ids| - k
  {
    if k < |ids| && ids[k] in m {
      PickedFromIncreasing(ids, m, k + 1);
      var at := PickedFrom(ids, m, k + 1);
      forall i, j | 0 <= i < j < |at| + 1
        ensures ([k] + at)[i] < ([k] + at)[j]
      {
        assert ([k] + at)[j] == at[j - 1];
        if i > 0 {
          assert ([k] + at)[i] == at[i - 1];
        }
      }
      assert PickedFrom(ids, m, k) == [k] + at;
    } else if k < |ids| {
      PickedFromIncreasing(ids, m, k + 1);
    }
  }

  /** From position `k` on, the `i`-th picked post is the one at the `i`-th position `PickedFrom` lists. */
  lemma {:induction false} PickedAtPositions(ids: seq<Id>, m: map<Id, Post>, k: nat)
    requires k <= |ids|
    ensures var r, at := Picked(ids[k..], m), PickedFrom(ids, m, k);
      |at| == |r| && forall i :: 0 <= i < |at| ==> ids[at[i]] == r[i].0
    decreases |ids| - k
  {
    if k < |ids| {
      PickedAtPositions(ids, m, k + 1);
      assert ids[k..][1..] == ids[k + 1..];
      var rest, at := Picked(ids[k + 1..], m), PickedFrom(ids, m, k + 1);
      if ids[k] in m {
        assert Picked(ids[k..], m) == [(ids[k], m[ids[k]])] + rest;
        assert PickedFrom(ids, m, k) == [k] + at;
      }
    }
  }

  /**
   * The picked posts keep the order of the ranking: each sits at a position
   * of the ranking that holds its id, and the positions strictly increase.
   */
  lemma PickedKeepsRank(ids: seq<Id>, m: map<Id, Post>)
    ensures var r := Picked(ids, m);
      var at := PickedFrom(ids, m, 0);
      && |at| == |r|
      && (forall i :: 0 <= i < |at| ==> at[i] < |ids| && ids[at[i]] == r[i].0)
      && (forall i, j :: 0 <= i < j < |at| ==> at[i] < at[j])
  {
    assert ids[0..] == ids;
    PickedAtPositions(ids, m, 0);
    PickedFromIncreasing(ids, m, 0);
  }

  /** The ids a view batch counts: the requested ids the user has not viewed, once each, in request order. */
  function FreshViews(ids: seq<Id>, skip: set<Id>): (r: seq<Id>)
    ensures forall x :: x in r <==> x in ids && x !in skip
    ensures forall i, j :: 0 <= i < j < |r| ==> r[i] != r[j]
  {
    if ids == [] then []
    else if ids[0] in skip then FreshViews(ids[1..], skip)
    else [ids[0]] + FreshViews(ids[1..], skip + {ids[0]})
  }

  /** The posts the user `u` has viewed. */
  function ViewedBy(views: set<Link>, u: Id): (r: set<Id>)
    ensures forall p :: p in r <==> (u, p) in views
  {
    set l | l in views && l.0 == u :: l.1
  }

  /** The view rows a batch inserts. */
  function ViewRows(u: Id, ids: seq<Id>): (r: set<Link>)
    ensures forall l :: l in r <==> l.0 == u && l.1 in ids
  {
    set i | 0 <= i < |ids| :: (u, ids[i])
  }

  /** `incrementViewsBatch`: one more view on each listed post. */
  function Bumped(posts: map<Id, Post>, ids: seq<Id>): (r: map<Id, Post>)
    ensures r.Keys == posts.Keys
    ensures forall p :: p in posts && p in ids ==> r[p] == posts[p].(viewsCount := posts[p].viewsCount + 1)
    ensures forall p :: p in posts && p !in ids ==> r[p] == posts[p]
  {
    map p | p in posts :: if p in ids then posts[p].(viewsCount := posts[p].viewsCount + 1) else posts[p]
  }

  /** After a batch is recorded, the same batch counts nothing: a user's view of a post is counted once. */
  lemma SecondBatchCountsNothing(ids: seq<Id>, views: set<Link>, u: Id)
    ensures var unseen := FreshViews(ids, ViewedBy(views, u));
      FreshViews(ids, ViewedBy(views + ViewRows(u, unseen), u)) == []
  {
    var unseen := FreshViews(ids, ViewedBy(views, u));
    FreshViewsOfSeen(ids, ViewedBy(views + ViewRows(u, unseen), u));
  }

  /** A batch whose every id is already viewed counts nothing. */
  lemma {:induction false} FreshViewsOfSeen(ids: seq<Id>, skip: set<Id>)
    requires forall x :: x in ids ==> x in skip
    ensures FreshViews(ids, skip) == []
  {
    if ids != [] {
      FreshViewsOfSeen(ids[1..], skip);
    }
  }

  /** Where an upload goes by content type: images and videos to their own folders, nothing else. */
  function MediaRoute(contentType: string): (r: Option<(string, string)>)
    ensures StartsWith(contentType, "image/") ==> r == Some(("image", "post_images"))
    ensures !StartsWith(contentType, "image/") && StartsWith(contentType, "video/") ==> r == Some(("video", "post_videos"))
    ensures r.None? <==> !StartsWith(contentType, "image/") && !StartsWith(contentType, "video/")
  {
    if StartsWith(contentType, "image/") then Some(("image", "post_images"))
    else if StartsWith(contentType, "video/") then Some(("video", "post_videos"))
    else None
  }

  /** The public id of a post upload: "post_", the user's id, "_" and a random UUID. */
  function PostPublicId(user: Id, uuid: string): (r: string)
    ensures StartsWith(r, "post_")
  {
    "post_" + NatToString(user) + "_" + uuid
  }

  /** The single post view, as `getPostById` fills it. */
  function Detail(id: Id, p: Post, likes: nat, liked: bool, activeComments: nat): (r: PostListing.PostResponse)
    ensures PostListing.Describes(r, id, p)
    ensures r.likeCount == PostListing.IntValue(likes) && r.liked == liked
    ensures r.commentCount == PostListing.IntValue(activeComments)
  {
    PostListing.ToDto(id, p).(likeCount := PostListing.IntValue(likes), liked := liked,
                              commentCount := PostListing.IntValue(activeComments))
  }

  /**
   * The single post view and a feed entry of the same post agree when the
   * feed's count queries answer with the post's true counts and its liked
   * ids with the reader's likes.
   */
  lemma DetailAgreesWithFeed(id: Id, p: Post, likes: nat, liked: bool, activeComments: nat,
                             likeRows: seq<PostListing.CountRow>, commentRows: seq<PostListing.CountRow>,
                             likedIds: set<Id>)
    requires PostListing.Answers(likeRows, map[id := likes as int])
    requires PostListing.Answers(commentRows, map[id := activeComments as int])
    requires id in likedIds <==> liked
    ensures PostListing.Assemble([(id, p)], PostListing.MapOf(likeRows), PostListing.MapOf(commentRows), likedIds)
      == [Detail(id, p, likes, liked, activeComments)]
  {
    PostListing.FaithfulCounts(likeRows, map[id := likes as int]);
    PostListing.FaithfulCounts(commentRows, map[id := activeComments as int]);
  }

  /** Deleting the likes of a post's comments first changes nothing the cascade does not do anyway. */
  lemma PostCommentLikesGo(likes: set<Link>, cs: map<Id, Comment>, post: Id)
    ensures var ids := set c | c in cs && cs[c].postId == post;
      Surviving((set l | l in likes && l.1 !in ids), Sweep(cs, PostRoot(post)).Keys)
        == Surviving(likes, Sweep(cs, PostRoot(post)).Keys)
  {
    var ids := set c | c in cs && cs[c].postId == post;
    var keys := Sweep(cs, PostRoot(post)).Keys;
    forall l | l in likes && l.1 in keys
      ensures l.1 !in ids
    {
      assert !Swept(cs, l.1, PostRoot(post));
    }
  }

  /**
   * Deleting a post with its comments, likes, views and saves keeps the
   * tables consistent: the primed tables are those left afterwards.
   */
  lemma DeletePostConsistent(users: map<Id, User>, posts: map<Id, Post>, comments: map<Id, Comment>,
                             postLikes: set<Link>, commentLikes: set<Link>, saves: set<Link>, views: set<Link>,
                             post: Id, posts': map<Id, Post>, comments': map<Id, Comment>,
                             postLikes': set<Link>, commentLikes': set<Link>, saves': set<Link>, views': set<Link>)
    requires ParentsBefore(comments)
    requires TablesConsistent(users, posts, comments, postLikes, commentLikes, saves, views)
    requires posts' == posts - {post} && comments' == Sweep(comments, PostRoot(post))
    requires postLikes' == postLikes - LinksTo(postLikes, post) && commentLikes' == Surviving(commentLikes, comments'.Keys)
    requires saves' == saves - LinksTo(saves, post) && views' == views - LinksTo(views, post)
    ensures TablesConsistent(users, posts', comments', postLikes', commentLikes', saves', views')
  {
    SweepConsistent(users, posts', comments, PostRoot(post), postLikes', commentLikes', saves', views');
  }

  /**
   * Recording a batch of views of existing posts by an existing user keeps
   * the tables consistent; the primed tables are those afterwards.
   */
  lemma RecordViewsConsistent(users: map<Id, User>, posts: map<Id, Post>, comments: map<Id, Comment>,
                              postLikes: set<Link>, commentLikes: set<Link>, saves: set<Link>, views: set<Link>,
                              u: Id, ids: seq<Id>, posts': map<Id, Post>, views': set<Link>)
    requires TablesConsistent(users, posts, comments, postLikes, commentLikes, saves, views)
    requires u in users && forall x :: x in ids ==> x in posts
    requires posts' == Bumped(posts, ids) && views' == views + ViewRows(u, ids)
    ensures TablesConsistent(users, posts', comments, postLikes, commentLikes, saves, views')
  {
  }

  class PostServiceImpl {
    const db: Db
    const decode: Decoder

    constructor (db: Db, decode: Decoder)
      ensures this.db == db && this.decode == decode
    {
      this.db := db;
      this.decode := decode;
    }

    /**
     * `createPost`: the token's user must exist. The request's tags are found
     * or created, and the post is stored published, with no views, no
     * category, the request's fields and the first free slug of its title.
     */
    method CreatePost(token: Option<string>, req: PostRequest, now: int) returns (r: Result<PostListing.PostResponse>)
      requires db.Valid()
      modifies db`posts, db`tags, db`nextId
      ensures db.Valid()
      ensures var u := TokenUser(decode, token, old(db.users), Failure(Checked, UserNotFoundDot));
        && (u.Thrown? ==> r == Thrown(u.failure))
        && (r.Ok? <==> u.Ok?)
        && (r.Ok? ==>
              var id := r.value.id;
              && id == old(db.nextId) && id !in old(db.posts) && id in db.posts
              && db.posts == old(db.posts)[id := db.posts[id]]
              && var p := db.posts[id];
              && p.authorId == u.value && p.published && p.viewsCount == 0 && p.categoryId.None?
              && p.title == req.title && p.content == req.content && p.summary == req.summary
              && p.coverImageUrl == req.coverImageUrl && p.createdAt == now
              && p.tags == TagSet(req.tagNames)
              && db.tags == AddTags(old(db.tags), p.tags)
              && (req.title.None? ==> p.slug.None?)
              && (req.title.Some? ==>
                    p.slug.Some? && p.slug.value !in old(db.Slugs())
                    && exists k: nat :: p.slug.value == SlugUtil.Candidate(SlugUtil.Slugify(req.title.value), k)
                         && forall j: nat :: j < k ==> SlugUtil.Candidate(SlugUtil.Slugify(req.title.value), j) in old(db.Slugs()))
              && r.value == PostListing.ToDto(id, p))
      ensures r.Thrown? ==> db.posts == old(db.posts) && db.tags == old(db.tags) && db.nextId == old(db.nextId)
      ensures old(db.Consistent()) ==> db.Consistent()
      ensures old(db.UniqueSlugs()) ==> db.UniqueSlugs()
    {
      var u := TokenUser(decode, token, db.users, Failure(Checked, UserNotFoundDot));
      if u.Thrown? {
        return Thrown(u.failure);
      }
      var names := TagSet(req.tagNames);
      var slug := SlugUtil.GenerateUniqueSlug(req.title, Some(db.Slugs()));
      var p := Post(req.title, slug, req.summary, req.content, req.coverImageUrl, u.value, true, 0, names, None, now);
      db.tags := AddTags(db.tags, names);
      var id := db.SavePost(p);
      r := Ok(PostListing.ToDto(id, p));
    }

    /**
     * `getPostById`: the post must exist. A non-blank token names the reader
     * when its id parses and the user exists; otherwise nobody reads.
     */
    function PostById(id: Id, token: Option<string>): (r: Result<PostListing.PostResponse>)
      reads db
      ensures id !in db.posts ==> r == Thrown(Failure(Checked, PostNotFoundDot))
      ensures id in db.posts ==> r.Ok? && PostListing.Describes(r.value, id, db.posts[id])
      ensures r.Ok? ==> r.value.likeCount == PostListing.IntValue(db.LikeCount(id))
      ensures r.Ok? ==> r.value.commentCount == PostListing.IntValue(|db.ActiveComments(id)|)
      ensures r.Ok? ==> (r.value.liked <==>
        var reader := FeedReader(decode, token); reader.Some? && reader.value in db.users && (reader.value, id) in db.postLikes)
    {
      if id !in db.posts then Thrown(Failure(Checked, PostNotFoundDot))
      else
        var reader := FeedReader(decode, token);
        var liked := reader.Some? && reader.value in db.users && (reader.value, id) in db.postLikes;
        Ok(Detail(id, db.posts[id], db.LikeCount(id), liked, |db.ActiveComments(id)|))
    }

    /**
     * `getAllPosts`; `posts` is the published-posts query's answer, the rows
     * answer the two count queries and `likedIds` the reader's liked ids.
     */
    method GetAllPosts(token: Option<string>, posts: seq<(Id, Post)>, likeRows: seq<PostListing.CountRow>,
                       commentRows: seq<PostListing.CountRow>, likedIds: seq<Id>)
      returns (r: seq<PostListing.PostResponse>)
      ensures posts == [] ==> r == []
      ensures r == PostListing.Assemble(posts, PostListing.MapOf(likeRows), PostListing.MapOf(commentRows),
                                        FeedLiked(FeedReader(decode, token), likedIds))
      ensures FeedReader(decode, token).None? ==> forall i :: 0 <= i < |r| ==> !r[i].liked
    {
      if posts == [] {
        return [];
      }
      var reader := FeedReader(decode, token);
      r := PostListing.List(posts, likeRows, commentRows, FeedLiked(reader, likedIds));
    }

    /** `getMyPosts`: the token's user must exist; `posts` is the by-author query's answer. */
    method GetMyPosts(token: Option<string>, posts: seq<(Id, Post)>, likeRows: seq<PostListing.CountRow>,
                      commentRows: seq<PostListing.CountRow>, likedIds: seq<Id>)
      returns (r: Result<seq<PostListing.PostResponse>>)
      ensures var u := TokenUser(decode, token, db.users, Failure(UsernameNotFound, UserNotFound));
        && (u.Thrown? ==> r == Thrown(u.failure))
        && (u.Ok? && posts == [] ==> r == Ok([]))
        && (u.Ok? ==> r == Ok(PostListing.Assemble(posts, PostListing.MapOf(likeRows),
                                                   PostListing.MapOf(commentRows), IdSet(likedIds))))
    {
      var u := TokenUser(decode, token, db.users, Failure(UsernameNotFound, UserNotFound));
      if u.Thrown? {
        return Thrown(u.failure);
      }
      if posts == [] {
        return Ok([]);
      }
      var list := PostListing.List(posts, likeRows, commentRows, IdSet(likedIds));
      r := Ok(list);
    }

    /**
     * `getTop5MostLikedPosts`; `topIds` is the ranking query's answer (at most
     * five ids) and `found` the posts loaded for them. The list follows the
     * ranking and skips ids with no loaded post.
     */
    method Top5MostLikedPosts(token: Option<string>, topIds: seq<Id>, found: seq<(Id, Post)>,
                              likeRows: seq<PostListing.CountRow>, commentRows: seq<PostListing.CountRow>,
                              likedIds: seq<Id>)
      returns (r: seq<PostListing.PostResponse>)
      ensures topIds == [] ==> r == []
      ensures topIds != [] ==>
        r == PostListing.Assemble(Picked(topIds, FirstById(found)), PostListing.MapOf(likeRows),
                                  PostListing.MapOf(commentRows), FeedLiked(FeedReader(decode, token), likedIds))
      ensures |r| <= |topIds|
      ensures forall i :: 0 <= i < |r| ==> r[i].id in topIds
    {
      if topIds == [] {
        return [];
      }
      var postMap := FirstById(found);
      var reader := FeedReader(decode, token);
      r := PostListing.List(Picked(topIds, postMap), likeRows, commentRows, FeedLiked(reader, likedIds));
    }

    /**
     * `deletePostByIdAndUser`: only the author may delete. The likes of the
     * post's comments, the post's likes, views and saves go first; then the
     * post, and with it its comments, the replies below them and their likes.
     */
    method DeletePostByIdAndUser(postId: Id, userId: Id) returns (r: Result<()>)
      requires db.Valid()
      modifies db`posts, db`comments, db`commentLikes, db`postLikes, db`views, db`saves
      ensures db.Valid()
      ensures postId !in old(db.posts) ==> r == Thrown(Failure(Runtime, PostNotFoundDot))
      ensures postId in old(db.posts) && old(db.posts)[postId].authorId != userId ==>
        r == Thrown(Failure(Security, NotYourPost))
      ensures r.Ok? <==> postId in old(db.posts) && old(db.posts)[postId].authorId == userId
      ensures r.Thrown? ==>
        && db.posts == old(db.posts) && db.comments == old(db.comments) && db.commentLikes == old(db.commentLikes)
        && db.postLikes == old(db.postLikes) && db.views == old(db.views) && db.saves == old(db.saves)
      ensures r.Ok? ==>
        && db.posts == old(db.posts) - {postId}
        && db.comments == Sweep(old(db.comments), PostRoot(postId))
        && db.commentLikes == Surviving(old(db.commentLikes), db.comments.Keys)
        && db.postLikes == old(db.postLikes) - LinksTo(old(db.postLikes), postId)
        && db.views == old(db.views) - LinksTo(old(db.views), postId)
        && db.saves == old(db.saves) - LinksTo(old(db.saves), postId)
      ensures old(db.Consistent()) ==> db.Consistent()
    {
      if postId !in db.posts {
        return Thrown(Failure(Runtime, PostNotFoundDot));
      }
      if db.posts[postId].authorId != userId {
        return Thrown(Failure(Security, NotYourPost));
      }
      RemovePost(postId);
      r := Ok(());
    }

    /** The deletions of an authorised post delete, in the order the service issues them. */
    method RemovePost(postId: Id)
      requires db.Valid() && postId in db.posts
      modifies db`posts, db`comments, db`commentLikes, db`postLikes, db`views, db`saves
      ensures db.Valid()
      ensures db.posts == old(db.posts) - {postId}
      ensures db.comments == Sweep(old(db.comments), PostRoot(postId))
      ensures db.commentLikes == Surviving(old(db.commentLikes), db.comments.Keys)
      ensures db.postLikes == old(db.postLikes) - LinksTo(old(db.postLikes), postId)
      ensures db.views == old(db.views) - LinksTo(old(db.views), postId)
      ensures db.saves == old(db.saves) - LinksTo(old(db.saves), postId)
      ensures old(db.Consistent()) ==> db.Consistent()
    {
      ghost var likes0 := db.commentLikes;
      RemovePostRows(postId);
      ghost var cs0 := db.comments;
      var comments := Sweep(db.comments, PostRoot(postId));
      db.posts, db.comments, db.commentLikes := db.posts - {postId}, comments, Surviving(db.commentLikes, comments.Keys);
      PostCommentLikesGo(likes0, cs0, postId);
      if old(db.Consistent()) {
        DeletePostConsistent(db.users, old(db.posts), cs0, old(db.postLikes), likes0, old(db.saves), old(db.views),
                             postId, db.posts, db.comments, db.postLikes, db.commentLikes, db.saves, db.views);
      }
    }

    /**
     * The deletions issued before the post's own: the likes of its comments,
     * its likes, its views and its saves.
     */
    method RemovePostRows(postId: Id)
      modifies db`commentLikes, db`postLikes, db`views, db`saves
      ensures db.commentLikes == set l | l in old(db.commentLikes) && l.1 !in (set c | c in db.comments && db.comments[c].postId == postId)
      ensures db.postLikes == old(db.postLikes) - LinksTo(old(db.postLikes), postId)
      ensures db.views == old(db.views) - LinksTo(old(db.views), postId)
      ensures db.saves == old(db.saves) - LinksTo(old(db.saves), postId)
    {
      var commentIds := set c | c in db.comments && db.comments[c].postId == postId;
      db.commentLikes, db.postLikes := (set l | l in db.commentLikes && l.1 !in commentIds), db.postLikes - LinksTo(db.postLikes, postId);
      db.views, db.saves := db.views - LinksTo(db.views, postId), db.saves - LinksTo(db.saves, postId);
    }

    /**
     * `trackMultiplePostViews`: a null or empty list does nothing. Otherwise
     * the token's user must exist; each requested post the user has not
     * viewed gets one view row and one more view. A post that does not exist
     * fails the view row's foreign key, and the whole batch is rolled back.
     */
    method TrackMultiplePostViews(token: Option<string>, postIds: Option<seq<Id>>, now: int) returns (r: Result<()>)
      modifies db`views, db`posts
      ensures postIds.None? || postIds.value == [] ==> r == Ok(()) && db.views == old(db.views) && db.posts == old(db.posts)
      ensures postIds.Some? && postIds.value != [] ==>
        var id := ExtractUserId(decode, token);
        && (id.None? ==> r == Thrown(Failure(InvalidToken, "")))
        && (id.Some? && (id.value.None? || id.value.value !in db.users) ==> r == Thrown(Failure(Checked, UserNotFoundDot)))
        && (id.Some? && id.value.Some? && id.value.value in db.users ==>
              var unseen := FreshViews(postIds.value, ViewedBy(old(db.views), id.value.value));
              && ((forall x :: x in unseen ==> x in old(db.posts)) ==>
                    r == Ok(()) && db.views == old(db.views) + ViewRows(id.value.value, unseen)
                    && db.posts == Bumped(old(db.posts), unseen))
              && ((exists x :: x in unseen && x !in old(db.posts)) ==> r.Thrown? && r.failure.kind == Constraint))
      ensures r.Thrown? ==> db.views == old(db.views) && db.posts == old(db.posts)
      ensures old(db.Consistent()) ==> db.Consistent()
      ensures old(db.Valid()) ==> db.Valid()
    {
      if postIds.None? || postIds.value == [] {
        return Ok(());
      }
      var id := ExtractUserId(decode, token);
      if id.None? {
        return Thrown(Failure(InvalidToken, ""));
      }
      if id.value.None? || id.value.value !in db.users {
        return Thrown(Failure(Checked, UserNotFoundDot));
      }
      var u := id.value.value;
      var unseen := FreshViews(postIds.value, ViewedBy(db.views, u));
      if unseen == [] {
        assert ViewRows(u, unseen) == {};
        assert Bumped(db.posts, unseen) == db.posts;
        return Ok(());
      }
      if exists x :: x in unseen && x !in db.posts {
        return Thrown(Failure(Constraint, "post_views.post_id"));
      }
      RecordViews(u, unseen);
      r := Ok(());
    }

    /** The two writes of a batch: `saveAll` of the view rows and `incrementViewsBatch` of the posts. */
    method RecordViews(u: Id, ids: seq<Id>)
      modifies db`views, db`posts
      ensures db.views == old(db.views) + ViewRows(u, ids) && db.posts == Bumped(old(db.posts), ids)
      ensures old(db.Valid()) ==> db.Valid()
      ensures old(db.Consistent()) && u in db.users && (forall x :: x in ids ==> x in old(db.posts)) ==> db.Consistent()
    {
      db.views, db.posts := db.views + ViewRows(u, ids), Bumped(db.posts, ids);
      if old(db.Consistent()) && u in db.users && (forall x :: x in ids ==> x in old(db.posts)) {
        RecordViewsConsistent(db.users, old(db.posts), db.comments, db.postLikes, db.commentLikes, db.saves, old(db.views),
                              u, ids, db.posts, db.views);
      }
    }

    /**
     * `uploadPostImage`: the token's user must exist and the content type must
     * start with "image/" (a missing one fails on the check itself); the file
     * goes to the "post_images" folder and the host's secure URL is returned.
     */
    method UploadPostImage(token: Option<string>, contentType: Option<string>, uuid: string,
                           host: UploadRequest -> Upload)
      returns (r: Result<Option<string>>)
      ensures var u := TokenUser(decode, token, db.users,
                                 Failure(UsernameNotFound, UserNotFoundNamed + IdText(OptionalReader(decode, token))));
        && (u.Thrown? ==> r == Thrown(u.failure))
        && (u.Ok? && contentType.None? ==> r.Thrown? && r.failure.kind == NullPointer)
        && (u.Ok? && contentType.Some? && !StartsWith(contentType.value, "image/") ==>
              r == Thrown(Failure(IllegalArgument, ImagesOnly)))
        && (u.Ok? && contentType.Some? && StartsWith(contentType.value, "image/") ==>
              var up := host(UploadRequest("post_images", PostPublicId(u.value, uuid), false, "image"));
              && (up.Uploaded? ==> r == Ok(up.secureUrl))
              && (up.UploadFailed? ==> r == Thrown(Failure(IO, ImageUploadFailed + up.message))))
    {
      var u := TokenUser(decode, token, db.users,
                         Failure(UsernameNotFound, UserNotFoundNamed + IdText(OptionalReader(decode, token))));
      if u.Thrown? {
        return Thrown(u.failure);
      }
      if contentType.None? {
        return Thrown(Failure(NullPointer, ""));
      }
      if !StartsWith(contentType.value, "image/") {
        return Thrown(Failure(IllegalArgument, ImagesOnly));
      }
      var up := host(UploadRequest("post_images", PostPublicId(u.value, uuid), false, "image"));
      if up.UploadFailed? {
        return Thrown(Failure(IO, ImageUploadFailed + up.message));
      }
      r := Ok(up.secureUrl);
    }

    /**
     * `uploadPostMedia`: the token's user must exist and the content type must
     * be given; images and videos go to their own folders with their own
     * resource types, anything else is refused with the type in the message.
     */
    method UploadPostMedia(token: Option<string>, contentType: Option<string>, uuid: string,
                           host: UploadRequest -> Upload)
      returns (r: Result<Option<string>>)
      ensures var u := TokenUser(decode, token, db.users,
                                 Failure(UsernameNotFound, UserNotFoundNamed + IdText(OptionalReader(decode, token))));
        && (u.Thrown? ==> r == Thrown(u.failure))
        && (u.Ok? && contentType.None? ==> r == Thrown(Failure(IllegalArgument, NoContentType)))
        && (u.Ok? && contentType.Some? && MediaRoute(contentType.value).None? ==>
              r == Thrown(Failure(IllegalArgument, MediaOnly + contentType.value)))
        && (u.Ok? && contentType.Some? && MediaRoute(contentType.value).Some? ==>
              var route := MediaRoute(contentType.value).value;
              var up := host(UploadRequest(route.1, PostPublicId(u.value, uuid), false, route.0));
              && (up.Uploaded? ==> r == Ok(up.secureUrl))
              && (up.UploadFailed? ==> r == Thrown(Failure(IO, MediaUploadFailed + up.message))))
    {
      var u := TokenUser(decode, token, db.users,
                         Failure(UsernameNotFound, UserNotFoundNamed + IdText(OptionalReader(decode, token))));
      if u.Thrown? {
        return Thrown(u.failure);
      }
      if contentType.None? {
        return Thrown(Failure(IllegalArgument, NoContentType));
      }
      var route := MediaRoute(contentType.value);
      if route.None? {
        return Thrown(Failure(IllegalArgument, MediaOnly + contentType.value));
      }
      var up := host(UploadRequest(route.value.1, PostPublicId(u.value, uuid), false, route.value.0));
      if up.UploadFailed? {
        return Thrown(Failure(IO, MediaUploadFailed + up.message));
      }
      r := Ok(up.secureUrl);
    }
  }

  /** An image accepted by the image route is sent by the media route with the very same request. */
  lemma ImageRoutesAgree(contentType: string, user: Id, uuid: string)
    requires StartsWith(contentType, "image/")
    ensures var route := MediaRoute(contentType).value;
      UploadRequest(route.1, PostPublicId(user, uuid), false, route.0)
        == UploadRequest("post_images", PostPublicId(user, uuid), false, "image")
  {
  }
}

=== FILE: profile_edit.dfy ===
/** The profile-edit page: field edits, validation and the save request. */
module ProfileEdit {
  import opened Wrappers
  import opened Text
  import opened FormRules
  import Api

  datatype Profile = Profile(id: string, username: string, email: string, bio: string,
                             profileImgUrl: string, website: Option<string>)

  datatype Passwords = Passwords(currentPassword: string, newPassword: string, confirmPassword: string)

  datatype ProfileField = Username | Email | Bio | ProfileImgUrl | Website
  datatype PasswordField = Current | New | Confirm

  /** The keys of the error record: one per field, plus the general save error. */
  datatype ErrorKey = OnProfile(field: ProfileField) | OnPassword(pw: PasswordField) | General

  /** The password change sent along with the profile. */
  datatype Credentials = Credentials(currentPassword: string, password: string)

  /** The body of the save request: the whole profile, plus credentials when given. */
  datatype SavePayload = SavePayload(profile: Profile, credentials: Option<Credentials>)

  const MaxBioLength := 160
  const BioTooLong := "Biyografi 160 karakterden uzun olamaz"
  const WebsiteInvalid := "Website URL'si http:// veya https:// ile başlamalı"
  const CurrentRequired := "Mevcut şifre gerekli"
  const NewRequired := "Yeni şifre gerekli"
  const NewTooShort := "Yeni şifre en az 6 karakter olmalı"
  const SavedMessage := "Profil ve şifre başarıyla güncellendi."
  const EmptyPasswords := Passwords("", "", "")

  function BioError(bio: string): (r: Option<string>)
    ensures r.None? <==> |bio| <= MaxBioLength
    ensures r.Some? ==> r.value == BioTooLong
  {
    if |bio| > MaxBioLength then Some(BioTooLong) else None
  }

  /** Only a present, non-empty website is checked, and only for an "http" prefix. */
  function WebsiteError(website: Option<string>): (r: Option<string>)
    ensures r.None? <==> !Truthy(website) || StartsWith(website.value, "http")
    ensures r.Some? ==> r.value == WebsiteInvalid
  {
    if Truthy(website) && !StartsWith(website.value, "http") then Some(WebsiteInvalid) else None
  }

  /** The password rules apply only once any of the three fields is filled in. */
  predicate ChangingPassword(p: Passwords)
  {
    p.currentPassword != "" || p.newPassword != "" || p.confirmPassword != ""
  }

  function CurrentError(p: Passwords): (r: Option<string>)
    ensures r.Some? <==> ChangingPassword(p) && p.currentPassword == ""
    ensures r.Some? ==> r.value == CurrentRequired
  {
    if ChangingPassword(p) && p.currentPassword == "" then Some(CurrentRequired) else None
  }

  function NewError(p: Passwords): (r: Option<string>)
    ensures r.Some? <==> ChangingPassword(p) && |p.newPassword| < 6
    ensures r.Some? ==> r.value == if p.newPassword == "" then NewRequired else NewTooShort
  {
    if !ChangingPassword(p) then None
    else if p.newPassword == "" then Some(NewRequired)
    else if |p.newPassword| < 6 then Some(NewTooShort)
    else None
  }

  function ConfirmError(p: Passwords): (r: Option<string>)
    ensures r.Some? <==> ChangingPassword(p) && p.newPassword != p.confirmPassword
    ensures r.Some? ==> r.value == PasswordsDiffer
  {
    if ChangingPassword(p) && p.newPassword != p.confirmPassword then Some(PasswordsDiffer) else None
  }

  /** Every rule of the form holds. */
  predicate AllRulesHold(profile: Profile, p: Passwords)
  {
    && !IsBlank(profile.username) && |profile.username| >= 3
    && !IsBlank(profile.email) && MatchesEmailPattern(profile.email)
    && |profile.bio| <= MaxBioLength
    && (!Truthy(profile.website) || StartsWith(profile.website.value, "http"))
    && (ChangingPassword(p) ==>
          p.currentPassword != "" && |p.newPassword| >= 6 && p.newPassword == p.confirmPassword)
  }

  /** The errors the profile fields produce, recorded in the order the form checks them. */
  function ProfileErrors(profile: Profile): (r: map<ErrorKey, string>)
    ensures OnProfile(Username) in r <==> UsernameError(profile.username).Some?
    ensures OnProfile(Email) in r <==> EmailError(profile.email).Some?
    ensures OnProfile(Bio) in r <==> BioError(profile.bio).Some?
    ensures OnProfile(Website) in r <==> WebsiteError(profile.website).Some?
    ensures OnProfile(Username) in r ==> r[OnProfile(Username)] == UsernameError(profile.username).value
    ensures OnProfile(Email) in r ==> r[OnProfile(Email)] == EmailError(profile.email).value
    ensures OnProfile(Bio) in r ==> r[OnProfile(Bio)] == BioError(profile.bio).value
    ensures OnProfile(Website) in r ==> r[OnProfile(Website)] == WebsiteError(profile.website).value
    ensures r.Keys <= {OnProfile(Username), OnProfile(Email), OnProfile(Bio), OnProfile(Website)}
  {
    var m := Record(map[], OnProfile(Username), UsernameError(profile.username));
    var m := Record(m, OnProfile(Email), EmailError(profile.email));
    var m := Record(m, OnProfile(Bio), BioError(profile.bio));
    Record(m, OnProfile(Website), WebsiteError(profile.website))
  }

  /** Adds the password errors to `m`, but only while the password is being changed. */
  function WithPasswordErrors(m: map<ErrorKey, string>, p: Passwords): (r: map<ErrorKey, string>)
    ensures OnPassword(Current) in r <==> OnPassword(Current) in m || CurrentError(p).Some?
    ensures OnPassword(New) in r <==> OnPassword(New) in m || NewError(p).Some?
    ensures OnPassword(Confirm) in r <==> OnPassword(Confirm) in m || ConfirmError(p).Some?
    ensures CurrentError(p).Some? ==> r[OnPassword(Current)] == CurrentError(p).value
    ensures NewError(p).Some? ==> r[OnPassword(New)] == NewError(p).value
    ensures ConfirmError(p).Some? ==> r[OnPassword(Confirm)] == ConfirmError(p).value
    ensures !ChangingPassword(p) ==> r == m
    ensures forall k: ErrorKey :: !k.OnPassword? ==> (k in r <==> k in m)
    ensures forall k: ErrorKey :: !k.OnPassword? && k in r ==> r[k] == m[k]
  {
    if ChangingPassword(p) then
      var m := Record(m, OnPassword(Current), CurrentError(p));
      var m := Record(m, OnPassword(New), NewError(p));
      Record(m, OnPassword(Confirm), ConfirmError(p))
    else m
  }

  /** All errors of the form: the profile errors, then the password errors. */
  function FormErrors(profile: Profile, p: Passwords): map<ErrorKey, string>
  {
    WithPasswordErrors(ProfileErrors(profile), p)
  }

  /** The form has no errors exactly when every rule holds. */
  lemma NoErrorsIffRulesHold(profile: Profile, p: Passwords)
    ensures |FormErrors(profile, p)| == 0 <==> AllRulesHold(profile, p)
  {
    var m := FormErrors(profile, p);
    var pm := ProfileErrors(profile);
    if AllRulesHold(profile, p) {
      assert pm.Keys == {};
      assert m.Keys == {};
    } else {
      if !(!IsBlank(profile.username) && |profile.username| >= 3) {
        assert OnProfile(Username) in m;
      } else if !(!IsBlank(profile.email) && MatchesEmailPattern(profile.email)) {
        assert OnProfile(Email) in m;
      } else if |profile.bio| > MaxBioLength {
        assert OnProfile(Bio) in m;
      } else if Truthy(profile.website) && !StartsWith(profile.website.value, "http") {
        assert OnProfile(Website) in m;
      } else if p.currentPassword == "" {
        assert OnPassword(Current) in m;
      } else if |p.newPassword| < 6 {
        assert OnPassword(New) in m;
      } else {
        assert OnPassword(Confirm) in m;
      }
    }
  }

  /** The profile with one field set. */
  function WithField(profile: Profile, f: ProfileField, value: string): (r: Profile)
    ensures r.id == profile.id
    ensures r.username == if f == Username then value else profile.username
    ensures r.email == if f == Email then value else profile.email
    ensures r.bio == if f == Bio then value else profile.bio
    ensures r.profileImgUrl == if f == ProfileImgUrl then value else profile.profileImgUrl
    ensures r.website == if f == Website then Some(value) else profile.website
  {
    match f
    case Username => profile.(username := value)
    case Email => profile.(email := value)
    case Bio => profile.(bio := value)
    case ProfileImgUrl => profile.(profileImgUrl := value)
    case Website => profile.(website := Some(value))
  }

  function WithPassword(p: Passwords, f: PasswordField, value: string): (r: Passwords)
    ensures r.currentPassword == if f == Current then value else p.currentPassword
    ensures r.newPassword == if f == New then value else p.newPassword
    ensures r.confirmPassword == if f == Confirm then value else p.confirmPassword
  {
    match f
    case Current => p.(currentPassword := value)
    case New => p.(newPassword := value)
    case Confirm => p.(confirmPassword := value)
  }

  class ProfileEditForm {
    var profile: Profile
    var passwords: Passwords
    var errors: map<ErrorKey, string>
    var isSaving: bool
    var successMessage: string

    constructor ()
      ensures profile == Profile("", "", "", "", "", None) && passwords == EmptyPasswords
      ensures errors == map[] && !isSaving && successMessage == ""
    {
      profile := Profile("", "", "", "", "", None);
      passwords := EmptyPasswords;
      errors := map[];
      isSaving := false;
      successMessage := "";
    }

    /** Sets one profile field and blanks only that field's error. */
    method HandleInputChange(f: ProfileField, value: string)
      modifies this`profile, this`errors
      ensures profile == WithField(old(profile), f, value)
      ensures errors == BlankError(old(errors), OnProfile(f))
    {
      profile := WithField(profile, f, value);
      if OnProfile(f) in errors && errors[OnProfile(f)] != "" {
        errors := errors[OnProfile(f) := ""];
      }
    }

    /** Sets one password field and blanks only that field's error. */
    method HandlePasswordChange(f: PasswordField, value: string)
      modifies this`passwords, this`errors
      ensures passwords == WithPassword(old(passwords), f, value)
      ensures errors == BlankError(old(errors), OnPassword(f))
    {
      passwords := WithPassword(passwords, f, value);
      if OnPassword(f) in errors && errors[OnPassword(f)] != "" {
        errors := errors[OnPassword(f) := ""];
      }
    }

    /** Records one error per failing rule and reports whether none was recorded. */
    method ValidateForm() returns (ok: bool)
      modifies this`errors
      ensures errors == FormErrors(profile, passwords)
      ensures ok <==> |errors| == 0
      ensures ok <==> AllRulesHold(profile, passwords)
    {
      var newErrors: map<ErrorKey, string> := map[];
      newErrors := Record(newErrors, OnProfile(Username), UsernameError(profile.username));
      newErrors := Record(newErrors, OnProfile(Email), EmailError(profile.email));
      newErrors := Record(newErrors, OnProfile(Bio), BioError(profile.bio));
      newErrors := Record(newErrors, OnProfile(Website), WebsiteError(profile.website));
      if ChangingPassword(passwords) {
        newErrors := Record(newErrors, OnPassword(Current), CurrentError(passwords));
        newErrors := Record(newErrors, OnPassword(New), NewError(passwords));
        newErrors := Record(newErrors, OnPassword(Confirm), ConfirmError(passwords));
      }
      errors := newErrors;
      ok := |newErrors| == 0;
      NoErrorsIffRulesHold(profile, passwords);
    }

    /**
     * Sends the profile, with the password change only when both the current
     * and the new password are filled in. It does not validate first. When
     * the server answers with a profile, that profile is shown and the
     * password fields are cleared; otherwise nothing but the saving flag changes.
     */
    method HandleSave(response: Api.Response<Profile>) returns (payload: SavePayload)
      modifies this`profile, this`passwords, this`successMessage, this`isSaving
      ensures payload.profile == old(profile)
      ensures payload.credentials.Some? <==>
        old(passwords).currentPassword != "" && old(passwords).newPassword != ""
      ensures payload.credentials.Some? ==>
        payload.credentials.value == Credentials(old(passwords).currentPassword, old(passwords).newPassword)
      ensures response.data.Some? ==>
        profile == response.data.value && passwords == EmptyPasswords && successMessage == SavedMessage
      ensures response.data.None? ==>
        profile == old(profile) && passwords == old(passwords) && successMessage == old(successMessage)
      ensures !isSaving
    {
      isSaving := true;
      payload := SavePayload(profile, None);
      if passwords.currentPassword != "" && passwords.newPassword != "" {
        payload := payload.(credentials := Some(Credentials(passwords.currentPassword, passwords.newPassword)));
      }
      if response.data.Some? {
        profile := response.data.value;
        successMessage := SavedMessage;
        passwords := EmptyPasswords;
      }
      isSaving := false;
    }
  }
}

=== FILE: profile_page.dfy ===
/**
 * The profile page: four lists of the signed-in user's posts (own, liked,
 * commented on, saved). A like is applied optimistically to all four lists,
 * then the post is fetched again and the lists are reconciled with the
 * server's copy; nothing is rolled back.
 */
module ProfilePage {
  import opened Wrappers
  import opened Text
  import opened ViewModel
  import Api

  datatype Tab = PostsTab | SavedTab | LikesTab | CommentsTab

  /** What a saved-posts hook answers: `{ success, posts }`. */
  datatype SavedResult = SavedResult(success: bool, posts: Option<seq<Post>>)

  /** A toast: title, description, and whether it is the destructive variant. */
  datatype Toast = Toast(title: string, description: string, destructive: bool)

  const DeletedTitle := "Gönderi silindi"
  const DeletedText := "Post başarıyla silindi."
  const ErrorTitle := "Hata"
  const DeleteFailedText := "Gönderi silinemedi."

  /** Puts `updated` in place of every post whose id is `id`. */
  function ReplaceWhere(ps: seq<Post>, id: string, updated: Post): (r: seq<Post>)
    ensures |r| == |ps|
    ensures forall i :: 0 <= i < |ps| ==> r[i] == if ps[i].id == id then updated else ps[i]
  {
    seq(|ps|, i requires 0 <= i < |ps| => if ps[i].id == id then updated else ps[i])
  }

  /** The liked-posts list after the fetched copy `updated` of post `id` arrives. */
  function ReconcileLiked(ps: seq<Post>, id: string, updated: Post): (r: seq<Post>)
  {
    if updated.isLiked then
      (if HasId(ps, id) then ReplaceWhere(ps, id, updated) else [updated] + ps)
    else RemoveId(ps, id)
  }

  /** After reconciliation the liked list holds the post exactly when the server says it is liked. */
  lemma {:induction false} ReconciledLikedMembership(ps: seq<Post>, id: string, updated: Post)
    requires updated.id == id
    ensures HasId(ReconcileLiked(ps, id, updated), id) <==> updated.isLiked
    ensures updated.isLiked ==> updated in ReconcileLiked(ps, id, updated)
    ensures forall p :: p in ps && p.id != id ==> p in ReconcileLiked(ps, id, updated)
  {
    var r := ReconcileLiked(ps, id, updated);
    if updated.isLiked {
      if HasId(ps, id) {
        var i :| 0 <= i < |ps| && ps[i].id == id;
        assert r[i] == updated;
      } else {
        assert r[0] == updated;
      }
      forall p | p in ps && p.id != id ensures p in r {
        var k :| 0 <= k < |ps| && ps[k] == p;
        if HasId(ps, id) {
          assert r[k] == p;
        } else {
          assert r[k + 1] == p;
        }
      }
    } else {
      forall i | 0 <= i < |r| ensures r[i].id != id {
        assert r[i] in r;
      }
    }
  }

  class ProfileView {
    var posts: seq<Post>
    var likedPosts: seq<Post>
    var commentedPosts: seq<Post>
    var savedPosts: seq<Post>
    var activeTab: Tab

    constructor ()
      ensures posts == [] && likedPosts == [] && commentedPosts == [] && savedPosts == []
      ensures activeTab == PostsTab
    {
      posts, likedPosts, commentedPosts, savedPosts := [], [], [], [];
      activeTab := PostsTab;
    }

    /** The list shown under the active tab. */
    function CurrentPosts(): (r: seq<Post>)
      reads this
      ensures activeTab == PostsTab ==> r == posts
      ensures activeTab == SavedTab ==> r == savedPosts
      ensures activeTab == LikesTab ==> r == likedPosts
      ensures activeTab == CommentsTab ==> r == commentedPosts
    {
      match activeTab
      case PostsTab => posts
      case SavedTab => savedPosts
      case LikesTab => likedPosts
      case CommentsTab => commentedPosts
    }

    /** Loads the own, liked and commented lists; a response without data gives an empty list. */
    method FetchUserData(mine: Api.Response<seq<PostDto>>, liked: Api.Response<seq<PostDto>>,
                         commented: Api.Response<seq<PostDto>>)
      modifies this`posts, this`likedPosts, this`commentedPosts
      ensures posts == MapAll(mine.data.GetOr([]))
      ensures likedPosts == MapAll(liked.data.GetOr([]))
      ensures commentedPosts == MapAll(commented.data.GetOr([]))
    {
      posts := MapAll(mine.data.GetOr([]));
      likedPosts := MapAll(liked.data.GetOr([]));
      commentedPosts := MapAll(commented.data.GetOr([]));
    }

    /**
     * Drops the deleted post from all four lists. The page then calls
     * `FetchUserData` again with fresh server data.
     */
    method HandlePostDeleted(postId: string)
      modifies this`posts, this`likedPosts, this`commentedPosts, this`savedPosts
      ensures posts == RemoveId(old(posts), postId)
      ensures likedPosts == RemoveId(old(likedPosts), postId)
      ensures commentedPosts == RemoveId(old(commentedPosts), postId)
      ensures savedPosts == RemoveId(old(savedPosts), postId)
      ensures !HasId(posts, postId) && !HasId(likedPosts, postId)
      ensures !HasId(commentedPosts, postId) && !HasId(savedPosts, postId)
    {
      posts := RemoveId(posts, postId);
      likedPosts := RemoveId(likedPosts, postId);
      commentedPosts := RemoveId(commentedPosts, postId);
      savedPosts := RemoveId(savedPosts, postId);
      NotHasIdAfterRemove(old(posts), postId);
      NotHasIdAfterRemove(old(likedPosts), postId);
      NotHasIdAfterRemove(old(commentedPosts), postId);
      NotHasIdAfterRemove(old(savedPosts), postId);
    }

    /**
     * The like handler. `fetched` is the data of the follow-up fetch of the
     * post, `None` when it had no data or threw. The toggle response itself
     * is ignored.
     */
    method HandlePostLiked(postId: string, fetched: Option<PostDto>)
      modifies this`posts, this`likedPosts, this`commentedPosts, this`savedPosts
      ensures fetched.None? ==>
        && posts == ToggleWhere(old(posts), postId)
        && likedPosts == ToggleWhere(old(likedPosts), postId)
        && commentedPosts == ToggleWhere(old(commentedPosts), postId)
        && savedPosts == ToggleWhere(old(savedPosts), postId)
      ensures fetched.Some? ==>
        var updated := MapDtoToPost(fetched.value);
        && posts == ReplaceWhere(ToggleWhere(old(posts), postId), postId, updated)
        && likedPosts == ReconcileLiked(ToggleWhere(old(likedPosts), postId), postId, updated)
        && commentedPosts == ReplaceWhere(ToggleWhere(old(commentedPosts), postId), postId, updated)
        && savedPosts == ReplaceWhere(ToggleWhere(old(savedPosts), postId), postId, updated)
    {
      posts := ToggleWhere(posts, postId);
      likedPosts := ToggleWhere(likedPosts, postId);
      commentedPosts := ToggleWhere(commentedPosts, postId);
      savedPosts := ToggleWhere(savedPosts, postId);
      if fetched.Some? {
        // `{...p, ...updated}` is `updated`: the mapper sets every field.
        var updated := MapDtoToPost(fetched.value);
        posts := ReplaceWhere(posts, postId, updated);
        likedPosts := ReconcileLiked(likedPosts, postId, updated);
        commentedPosts := ReplaceWhere(commentedPosts, postId, updated);
        savedPosts := ReplaceWhere(savedPosts, postId, updated);
      }
    }

    /**
     * `fetchSavedPosts` as written: `usePosts` returns no `getSavedPosts`, so
     * the call throws a TypeError before anything is requested, and the
     * saved list keeps what it held. `threw` is that rejection.
     */
    method FetchSavedPostsAsWritten() returns (threw: bool)
      ensures threw
    {
      threw := true;
    }

    /**
     * `fetchSavedPosts` with a hook that does return the saved posts: a
     * successful answer carrying posts replaces the saved list; any other
     * answer leaves it as it was.
     */
    method FetchSavedPosts(result: SavedResult)
      modifies this`savedPosts
      ensures result.success && result.posts.Some? ==> savedPosts == result.posts.value
      ensures !(result.success && result.posts.Some?) ==> savedPosts == old(savedPosts)
    {
      if result.success && result.posts.Some? {
        savedPosts := result.posts.value;
      }
    }

    /**
     * `handleDeletePost`: a successful delete drops the post from all four
     * lists and confirms it; a failure keeps the lists and shows the error,
     * or a default message.
     */
    method HandleDeletePost(postId: string, outcome: Api.ActionResult) returns (toast: Toast)
      modifies this`posts, this`likedPosts, this`commentedPosts, this`savedPosts
      ensures outcome.Succeeded? ==>
        && toast == Toast(DeletedTitle, DeletedText, false)
        && posts == RemoveId(old(posts), postId) && likedPosts == RemoveId(old(likedPosts), postId)
        && commentedPosts == RemoveId(old(commentedPosts), postId) && savedPosts == RemoveId(old(savedPosts), postId)
      ensures outcome.Failed? ==>
        && toast == Toast(ErrorTitle, OrDefault(Some(outcome.error), DeleteFailedText), true)
        && posts == old(posts) && likedPosts == old(likedPosts)
        && commentedPosts == old(commentedPosts) && savedPosts == old(savedPosts)
    {
      if outcome.Succeeded? {
        HandlePostDeleted(postId);
        toast := Toast(DeletedTitle, DeletedText, false);
      } else {
        toast := Toast(ErrorTitle, OrDefault(Some(outcome.error), DeleteFailedText), true);
      }
    }
  }

  function MapAll(dtos: seq<PostDto>): (r: seq<Post>)
    ensures |r| == |dtos|
    ensures forall i :: 0 <= i < |dtos| ==> r[i] == MapDtoToPost(dtos[i])
  {
    seq(|dtos|, i requires 0 <= i < |dtos| => MapDtoToPost(dtos[i]))
  }

  lemma NotHasIdAfterRemove(ps: seq<Post>, id: string)
    ensures !HasId(RemoveId(ps, id), id)
  {
    var r := RemoveId(ps, id);
    forall i | 0 <= i < |r| ensures r[i].id != id {
      assert r[i] in r;
    }
  }

  /** Entries of other posts keep their values through the whole like handler. */
  lemma OtherPostsUntouched(ps: seq<Post>, postId: string, updated: Post, i: nat)
    requires i < |ps| && ps[i].id != postId
    ensures ReplaceWhere(ToggleWhere(ps, postId), postId, updated)[i] == ps[i]
    ensures ToggleWhere(ps, postId)[i] == ps[i]
  {
  }

  /**
   * With the page as written, the saved tab of a freshly opened profile shows
   * no post at all, whatever the user has saved: the fetch throws before it
   * asks for them.
   */
  method SavedTabAsWritten(saved: seq<Post>) returns (shown: seq<Post>)
    ensures saved != [] ==> shown != saved
    ensures shown == []
  {
    var view := new ProfileView();
    view.activeTab := SavedTab;
    var threw := view.FetchSavedPostsAsWritten();
    shown := view.CurrentPosts();
  }

  /** With a hook that answers, the saved tab shows exactly the saved posts. */
  method SavedTabCorrected(saved: seq<Post>) returns (shown: seq<Post>)
    ensures shown == saved
  {
    var view := new ProfileView();
    view.activeTab := SavedTab;
    view.FetchSavedPosts(SavedResult(true, Some(saved)));
    shown := view.CurrentPosts();
  }
}

=== FILE: register_page.dfy ===
/** The registration form: field edits, validation and submission. */
module RegisterPage {
  import opened Wrappers
  import opened Text
  import opened FormRules
  import Api

  datatype Field = Username | Email | Password | ConfirmPassword | Bio

  /** The keys of the error record: one per field, plus the general error. */
  datatype ErrorKey = On(field: Field) | General

  /** What `register` is called with; an empty bio is sent as absent. */
  datatype RegisterRequest = RegisterRequest(username: string, email: string, password: string, bio: Option<string>)

  const PasswordRequired := "Şifre gerekli"
  const PasswordTooShort := "Şifre en az 6 karakter olmalı"
  const RegisterFailed := "Kayıt başarısız"

  /** The password rule: required, then at least 6 characters. */
  function PasswordError(password: string): (r: Option<string>)
    ensures r.None? <==> |password| >= 6
    ensures r.Some? ==> r.value == if password == "" then PasswordRequired else PasswordTooShort
  {
    if password == "" then Some(PasswordRequired)
    else if |password| < 6 then Some(PasswordTooShort)
    else None
  }

  /** Every rule of the form holds. */
  predicate AllRulesHold(username: string, email: string, password: string, confirm: string)
  {
    && !IsBlank(username) && |username| >= 3
    && !IsBlank(email) && MatchesEmailPattern(email)
    && |password| >= 6
    && password == confirm
  }

  /** The errors the form records, in the order the form checks its rules. */
  function RegisterErrors(username: string, email: string, password: string, confirm: string): map<ErrorKey, string>
  {
    var m := Record(map[], On(Username), UsernameError(username));
    var m := Record(m, On(Email), EmailError(email));
    var m := Record(m, On(Password), PasswordError(password));
    Record(m, On(ConfirmPassword), if password != confirm then Some(PasswordsDiffer) else None)
  }

  /** One error per failing rule, under that field's key and with that rule's message, and nothing else. */
  lemma RegisterErrorsPerRule(username: string, email: string, password: string, confirm: string)
    ensures var r := RegisterErrors(username, email, password, confirm);
      && r.Keys <= {On(Username), On(Email), On(Password), On(ConfirmPassword)}
      && (On(Username) in r <==> UsernameError(username).Some?)
      && (On(Username) in r ==> r[On(Username)] == UsernameError(username).value)
      && (On(Email) in r <==> EmailError(email).Some?)
      && (On(Email) in r ==> r[On(Email)] == EmailError(email).value)
      && (On(Password) in r <==> PasswordError(password).Some?)
      && (On(Password) in r ==> r[On(Password)] == PasswordError(password).value)
      && (On(ConfirmPassword) in r <==> password != confirm)
      && (On(ConfirmPassword) in r ==> r[On(ConfirmPassword)] == PasswordsDiffer)
  {
  }

  /** The form records no error exactly when every rule holds. */
  lemma NoErrorsIffRulesHold(username: string, email: string, password: string, confirm: string)
    ensures |RegisterErrors(username, email, password, confirm)| == 0 <==> AllRulesHold(username, email, password, confirm)
  {
    var m := RegisterErrors(username, email, password, confirm);
    RegisterErrorsPerRule(username, email, password, confirm);
    if AllRulesHold(username, email, password, confirm) {
      assert m.Keys == {};
    } else if UsernameError(username).Some? {
      assert On(Username) in m;
    } else if EmailError(email).Some? {
      assert On(Email) in m;
    } else if PasswordError(password).Some? {
      assert On(Password) in m;
    } else {
      assert On(ConfirmPassword) in m;
    }
  }

  class RegisterForm {
    var username: string
    var email: string
    var password: string
    var confirmPassword: string
    var bio: string
    var errors: map<ErrorKey, string>
    var isLoading: bool

    constructor ()
      ensures username == "" && email == "" && password == "" && confirmPassword == "" && bio == ""
      ensures errors == map[] && !isLoading
    {
      username, email, password, confirmPassword, bio := "", "", "", "", "";
      errors := map[];
      isLoading := false;
    }

    function Value(f: Field): string
      reads this
    {
      match f
      case Username => username
      case Email => email
      case Password => password
      case ConfirmPassword => confirmPassword
      case Bio => bio
    }

    /** Sets one field and blanks that field's error if one is shown; nothing else changes. */
    method HandleInputChange(f: Field, value: string)
      modifies this`username, this`email, this`password, this`confirmPassword, this`bio, this`errors
      ensures Value(f) == value
      ensures forall g :: g != f ==> Value(g) == old(Value(g))
      ensures errors == BlankError(old(errors), On(f))
    {
      match f {
        case Username => username := value;
        case Email => email := value;
        case Password => password := value;
        case ConfirmPassword => confirmPassword := value;
        case Bio => bio := value;
      }
      if On(f) in errors && errors[On(f)] != "" {
        errors := errors[On(f) := ""];
      }
    }

    /** Records one error per failing rule and reports whether none was recorded. */
    method ValidateForm() returns (ok: bool)
      modifies this`errors
      ensures errors == RegisterErrors(username, email, password, confirmPassword)
      ensures ok <==> errors == map[]
      ensures ok <==> AllRulesHold(username, email, password, confirmPassword)
    {
      var newErrors: map<ErrorKey, string> := map[];
      newErrors := Record(newErrors, On(Username), UsernameError(username));
      newErrors := Record(newErrors, On(Email), EmailError(email));
      newErrors := Record(newErrors, On(Password), PasswordError(password));
      newErrors := Record(newErrors, On(ConfirmPassword), if password != confirmPassword then Some(PasswordsDiffer) else None);
      errors := newErrors;
      ok := newErrors == map[];
      NoErrorsIffRulesHold(username, email, password, confirmPassword);
    }

    /**
     * Validates, and only when that passes calls `register` (whose answer is
     * `outcome`) with the form's values. A success navigates home; a failure
     * shows only a general error. Loading is off again in both outcomes.
     */
    method HandleSubmit(outcome: Api.ActionResult) returns (request: Option<RegisterRequest>, navigated: bool)
      modifies this`errors, this`isLoading
      ensures request.None? <==> !AllRulesHold(username, email, password, confirmPassword)
      ensures request.None? ==> !navigated && isLoading == old(isLoading)
      ensures request.None? ==> errors == RegisterErrors(username, email, password, confirmPassword)
      ensures request.Some? && outcome.Succeeded? ==> errors == map[]
      ensures request.Some? ==>
        && request.value == RegisterRequest(username, email, password, if bio == "" then None else Some(bio))
        && !isLoading
        && (navigated <==> outcome.Succeeded?)
        && (outcome.Failed? ==> errors == map[General := OrDefault(Some(outcome.error), RegisterFailed)])
    {
      var ok := ValidateForm();
      if !ok {
        return None, false;
      }
      var sent := RegisterRequest(username, email, password, if bio == "" then None else Some(bio));
      isLoading := true;
      navigated := Settle(outcome);
      request := Some(sent);
    }

    /** What follows the answer of `register`: navigation on success, a general error otherwise, and loading off. */
    method Settle(outcome: Api.ActionResult) returns (navigated: bool)
      modifies this`errors, this`isLoading
      ensures !isLoading
      ensures navigated <==> outcome.Succeeded?
      ensures outcome.Succeeded? ==> errors == old(errors)
      ensures outcome.Failed? ==> errors == map[General := OrDefault(Some(outcome.error), RegisterFailed)]
    {
      navigated := false;
      match outcome {
        case Succeeded =>
          navigated := true;
        case Failed(e) =>
          errors := map[General := OrDefault(Some(e), RegisterFailed)];
      }
      isLoading := false;
    }
  }
}

=== FILE: saved_post_service.dfy ===
/**
 * The saved-post service: toggling a saved post, checking it, and listing a
 * user's saved posts.
 */
module SavedPostService {
  import opened Wrappers
  import opened Store
  import opened Tokens
  import PostListing

  const UserNotFound := "Kullanıcı bulunamadı"
  const PostNotFound := "Post bulunamadı"

  class SavedPostServiceImpl {
    const db: Db
    const decode: Decoder

    constructor (db: Db, decode: Decoder)
      ensures this.db == db && this.decode == decode
    {
      this.db := db;
      this.decode := decode;
    }

    /**
     * `toggleSavePost`: the token's user and the post must exist; an existing
     * save is deleted and false returned, otherwise one is added and true returned.
     */
    method ToggleSavePost(postId: Id, token: Option<string>) returns (r: Result<bool>)
      modifies db`saves
      ensures var u := TokenUser(decode, token, db.users, Failure(Checked, UserNotFound));
        && (u.Thrown? ==> r == Thrown(u.failure))
        && (u.Ok? && postId !in db.posts ==> r == Thrown(Failure(Checked, PostNotFound)))
        && (u.Ok? && postId in db.posts ==>
              && db.saves == Toggle(old(db.saves), (u.value, postId))
              && r == Ok((u.value, postId) !in old(db.saves))
              && r == Ok((u.value, postId) in db.saves))
      ensures r.Thrown? ==> db.saves == old(db.saves)
      ensures old(db.Consistent()) ==> db.Consistent()
    {
      var u := TokenUser(decode, token, db.users, Failure(Checked, UserNotFound));
      if u.Thrown? {
        return Thrown(u.failure);
      }
      if postId !in db.posts {
        return Thrown(Failure(Checked, PostNotFound));
      }
      if (u.value, postId) in db.saves {
        db.saves := db.saves - {(u.value, postId)};
        r := Ok(false);
      } else {
        db.saves := db.saves + {(u.value, postId)};
        r := Ok(true);
      }
    }

    /** `isPostSavedByUser`: the same checks, then membership; nothing changes. */
    method IsPostSavedByUser(postId: Id, token: Option<string>) returns (r: Result<bool>)
      ensures var u := TokenUser(decode, token, db.users, Failure(Checked, UserNotFound));
        && (u.Thrown? ==> r == Thrown(u.failure))
        && (u.Ok? && postId !in db.posts ==> r == Thrown(Failure(Checked, PostNotFound)))
        && (u.Ok? && postId in db.posts ==> r == Ok((u.value, postId) in db.saves))
    {
      var u := TokenUser(decode, token, db.users, Failure(Checked, UserNotFound));
      if u.Thrown? {
        return Thrown(u.failure);
      }
      if postId !in db.posts {
        return Thrown(Failure(Checked, PostNotFound));
      }
      r := Ok((u.value, postId) in db.saves);
    }

    /**
     * `savedPosts` answers `findSavedPostsByUserId(user)`: every post the user
     * saved, once, with its stored row. The saves carry no time here, so the
     * order (newest save first) is left open.
     */
    ghost predicate AnswersSavedQuery(savedPosts: seq<(Id, Post)>, user: Id)
      reads db
    {
      && (forall i, j :: 0 <= i < j < |savedPosts| ==> savedPosts[i].0 != savedPosts[j].0)
      && (forall i :: 0 <= i < |savedPosts| ==> savedPosts[i].0 in db.posts && db.posts[savedPosts[i].0] == savedPosts[i].1)
      && (forall id :: (user, id) in db.saves && id in db.posts <==> exists i :: 0 <= i < |savedPosts| && savedPosts[i].0 == id)
    }

    /**
     * `getSavedPostsByUser`; `savedPosts` is what the saved-posts query
     * returned, `likedIds` what the liked-ids query returned, and the rows
     * answer the two count queries.
     */
    method GetSavedPostsByUser(token: Option<string>, savedPosts: seq<(Id, Post)>, likedIds: seq<Id>,
                               likeRows: seq<PostListing.CountRow>, commentRows: seq<PostListing.CountRow>)
      returns (r: Result<seq<PostListing.PostResponse>>)
      ensures var u := TokenUser(decode, token, db.users, Failure(Checked, UserNotFound));
        && (u.Thrown? ==> r == Thrown(u.failure))
        && (u.Ok? && savedPosts == [] ==> r == Ok([]))
        && (u.Ok? ==> r == Ok(PostListing.Assemble(savedPosts, PostListing.MapOf(likeRows),
                                                   PostListing.MapOf(commentRows),
                                                   set i | 0 <= i < |likedIds| :: likedIds[i])))
      ensures var u := TokenUser(decode, token, db.users, Failure(Checked, UserNotFound));
        u.Ok? && AnswersSavedQuery(savedPosts, u.value) ==>
          && r.Ok?
          && (forall i, j :: 0 <= i < j < |r.value| ==> r.value[i].id != r.value[j].id)
          && (forall i :: 0 <= i < |r.value| ==> r.value[i].id in db.posts && PostListing.Describes(r.value[i], r.value[i].id, db.posts[r.value[i].id]))
          && (forall id :: (u.value, id) in db.saves && id in db.posts <==> exists i :: 0 <= i < |r.value| && r.value[i].id == id)
    {
      var u := TokenUser(decode, token, db.users, Failure(Checked, UserNotFound));
      if u.Thrown? {
        return Thrown(u.failure);
      }
      if savedPosts == [] {
        return Ok([]);
      }
      var liked := set i | 0 <= i < |likedIds| :: likedIds[i];
      var list := PostListing.List(savedPosts, likeRows, commentRows, liked);
      r := Ok(list);
    }
  }
}

=== FILE: slug_util.dfy ===
/**
 * URL slugs: `toSlug` turns a title into lower-case ASCII letters and digits
 * joined by single dashes, and `generateUniqueSlug` appends the smallest
 * numeric suffix that no post uses yet.
 */
module SlugUtil {
  import opened Wrappers
  import opened Text

  predicate IsAscii(c: char) { c as int < 128 }

  /** What is left once every non-ASCII character is removed. */
  function AsciiOnly(s: string): (r: string)
    ensures forall i :: 0 <= i < |r| ==> IsAscii(r[i])
  {
    if s == [] then []
    else if IsAscii(s[0]) then [s[0]] + AsciiOnly(s[1..])
    else AsciiOnly(s[1..])
  }

  predicate IsSlugChar(c: char) { IsLowerAlnum(c) || c == '-' }

  predicate NoDoubleDash(s: string)
  {
    forall i :: 0 <= i < |s| - 1 ==> !(s[i] == '-' && s[i + 1] == '-')
  }

  /** The shape of every slug: letters, digits and single inner dashes. */
  predicate IsSlug(s: string)
  {
    && (forall i :: 0 <= i < |s| ==> IsSlugChar(s[i]))
    && NoDoubleDash(s)
    && (s == [] || (s[0] != '-' && s[|s| - 1] != '-'))
  }

  /** The letters and digits of a string, in order. */
  function AlnumOf(s: string): string
  {
    if s == [] then []
    else if IsLowerAlnum(s[0]) then [s[0]] + AlnumOf(s[1..])
    else AlnumOf(s[1..])
  }

  lemma {:induction false} AlnumOfAppend(a: string, b: string)
    ensures AlnumOf(a + b) == AlnumOf(a) + AlnumOf(b)
  {
    if a == [] {
      assert a + b == b;
    } else {
      assert (a + b)[0] == a[0];
      assert (a + b)[1..] == a[1..] + b;
      AlnumOfAppend(a[1..], b);
      if IsLowerAlnum(a[0]) {
        assert AlnumOf(a + b) == [a[0]] + (AlnumOf(a[1..]) + AlnumOf(b));
      } else {
        assert AlnumOf(a + b) == AlnumOf(a[1..]) + AlnumOf(b);
      }
    }
  }

  /**
   * `replaceAll("[^a-z0-9]+", "-")`: each maximal run of other characters
   * becomes one dash. `inRun` says that the character before `s` was part of
   * such a run and has been replaced already.
   */
  function Collapse(s: string, inRun: bool): (r: string)
    ensures SlugChars(r)
    ensures NoDoubleDash(r)
    ensures inRun && r != [] ==> r[0] != '-'
    ensures AlnumOf(r) == AlnumOf(s)
  {
    if s == [] then []
    else if IsLowerAlnum(s[0]) then
      var rest := Collapse(s[1..], false);
      AlnumOfAppend([s[0]], rest);
      [s[0]] + rest
    else if inRun then Collapse(s[1..], true)
    else
      var rest := Collapse(s[1..], true);
      AlnumOfAppend(['-'], rest);
      ['-'] + rest
  }

  /** The first half of `replaceAll("^-|-$", "")`: a leading dash is dropped. */
  function WithoutLeadingDash(t: string): string
  {
    if t != [] && t[0] == '-' then t[1..] else t
  }

  /** The second half of `replaceAll("^-|-$", "")`: a trailing dash is dropped. */
  function WithoutTrailingDash(a: string): string
  {
    if a != [] && a[|a| - 1] == '-' then a[..|a| - 1] else a
  }

  /** `replaceAll("^-|-$", "")`: one leading and one trailing dash are dropped. */
  function StripDashes(t: string): string
  {
    WithoutTrailingDash(WithoutLeadingDash(t))
  }

  /** Every character is a letter, a digit or a dash. */
  predicate SlugChars(s: string)
  {
    forall i :: 0 <= i < |s| ==> IsSlugChar(s[i])
  }

  /**
   * Dropping a leading dash keeps the slug characters, the single dashes and
   * the letters and digits, and leaves no leading dash.
   */
  lemma DropLeadingDash(t: string)
    requires SlugChars(t) && NoDoubleDash(t)
    ensures var a := WithoutLeadingDash(t);
      && SlugChars(a) && NoDoubleDash(a) && (a == [] || a[0] != '-') && AlnumOf(a) == AlnumOf(t)
  {
    if t != [] && t[0] == '-' {
      assert t == ['-'] + t[1..];
      AlnumOfAppend(['-'], t[1..]);
    }
  }

  /**
   * Dropping a trailing dash keeps the slug characters, the single dashes and
   * the letters and digits, and leaves the slug shape.
   */
  lemma DropTrailingDash(a: string)
    requires SlugChars(a) && NoDoubleDash(a) && (a == [] || a[0] != '-')
    ensures var b := WithoutTrailingDash(a);
      IsSlug(b) && AlnumOf(b) == AlnumOf(a)
  {
    if a != [] && a[|a| - 1] == '-' {
      assert a == a[..|a| - 1] + ['-'];
      AlnumOfAppend(a[..|a| - 1], ['-']);
    }
  }

  lemma StripDashesShape(t: string)
    requires SlugChars(t) && NoDoubleDash(t)
    ensures IsSlug(StripDashes(t))
    ensures AlnumOf(StripDashes(t)) == AlnumOf(t)
  {
    DropLeadingDash(t);
    DropTrailingDash(WithoutLeadingDash(t));
  }

  /**
   * `toSlug` on a present input: non-ASCII characters removed, lower-cased,
   * runs of other characters replaced by one dash, and the outer dashes dropped.
   */
  function Slugify(s: string): (r: string)
  {
    StripDashes(Collapse(ToLower(AsciiOnly(s)), false))
  }

  /** `toSlug`: null stays null. */
  function ToSlug(input: Option<string>): (r: Option<string>)
    ensures r.None? <==> input.None?
  {
    if input.None? then None else Some(Slugify(input.value))
  }

  /** Every slug has the slug shape and keeps the letters and digits of the lower-cased ASCII input, in order. */
  lemma SlugifyShape(s: string)
    ensures IsSlug(Slugify(s))
    ensures AlnumOf(Slugify(s)) == AlnumOf(ToLower(AsciiOnly(s)))
  {
    StripDashesShape(Collapse(ToLower(AsciiOnly(s)), false));
  }

  lemma {:induction false} AsciiOnlyOfAscii(s: string)
    requires forall i :: 0 <= i < |s| ==> IsAscii(s[i])
    ensures AsciiOnly(s) == s
  {
    if s != [] {
      AsciiOnlyOfAscii(s[1..]);
    }
  }

  lemma {:induction false} CollapseOfSlugChars(w: string, inRun: bool)
    requires SlugChars(w)
    requires NoDoubleDash(w)
    requires inRun ==> w == [] || w[0] != '-'
    ensures Collapse(w, inRun) == w
  {
    if w != [] {
      CollapseOfSlugChars(w[1..], w[0] == '-');
    }
  }

  /** A string that already has the slug shape is its own slug. */
  lemma SlugifyOfSlug(w: string)
    requires IsSlug(w)
    ensures Slugify(w) == w
  {
    SlugIsLowerAscii(w);
    AsciiOnlyOfAscii(w);
    CollapseOfSlugChars(w, false);
    StripDashesOfSlug(w);
  }

  /** A slug is lower-case ASCII. */
  lemma SlugIsLowerAscii(w: string)
    requires IsSlug(w)
    ensures forall i :: 0 <= i < |w| ==> IsAscii(w[i])
    ensures ToLower(w) == w
  {
    forall i | 0 <= i < |w|
      ensures IsAscii(w[i]) && LowerChar(w[i]) == w[i]
    {
      assert IsSlugChar(w[i]);
    }
  }

  /** A slug has no outer dash to drop. */
  lemma StripDashesOfSlug(w: string)
    requires IsSlug(w)
    ensures StripDashes(w) == w
  {
  }

  /** `toSlug` is idempotent. */
  lemma ToSlugIdempotent(input: Option<string>)
    ensures ToSlug(ToSlug(input)) == ToSlug(input)
  {
    if input.Some? {
      SlugifyShape(input.value);
      SlugifyOfSlug(Slugify(input.value));
    }
  }

  /** The slug tried on the k-th round: the base first, then base-1, base-2, ... */
  function Candidate(base: string, k: nat): string
  {
    if k == 0 then base else base + "-" + NatToString(k)
  }

  /** Different rounds try different slugs. */
  lemma CandidateInjective(base: string, i: nat, j: nat)
    requires Candidate(base, i) == Candidate(base, j)
    ensures i == j
  {
    if i != 0 && j != 0 {
      var si := Candidate(base, i);
      assert si[|base| + 1..] == NatToString(i);
      assert Candidate(base, j)[|base| + 1..] == NatToString(j);
      NatToStringInjective(i, j);
    }
  }

  /**
   * `generateUniqueSlug`; `existing` is the set of slugs the post table holds,
   * absent when no repository is wired in. The result is the first candidate
   * that is free, and the loop ends because `existing` is finite.
   */
  method GenerateUniqueSlug(title: Option<string>, existing: Option<set<string>>) returns (slug: Option<string>)
    ensures title.None? ==> slug.None?
    ensures title.Some? && existing.None? ==> slug == Some(Slugify(title.value))
    ensures title.Some? && existing.Some? ==>
      && slug.Some? && slug.value !in existing.value
      && exists k: nat :: slug.value == Candidate(Slugify(title.value), k)
           && forall j: nat :: j < k ==> Candidate(Slugify(title.value), j) in existing.value
  {
    if title.None? {
      return None;
    }
    var baseSlug := Slugify(title.value);
    var s := baseSlug;
    var counter := 1;
    if existing.None? {
      return Some(baseSlug);
    }
    var taken := existing.value;
    ghost var tried: set<string> := {};
    while s in taken
      invariant counter >= 1 && s == Candidate(baseSlug, counter - 1)
      invariant forall j: nat :: j < counter - 1 ==> Candidate(baseSlug, j) in taken
      invariant tried <= taken && |tried| == counter - 1
      invariant forall x :: x in tried ==> exists j: nat :: j < counter - 1 && x == Candidate(baseSlug, j)
      decreases |taken| - |tried|
    {
      forall x | x in tried
        ensures x != s
      {
        var j: nat :| j < counter - 1 && x == Candidate(baseSlug, j);
        if x == s {
          CandidateInjective(baseSlug, j, counter - 1);
        }
      }
      tried := tried + {s};
      assert |tried| <= |taken| by { SubsetCardinality(tried, taken); }
      s := baseSlug + "-" + NatToString(counter);
      counter := counter + 1;
    }
    slug := Some(s);
  }

  lemma SubsetCardinality<T>(a: set<T>, b: set<T>)
    requires a <= b
    ensures |a| <= |b|
  {
    assert b == a + (b - a);
  }
}

=== FILE: store.dfy ===
/**
 * The server's tables as the services see them. Rows are values keyed by
 * their generated id; the link tables (likes, saved posts, post views) are
 * sets of (user, post) or (user, comment) pairs, so the unique constraints
 * on those pairs hold by construction. A service call that throws leaves
 * every table as it was: a transactional call is rolled back, and the calls
 * without a transaction (creating a post, a comment or a category, deleting
 * a category, toggling a comment like, updating a profile, the uploads)
 * write only after every check that can fail, or fail on their one write.
 */
module Store {
  import opened Wrappers

  type Id = nat

  datatype User = User(username: string, email: string, hashedPassword: string,
                       profileImgUrl: Option<string>, bio: Option<string>,
                       isOnline: bool, role: string, updatedAt: int)

  datatype Post = Post(title: Option<string>, slug: Option<string>, summary: Option<string>,
                       content: Option<string>, coverImageUrl: Option<string>,
                       authorId: Id, published: bool, viewsCount: int, tags: set<string>,
                       categoryId: Option<Id>, createdAt: int)

  datatype Comment = Comment(content: Option<string>, postId: Id, authorId: Id,
                             parentId: Option<Id>, deleted: bool, createdAt: int)

  datatype Category = Category(name: string, description: Option<string>, slug: Option<string>)

  /**
   * The class of the exception a service throws. `InvalidToken` stands for
   * whatever the token parser throws, and for the lookup of a null id;
   * `Constraint` is a unique or foreign key violation reported by the database;
   * `BadCredentials` is the authentication manager's refusal.
   */
  datatype Kind =
    | Checked | Runtime | Security | IllegalArgument | UsernameNotFound | ResourceNotFound
    | InvalidToken | Constraint | NullPointer | IO | BadCredentials

  datatype Failure = Failure(kind: Kind, message: string)

  /** What a service call returns, or the exception it throws. */
  datatype Result<T> = Ok(value: T) | Thrown(failure: Failure)

  /** `existsByUsername`. */
  predicate UsernameTaken(users: map<Id, User>, name: string)
  {
    exists id :: id in users && users[id].username == name
  }

  /** `existsByEmail`. */
  predicate EmailTaken(users: map<Id, User>, email: string)
  {
    exists id :: id in users && users[id].email == email
  }

  /** The parameters of an image-host upload: folder, public id, overwrite flag and resource type. */
  datatype UploadRequest = UploadRequest(folder: string, publicId: string, overwrite: bool, resourceType: string)

  /** What the image host answers: the `secure_url` entry (which may be missing) or the failure's message. */
  datatype Upload = Uploaded(secureUrl: Option<string>) | UploadFailed(message: string)

  /** One row of a link table: a user and a post or a comment. */
  type Link = (Id, Id)

  /** Deletes the row if it is there, inserts it otherwise. */
  function Toggle(s: set<Link>, x: Link): (r: set<Link>)
    ensures x in r <==> x !in s
    ensures forall y :: y != x ==> (y in r <==> y in s)
  {
    if x in s then s - {x} else s + {x}
  }

  /** Toggling the same row twice restores the table. */
  lemma ToggleTwice(s: set<Link>, x: Link)
    ensures Toggle(Toggle(s, x), x) == s
  {
  }

  /** The rows that point at `target`. */
  function LinksTo(s: set<Link>, target: Id): (r: set<Link>)
    ensures forall l :: l in r <==> l in s && l.1 == target
  {
    set l | l in s && l.1 == target
  }

  /** A toggle moves the count of its target by one, down when the row was there and up otherwise. */
  lemma ToggleCount(s: set<Link>, x: Link)
    ensures x in s ==> |LinksTo(Toggle(s, x), x.1)| == |LinksTo(s, x.1)| - 1
    ensures x !in s ==> |LinksTo(Toggle(s, x), x.1)| == |LinksTo(s, x.1)| + 1
  {
    if x in s {
      assert LinksTo(Toggle(s, x), x.1) == LinksTo(s, x.1) - {x};
    } else {
      assert LinksTo(Toggle(s, x), x.1) == LinksTo(s, x.1) + {x};
    }
  }

  /** Every row of `s` links a key of `left` with a key of `right`. */
  ghost predicate LinksWithin(s: set<Link>, left: set<Id>, right: set<Id>)
  {
    forall l :: l in s ==> l.0 in left && l.1 in right
  }

  /**
   * Referential integrity: every row refers to rows that exist. The database
   * enforces it with foreign keys, so a transaction that would break it fails.
   */
  ghost predicate TablesConsistent(users: map<Id, User>, posts: map<Id, Post>, comments: map<Id, Comment>,
                                   postLikes: set<Link>, commentLikes: set<Link>, saves: set<Link>, views: set<Link>)
  {
    && (forall p :: p in posts ==> posts[p].authorId in users)
    && (forall c :: c in comments ==> comments[c].postId in posts && comments[c].authorId in users)
    && (forall c :: c in comments && comments[c].parentId.Some? ==> comments[c].parentId.value in comments)
    && LinksWithin(postLikes, users.Keys, posts.Keys)
    && LinksWithin(commentLikes, users.Keys, comments.Keys)
    && LinksWithin(saves, users.Keys, posts.Keys)
    && LinksWithin(views, users.Keys, posts.Keys)
  }

  /**
   * Comment `k` is removed by a cascade that starts at the comments `root`
   * selects: `k` is selected, or its parent is removed (replies are deleted
   * with their parent). Parents have smaller ids than their replies.
   */
  predicate Swept(cs: map<Id, Comment>, k: Id, root: (Id, Comment) -> bool)
    decreases k
  {
    k in cs &&
    (root(k, cs[k]) ||
     (cs[k].parentId.Some? && cs[k].parentId.value < k && Swept(cs, cs[k].parentId.value, root)))
  }

  /** The comments left after the cascade. */
  function Sweep(cs: map<Id, Comment>, root: (Id, Comment) -> bool): (r: map<Id, Comment>)
    ensures forall k :: k in r <==> k in cs && !Swept(cs, k, root)
    ensures forall k :: k in r ==> r[k] == cs[k]
  {
    map k | k in cs && !Swept(cs, k, root) :: cs[k]
  }

  /** Every reply was created after its parent. */
  ghost predicate ParentsBefore(comments: map<Id, Comment>)
  {
    forall c :: c in comments && comments[c].parentId.Some? ==> comments[c].parentId.value < c
  }

  /** A reply whose parent was removed is removed too, so no remaining reply loses its parent. */
  lemma SweepKeepsParents(cs: map<Id, Comment>, root: (Id, Comment) -> bool)
    requires ParentsBefore(cs)
    requires forall c :: c in cs && cs[c].parentId.Some? ==> cs[c].parentId.value in cs
    ensures var r := Sweep(cs, root);
      forall c :: c in r && r[c].parentId.Some? ==> r[c].parentId.value in r
  {
  }

  /** The cascade that deletes one comment. */
  function CommentRoot(target: Id): (Id, Comment) -> bool
  {
    (k: Id, c: Comment) => k == target
  }

  /** The cascade that deletes the comments of one post. */
  function PostRoot(post: Id): (Id, Comment) -> bool
  {
    (k: Id, c: Comment) => c.postId == post
  }

  /** The cascade that deletes a user's comments and the comments on the user's posts. */
  function UserRoot(user: Id, posts: map<Id, Post>): (Id, Comment) -> bool
  {
    (k: Id, c: Comment) => c.authorId == user || (c.postId in posts && posts[c.postId].authorId == user)
  }

  /**
   * After a cascade the tables are consistent again when the remaining
   * posts' authors remain, every comment the cascade does not start from
   * keeps its post and its author, and the link tables point at what remains.
   */
  lemma SweepConsistent(users: map<Id, User>, posts: map<Id, Post>, comments: map<Id, Comment>,
                        root: (Id, Comment) -> bool,
                        postLikes: set<Link>, commentLikes: set<Link>, saves: set<Link>, views: set<Link>)
    requires ParentsBefore(comments)
    requires forall c :: c in comments && comments[c].parentId.Some? ==> comments[c].parentId.value in comments
    requires forall p :: p in posts ==> posts[p].authorId in users
    requires forall c :: c in comments && !root(c, comments[c]) ==>
      comments[c].postId in posts && comments[c].authorId in users
    requires LinksWithin(postLikes, users.Keys, posts.Keys)
    requires LinksWithin(commentLikes, users.Keys, Sweep(comments, root).Keys)
    requires LinksWithin(saves, users.Keys, posts.Keys) && LinksWithin(views, users.Keys, posts.Keys)
    ensures TablesConsistent(users, posts, Sweep(comments, root), postLikes, commentLikes, saves, views)
  {
    SweepKeepsParents(comments, root);
  }

  /** The posts of one author. */
  function Authored(posts: map<Id, Post>, user: Id): (r: set<Id>)
    ensures forall p :: p in r <==> p in posts && posts[p].authorId == user
  {
    set p | p in posts && posts[p].authorId == user
  }

  /** The rows of a link table whose second id is still present. */
  function Surviving(s: set<Link>, keep: set<Id>): (r: set<Link>)
    ensures forall l :: l in r <==> l in s && l.1 in keep
  {
    set l | l in s && l.1 in keep
  }

  class Db {
    var users: map<Id, User>
    var roles: set<string>
    var posts: map<Id, Post>
    var comments: map<Id, Comment>
    /** Tag names with their slugs; every tag the services create has a lower-case name. */
    var tags: map<string, string>
    var categories: map<Id, Category>
    var postLikes: set<Link>
    var commentLikes: set<Link>
    var saves: set<Link>
    var views: set<Link>
    /** The next generated id; every id handed out so far is smaller. */
    var nextId: nat

    /** An empty database holding only the given roles. */
    constructor (roleNames: set<string>)
      ensures users == map[] && posts == map[] && comments == map[] && categories == map[]
      ensures roles == roleNames && tags == map[]
      ensures postLikes == {} && commentLikes == {} && saves == {} && views == {}
      ensures Valid() && Consistent()
    {
      users, roles, posts, comments := map[], roleNames, map[], map[];
      tags, categories := map[], map[];
      postLikes, commentLikes, saves, views := {}, {}, {}, {};
      nextId := 0;
    }

    /** Generated ids are below `nextId`, and a reply's parent was created before it. */
    ghost predicate Valid()
      reads this
    {
      && (forall id :: id in users ==> id < nextId)
      && (forall id :: id in posts ==> id < nextId)
      && (forall id :: id in comments ==> id < nextId)
      && (forall id :: id in categories ==> id < nextId)
      && ParentsBefore(comments)
    }

    ghost predicate Consistent()
      reads this
    {
      TablesConsistent(users, posts, comments, postLikes, commentLikes, saves, views)
    }

    /** The unique constraints on usernames and e-mail addresses. */
    ghost predicate UniqueUserKeys()
      reads this
    {
      && (forall a, b :: a in users && b in users && users[a].username == users[b].username ==> a == b)
      && (forall a, b :: a in users && b in users && users[a].email == users[b].email ==> a == b)
    }

    /** The unique constraint on post slugs. */
    ghost predicate UniqueSlugs()
      reads this
    {
      forall a, b :: a in posts && b in posts && posts[a].slug.Some? && posts[a].slug == posts[b].slug ==> a == b
    }

    /** The slugs in use, as `existsBySlug` sees them. */
    function Slugs(): (r: set<string>)
      reads this
      ensures forall s :: s in r <==> exists p :: p in posts && posts[p].slug == Some(s)
    {
      set p | p in posts && posts[p].slug.Some? :: posts[p].slug.value
    }

    /** `countByPost`: the likes of a post. */
    function LikeCount(p: Id): nat
      reads this
    {
      |LinksTo(postLikes, p)|
    }

    /** `countByComment`: the likes of a comment. */
    function CommentLikeCount(c: Id): nat
      reads this
    {
      |LinksTo(commentLikes, c)|
    }

    /** The comments of a post that are not marked deleted. */
    function ActiveComments(p: Id): (r: set<Id>)
      reads this
      ensures forall c :: c in r <==> c in comments && comments[c].postId == p && !comments[c].deleted
    {
      set c | c in comments && comments[c].postId == p && !comments[c].deleted
    }

    /** `findByUsername`. */
    method FindByUsername(name: string) returns (r: Option<Id>)
      ensures r.Some? ==> r.value in users && users[r.value].username == name
      ensures r.None? <==> !UsernameTaken(users, name)
    {
      if id :| id in users && users[id].username == name {
        return Some(id);
      }
      return None;
    }

    /** `findByEmail`. */
    method FindByEmail(email: string) returns (r: Option<Id>)
      ensures r.Some? ==> r.value in users && users[r.value].email == email
      ensures r.None? <==> !EmailTaken(users, email)
    {
      if id :| id in users && users[id].email == email {
        return Some(id);
      }
      return None;
    }

    /** `postRepository.save` of a new post: it is stored under a fresh id. */
    method SavePost(p: Post) returns (id: Id)
      requires Valid()
      modifies this`posts, this`nextId
      ensures id == old(nextId) && id !in old(posts) && posts == old(posts)[id := p] && nextId == id + 1
      ensures Valid()
      ensures old(Consistent()) && p.authorId in users ==> Consistent()
      ensures old(UniqueSlugs()) && (p.slug.Some? ==> p.slug.value !in old(Slugs())) ==> UniqueSlugs()
    {
      id := nextId;
      posts, nextId := posts[id := p], nextId + 1;
    }

    /** `commentRepository.save` of a new comment: it is stored under a fresh id. */
    method SaveComment(c: Comment) returns (id: Id)
      requires Valid() && (c.parentId.Some? ==> c.parentId.value in comments)
      modifies this`comments, this`nextId
      ensures id == old(nextId) && id !in old(comments) && comments == old(comments)[id := c] && nextId == id + 1
      ensures Valid()
      ensures old(Consistent()) && c.postId in posts && c.authorId in users ==> Consistent()
    {
      id := nextId;
      comments, nextId := comments[id := c], nextId + 1;
    }

    /** `categoryRepository.save` of a new category: it is stored under a fresh id. */
    method SaveCategory(c: Category) returns (id: Id)
      requires Valid()
      modifies this`categories, this`nextId
      ensures id == old(nextId) && id !in old(categories) && categories == old(categories)[id := c] && nextId == id + 1
      ensures Valid()
      ensures old(Consistent()) ==> Consistent()
    {
      id := nextId;
      categories, nextId := categories[id := c], nextId + 1;
    }

    /** `userRepository.save` of a new user: it is stored under a fresh id. */
    method SaveUser(u: User) returns (id: Id)
      requires Valid()
      modifies this`users, this`nextId
      ensures id == old(nextId) && id !in old(users) && users == old(users)[id := u] && nextId == id + 1
      ensures Valid()
      ensures old(Consistent()) ==> Consistent()
    {
      id := nextId;
      users, nextId := users[id := u], nextId + 1;
    }
  }
}

=== FILE: text.dfy ===
/**
 * Character and string helpers shared by the client and the server model.
 * Only ASCII is modelled: letters are folded with ASCII case rules and the
 * whitespace set is space, tab, line feed and carriage return.
 */
module Text {
  import opened Wrappers

  predicate IsSpace(c: char) { c == ' ' || c == '\t' || c == '\n' || c == '\r' }
  predicate IsDigit(c: char) { '0' <= c <= '9' }
  predicate IsLowerAlnum(c: char) { 'a' <= c <= 'z' || IsDigit(c) }

  function LowerChar(c: char): char
  {
    if 'A' <= c <= 'Z' then (c as int + 32) as char else c
  }

  /** `s.toLowerCase()` on ASCII text. */
  function ToLower(s: string): (r: string)
    ensures |r| == |s|
    ensures forall i :: 0 <= i < |s| ==> r[i] == LowerChar(s[i])
  {
    if s == [] then [] else [LowerChar(s[0])] + ToLower(s[1..])
  }

  predicate StartsWith(s: string, prefix: string)
  {
    |prefix| <= |s| && s[..|prefix|] == prefix
  }

  /** `sub` occurs in `s` starting at index `i`. */
  predicate OccursAt(s: string, sub: string, i: int)
  {
    0 <= i <= |s| - |sub| && s[i..i + |sub|] == sub
  }

  /** `s.includes(sub)` / `s.contains(sub)`. */
  predicate Contains(s: string, sub: string)
  {
    exists i :: 0 <= i <= |s| - |sub| && OccursAt(s, sub, i)
  }

  /**
   * `r` sits at index `k` of `s`, and everything before and after it is
   * white space: what a trim may have dropped.
   */
  predicate SpaceAround(s: string, r: string, k: int)
  {
    && OccursAt(s, r, k)
    && (forall i :: 0 <= i < k ==> IsSpace(s[i]))
    && (forall i :: k + |r| <= i < |s| ==> IsSpace(s[i]))
  }

  /** Dropping a leading white space keeps what surrounds a piece white space. */
  lemma SpaceAroundInTail(s: string, r: string)
    requires s != [] && IsSpace(s[0]) && exists k :: SpaceAround(s[1..], r, k)
    ensures exists k :: SpaceAround(s, r, k)
  {
    var k :| SpaceAround(s[1..], r, k);
    assert s[k + 1..k + 1 + |r|] == s[1..][k..k + |r|];
    forall i | 0 <= i < k + 1 ensures IsSpace(s[i]) {
      if i > 0 { assert s[i] == s[1..][i - 1]; }
    }
    forall i | k + 1 + |r| <= i < |s| ensures IsSpace(s[i]) {
      assert s[i] == s[1..][i - 1];
    }
    assert SpaceAround(s, r, k + 1);
  }

  /** Dropping a trailing white space keeps what surrounds a piece white space. */
  lemma SpaceAroundInInit(s: string, t: string, r: string)
    requires s != [] && IsSpace(s[|s| - 1]) && t == s[..|s| - 1]
    requires exists k :: SpaceAround(t, r, k)
    ensures exists k :: SpaceAround(s, r, k)
  {
    var k :| SpaceAround(t, r, k);
    assert s[k..k + |r|] == t[k..k + |r|];
    forall i | 0 <= i < k ensures IsSpace(s[i]) {
      assert s[i] == t[i];
    }
    forall i | k + |r| <= i < |s| ensures IsSpace(s[i]) {
      if i < |t| { assert s[i] == t[i]; }
    }
    assert SpaceAround(s, r, k);
  }

  /**
   * `s.trim()`: leading white space is dropped, then trailing white space.
   * The result is the piece of `s` left between the dropped white space, and
   * it starts and ends with a non-space.
   */
  function Trim(s: string): (r: string)
    ensures |r| <= |s|
    ensures exists k :: SpaceAround(s, r, k)
    ensures r == [] || (!IsSpace(r[0]) && !IsSpace(r[|r| - 1]))
    decreases |s|
  {
    if s != [] && IsSpace(s[0]) then
      var r := Trim(s[1..]);
      SpaceAroundInTail(s, r);
      r
    else if s != [] && IsSpace(s[|s| - 1]) then
      var r := Trim(s[..|s| - 1]);
      SpaceAroundInInit(s, s[..|s| - 1], r);
      r
    else
      assert SpaceAround(s, s, 0);
      s
  }

  /** Trimming a string that already starts and ends with a non-space changes nothing. */
  lemma TrimOfTrimmed(s: string)
    requires s == [] || (!IsSpace(s[0]) && !IsSpace(s[|s| - 1]))
    ensures Trim(s) == s
  {
  }

  /** Trimming twice is trimming once. */
  lemma TrimIdempotent(s: string)
    ensures Trim(Trim(s)) == Trim(s)
  {
    TrimOfTrimmed(Trim(s));
  }

  /** `!s.trim()`: the string is all whitespace (`BlankIffTrimsToEmpty` ties this to `Trim`). */
  predicate IsBlank(s: string) { forall i | 0 <= i < |s| :: IsSpace(s[i]) }

  /** A string is blank exactly when trimming leaves nothing. */
  lemma {:induction false} BlankIffTrimsToEmpty(s: string)
    ensures IsBlank(s) <==> Trim(s) == []
    decreases |s|
  {
    if s == [] {
    } else if IsSpace(s[0]) {
      BlankIffTrimsToEmpty(s[1..]);
      assert IsBlank(s) <==> IsBlank(s[1..]) by {
        if IsBlank(s[1..]) {
          forall i | 0 <= i < |s| ensures IsSpace(s[i]) {
            if i > 0 { assert s[i] == s[1..][i - 1]; }
          }
        }
      }
    } else {
      assert !IsBlank(s);
      if IsSpace(s[|s| - 1]) {
        var init := s[..|s| - 1];
        BlankIffTrimsToEmpty(init);
        assert init[0] == s[0];
      }
    }
  }

  /** JavaScript truthiness of an optional string: `null`, `undefined` and "" are falsy. */
  predicate Truthy(s: Option<string>) { s.Some? && s.value != [] }

  /** `a || b` on optional strings. */
  function OrElse(a: Option<string>, b: Option<string>): (r: Option<string>)
    ensures Truthy(a) ==> r == a
    ensures !Truthy(a) ==> r == b
  {
    if Truthy(a) then a else b
  }

  /** `a || "default"`: the message shown when an error string is falsy. */
  function OrDefault(a: Option<string>, d: string): (r: string)
    ensures Truthy(a) ==> r == a.value
    ensures !Truthy(a) ==> r == d
  {
    if Truthy(a) then a.value else d
  }

  function DigitChar(d: nat): char
    requires d < 10
  {
    ('0' as int + d) as char
  }

  function DigitValue(c: char): nat
    requires IsDigit(c)
  {
    c as int - '0' as int
  }

  /** Decimal rendering of a natural number, as `String(n)` and `Long.toString(n)` do. */
  function NatToString(n: nat): (r: string)
    ensures |r| >= 1
    ensures forall i :: 0 <= i < |r| ==> IsDigit(r[i])
    ensures n < 10 <==> |r| == 1
  {
    if n < 10 then [DigitChar(n)] else NatToString(n / 10) + [DigitChar(n % 10)]
  }

  /** The value of a non-empty string of decimal digits. */
  function DigitsValue(s: string): nat
    requires forall i :: 0 <= i < |s| ==> IsDigit(s[i])
  {
    if s == [] then 0 else 10 * DigitsValue(s[..|s| - 1]) + DigitValue(s[|s| - 1])
  }

  /** Reading back a rendered number gives the number. */
  lemma {:induction false} DigitsValueOfNatToString(n: nat)
    ensures DigitsValue(NatToString(n)) == n
  {
    var r := NatToString(n);
    if n >= 10 {
      DigitsValueOfNatToString(n / 10);
      assert r[..|r| - 1] == NatToString(n / 10);
    }
  }

  /** Distinct numbers render to distinct strings. */
  lemma NatToStringInjective(a: nat, b: nat)
    requires NatToString(a) == NatToString(b)
    ensures a == b
  {
    DigitsValueOfNatToString(a);
    DigitsValueOfNatToString(b);
  }

  /** A JavaScript number: either a value or NaN. */
  datatype JsNumber = Num(value: int) | NaN

  predicate AllDigits(s: string) { forall i :: 0 <= i < |s| ==> IsDigit(s[i]) }

  /**
   * `Number(s)` for the inputs the client produces: surrounding whitespace is
   * ignored, an empty string is 0, a run of decimal digits is its value and
   * everything else is NaN.
   */
  function ToNumber(s: string): (r: JsNumber)
    ensures r.NaN? <==> !AllDigits(Trim(s))
    ensures r.Num? ==> AllDigits(Trim(s)) && r.value == DigitsValue(Trim(s))
  {
    var t := Trim(s);
    if AllDigits(t) then Num(DigitsValue(t)) else NaN
  }

  /** `Number(String(n)) == n` for every natural number. */
  lemma ToNumberOfNatToString(n: nat)
    ensures ToNumber(NatToString(n)) == Num(n)
  {
    var s := NatToString(n);
    TrimOfTrimmed(s);
    DigitsValueOfNatToString(n);
  }
}

=== FILE: tokens.dfy ===
/**
 * What the server's token utility reads from a token. Signing and parsing are
 * not modelled: `Decoder` maps a token to its claims, or to nothing when the
 * signature, the expiry or the format is rejected.
 */
module Tokens {
  import opened Wrappers
  import opened Store

  /** The claims the server puts in a token: the user's id, name and roles. */
  datatype Claims = Claims(userId: Option<Id>, username: string, roles: Option<seq<string>>)

  type Decoder = string -> Option<Claims>

  /** `extractUserId`: fails on a missing or rejected token; the id claim itself may be absent. */
  function ExtractUserId(decode: Decoder, token: Option<string>): (r: Option<Option<Id>>)
    ensures r.None? <==> token.None? || decode(token.value).None?
    ensures r.Some? ==> r.value == decode(token.value).value.userId
  {
    if token.None? || decode(token.value).None? then None else Some(decode(token.value).value.userId)
  }

  /** `extractUsername`: fails on a missing or rejected token. */
  function ExtractUsername(decode: Decoder, token: Option<string>): (r: Option<string>)
    ensures r.None? <==> token.None? || decode(token.value).None?
    ensures r.Some? ==> r.value == decode(token.value).value.username
  {
    if token.None? || decode(token.value).None? then None else Some(decode(token.value).value.username)
  }

  /**
   * The id of a present user read from the token, as `findById(extractUserId(token))`
   * does: the parse must succeed, the claim must be present and the user must exist.
   */
  function TokenUser(decode: Decoder, token: Option<string>, users: map<Id, User>, notFound: Failure): (r: Result<Id>)
    ensures r.Ok? <==>
      ExtractUserId(decode, token).Some? && ExtractUserId(decode, token).value.Some?
      && ExtractUserId(decode, token).value.value in users
    ensures r.Ok? ==> r.value == ExtractUserId(decode, token).value.value
    ensures r.Thrown? && ExtractUserId(decode, token).Some? && ExtractUserId(decode, token).value.Some? ==>
      r.failure == notFound
  {
    var id := ExtractUserId(decode, token);
    if id.None? || id.value.None? then Thrown(Failure(InvalidToken, ""))
    else if id.value.value !in users then Thrown(notFound)
    else Ok(id.value.value)
  }

  /**
   * The reader behind a token that may be missing or invalid: the services
   * that list or show content catch the parse failure and carry on anonymously.
   */
  function OptionalReader(decode: Decoder, token: Option<string>): (r: Option<Id>)
    ensures r.Some? <==> ExtractUserId(decode, token).Some? && ExtractUserId(decode, token).value.Some?
    ensures r.Some? ==> r.value == ExtractUserId(decode, token).value.value
    ensures r.Some? ==> token.Some? && decode(token.value).Some? && decode(token.value).value.userId == r
  {
    var id := ExtractUserId(decode, token);
    if id.Some? then id.value else None
  }
}

=== FILE: trend_page.dfy ===
/**
 * The trends page: the top-liked posts, mapped like the profile page maps
 * them, with a like button that toggles the post in the page's own list once
 * the like request has settled, whatever its outcome.
 */
module TrendPage {
  import opened Wrappers
  import opened ViewModel
  import Api
  import ProfilePage

  class TrendView {
    var posts: seq<Post>

    constructor ()
      ensures posts == []
    {
      posts := [];
    }

    /** Loads the trend list; a response without data gives an empty list. */
    method FetchTrends(response: Api.Response<seq<PostDto>>)
      modifies this
      ensures response.data.None? ==> posts == []
      ensures response.data.Some? ==> |posts| == |response.data.value|
      ensures response.data.Some? ==>
        forall i :: 0 <= i < |posts| ==> posts[i] == MapDtoToPost(response.data.value[i])
    {
      posts := ProfilePage.MapAll(response.data.GetOr([]));
    }

    /**
     * The like callback. `toggleResult` is what the feed hook's `toggleLike`
     * returned; the page does not look at it.
     */
    method OnLike(postId: string, toggleResult: Api.ActionResult)
      modifies this
      ensures posts == ToggleWhere(old(posts), postId)
      ensures forall i :: 0 <= i < |posts| && old(posts)[i].id != postId ==> posts[i] == old(posts)[i]
    {
      posts := ToggleWhere(posts, postId);
    }
  }

  /** Two clicks on the same card leave the list as it was. */
  method DoubleLikeRestores(page: TrendView, postId: string, first: Api.ActionResult, second: Api.ActionResult)
    modifies page
    ensures page.posts == old(page.posts)
  {
    page.OnLike(postId, first);
    page.OnLike(postId, second);
    ToggleWhereTwice(old(page.posts), postId);
  }
}

=== FILE: use_comments.dfy ===
/**
 * The comments hook of one post: maps the server's comment tree, flips a like
 * anywhere in that tree after a successful toggle, and re-fetches the tree
 * after a create or a delete instead of editing it locally.
 */
module UseComments {
  import opened Wrappers
  import opened Text
  import opened ViewModel
  import Api

  /** The `replies` field of a comment DTO, which may be missing. */
  datatype RepliesDto = NoReplies | RepliesList(list: seq<CommentDto>)

  datatype CommentDto = CommentDto(
    id: nat,
    content: string,
    author: Option<AuthorDto>,
    parentCommentId: Option<nat>,
    createdAt: string,
    likeCount: Option<int>,
    likedByCurrentUser: Option<bool>,
    replies: RepliesDto)

  datatype Comment = Comment(
    id: string,
    content: string,
    author: Author,
    postId: string,
    parentCommentId: Option<string>,
    createdAt: string,
    likeCount: int,
    isLiked: bool,
    replies: seq<Comment>)

  const LoadFailedMessage := "Yorumlar yüklenemedi"
  const CreateFailedMessage := "Yorum oluşturulamadı"
  const LikeFailedMessage := "Beğeni işlemi başarısız"
  const DeleteFailedMessage := "Yorum silinemedi"

  /** Every comment of the tree, at any depth, carries `postId`. */
  predicate AllInPost(c: Comment, postId: string)
    decreases c
  {
    c.postId == postId && forall i :: 0 <= i < |c.replies| ==> AllInPost(c.replies[i], postId)
  }

  /** Number of comments in a mapped tree. */
  function Size(c: Comment): nat
    decreases c
  {
    1 + SizeAll(c.replies)
  }

  function SizeAll(cs: seq<Comment>): nat
    decreases cs
  {
    if cs == [] then 0 else Size(cs[0]) + SizeAll(cs[1..])
  }

  /** Number of comments in a DTO tree. */
  function DtoSize(d: CommentDto): nat
    decreases d
  {
    1 + match d.replies
        case NoReplies => 0
        case RepliesList(ds) => DtoSizeAll(ds)
  }

  function DtoSizeAll(ds: seq<CommentDto>): nat
    decreases ds
  {
    if ds == [] then 0 else DtoSize(ds[0]) + DtoSizeAll(ds[1..])
  }

  /** The comment mapper; `postId` is the hook's, not a DTO field. */
  function MapDtoToComment(postId: string, d: CommentDto): (r: Comment)
    ensures AllInPost(r, postId)
    ensures Size(r) == DtoSize(d)
    ensures ToNumber(r.id) == Num(d.id)
    ensures d.parentCommentId.None? || d.parentCommentId == Some(0) ==> r.parentCommentId.None?
    ensures d.parentCommentId.Some? && d.parentCommentId.value != 0 ==>
      r.parentCommentId.Some? && ToNumber(r.parentCommentId.value) == Num(d.parentCommentId.value)
    ensures r.likeCount == d.likeCount.GetOr(0) && r.isLiked == d.likedByCurrentUser.GetOr(false)
    ensures r.content == d.content && r.createdAt == d.createdAt && r.postId == postId
    ensures r.author.id == AuthorIdText(d.author)
    ensures d.author.None? ==> r.author == Author("", "", None)
    ensures d.author.Some? ==> r.author.username == d.author.value.username.GetOr("")
    ensures d.author.Some? && d.author.value.profileImgUrl.Some? ==> r.author.profileImgUrl == d.author.value.profileImgUrl
    ensures d.author.Some? && d.author.value.profileImgUrl.None? ==> r.author.profileImgUrl == d.author.value.profileImgURL
    ensures d.replies.NoReplies? ==> r.replies == []
    ensures d.replies.RepliesList? ==> r.replies == MapAll(postId, d.replies.list)
    decreases d, 1
  {
    ToNumberOfNatToString(d.id);
    ToNumberOfNatToString(d.parentCommentId.GetOr(0));
    var author :=
      if d.author.Some? then
        var a := d.author.value;
        // `??` keeps an empty string; only a missing value falls through.
        Author(AuthorIdText(d.author), a.username.GetOr(""), if a.profileImgUrl.Some? then a.profileImgUrl else a.profileImgURL)
      else Author("", "", None);
    Comment(
      NatToString(d.id),
      d.content,
      author,
      postId,
      if d.parentCommentId.Some? && d.parentCommentId.value != 0 then Some(NatToString(d.parentCommentId.value)) else None,
      d.createdAt,
      d.likeCount.GetOr(0),
      d.likedByCurrentUser.GetOr(false),
      match d.replies
      case NoReplies => []
      case RepliesList(ds) => MapAll(postId, ds))
  }

  function MapAll(postId: string, ds: seq<CommentDto>): (r: seq<Comment>)
    ensures |r| == |ds|
    ensures forall i :: 0 <= i < |r| ==> AllInPost(r[i], postId)
    ensures forall i :: 0 <= i < |ds| ==> r[i] == MapDtoToComment(postId, ds[i])
    ensures SizeAll(r) == DtoSizeAll(ds)
    decreases ds, 0
  {
    if ds == [] then []
    else
      var r := [MapDtoToComment(postId, ds[0])] + MapAll(postId, ds[1..]);
      assert r[1..] == MapAll(postId, ds[1..]);
      r
  }

  /** The like toggle of one comment. */
  function ToggledComment(c: Comment): (r: Comment)
    ensures r.isLiked == !c.isLiked
    ensures r.likeCount == if c.isLiked then c.likeCount - 1 else c.likeCount + 1
    ensures r.(isLiked := c.isLiked, likeCount := c.likeCount) == c
  {
    c.(isLiked := !c.isLiked, likeCount := if c.isLiked then c.likeCount - 1 else c.likeCount + 1)
  }

  /** `updateCommentLike` on one comment: a match is toggled and its replies are not searched. */
  function UpdateOne(c: Comment, id: string): Comment
    decreases c
  {
    if c.id == id then ToggledComment(c)
    else if |c.replies| > 0 then c.(replies := UpdateCommentLike(c.replies, id))
    else c
  }

  function UpdateCommentLike(cs: seq<Comment>, id: string): (r: seq<Comment>)
    ensures |r| == |cs|
    ensures forall i :: 0 <= i < |cs| ==> r[i] == UpdateOne(cs[i], id)
    decreases cs
  {
    seq(|cs|, i requires 0 <= i < |cs| => UpdateOne(cs[i], id))
  }

  /**
   * `after` differs from `before` only in the like fields of comments whose
   * id is `id`: same ids, contents and tree shape everywhere.
   */
  predicate ChangedOnlyAt(after: Comment, before: Comment, id: string)
    decreases before
  {
    && after.(isLiked := before.isLiked, likeCount := before.likeCount, replies := before.replies) == before
    && (before.id != id ==> after.isLiked == before.isLiked && after.likeCount == before.likeCount)
    && |after.replies| == |before.replies|
    && forall i :: 0 <= i < |before.replies| ==> ChangedOnlyAt(after.replies[i], before.replies[i], id)
  }

  lemma {:induction false} UpdateOneChangesOnlyMatches(c: Comment, id: string)
    ensures ChangedOnlyAt(UpdateOne(c, id), c, id)
    decreases c
  {
    forall i | 0 <= i < |c.replies|
      ensures ChangedOnlyAt(UpdateOne(c, id).replies[i], c.replies[i], id)
    {
      if c.id == id {
        ChangedOnlyAtReflexive(c.replies[i], id);
      } else {
        UpdateOneChangesOnlyMatches(c.replies[i], id);
      }
    }
  }

  lemma {:induction false} ChangedOnlyAtReflexive(c: Comment, id: string)
    ensures ChangedOnlyAt(c, c, id)
    decreases c
  {
    forall i | 0 <= i < |c.replies| ensures ChangedOnlyAt(c.replies[i], c.replies[i], id) {
      ChangedOnlyAtReflexive(c.replies[i], id);
    }
  }

  /** Toggling the same comment twice gives back the tree. */
  lemma {:induction false} UpdateOneTwice(c: Comment, id: string)
    ensures UpdateOne(UpdateOne(c, id), id) == c
    decreases c
  {
    if c.id == id {
      var t := ToggledComment(c);
      if c.isLiked { assert !t.isLiked; } else { assert t.isLiked; }
    } else if |c.replies| > 0 {
      UpdateTwice(c.replies, id);
    }
  }

  lemma {:induction false} UpdateTwice(cs: seq<Comment>, id: string)
    ensures UpdateCommentLike(UpdateCommentLike(cs, id), id) == cs
    decreases cs
  {
    forall i | 0 <= i < |cs| ensures UpdateOne(UpdateOne(cs[i], id), id) == cs[i] {
      UpdateOneTwice(cs[i], id);
    }
  }

  /** The comment reached from `c` by following reply indices, if the path exists. */
  function Follow(c: Comment, path: seq<nat>): Option<Comment>
    decreases |path|
  {
    if path == [] then Some(c)
    else if path[0] < |c.replies| then Follow(c.replies[path[0]], path[1..])
    else None
  }

  /** Every comment strictly above the end of `path` has another id. */
  predicate AncestorsMiss(c: Comment, path: seq<nat>, id: string)
    decreases |path|
  {
    path == [] || (c.id != id && path[0] < |c.replies| && AncestorsMiss(c.replies[path[0]], path[1..], id))
  }

  /** A comment with the id is toggled at any depth when none of its ancestors matches. */
  lemma {:induction false} MatchToggledAtAnyDepth(c: Comment, id: string, path: seq<nat>)
    requires AncestorsMiss(c, path, id)
    requires Follow(c, path).Some? && Follow(c, path).value.id == id
    ensures Follow(UpdateOne(c, id), path) == Some(ToggledComment(Follow(c, path).value))
    decreases |path|
  {
    if path != [] {
      MatchToggledAtAnyDepth(c.replies[path[0]], id, path[1..]);
    }
  }

  class CommentsHook {
    const postId: string
    var comments: seq<Comment>
    var loading: bool
    var error: Option<string>

    constructor (id: string)
      ensures postId == id && comments == [] && loading && error.None?
    {
      postId := id;
      comments := [];
      loading := true;
      error := None;
    }

    method FetchComments(response: Api.Response<seq<CommentDto>>)
      modifies this`comments, this`loading, this`error
      ensures postId == "" ==> comments == old(comments) && loading == old(loading) && error == old(error)
      ensures postId != "" ==> !loading
      ensures postId != "" && response.data.Some? ==>
        comments == MapAll(postId, response.data.value) && error.None?
      ensures postId != "" && response.data.None? ==>
        comments == old(comments) && error == Some(OrDefault(response.error, LoadFailedMessage))
    {
      if postId == "" {
        return;
      }
      loading := true;
      error := None;
      if response.data.Some? {
        comments := MapAll(postId, response.data.value);
      } else {
        error := Some(OrDefault(response.error, LoadFailedMessage));
      }
      loading := false;
    }

    /** `refetch` is the answer to the follow-up fetch made after a successful create. */
    method CreateComment(response: Api.Response<CommentDto>, refetch: Api.Response<seq<CommentDto>>)
      returns (result: Api.ActionResult)
      modifies this`comments, this`loading, this`error
      ensures response.data.Some? ==> result == Api.Succeeded
      ensures response.data.Some? && postId == "" ==>
        comments == old(comments) && loading == old(loading) && error == old(error)
      ensures response.data.Some? && postId != "" ==> !loading
      ensures response.data.Some? && postId != "" && refetch.data.Some? ==>
        comments == MapAll(postId, refetch.data.value) && error.None?
      ensures response.data.Some? && postId != "" && refetch.data.None? ==>
        comments == old(comments) && error == Some(OrDefault(refetch.error, LoadFailedMessage))
      ensures response.data.None? ==>
        result == Api.Failed(OrDefault(response.error, CreateFailedMessage))
        && comments == old(comments) && loading == old(loading) && error == old(error)
    {
      if response.data.Some? {
        FetchComments(refetch);
        result := Api.Succeeded;
      } else {
        result := Api.Failed(OrDefault(response.error, CreateFailedMessage));
      }
    }

    method ToggleCommentLike<T>(commentId: string, response: Api.Response<T>) returns (result: Api.ActionResult)
      modifies this`comments
      ensures response.status == 200 ==>
        result == Api.Succeeded && comments == UpdateCommentLike(old(comments), commentId)
      ensures response.status != 200 ==>
        result == Api.Failed(OrDefault(response.error, LikeFailedMessage)) && comments == old(comments)
    {
      if response.status == 200 {
        comments := UpdateCommentLike(comments, commentId);
        result := Api.Succeeded;
      } else {
        result := Api.Failed(OrDefault(response.error, LikeFailedMessage));
      }
    }

    /** Delete succeeds on 200 or 204 and then re-fetches; the list is never edited locally. */
    method DeleteComment<T>(commentId: string, response: Api.Response<T>, refetch: Api.Response<seq<CommentDto>>)
      returns (result: Api.ActionResult)
      modifies this`comments, this`loading, this`error
      ensures response.status in {200, 204} ==> result == Api.Succeeded
      ensures response.status in {200, 204} && postId == "" ==>
        comments == old(comments) && loading == old(loading) && error == old(error)
      ensures response.status in {200, 204} && postId != "" ==> !loading
      ensures response.status in {200, 204} && postId != "" && refetch.data.Some? ==>
        comments == MapAll(postId, refetch.data.value) && error.None?
      ensures response.status in {200, 204} && postId != "" && refetch.data.None? ==>
        comments == old(comments) && error == Some(OrDefault(refetch.error, LoadFailedMessage))
      ensures response.status !in {200, 204} ==>
        result == Api.Failed(OrDefault(response.error, DeleteFailedMessage))
        && comments == old(comments) && loading == old(loading) && error == old(error)
    {
      if response.status == 200 || response.status == 204 {
        FetchComments(refetch);
        result := Api.Succeeded;
      } else {
        result := Api.Failed(OrDefault(response.error, DeleteFailedMessage));
      }
    }
  }
}

=== FILE: use_posts.dfy ===
/**
 * The feed hook. Posts keep the DTO's fields (the id stays a number) plus the
 * keys the mapper adds; local state changes only after the server answers.
 * Ids are compared with JavaScript's strict equality, so a string argument
 * never equals a numeric post id.
 */
module UsePosts {
  import opened Wrappers
  import opened Text
  import opened Lists
  import opened ViewModel
  import opened ErrorHandler
  import Api

  /** An id as a JavaScript value: a number or a string. */
  datatype JsId = NumId(n: nat) | StrId(s: string)

  /** The author object: the server's, the placeholder `{id: '', username: 'Bilinmeyen'}`, or none. */
  datatype FeedAuthor = ServerAuthor(dto: AuthorDto) | Placeholder | NoAuthor

  /**
   * A feed entry. `category`, `tags` and `isLiked` are the keys the mapper
   * adds; an entry that skipped the mapper lacks them (`None`). A `likeCount`
   * of `None` is `undefined` or NaN.
   */
  datatype FeedPost = FeedPost(
    id: nat,
    title: string,
    content: string,
    author: FeedAuthor,
    category: Option<Category>,
    tags: Option<seq<Tag>>,
    likeCount: Option<int>,
    isLiked: Option<bool>)

  /** JavaScript truthiness of an optional boolean. */
  predicate IsTrue(b: Option<bool>) { b == Some(true) }

  const PlaceholderName := "Bilinmeyen"
  const CreateFailedMessage := "Gönderi oluşturulamadı"
  const LikeFailedMessage := "Beğeni işlemi başarısız"
  const DeleteFailedMessage := "Gönderi silinemedi"

  /** The feed mapper: category with id 0, indexed tags, a placeholder author, `isLiked` copied with no default. */
  function MapPostResponseDtoToPost(p: PostDto): (r: FeedPost)
    ensures r.id == p.id && r.title == p.title && r.content == p.content
    ensures r.category == Some(Category(0, p.categoryName))
    ensures r.tags == Some(IndexTags(p.tagNames.GetOr([])))
    ensures p.author.Some? ==> r.author == ServerAuthor(p.author.value)
    ensures p.author.None? ==> r.author == Placeholder
    ensures r.isLiked == p.likedByCurrentUser && r.likeCount == p.likeCount
  {
    FeedPost(p.id, p.title, p.content,
             if p.author.Some? then ServerAuthor(p.author.value) else Placeholder,
             Some(Category(0, p.categoryName)), Some(IndexTags(p.tagNames.GetOr([]))),
             p.likeCount, p.likedByCurrentUser)
  }

  /** The created post as the server returned it, without the keys the mapper adds. */
  function RawEntry(p: PostDto): (r: FeedPost)
    ensures r.id == p.id && r.category.None? && r.tags.None? && r.isLiked.None?
    ensures r.likeCount == p.likeCount
  {
    FeedPost(p.id, p.title, p.content,
             if p.author.Some? then ServerAuthor(p.author.value) else NoAuthor,
             None, None, p.likeCount, None)
  }

  predicate IdMatches(p: FeedPost, id: JsId) { id == NumId(p.id) }

  /** The 200-path update of one post: flip `isLiked`, move `likeCount` by one. */
  function Toggled(p: FeedPost): (r: FeedPost)
    ensures r.isLiked == Some(!IsTrue(p.isLiked))
    ensures p.likeCount.None? ==> r.likeCount.None?
    ensures p.likeCount.Some? ==> r.likeCount == Some(if IsTrue(p.isLiked) then p.likeCount.value - 1 else p.likeCount.value + 1)
    ensures r.(isLiked := p.isLiked, likeCount := p.likeCount) == p
  {
    var count :=
      if p.likeCount.None? then None
      else Some(if IsTrue(p.isLiked) then p.likeCount.value - 1 else p.likeCount.value + 1);
    p.(isLiked := Some(!IsTrue(p.isLiked)), likeCount := count)
  }

  /** Applying the update twice restores a mapped post whose like flag the server sent. */
  lemma ToggledTwice(p: FeedPost)
    requires p.isLiked.Some?
    ensures Toggled(Toggled(p)) == p
  {
    var q := Toggled(p);
    if p.isLiked.value {
      assert q.isLiked == Some(false);
    } else {
      assert q.isLiked == Some(true);
    }
  }

  /** An entry without `isLiked` does not come back: the flag becomes `false`. */
  lemma ToggledTwiceRawEntry(p: FeedPost)
    requires p.isLiked.None?
    ensures Toggled(Toggled(p)).isLiked == Some(false)
  {
  }

  function ToggleMatching(ps: seq<FeedPost>, id: JsId): (r: seq<FeedPost>)
    ensures |r| == |ps|
    ensures forall i :: 0 <= i < |ps| ==> r[i] == if IdMatches(ps[i], id) then Toggled(ps[i]) else ps[i]
  {
    seq(|ps|, i requires 0 <= i < |ps| => if IdMatches(ps[i], id) then Toggled(ps[i]) else ps[i])
  }

  /** `posts.filter(post => post.id !== id)`. */
  function RemoveMatching(ps: seq<FeedPost>, id: JsId): (r: seq<FeedPost>)
    ensures IsFilterOf(r, ps, (p: FeedPost) => !IdMatches(p, id))
  {
    if ps == [] then []
    else
      var rest := RemoveMatching(ps[1..], id);
      FilterCons(ps, rest, (p: FeedPost) => !IdMatches(p, id));
      if IdMatches(ps[0], id) then rest else [ps[0]] + rest
  }

  /** A string id never matches a feed post, so neither update changes the list. */
  lemma StringIdChangesNothing(ps: seq<FeedPost>, s: string)
    ensures ToggleMatching(ps, StrId(s)) == ps
    ensures RemoveMatching(ps, StrId(s)) == ps
  {
    if ps != [] {
      StringIdChangesNothing(ps[1..], s);
      assert ps == [ps[0]] + ps[1..];
    }
  }

  class PostsHook {
    var posts: seq<FeedPost>
    var loading: bool
    const errors: ErrorHandlerHook

    constructor ()
      ensures posts == [] && loading && fresh(errors) && errors.state == Cleared
    {
      posts := [];
      loading := true;
      errors := new ErrorHandlerHook();
    }

    method FetchPosts(response: Api.Response<seq<PostDto>>)
      modifies this, errors
      ensures !loading
      ensures response.data.Some? ==>
        && errors.state == Cleared
        && |posts| == |response.data.value|
        && forall i :: 0 <= i < |posts| ==> posts[i] == MapPostResponseDtoToPost(response.data.value[i])
      ensures response.data.None? ==>
        && posts == old(posts)
        && errors.state == ApiErrorOutcome(response.error, response.status)
    {
      loading := true;
      errors.ClearError();
      if response.data.Some? {
        var dtos := response.data.value;
        posts := seq(|dtos|, i requires 0 <= i < |dtos| => MapPostResponseDtoToPost(dtos[i]));
      } else {
        errors.HandleApiError(response);
      }
      loading := false;
    }

    /** Prepends the created post exactly as the server returned it. */
    method CreatePost(response: Api.Response<PostDto>) returns (result: Api.ActionResult)
      modifies this`posts, errors
      ensures response.data.Some? ==>
        && result == Api.Succeeded
        && posts == [RawEntry(response.data.value)] + old(posts) && errors.state == Cleared
      ensures response.data.None? ==>
        && result == Api.Failed(OrDefault(response.error, CreateFailedMessage))
        && posts == old(posts) && errors.state == ApiErrorOutcome(response.error, response.status)
    {
      errors.ClearError();
      if response.data.Some? {
        posts := [RawEntry(response.data.value)] + posts;
        result := Api.Succeeded;
      } else {
        errors.HandleApiError(response);
        result := Api.Failed(OrDefault(response.error, CreateFailedMessage));
      }
    }

    method ToggleLike<T>(postId: JsId, response: Api.Response<T>) returns (result: Api.ActionResult)
      modifies this`posts, errors
      ensures response.status == 200 ==>
        && result == Api.Succeeded
        && posts == ToggleMatching(old(posts), postId) && errors.state == Cleared
      ensures response.status != 200 ==>
        && result == Api.Failed(OrDefault(response.error, LikeFailedMessage))
        && posts == old(posts) && errors.state == ApiErrorOutcome(response.error, response.status)
    {
      errors.ClearError();
      if response.status == 200 {
        posts := ToggleMatching(posts, postId);
        result := Api.Succeeded;
      } else {
        errors.HandleApiError(response);
        result := Api.Failed(OrDefault(response.error, LikeFailedMessage));
      }
    }

    method DeletePost<T>(postId: JsId, response: Api.Response<T>) returns (result: Api.ActionResult)
      modifies this`posts, errors
      ensures response.status == 200 ==>
        && result == Api.Succeeded
        && posts == RemoveMatching(old(posts), postId) && errors.state == Cleared
      ensures response.status != 200 ==>
        && result == Api.Failed(OrDefault(response.error, DeleteFailedMessage))
        && posts == old(posts) && errors.state == ApiErrorOutcome(response.error, response.status)
    {
      errors.ClearError();
      if response.status == 200 {
        posts := RemoveMatching(posts, postId);
        result := Api.Succeeded;
      } else {
        errors.HandleApiError(response);
        result := Api.Failed(OrDefault(response.error, DeleteFailedMessage));
      }
    }
  }
}

=== FILE: user_service.dfy ===
/**
 * The user service: reading and updating the signed-in user's profile and
 * uploading a profile image. The profile's user is found by the token's id
 * claim, or by its username claim when the id claim is absent.
 */
module UserService {
  import opened Wrappers
  import opened Text
  import opened Store
  import opened Tokens
  import PostListing

  const NoToken := "token bulunamadı."
  const UserNotFoundDot := "Kullanıcı bulunamadı."
  const CurrentPasswordRequired := "Eski şifre girilmelidir."
  const CurrentPasswordWrong := "Eski şifre yanlış."
  const UserNotFoundNamed := "Kullanıcı bulunamadı: "
  const ImagesOnly := "Sadece resim dosyaları yüklenebilir!"
  const ImageUploadFailed := "Görsel yükleme hatası: "

  /** `ProfileResponseDto`. */
  datatype Profile = Profile(id: Id, username: string, email: string, profileImgUrl: Option<string>,
                             bio: Option<string>, isOnline: bool, updatedAt: int,
                             postsCount: int, likesReceived: int)

  /** `ProfileRequestDto`. */
  datatype ProfileRequest = ProfileRequest(username: Option<string>, email: Option<string>,
                                           profileImgUrl: Option<string>, bio: Option<string>,
                                           currentPassword: Option<string>, password: Option<string>)

  /** The password encoder: `matches(raw, hashed)` and `encode(raw)`. */
  datatype Encoder = Encoder(matches: (string, string) -> bool, encode: string -> string)

  /** Adding one more post adds exactly that post's likes to the count. */
  lemma LikesOnAdd(likes: set<Link>, done: set<Id>, p: Id)
    requires p !in done
    ensures |Surviving(likes, done + {p})| == |Surviving(likes, done)| + |LinksTo(likes, p)|
  {
    assert Surviving(likes, done + {p}) == Surviving(likes, done) + LinksTo(likes, p);
    assert Surviving(likes, done) * LinksTo(likes, p) == {};
  }

  /** Adding to an int that has already wrapped wraps to the same int as adding first and wrapping once. */
  lemma IntValueAdd(a: int, c: int)
    ensures PostListing.IntValue(PostListing.IntValue(a) + c) == PostListing.IntValue(a + c)
  {
    var w := PostListing.IntValue(a);
    assert (w - a) % 0x1_0000_0000 == 0;
    var q := (w - a) / 0x1_0000_0000;
    assert w + c == a + c + q * 0x1_0000_0000;
    ModShift(a + c + 0x8000_0000, q);
  }

  lemma ModShift(x: int, q: int)
    ensures (x + q * 0x1_0000_0000) % 0x1_0000_0000 == x % 0x1_0000_0000
  {
  }

  /** The user after the request's fields are applied; `hashed` is the stored password hash. */
  function Applied(user: User, req: ProfileRequest, hashed: string, now: int): (r: User)
    ensures Truthy(req.username) ==> r.username == req.username.value
    ensures !Truthy(req.username) ==> r.username == user.username
    ensures Truthy(req.email) ==> r.email == req.email.value
    ensures !Truthy(req.email) ==> r.email == user.email
    ensures r.bio == OrElse(req.bio, user.bio) && r.profileImgUrl == OrElse(req.profileImgUrl, user.profileImgUrl)
    ensures r.hashedPassword == hashed && r.updatedAt == now
    ensures r.isOnline == user.isOnline && r.role == user.role
  {
    user.(username := if Truthy(req.username) then req.username.value else user.username,
          email := if Truthy(req.email) then req.email.value else user.email,
          bio := OrElse(req.bio, user.bio),
          profileImgUrl := OrElse(req.profileImgUrl, user.profileImgUrl),
          hashedPassword := hashed,
          updatedAt := now)
  }

  /** Sending the same request again, without a new password, leaves the profile as it was. */
  lemma ApplyTwice(user: User, req: ProfileRequest, now: int, later: int)
    ensures var once := Applied(user, req, user.hashedPassword, now);
      Applied(once, req, once.hashedPassword, later) == once.(updatedAt := later)
  {
  }

  /** The profile of user `id`. */
  function ProfileOf(id: Id, user: User, postsCount: int, likesReceived: int): (r: Profile)
    ensures r.id == id && r.username == user.username && r.email == user.email && r.bio == user.bio
    ensures r.profileImgUrl == user.profileImgUrl && r.isOnline == user.isOnline && r.updatedAt == user.updatedAt
    ensures r.postsCount == postsCount && r.likesReceived == likesReceived
  {
    Profile(id, user.username, user.email, user.profileImgUrl, user.bio, user.isOnline, user.updatedAt,
            postsCount, likesReceived)
  }

  /** Whether `id` is the user the token names, by its id claim or, without one, by its username claim. */
  predicate Names(decode: Decoder, token: Option<string>, users: map<Id, User>, id: Id)
  {
    var claim := ExtractUserId(decode, token);
    && claim.Some? && id in users
    && (claim.value.Some? ==> id == claim.value.value)
    && (claim.value.None? ==> users[id].username == ExtractUsername(decode, token).value)
  }

  /** With unique usernames a token names at most one user. */
  lemma NamesUnique(decode: Decoder, token: Option<string>, users: map<Id, User>, a: Id, b: Id)
    requires forall x, y :: x in users && y in users && users[x].username == users[y].username ==> x == y
    requires Names(decode, token, users, a) && Names(decode, token, users, b)
    ensures a == b
  {
  }

  /** The password rule of `updateProfile`: a new password needs the current one, matching the stored hash. */
  predicate PasswordGuardPasses(req: ProfileRequest, encoder: Encoder, user: User)
  {
    Truthy(req.password) ==> Truthy(req.currentPassword) && encoder.matches(req.currentPassword.value, user.hashedPassword)
  }

  /** Another user already holds the updated username or e-mail, which the unique columns reject. */
  predicate KeyClash(users: map<Id, User>, id: Id, updated: User)
  {
    exists o :: o in users && o != id && (users[o].username == updated.username || users[o].email == updated.email)
  }

  /** The stored hash after the update: the new password's hash when one is given. */
  function NewHash(req: ProfileRequest, encoder: Encoder, user: User): string
  {
    if Truthy(req.password) then encoder.encode(req.password.value) else user.hashedPassword
  }

  /**
   * What `updateProfile` does once the token named user `id`: the password
   * rule, then the unique columns, then the updated row.
   */
  function ProfileUpdate(users: map<Id, User>, id: Id, req: ProfileRequest, encoder: Encoder, now: int): (r: Result<User>)
    requires id in users
    ensures Truthy(req.password) && !Truthy(req.currentPassword) ==>
      r == Thrown(Failure(Checked, CurrentPasswordRequired))
    ensures Truthy(req.password) && Truthy(req.currentPassword) && !encoder.matches(req.currentPassword.value, users[id].hashedPassword)
      ==> r == Thrown(Failure(Checked, CurrentPasswordWrong))
    ensures PasswordGuardPasses(req, encoder, users[id]) ==>
      (r.Ok? <==> !KeyClash(users, id, Applied(users[id], req, users[id].hashedPassword, now)))
    ensures PasswordGuardPasses(req, encoder, users[id]) && r.Thrown? ==>
      r.failure == Failure(Constraint, "users.username/users.email")
    ensures r.Ok? ==>
      PasswordGuardPasses(req, encoder, users[id]) && r.value == Applied(users[id], req, NewHash(req, encoder, users[id]), now)
  {
    var user := users[id];
    if Truthy(req.password) && !Truthy(req.currentPassword) then
      Thrown(Failure(Checked, CurrentPasswordRequired))
    else if Truthy(req.password) && !encoder.matches(req.currentPassword.value, user.hashedPassword) then
      Thrown(Failure(Checked, CurrentPasswordWrong))
    else
      var updated := Applied(user, req, NewHash(req, encoder, user), now);
      if KeyClash(users, id, updated) then Thrown(Failure(Constraint, "users.username/users.email"))
      else Ok(updated)
  }

  class UserServiceImpl {
    const db: Db
    const decode: Decoder

    constructor (db: Db, decode: Decoder)
      ensures this.db == db && this.decode == decode
    {
      this.db := db;
      this.decode := decode;
    }

    /**
     * The lookup `getProfile` and `updateProfile` share: a missing or empty
     * token, a token the parser rejects, and a token naming nobody each fail.
     */
    method FindProfileUser(token: Option<string>) returns (r: Result<Id>)
      ensures token.None? || token.value == [] ==> r == Thrown(Failure(Checked, NoToken))
      ensures token.Some? && token.value != [] && ExtractUserId(decode, token).None? ==>
        r == Thrown(Failure(InvalidToken, ""))
      ensures r.Ok? ==> Names(decode, token, db.users, r.value)
      ensures token.Some? && token.value != [] && ExtractUserId(decode, token).Some? ==>
        (r.Ok? <==> exists id :: Names(decode, token, db.users, id))
      ensures r.Thrown? && token.Some? && token.value != [] && ExtractUserId(decode, token).Some? ==>
        r.failure == Failure(Checked, UserNotFoundDot)
    {
      if token.None? || token.value == [] {
        return Thrown(Failure(Checked, NoToken));
      }
      var claim := ExtractUserId(decode, token);
      if claim.None? {
        return Thrown(Failure(InvalidToken, ""));
      }
      if claim.value.Some? {
        if claim.value.value !in db.users {
          return Thrown(Failure(Checked, UserNotFoundDot));
        }
        assert Names(decode, token, db.users, claim.value.value);
        return Ok(claim.value.value);
      }
      var name := ExtractUsername(decode, token).value;
      var found := db.FindByUsername(name);
      if found.None? {
        return Thrown(Failure(Checked, UserNotFoundDot));
      }
      assert Names(decode, token, db.users, found.value);
      r := Ok(found.value);
    }

    /**
     * The loop of `getProfile`: the like counts of the user's posts added up
     * in an `int`, which wraps as it goes.
     */
    method LikesReceived(u: Id) returns (total: int)
      ensures total == PostListing.IntValue(|Surviving(db.postLikes, Authored(db.posts, u))|)
    {
      var own := Authored(db.posts, u);
      var left := own;
      total := 0;
      while left != {}
        invariant left <= own
        invariant total == PostListing.IntValue(|Surviving(db.postLikes, own - left)|)
        decreases |left|
      {
        var p :| p in left;
        LikesOnAdd(db.postLikes, own - left, p);
        assert own - (left - {p}) == (own - left) + {p};
        IntValueAdd(|Surviving(db.postLikes, own - left)|, db.LikeCount(p));
        total := PostListing.IntValue(total + db.LikeCount(p));
        left := left - {p};
      }
      assert own - left == own;
    }

    /** `getProfile`: the user's fields, how many posts they wrote and how many likes those posts got. */
    method GetProfile(token: Option<string>) returns (r: Result<Profile>)
      ensures token.None? || token.value == [] ==> r == Thrown(Failure(Checked, NoToken))
      ensures token.Some? && token.value != [] && ExtractUserId(decode, token).Some? ==>
        (r.Ok? <==> exists id :: Names(decode, token, db.users, id))
      ensures r.Ok? ==>
        && Names(decode, token, db.users, r.value.id)
        && r.value == ProfileOf(r.value.id, db.users[r.value.id], |Authored(db.posts, r.value.id)|,
                                PostListing.IntValue(|Surviving(db.postLikes, Authored(db.posts, r.value.id))|))
    {
      var u := FindProfileUser(token);
      if u.Thrown? {
        return Thrown(u.failure);
      }
      var likes := LikesReceived(u.value);
      r := Ok(ProfileOf(u.value, db.users[u.value], |Authored(db.posts, u.value)|, likes));
    }

    /**
     * `updateProfile`: each given, non-empty field replaces the stored one; a
     * new password needs the current one, which must match the stored hash.
     * A username or e-mail another user holds breaks its unique constraint.
     */
    method UpdateProfile(token: Option<string>, req: ProfileRequest, encoder: Encoder, now: int)
      returns (r: Result<Profile>)
      modifies db`users
      ensures r.Thrown? ==> db.users == old(db.users)
      ensures token.None? || token.value == [] ==> r == Thrown(Failure(Checked, NoToken))
      ensures r.Ok? ==>
        var id := r.value.id;
        && Names(decode, token, old(db.users), id)
        && var user := old(db.users)[id];
        && PasswordGuardPasses(req, encoder, user)
        && db.users == old(db.users)[id := Applied(user, req, NewHash(req, encoder, user), now)]
        && r.value == ProfileOf(id, db.users[id], |Authored(db.posts, id)|,
                                PostListing.IntValue(|Surviving(db.postLikes, Authored(db.posts, id))|))
      ensures token.Some? && token.value != [] && old(db.UniqueUserKeys()) ==>
        forall id | Names(decode, token, old(db.users), id) ::
          var out := ProfileUpdate(old(db.users), id, req, encoder, now);
          && (out.Thrown? ==> r == Thrown(out.failure))
          && (out.Ok? ==> r.Ok? && r.value.id == id && db.users == old(db.users)[id := out.value])
      ensures old(db.UniqueUserKeys()) ==> db.UniqueUserKeys()
      ensures old(db.Consistent()) ==> db.Consistent()
    {
      var u := FindProfileUser(token);
      if u.Thrown? {
        return Thrown(u.failure);
      }
      var id := u.value;
      if db.UniqueUserKeys() {
        forall other | Names(decode, token, db.users, other) ensures other == id {
          NamesUnique(decode, token, db.users, other, id);
        }
      }
      var out := ProfileUpdate(db.users, id, req, encoder, now);
      if out.Thrown? {
        return Thrown(out.failure);
      }
      var updated := out.value;
      db.users := db.users[id := updated];
      r := Ok(ProfileOf(id, updated, |Authored(db.posts, id)|,
                        PostListing.IntValue(|Surviving(db.postLikes, Authored(db.posts, id))|)));
    }

    /**
     * `uploadProfileImage`: the user must exist and the content type must
     * start with "image/" (a missing one fails on the check itself). The
     * host's secure URL, even a missing one, becomes the profile image.
     */
    method UploadProfileImage(userId: Id, contentType: Option<string>, uuid: string, host: UploadRequest -> Upload)
      returns (r: Result<Option<string>>)
      modifies db`users
      ensures userId !in old(db.users) ==> r == Thrown(Failure(ResourceNotFound, UserNotFoundNamed + NatToString(userId)))
      ensures userId in old(db.users) && contentType.None? ==> r.Thrown? && r.failure.kind == NullPointer
      ensures userId in old(db.users) && contentType.Some? && !StartsWith(contentType.value, "image/") ==>
        r == Thrown(Failure(IllegalArgument, ImagesOnly))
      ensures userId in old(db.users) && contentType.Some? && StartsWith(contentType.value, "image/") ==>
        var up := host(UploadRequest("profile_images", "profile_" + NatToString(userId) + "_" + uuid, false, "image"));
        && (up.UploadFailed? ==> r == Thrown(Failure(IO, ImageUploadFailed + up.message)))
        && (up.Uploaded? ==>
              r == Ok(up.secureUrl) && db.users == old(db.users)[userId := old(db.users)[userId].(profileImgUrl := up.secureUrl)])
      ensures r.Thrown? ==> db.users == old(db.users)
      ensures old(db.UniqueUserKeys()) ==> db.UniqueUserKeys()
      ensures old(db.Consistent()) ==> db.Consistent()
    {
      if userId !in db.users {
        return Thrown(Failure(ResourceNotFound, UserNotFoundNamed + NatToString(userId)));
      }
      if contentType.None? {
        return Thrown(Failure(NullPointer, ""));
      }
      if !StartsWith(contentType.value, "image/") {
        return Thrown(Failure(IllegalArgument, ImagesOnly));
      }
      var up := host(UploadRequest("profile_images", "profile_" + NatToString(userId) + "_" + uuid, false, "image"));
      if up.UploadFailed? {
        return Thrown(Failure(IO, ImageUploadFailed + up.message));
      }
      db.users := db.users[userId := db.users[userId].(profileImgUrl := up.secureUrl)];
      r := Ok(up.secureUrl);
    }
  }
}

=== FILE: view_model.dfy ===
/**
 * The post record the profile and trend pages render, the loosely typed DTO
 * they receive, the mapper between the two, and the local like toggle both
 * pages apply. Every DTO field the mapper defaults is optional here.
 */
module ViewModel {
  import opened Wrappers
  import opened Text
  import opened Lists

  datatype AuthorDto = AuthorDto(
    id: Option<nat>,
    username: Option<string>,
    profileImgUrl: Option<string>,
    profileImgURL: Option<string>)

  datatype PostDto = PostDto(
    id: nat,
    title: string,
    content: string,
    coverImageUrl: Option<string>,
    coverImageURL: Option<string>,
    author: Option<AuthorDto>,
    categoryName: Option<string>,
    tagNames: Option<seq<string>>,
    createdAt: string,
    updatedAt: string,
    likeCount: Option<int>,
    commentCount: Option<int>,
    viewsCount: Option<int>,
    likedByCurrentUser: Option<bool>)

  datatype Author = Author(id: string, username: string, profileImgUrl: Option<string>)
  datatype Category = Category(id: int, name: Option<string>)
  datatype Tag = Tag(id: nat, name: string)

  datatype Post = Post(
    id: string,
    title: string,
    content: string,
    coverImageUrl: Option<string>,
    author: Author,
    category: Category,
    tags: seq<Tag>,
    createdAt: string,
    updatedAt: string,
    likeCount: int,
    commentCount: int,
    viewsCount: int,
    isLiked: bool)

  /** The i-th name becomes the tag with id i. */
  function IndexTags(names: seq<string>): (r: seq<Tag>)
    ensures |r| == |names|
    ensures forall i :: 0 <= i < |names| ==> r[i] == Tag(i, names[i])
  {
    seq(|names|, i requires 0 <= i < |names| => Tag(i, names[i]))
  }

  /** The author id as `String(author?.id ?? "")` renders it. */
  function AuthorIdText(author: Option<AuthorDto>): string
  {
    if author.Some? && author.value.id.Some? then NatToString(author.value.id.value) else ""
  }

  /** The page-level mapper from a post DTO to the rendered post. */
  function MapDtoToPost(p: PostDto): (r: Post)
    ensures ToNumber(r.id) == Num(p.id)
    ensures r.title == p.title && r.content == p.content
    ensures Truthy(p.coverImageUrl) ==> r.coverImageUrl == p.coverImageUrl
    ensures !Truthy(p.coverImageUrl) && Truthy(p.coverImageURL) ==> r.coverImageUrl == p.coverImageURL
    ensures !Truthy(p.coverImageUrl) && !Truthy(p.coverImageURL) ==> r.coverImageUrl.None?
    ensures p.author.None? ==> r.author == Author("", "", None)
    ensures p.author.Some? ==> r.author.username == p.author.value.username.GetOr("")
    ensures r.author.id == AuthorIdText(p.author)
    ensures p.author.Some? && Truthy(p.author.value.profileImgUrl) ==> r.author.profileImgUrl == p.author.value.profileImgUrl
    ensures p.author.Some? && !Truthy(p.author.value.profileImgUrl) && Truthy(p.author.value.profileImgURL)
      ==> r.author.profileImgUrl == p.author.value.profileImgURL
    ensures p.author.Some? && !Truthy(p.author.value.profileImgUrl) && !Truthy(p.author.value.profileImgURL)
      ==> r.author.profileImgUrl.None?
    ensures r.createdAt == p.createdAt && r.updatedAt == p.updatedAt
    ensures r.category.id == 0 && r.category.name == p.categoryName
    ensures p.tagNames.None? ==> r.tags == []
    ensures p.tagNames.Some? ==> r.tags == IndexTags(p.tagNames.value)
    ensures p.likeCount.None? ==> r.likeCount == 0
    ensures p.likeCount.Some? ==> r.likeCount == p.likeCount.value
    ensures p.commentCount.None? ==> r.commentCount == 0
    ensures p.commentCount.Some? ==> r.commentCount == p.commentCount.value
    ensures p.viewsCount.None? ==> r.viewsCount == 0
    ensures p.viewsCount.Some? ==> r.viewsCount == p.viewsCount.value
    ensures r.isLiked <==> p.likedByCurrentUser == Some(true)
  {
    ToNumberOfNatToString(p.id);
    var avatar :=
      if p.author.Some? then OrElse(OrElse(p.author.value.profileImgUrl, p.author.value.profileImgURL), None)
      else None;
    Post(
      NatToString(p.id),
      p.title,
      p.content,
      OrElse(OrElse(p.coverImageUrl, p.coverImageURL), None),
      Author(AuthorIdText(p.author),
             if p.author.Some? then p.author.value.username.GetOr("") else "",
             avatar),
      Category(0, p.categoryName),
      IndexTags(p.tagNames.GetOr([])),
      p.createdAt,
      p.updatedAt,
      p.likeCount.GetOr(0),
      p.commentCount.GetOr(0),
      p.viewsCount.GetOr(0),
      p.likedByCurrentUser.GetOr(false))
  }

  /** The local like toggle: flip the flag and move the counter by one. */
  function ToggledLike(p: Post): (r: Post)
    ensures r.isLiked == !p.isLiked
    ensures r.likeCount == if p.isLiked then p.likeCount - 1 else p.likeCount + 1
    ensures r.(isLiked := p.isLiked, likeCount := p.likeCount) == p
  {
    p.(isLiked := !p.isLiked, likeCount := if p.isLiked then p.likeCount - 1 else p.likeCount + 1)
  }

  /** Toggles every post whose id is `id`; the others are untouched. */
  function ToggleWhere(ps: seq<Post>, id: string): (r: seq<Post>)
    ensures |r| == |ps|
    ensures forall i :: 0 <= i < |ps| ==> r[i] == if ps[i].id == id then ToggledLike(ps[i]) else ps[i]
  {
    seq(|ps|, i requires 0 <= i < |ps| => if ps[i].id == id then ToggledLike(ps[i]) else ps[i])
  }

  /** Toggling the same id twice gives back the list. */
  lemma ToggleWhereTwice(ps: seq<Post>, id: string)
    ensures ToggleWhere(ToggleWhere(ps, id), id) == ps
  {
    var once := ToggleWhere(ps, id);
    var twice := ToggleWhere(once, id);
    forall i | 0 <= i < |ps| ensures twice[i] == ps[i] {
      if ps[i].id == id {
        assert ToggledLike(ToggledLike(ps[i])) == ps[i];
      }
    }
  }

  /** `ps.filter(p => p.id !== id)`: the posts with another id, in order. */
  function RemoveId(ps: seq<Post>, id: string): (r: seq<Post>)
    ensures IsFilterOf(r, ps, (p: Post) => p.id != id)
  {
    if ps == [] then []
    else
      var rest := RemoveId(ps[1..], id);
      FilterCons(ps, rest, (p: Post) => p.id != id);
      if ps[0].id == id then rest else [ps[0]] + rest
  }

  predicate HasId(ps: seq<Post>, id: string)
  {
    exists i :: 0 <= i < |ps| && ps[i].id == id
  }
}

=== FILE: view_tracking.dfy ===
/**
 * The per-post view-tracking hook. One instance watches the card of one post:
 * the first time the card becomes visible the post id is queued, a 500 ms
 * timer is (re)armed, and when the timer fires, or the card is torn down, the
 * queued ids are sent in one request. Visibility notifications, timer expiry
 * and teardown are explicit calls; the token is the one the callback closed over.
 */
module ViewTracking {
  import opened Wrappers
  import opened Text

  /** Identity of a DOM element. */
  type Element = nat

  const DebounceMs := 500

  /** Some entry of an intersection notification reports the element as visible. */
  predicate AnyIntersecting(entries: seq<bool>)
  {
    exists i :: 0 <= i < |entries| && entries[i]
  }

  /** One more entry is visible-so-far exactly when it or an earlier one is. */
  lemma IntersectingPrefix(entries: seq<bool>, i: nat)
    requires i < |entries|
    ensures AnyIntersecting(entries[..i + 1]) <==> AnyIntersecting(entries[..i]) || entries[i]
  {
    assert entries[..i + 1] == entries[..i] + [entries[i]];
  }

  class PostViewTracker {
    const postId: string
    var hasBeenViewed: bool
    var pending: set<string>
    /** A debounce timer is scheduled and has not fired or been cancelled. */
    var timerPending: bool
    /** How many timers were scheduled over the instance's life. */
    var timersArmed: nat
    var hasObserver: bool
    var element: Option<Element>
    /** The elements this instance's observers currently watch. */
    var observed: set<Element>
    /** Bodies of the view requests sent, oldest first. */
    var sent: seq<seq<JsNumber>>
    /** How many times the id was added to the pending set. */
    ghost var additions: nat

    ghost predicate Valid()
      reads this
    {
      && pending <= {postId}
      && additions <= 1
      && (additions == 0 <==> !hasBeenViewed)
      && |sent| + |pending| == additions
      && (forall body :: body in sent ==> body == [ToNumber(postId)])
      && observed <= (if element.Some? then {element.value} else {})
      && (!hasObserver ==> observed == {})
    }

    constructor (id: string)
      ensures Valid() && postId == id
      ensures !hasBeenViewed && pending == {} && !timerPending && timersArmed == 0
      ensures !hasObserver && element.None? && observed == {} && sent == []
    {
      postId := id;
      hasBeenViewed := false;
      pending := {};
      timerPending := false;
      timersArmed := 0;
      hasObserver := false;
      element := None;
      observed := {};
      sent := [];
      additions := 0;
    }

    /** Sends every pending id, as a number, in one request and empties the set first. */
    method SendPendingViews(token: Option<string>)
      requires Valid()
      modifies this`pending, this`sent
      ensures Valid()
      ensures old(pending) == {} || !Truthy(token) ==> pending == old(pending) && sent == old(sent)
      ensures old(pending) != {} && Truthy(token) ==> pending == {} && sent == old(sent) + [[ToNumber(postId)]]
    {
      if |pending| == 0 || !Truthy(token) {
        return;
      }
      assert pending == {postId};
      var postIds := [ToNumber(postId)];
      pending := {};
      sent := sent + [postIds];
    }

    /** The observer callback, run over the entries of one notification in order. */
    method HandleIntersection(entries: seq<bool>)
      requires Valid()
      modifies this`hasBeenViewed, this`pending, this`timerPending, this`timersArmed, this`additions
      ensures Valid()
      ensures old(hasBeenViewed) || !AnyIntersecting(entries) ==>
        hasBeenViewed == old(hasBeenViewed) && pending == old(pending)
        && timerPending == old(timerPending) && timersArmed == old(timersArmed)
      ensures !old(hasBeenViewed) && AnyIntersecting(entries) ==>
        hasBeenViewed && pending == old(pending) + {postId} && timerPending && timersArmed == old(timersArmed) + 1
    {
      var i := 0;
      while i < |entries|
        invariant 0 <= i <= |entries|
        invariant Valid()
        invariant old(hasBeenViewed) || !AnyIntersecting(entries[..i]) ==>
          hasBeenViewed == old(hasBeenViewed) && pending == old(pending)
          && timerPending == old(timerPending) && timersArmed == old(timersArmed)
        invariant !old(hasBeenViewed) && AnyIntersecting(entries[..i]) ==>
          hasBeenViewed && pending == old(pending) + {postId} && timerPending && timersArmed == old(timersArmed) + 1
      {
        if entries[i] && !hasBeenViewed {
          hasBeenViewed := true;
          pending := pending + {postId};
          additions := additions + 1;
          // Any scheduled timer is cancelled and exactly one new one is armed.
          timerPending := true;
          timersArmed := timersArmed + 1;
        }
        IntersectingPrefix(entries, i);
        i := i + 1;
      }
      assert entries[..i] == entries;
    }

    /** The debounce timer fires and flushes. */
    method TimerFires(token: Option<string>)
      requires Valid() && timerPending
      modifies this`timerPending, this`pending, this`sent
      ensures Valid() && !timerPending
      ensures old(pending) == {} || !Truthy(token) ==> pending == old(pending) && sent == old(sent)
      ensures old(pending) != {} && Truthy(token) ==> pending == {} && sent == old(sent) + [[ToNumber(postId)]]
    {
      timerPending := false;
      SendPendingViews(token);
    }

    /** The ref callback: React hands over the mounted element, or `null` on unmount. */
    method SetRef(newElement: Option<Element>, token: Option<string>)
      requires Valid()
      modifies this`hasObserver, this`element, this`observed
      ensures Valid() && element == newElement
      ensures newElement.Some? && Truthy(token) ==> hasObserver && observed == {newElement.value}
      ensures !(newElement.Some? && Truthy(token)) ==> observed == {} && hasObserver == old(hasObserver)
    {
      if hasObserver && element.Some? {
        observed := observed - {element.value};
      }
      element := newElement;
      if newElement.Some? && Truthy(token) {
        hasObserver := true;
        observed := observed + {newElement.value};
      }
    }

    /** The effect cleanup: stop observing, cancel the timer, flush what is pending. */
    method Teardown(token: Option<string>)
      requires Valid()
      modifies this`observed, this`timerPending, this`pending, this`sent
      ensures Valid() && observed == {} && !timerPending
      ensures old(pending) == {} || !Truthy(token) ==> pending == old(pending) && sent == old(sent)
      ensures old(pending) != {} && Truthy(token) ==> pending == {} && sent == old(sent) + [[ToNumber(postId)]]
    {
      if hasObserver && element.Some? {
        observed := observed - {element.value};
      }
      timerPending := false;
      if |pending| > 0 {
        SendPendingViews(token);
      }
    }
  }

  /** Whatever the events, an instance sends at most one request, carrying its own id. */
  lemma AtMostOneRequest(t: PostViewTracker)
    requires t.Valid()
    ensures |t.sent| <= 1
    ensures forall body :: body in t.sent ==> body == [ToNumber(t.postId)]
  {
  }

  /** Sends in the usual case: a numeric post id turns into its number. */
  lemma SentIdIsNumeric(n: nat)
    ensures [ToNumber(NatToString(n))] == [Num(n)]
  {
    ToNumberOfNatToString(n);
  }
}

=== FILE: wrappers.dfy ===
/** Optional values: a JavaScript `null`/`undefined` or a Java `null` is `None`. */
module Wrappers {
  datatype Option<T> = None | Some(value: T) {
    /** `opt ?? d` in JavaScript, `Optional.orElse(d)` in Java. */
    function GetOr(d: T): T { if Some? then value else d }
  }
}
